=== FILE: README.md ===
# Archetype entity-component store

A Dafny model of the storage core of Voldakk/ECS, an archetype-based
entity-component store written in C++. An entity is a handle (id, index);
its components live in an *archetype*, the store of every entity with
exactly the same component list. An archetype keeps its entities in
fixed-size *chunks*, column by column, with an active-chunk cursor. The
*engine* maps each entity to its location through a flat table with a LIFO
free-list. It keeps one archetype per distinct component list and moves
entities between archetypes when components are added or removed. An
*entity iterator* puts one global index over the chunks of a set of
archetypes. A *command queue* records engine calls and their payload bytes
and replays them later, in order.

The repository holds three generations of the library (`src/ecs`,
`source/ecs`, `include/ecs`). The model takes the method bodies from
`src/ecs/*.cpp` and the later interface additions from the other two
trees: filters, Try accessors, create-with-data, and the range-based
iterator.

Files, one module each:

- `core.dfy` (`Core`): byte items, `SizeOf`, `PostAdd`, `CopyInto`,
  `CombineBytes`, and splitting a payload back into items.
- `component.dfy` (`Components`): `ComponentList` as a strictly increasing
  sequence of type ids, `ComponentFilter`, the `ComponentMap` registry,
  `Entity` and its byte encoding.
- `layout.dfy` (`Layout`): `ArchetypeInfo`, column sizes, starts and
  capacity, and `GetComponentIndex`.
- `chunk.dfy` (`Chunks`): the `Chunk` class over a two-dimensional array of
  values, plus rows, structural row transfer and the column iterator.
- `store.dfy` (`Stores`): the value model of an archetype's chunk vector.
- `archetype.dfy` (`Archetypes`): the `Archetype` class, proved against
  `Stores`.
- `engine_model.dfy` (`EngineModel`) and `engine_ops.dfy` (`EngineOps`):
  the engine as a value (location table, free-list, counters, archetype
  map) with its operations and their invariant `Consistent`.
- `engine.dfy` (`Engines`): the `Engine` class, proved against the value
  model.
- `entity_iterator.dfy` (`EntityIterators`): the range-based
  `EntityIterator`, its bidirectional `Iterator` and `Split`.
- `entity_walk.dfy` (`EntityWalk`): the older archetype-walking iterator.
- `command_queue.dfy` (`CommandQueues`): the `CommandQueue` class, replay of
  its commands, and the proof that replay does what the calls would have
  done directly.
- `wrappers.dfy` (`Wrappers`): `Option`.

Component values are byte strings whose length is the registered size of
their type. The chunk keeps one abstract value per column and slot, and the
byte address the source computes for a slot is kept as arithmetic in the
layout. `std::hash<size_t>` of a type id is a function parameter. The
type registry, a pair of static members in the source, is passed as a
value `table`.

Where the source disagrees with its own headers or comments, the model
follows the code:

- `ComponentFilter::Remove<Not<U>>` calls an undeclared `RemoveNot`
  (source/ecs/Component.hpp:301). It is modelled as `RemoveExcluded`,
  the counterpart of `Add`.
- `AddEntityAddComponent` is defined in src/ecs/Archetype.cpp:64 but not
  declared in src/ecs/Archetype.hpp. It is modelled as declared in
  source/ecs/Archetype.hpp.
- `m_Data` is a vector in src/ecs/ArchetypeChunk.hpp:84 but is malloc'd
  in src/ecs/ArchetypeChunk.cpp:48. It is modelled as a plain buffer.

## Model

| member | source | states |
|---|---|---|
| Core.PostAdd | source/ecs/Core.hpp:51-56 | returns the old value, and the new value exceeds it by exactly diff |
| Core.MemMove | source/ecs/Core.hpp:60 | the buffer afterwards is the bytes before `at`, the item, then the bytes after the item's window, all unchanged |
| Core.CopyInto | source/ecs/Core.hpp:58-61 | the items land back to back in [index, next), next = index + SizeOf(items), and every byte outside that window keeps its value |
| Core.CombineBytes | source/ecs/Core.hpp:63-69 | the result has exactly SizeOf(items) bytes, equals the items concatenated in argument order, and splits back into the items at their sizes |
| Core.SplitConcat | source/ecs/Core.hpp:63-69 | cutting a concatenation at its items' sizes gives back the items (the read-back of a CombineBytes buffer) |
| Core.ConcatSplit | source/ecs/Core.hpp:63-69 | concatenating the pieces of a split gives back the payload |
| Core.SizeOf | source/ecs/Core.hpp:49 | SizeOf<T...>: the sum of the item sizes; Core.CopyInto and Core.CombineBytes state that it is the length written |
| Core.Split | include/ecs/ArchetypeChunk.hpp:57 | cuts a payload into pieces of the given column sizes, one per size; Core.SplitConcat and Core.ConcatSplit make it the inverse of concatenation |
| Components.ComponentList.Count | source/ecs/Component.hpp:155 | Count() is the number of distinct types in the list |
| Components.ComponentList.Add | source/ecs/Component.hpp:112-117 | requires the type to be absent; afterwards it is present, the type set gained exactly that type, and Count rose by one |
| Components.ComponentList.Remove | source/ecs/Component.hpp:120-125 | requires the type to be present; afterwards it is absent, the type set lost exactly that type, and Count fell by one |
| Components.ComponentList.HasAll | source/ecs/Component.hpp:133-139 | the early-return loop of Contains(list) is true iff every type of the sequence is in this list |
| Components.ComponentList.Contains | source/ecs/Component.hpp:131-141 | Contains(other) holds iff other's type set is a subset of this list's; the empty list is contained in every list |
| Components.ComponentList.HasAnyOf | source/ecs/Component.hpp:147-151 | the early-return loop of ContainsAny is true iff some type of the sequence is in this list |
| Components.ComponentList.ContainsAny | source/ecs/Component.hpp:145-153 | ContainsAny(other) holds iff the two type sets intersect |
| Components.EmptyList | source/ecs/Component.hpp:101 | the default list has no types and Count 0 |
| Components.Create | source/ecs/Component.hpp:105-110 | Create<T...>() holds exactly the given types |
| Components.EqualIffSameTypes | source/ecs/Component.hpp:128 | two lists are equal iff they hold the same type set (both directions) |
| Components.CreateOrderIndependent | source/ecs/Component.hpp:105-110 | lists created from the same types in any order are equal |
| Components.HashDependsOnTypesOnly | src/ecs/Component.hpp:134-146 | lists with the same types hash equally under value*3 + h(id) folded in ascending order; every hash is below 2^64 |
| Components.HashFoldBound | src/ecs/Component.hpp:139-144 | the size_t fold never leaves [0, 2^64) |
| Components.CombinedHashDependsOnTypesOnly | source/ecs/Component.hpp:364-377 | lists with the same types get the same boost-style combined hash |
| Components.ComponentList.Hash | src/ecs/Component.hpp:134-146 | the older hash: value * 3 + h(type) over the ascending types, wrapping at 2^64; Components.HashDependsOnTypesOnly states it depends only on the type set and stays below 2^64 |
| Components.ComponentList.CombinedHash | source/ecs/Component.hpp:364-377 | the boost-style combine over the ascending types; Components.CombinedHashDependsOnTypesOnly states it depends only on the type set |
| Components.ComponentFilter.Add | source/ecs/Component.hpp:259-273 | Add routes optional<U> to optional, Not<U> to excluded and anything else to compulsory; the target list gains the type and the other two are unchanged |
| Components.ComponentFilter.Remove | source/ecs/Component.hpp:293-307 | Remove takes the type out of the list Add would have put it in; the other two lists are unchanged |
| Components.ComponentFilter.NoneExcludedIn | source/ecs/Component.hpp:317-323 | the excluded-type loop is true iff the list holds none of the given types |
| Components.ComponentFilter.Contains | source/ecs/Component.hpp:315-325 | as written: true iff the list holds no excluded type and the list is a subset of the compulsory types |
| Components.ComponentFilter.Matches | source/ecs/Component.hpp:315-325 | corrected: true iff the list holds no excluded type and holds every compulsory type |
| Components.ComponentFilter.HasType | source/ecs/Component.hpp:327 | Contains(type) consults only the compulsory types |
| Components.ComponentFilter.Count | source/ecs/Component.hpp:329 | Count() is the number of compulsory types |
| Components.FilterEqualIff | source/ecs/Component.hpp:309-312 | two filters are equal iff their compulsory, optional and excluded type sets are pairwise equal |
| Components.FilterHashRespectsEquality | source/ecs/Component.hpp:379-393 | filters with the same three type sets hash equally |
| Components.FilterHash | source/ecs/Component.hpp:379-393 | combines the hashes of the compulsory, optional and excluded lists in that order; Components.FilterHashRespectsEquality states that equal filters hash equally |
| Components.FilterContainsIsReversed | source/ecs/Component.hpp:315-325 | for the filter {0} and the list {0, 1}, Contains rejects the list and Matches accepts it; for the empty list it is the other way round |
| Components.EntityEqualityIsById | source/ecs/Component.hpp:346-347 | Entity == compares ids only: it ignores the index and is symmetric and transitive |
| Components.EncodeEntity | source/ecs/Core.hpp:40-44 | ToBytes of an Entity gives sizeof(Entity) = 16 bytes, id first, each a little-endian size_t |
| Components.EntityBytesRoundTrip | src/ecs/CommandQueue.hpp:80-84 | reading an Entity back from its bytes gives the same Entity when both fields fit in size_t |
| Components.DecodeEntity | src/ecs/CommandQueue.hpp:80-84 | FromBytes<Entity>: the id from the first 8 bytes and the index from the next 8; Components.EntityBytesRoundTrip makes it the inverse of EncodeEntity |
| Components.ComponentMap.constructor | source/ecs/Component.hpp:65-66 | the registry starts with counter 0 and no entries |
| Components.ComponentMap.Add | source/ecs/Component.hpp:75-93 | the new type gets the current counter value and the counter then rises by one. The entry at that id records the name, the size and the default snapshot; earlier entries are unchanged |
| Components.ComponentMap.CreateComponent | source/ecs/Component.hpp:68-71 | exactly size(type) bytes of the type's default snapshot are copied to the destination; every other byte keeps its value |
| Layout.ColumnSizes | src/ecs/ArchetypeChunk.cpp:11-24 | one size per column: sizeof(Entity) first, then the registered size of each listed type |
| Layout.ColumnStartNext | src/ecs/ArchetypeChunk.cpp:28-33 | each column starts where the previous column's size times entitiesPerChunk ends |
| Layout.LayoutOf | src/ecs/ArchetypeChunk.cpp:9-34 | the layout has one column more than the list, keeps chunkSize, and its entitySize is at least sizeof(Entity) |
| Layout.NewArchetypeInfo | src/ecs/ArchetypeChunk.cpp:9-34 | the constructor's two loops build exactly LayoutOf(list): the columns, entitySize, entitiesPerChunk = chunkSize / entitySize, and the starts as a running offset |
| Layout.LayoutCapacity | src/ecs/ArchetypeChunk.cpp:26 | entitiesPerChunk is the largest number of whole entities that fit in chunkSize bytes |
| Layout.LayoutColumn | src/ecs/ArchetypeChunk.cpp:13-33 | column c has the c-th type and size, and starts at the prefix sum of the earlier sizes times entitiesPerChunk |
| Layout.LayoutColumnEnd | src/ecs/ArchetypeChunk.cpp:28-33 | column c ends at the sum of the sizes of columns 0..c times entitiesPerChunk |
| Layout.LayoutSlotInColumn | src/ecs/ArchetypeChunk.cpp:95-100 | the address start + i * size of a slot below entitiesPerChunk lies inside its column |
| Layout.LayoutColumnsDisjoint | src/ecs/ArchetypeChunk.hpp:10-22 | columns follow one another without overlap, and every column ends within chunkSize |
| Layout.FindColumn | src/ecs/ArchetypeChunk.cpp:38 | find_if from position k returns the first column of the type, or none when no later column has it |
| Layout.ComponentIndex | include/ecs/ArchetypeChunk.hpp:46 | the optional GetComponentIndex gives the first column of the type, and none iff no column has it |
| Layout.GetComponentIndex | src/ecs/ArchetypeChunk.cpp:36-41 | requires a column of the type; returns the position of the first such column |
| Layout.ComponentIndexOfDistinct | src/ecs/ArchetypeChunk.cpp:36-41 | with distinct column types, the lookup finds a type iff it is a column type, and returns that very column |
| Layout.LayoutColumnTypes | src/ecs/ArchetypeChunk.cpp:11-24 | the column types are Entity then the list in ascending order, all distinct |
| Chunks.DefaultRow | src/ecs/ArchetypeChunk.cpp:60-68 | the row CreateEntity(e) writes holds e in column 0 and each column's registered default elsewhere, and fits the layout |
| Chunks.PayloadSizes | include/ecs/ArchetypeChunk.hpp:57 | the sizes of the non-Entity columns in column order |
| Chunks.DataRow | include/ecs/ArchetypeChunk.hpp:57 | the row CreateEntity(e, data) writes fits the layout and holds e in column 0 |
| Chunks.DataRowRoundTrip | include/ecs/ArchetypeChunk.hpp:57 | values serialised back to back in column order are read back unchanged, column by column |
| Chunks.ValueOfType | include/ecs/ArchetypeChunk.hpp:65-80 | a row's value for a type is present iff the type is a column of the layout |
| Chunks.TransferRow | include/ecs/ArchetypeChunk.hpp:82-83 | the moved row has one value per destination column |
| Chunks.TransferRowByType | include/ecs/ArchetypeChunk.hpp:82-83 | after a move, for every type the row holds the source's value, the fill for the one type the source lacks, and nothing for a type the destination lacks |
| Chunks.TransferColumnFits | include/ecs/ArchetypeChunk.hpp:82-83 | column c of the moved row has the size of destination column c |
| Chunks.TransferRowFits | include/ecs/ArchetypeChunk.hpp:82-83 | the moved row fits the destination layout |
| Chunks.ColumnIterator.Next | src/ecs/ArchetypeChunk.hpp:103-107 | operator++ moves to the next slot of the same column; NextAddress gives the address one element further on |
| Chunks.NextAddress | src/ecs/ArchetypeChunk.hpp:103-107 | m_Ptr++: the iterator's address rises by exactly the size of its column's type |
| Chunks.IteratorEqualityIsSlotEquality | src/ecs/ArchetypeChunk.hpp:99 | in a column of non-zero size, two iterators have equal addresses iff they are at the same slot |
| Chunks.Chunk.constructor | src/ecs/ArchetypeChunk.cpp:45-52 | a new chunk has the given layout and no occupied slot |
| Chunks.Chunk.Count | src/ecs/ArchetypeChunk.hpp:66 | Count() is the number of occupied slots |
| Chunks.Chunk.Empty | src/ecs/ArchetypeChunk.hpp:67 | Empty() iff no slot is occupied |
| Chunks.Chunk.Full | src/ecs/ArchetypeChunk.hpp:68 | Full() iff the count equals entitiesPerChunk |
| Chunks.Chunk.WriteRow | src/ecs/ArchetypeChunk.cpp:61-67 | every column of slot i takes the row's value, and every other slot of every column is unchanged |
| Chunks.Chunk.Push | src/ecs/ArchetypeChunk.cpp:56-72 | appends one fitting row at slot count and returns that slot |
| Chunks.Chunk.CreateEntity | src/ecs/ArchetypeChunk.cpp:56-72 | requires a free slot; appends the default row of e at slot count, returns the old count, and keeps earlier slots |
| Chunks.Chunk.CreateEntityWithData | include/ecs/ArchetypeChunk.hpp:57 | requires a free slot; appends e with the payload cut into the columns in ascending-id order, and returns the old count |
| Chunks.Chunk.CopyEntity | src/ecs/ArchetypeChunk.cpp:74-81 | slot `into` takes every column of from's slot fromIndex; no count changes, and the source is unchanged when it is another chunk |
| Chunks.Chunk.GetEntity | src/ecs/ArchetypeChunk.cpp:83-87 | requires an occupied slot; returns the Entity stored in column 0 |
| Chunks.Chunk.RemoveLast | src/ecs/ArchetypeChunk.cpp:89-93 | requires count > 0 and only drops the last row |
| Chunks.Chunk.GetComponent | src/ecs/ArchetypeChunk.cpp:95-100 | requires index < count; returns the slot's value in that column, at address start + index * size |
| Chunks.Chunk.GetComponentOfType | src/ecs/ArchetypeChunk.cpp:102-107 | the by-type form reads the same slot at the same address, through GetComponentIndex |
| Chunks.Chunk.GetOptionalComponent | include/ecs/ArchetypeChunk.hpp:65-80 | absent iff the column index is absent; otherwise that column's slot |
| Chunks.Chunk.SetComponent | src/ecs/ArchetypeChunk.hpp:64 | a write through the returned reference changes exactly that slot of that column |
| Chunks.Chunk.AddEntityAddComponent | include/ecs/ArchetypeChunk.hpp:82 | appends the source row with the new type's column set to the data; the count rises by one and the source chunk is unchanged |
| Chunks.Chunk.AddEntityRemoveComponent | include/ecs/ArchetypeChunk.hpp:83 | appends the source row without the removed column; the count rises by one and the source chunk is unchanged |
| Chunks.Chunk.Transfer | include/ecs/ArchetypeChunk.hpp:82-83 | appends the moved row, each destination column copied from the source column of the same type, and leaves the source unchanged |
| Chunks.Chunk.Begin | src/ecs/ArchetypeChunk.hpp:70-74 | begin<T>() is the address where T's column starts (&m_Data[0] + start), slot 0 of the first column of T |
| Chunks.Chunk.End | src/ecs/ArchetypeChunk.hpp:75-79 | in a valid chunk, end<T>() is the column's start plus size * m_Count, the slot just past the last occupied row |
| Chunks.Chunk.WriteColumn | src/ecs/ArchetypeChunk.hpp:70-118 | writing through T's iterator from begin to end sets slot k of T's column to values[k]; every other column and the count are unchanged |
| Chunks.Advance | src/ecs/ArchetypeChunk.hpp:103-107 | k increments move the iterator k slots along its column |
| Chunks.BeginEndDistance | src/ecs/ArchetypeChunk.hpp:70-79 | in a valid chunk, begin<T>() advanced k times equals end<T>() iff k is the number of occupied rows, and for a column of non-zero size so do their addresses: the range holds exactly Count elements |
| Stores.PrefixLength | src/ecs/Archetype.cpp:103-117 | in a packed store, chunk c (c not past the active one) starts at archetype index c * entitiesPerChunk |
| Stores.FlattenLength | src/ecs/Archetype.hpp:23-25 | EntityCount = ActiveChunkIndex * entitiesPerChunk + the active chunk's count |
| Stores.Locate | src/ecs/Archetype.cpp:103-117 | the occupied slot i of chunk c is archetype index c * entitiesPerChunk + i, and holds that row |
| Stores.IndexToSlot | src/ecs/Archetype.cpp:103-117 | archetype index p below EntityCount is slot p % entitiesPerChunk of chunk p / entitiesPerChunk; that chunk is not past the active one and the slot is occupied |
| Stores.ReserveRoom | src/ecs/Archetype.cpp:19-26 | after the full-chunk step of CreateEntity the active chunk has a free slot |
| Stores.Reserve | src/ecs/Archetype.cpp:19-26 | the full-chunk step: advance to the next chunk, appending an empty one when none is left; Stores.ReserveSpec and Stores.ReserveRoom state what it keeps and that it leaves room |
| Stores.ReserveSpec | src/ecs/Archetype.cpp:19-26 | the full-chunk step (move to the next chunk, adding one when none is left) keeps every row and leaves the active chunk with room |
| Stores.PutSpec | src/ecs/ArchetypeChunk.cpp:56-72 | writing the row into the active chunk's next slot keeps the store packed and appends it at the end of archetype order |
| Stores.AppendSpec | src/ecs/Archetype.cpp:17-31 | CreateEntity keeps the active-chunk discipline, appends the row at the end of archetype order, and returns the slot (active, count), whose archetype index is the old EntityCount |
| Stores.Append | src/ecs/Archetype.cpp:17-31 | the archetype state after CreateEntity: the full-chunk step, then the row put in the active chunk; Stores.AppendSpec states it appends in archetype order |
| Stores.AppendSlots | src/ecs/Archetype.cpp:17-31 | slot by slot, CreateEntity keeps every occupied slot and its row and occupies exactly one more: the returned slot, which holds the new row |
| Stores.FlattenUpdate | src/ecs/Archetype.cpp:39 | overwriting slot i of chunk c changes exactly archetype index FlatIndex(c, i) |
| Stores.FlattenDropLast | src/ecs/Archetype.cpp:40 | RemoveLast on the active chunk drops exactly the last row in archetype order |
| Stores.DestroySpec | src/ecs/Archetype.cpp:33-49 | DestroyEntity is a swap-remove in archetype order: index c * entitiesPerChunk + i takes the last row, which is then dropped; the store stays packed |
| Stores.Destroy | src/ecs/Archetype.cpp:33-49 | the archetype state after DestroyEntity(c, i): the last row copied into (c, i), dropped from the active chunk, and the active index retreated when that chunk empties; Stores.DestroySpec and Stores.DestroyMultiset state what it means |
| Stores.DestroyRows | src/ecs/Archetype.cpp:39-40 | the copy and RemoveLast steps, in archetype order: the slot's index takes the last row, which is then dropped |
| Stores.DestroyPacked | src/ecs/Archetype.cpp:42-45 | stepping back past an emptied active chunk (never below chunk 0) keeps the active-chunk discipline |
| Stores.DestroyCount | src/ecs/Archetype.cpp:47 | DestroyEntity removes exactly one row |
| Stores.DestroySlots | src/ecs/Archetype.cpp:33-49 | slot by slot, DestroyEntity frees exactly the active chunk's last slot; the destroyed slot takes the last row unless it was that slot, and every other slot keeps its row |
| Stores.DestroyMultiset | src/ecs/Archetype.cpp:33-49 | after DestroyEntity(c, i) the archetype's rows are the old rows less exactly one copy of the row at (c, i) |
| ArchetypeWalk.FreshArchetypeNeverEnds | src/ecs/Archetype.hpp:62-95 | as written, on a fresh archetype (one empty chunk) begin() is not end() and points at an unoccupied slot, and no number of ++ reaches end() |
| ArchetypeWalk.Begin | src/ecs/Archetype.hpp:38 | begin() as written: chunk 0's column cursors, or end() with no chunk; ArchetypeWalk.FreshArchetypeNeverEnds shows it can start on an empty chunk |
| ArchetypeWalk.Next | src/ecs/Archetype.hpp:77-95 | ++ as written: the next slot, else the next chunk's begin whether or not it is empty, else end(); ArchetypeWalk.WalkAsWrittenWhenNoEmptyChunk states it is correct when no chunk is empty |
| ArchetypeWalk.NextOccupied | src/ecs/Archetype.hpp:77-95 | corrected iterator helper: the first chunk at or after c that holds an entity, or the chunk count when there is none |
| ArchetypeWalk.SkippingStep | src/ecs/Archetype.hpp:77-95 | one corrected ++ moves the cursor from archetype index p to p + 1, ending at end() after the last entity |
| ArchetypeWalk.SkippingBegin | src/ecs/Archetype.hpp:62-71 | corrected begin(): the first non-empty chunk from chunk 0, else end(); ArchetypeWalk.SkippingBeginIsFirst states it is index 0 or end() |
| ArchetypeWalk.SkippingNext | src/ecs/Archetype.hpp:77-95 | corrected ++: the next slot, else the next non-empty chunk, else end(); ArchetypeWalk.SkippingStep and ArchetypeWalk.SkippingWalk state it goes from index p to p + 1 |
| ArchetypeWalk.SkippingBeginIsFirst | src/ecs/Archetype.hpp:38-71 | the corrected begin() is the cursor at archetype index 0, or end() for an archetype with no entity |
| ArchetypeWalk.SkippingWalk | src/ecs/Archetype.hpp:38-95 | the corrected walk visits archetype indices 0, 1, 2, ... in order and equals end() after exactly EntityCount steps |
| ArchetypeWalk.WalkAsWrittenWhenNoEmptyChunk | src/ecs/Archetype.hpp:62-95 | when no allocated chunk is empty, the walk as written visits indices 0, 1, 2, ... and compares equal to end() after EntityCount steps |
| ArchetypeWalk.NextSkipsNothing | src/ecs/Archetype.hpp:77-95 | with no empty chunk, the ++ as written and the corrected ++ agree |
| Archetypes.Archetype.constructor | src/ecs/Archetype.cpp:5-9 | the archetype has the list and its layout, one empty chunk that is the active one, and EntityCount 0 |
| Archetypes.Archetype.EntityCount | src/ecs/Archetype.hpp:23 | the entity counter equals the number of rows in the chunks |
| Archetypes.Archetype.ChunkCount | src/ecs/Archetype.hpp:24 | the number of allocated chunks, never zero |
| Archetypes.Archetype.ActiveChunkIndex | src/ecs/Archetype.hpp:25 | the active chunk's position, and EntityCount = position * entitiesPerChunk + the active chunk's count |
| Archetypes.Archetype.AddChunk | src/ecs/Archetype.cpp:11-15 | a new empty chunk is appended and becomes the active one; earlier chunks keep their rows |
| Archetypes.Archetype.Advance | src/ecs/Archetype.cpp:19-26 | the full-chunk step: the store becomes Stores.Reserve of the old store, and the active chunk has a free slot |
| Archetypes.Archetype.Reserve | src/ecs/Archetype.cpp:19-27 | the full-chunk step plus the count increment that precedes the chunk's CreateEntity |
| Archetypes.Archetype.CreateEntity | src/ecs/Archetype.cpp:17-31 | the default row of e is appended in archetype order, at the returned (ActiveChunkIndex, slot), whose archetype index is the old EntityCount; EntityCount rises by one |
| Archetypes.Archetype.CreateEntityWithData | source/ecs/Archetype.hpp:20 | the same, with the row cut from the data in ascending type-id column order |
| Archetypes.Archetype.MoveLastInto | src/ecs/Archetype.cpp:37-39 | slot (chunk, indexInChunk) takes the active chunk's last row, and the Entity read through the reference taken at line 37 is that moved entity |
| Archetypes.Archetype.DropLast | src/ecs/Archetype.cpp:40 | the active chunk loses its last row |
| Archetypes.Archetype.Retreat | src/ecs/Archetype.cpp:42-47 | the active position steps back iff the active chunk became empty and is not the first; the count falls by one |
| Archetypes.Archetype.DestroyEntity | src/ecs/Archetype.cpp:33-49 | the store becomes the swap-remove of the slot, EntityCount falls by one, and the returned Entity is the one moved into the slot (the reference aliases the overwritten slot) |
| Archetypes.Archetype.GetEntity | src/ecs/Archetype.cpp:51-56 | the Entity stored in column 0 of an occupied slot |
| Archetypes.Archetype.GetComponent | src/ecs/Archetype.cpp:58-62 | for a chunk not past the active one, the slot's value in the column and its byte address start + indexInChunk * size |
| Archetypes.Archetype.GetComponentOfType | src/ecs/Archetype.cpp:97-101 | the same through the first column of the type |
| Archetypes.Archetype.TryGetComponent | source/ecs/Archetype.hpp:42-48 | absent iff the layout has no column of the type; otherwise that column's value in the slot |
| Archetypes.Archetype.RowAt | src/ecs/Archetype.cpp:103-117 | archetype index p < EntityCount is row p % entitiesPerChunk of chunk p / entitiesPerChunk, a chunk not past the active one |
| Archetypes.Archetype.GetComponentAt | src/ecs/Archetype.cpp:103-109 | GetComponent(column, index) reads the column of row p in archetype order, at the address of slot p % entitiesPerChunk |
| Archetypes.Archetype.GetComponentOfTypeAt | src/ecs/Archetype.cpp:111-117 | the same through the first column of the type |
| Archetypes.Archetype.AppendAdded | src/ecs/Archetype.cpp:67-77 | the destination half of AddEntityAddComponent: the moved row with the new type's value from the data is appended as CreateEntity would append it |
| Archetypes.Archetype.AppendRemoved | src/ecs/Archetype.cpp:83-93 | the destination half of AddEntityRemoveComponent: the moved row without the removed type's value is appended as CreateEntity would append it |
| Archetypes.Archetype.AddEntityAddComponent | src/ecs/Archetype.cpp:64-79 | the other archetype's row, with the new type's value taken from data, is appended at the returned slot, whose archetype index is the old EntityCount; EntityCount rises by one and the other archetype is unchanged |
| Archetypes.Archetype.AddEntityRemoveComponent | src/ecs/Archetype.cpp:81-95 | the other archetype's row without the removed type is appended at the returned slot, whose archetype index is the old EntityCount; EntityCount rises by one and the other archetype is unchanged |
| EngineModel.DestroyRowBooks | src/ecs/Engine.cpp:36-40 | the archetype's DestroyEntity and the re-pointing of the moved entity leave the free-list, the counters, the map and every archetype's list unchanged |
| EngineModel.DestroyKeepsArchetypes | src/ecs/Archetype.cpp:33-49 | destroying a slot keeps every archetype packed, with rows of its layout |
| EngineModel.DestroyKeepsOthers | src/ecs/Engine.cpp:36-40 | after the destroy and the fix-up of line 40, every other live entity keeps its archetype, id and row, the moved one included |
| EngineModel.DestroyKeepsSlots | src/ecs/Engine.cpp:37-40 | after the destroy, every occupied slot holds an entity whose location entry names that slot, and that entity is not the destroyed one |
| EngineModel.DestroyStep | src/ecs/Engine.cpp:34-40 | destroying a live entity's slot leaves a sound location directory of the other live entities, each with its row |
| EngineModel.AppendKeepsArchetypes | src/ecs/Archetype.cpp:17-31 | appending a row of the layout keeps every archetype packed, with rows of its layout |
| EngineModel.AttachKeepsOthers | src/ecs/Engine.cpp:22-27 | appending the new entity's row and writing its entry leaves every other live entity where it was, with its row |
| EngineModel.AttachKeepsSlots | src/ecs/Engine.cpp:22-27 | the new entry names the slot Archetype::CreateEntity returned, which holds the row; every occupied slot is named by its entity's entry |
| EngineModel.AttachStep | src/ecs/Engine.cpp:22-27 | appending the row and writing the entry adds exactly the new index to the directory and keeps every other entity |
| EngineModel.KeepsTrans | src/ecs/Engine.cpp:9-41 | "every listed entity keeps its archetype, id and row" composes across steps |
| EngineModel.EmptyEngine | src/ecs/Engine.cpp:5 | Engine(): both counters 0, no live entity, and no list has an archetype |
| EngineModel.EmptyEngineConsistent | src/ecs/Engine.cpp:5 | a new engine satisfies the engine invariant |
| EngineModel.GetArchetypeIndexSpec | src/ecs/Engine.cpp:43-49 | the lookup returns an archetype whose list is the given list, and none iff no archetype has that list |
| EngineModel.GetArchetypeIndex | src/ecs/Engine.cpp:43-49 | the map lookup of a list; EngineModel.GetArchetypeIndexSpec states it finds the archetype of that list, and none iff there is none |
| EngineModel.NewArchetype | src/ecs/Archetype.cpp:5-9 | a new archetype has one empty chunk, active index 0, and no entity |
| EngineModel.CreateArchetypeKeeps | src/ecs/Engine.cpp:70-75 | creating an archetype moves no entity |
| EngineModel.CreateArchetypeMap | src/ecs/Engine.cpp:72-73 | recording size() - 1 for a new list keeps the map one to one with the archetypes |
| EngineModel.CreateArchetypeOk | src/ecs/Engine.cpp:72 | the new archetype is sound for the registry |
| EngineModel.CreateArchetype | src/ecs/Engine.cpp:70-75 | appends a new archetype for the list and maps the list to its index; EngineModel.CreateArchetypeMap, CreateArchetypeOk and CreateArchetypeKeeps state what it keeps |
| EngineModel.GetOrCreateSpec | src/ecs/Engine.cpp:77-88 | the result is the archetype built for the list, with its layout. The engine is unchanged iff the list already had one; otherwise exactly one empty archetype is appended at the end. The invariant is kept |
| EngineModel.GetOrCreateFound | src/ecs/Engine.cpp:79-83 | a known list gives its recorded index and changes nothing |
| EngineModel.GetOrCreateNew | src/ecs/Engine.cpp:84-87 | a new list gives index size() (the created archetype), appends it, and leaves entries, free-list, counters and live set untouched |
| EngineModel.GetOrCreateArchetype | src/ecs/Engine.cpp:77-88 | corrected evaluation order: the recorded index, else the archetype created first and its index size() - 1 after the append; EngineModel.GetOrCreateSpec states its meaning |
| EngineModel.LeftToRightIndexIsStale | src/ecs/Engine.cpp:86 | as written, with m_Archetypes.size() - 1 read before CreateArchetype runs, the returned index is one below the created archetype's: on an empty engine the size_t subtraction wraps to 2^64 - 1, past every archetype, else it names an archetype with another list; the corrected index is 0, respectively one more |
| EngineModel.GetOrCreateLeftToRight | src/ecs/Engine.cpp:86 | as written under left-to-right evaluation: the index read before the append; EngineModel.LeftToRightIndexIsStale shows it names the wrong archetype |
| EngineModel.ValidHandleRow | src/ecs/Engine.cpp:34-35 | a handle passing the id check on a live index finds a row of its archetype's layout that holds exactly that handle |
| EngineModel.NextIndexFree | src/ecs/Engine.cpp:13-18 | the index CreateEntity takes (free-list top, else the table size) is not live |
| EngineModel.PopFreeLive | src/ecs/Engine.cpp:13-27 | taking that index makes exactly it live |
| EngineModel.PushFreeLive | src/ecs/Engine.cpp:38 | pushing a live index makes exactly it dead and puts it on top for the next CreateEntity |
| EngineModel.PlaceShape | src/ecs/Engine.cpp:13-27 | after placing, the new handle's entry names its row, every archetype stays sound, and every other live entity keeps its row |
| EngineModel.PlaceBooks | src/ecs/Engine.cpp:13-27 | placing takes one index off the free-list, adds exactly that index to the live set, raises both counters by one and keeps the map and lists |
| EngineModel.IdsKept | src/ecs/Engine.cpp:64-68 | ids stay below the id counter |
| EngineModel.PlaceSpec | src/ecs/Engine.cpp:13-29 | placing a row for the next handle keeps the engine invariant and makes that handle valid |
| EngineModel.ResolveAndPlaceOk | src/ecs/Engine.cpp:9-30 | resolving the archetype and placing a fitting row keeps the invariant and makes the new handle valid |
| EngineModel.ResolveAndPlaceEffects | src/ecs/Engine.cpp:9-30 | the next handle becomes live in the list's archetype with the row; both counters rise by one and every live entity keeps its archetype, id and row |
| EngineModel.NextIdUnused | src/ecs/Engine.cpp:64-68 | the id handed out next is no live entity's id |
| EngineModel.CreateEntitySpec | src/ecs/Engine.cpp:9-30 | CreateEntity returns id = old counter and index = free-list top (else a new entry), an index not live before; the result is a valid handle and the invariant holds |
| EngineModel.CreateEntityEffects | src/ecs/Engine.cpp:9-30 | the new entity is live in the list's archetype, every component at its registered default; both counters rise by one and every other entity is unchanged |
| EngineModel.CreateEntity | src/ecs/Engine.cpp:9-30 | CreateEntity(list): resolve the archetype, append the default row, take an index and the next id, write the location; EngineModel.CreateEntitySpec and CreateEntityEffects state what it gives and keeps |
| EngineModel.CreateEntityWithDataSpec | source/ecs/Engine.hpp:24 | CreateEntity(components, data) hands out the same handle as CreateEntity(components), its row cut from the data in ascending-id order, with the same invariant and frame |
| EngineModel.CreateEntityWithData | source/ecs/Engine.hpp:24 | CreateEntity(list, data): the same steps with the row cut from data; EngineModel.CreateEntityWithDataSpec states its meaning |
| EngineModel.DeleteEntitySteps | src/ecs/Engine.cpp:32-41 | DeleteEntity is the archetype's destroy plus fix-up, then the free-list push and the count decrement |
| EngineModel.DeleteEntitySpec | src/ecs/Engine.cpp:32-41 | the entity becomes dead and its handle invalid, its index is next for CreateEntity, the count falls by one, and every remaining live entity (the moved one included) keeps its row |
| EngineModel.DeleteEntity | src/ecs/Engine.cpp:32-41 | destroy the row, re-point the moved entity, push the index, decrement the count, for a live handle (the corrected check); EngineModel.DeleteEntitySteps and DeleteEntitySpec state its meaning |
| EngineModel.FreedConsistent | src/ecs/Engine.cpp:38-39 | a sound state that still points every other live index at its entity is consistent once the index is pushed and the count dropped |
| EngineModel.StaleHandlePassesCheck | src/ecs/Engine.cpp:32-41 | after DeleteEntity the deleted index's entry is left as it was, so the check of line 35 still passes for the stale handle, though it is not valid |
| EngineModel.StaleHandleNamesAnother | src/ecs/Engine.cpp:32-41 | unless the entity sat in its archetype's last slot, the slot its stale entry names now holds the moved live entity, which a second DeleteEntity of the stale handle would destroy |
| EngineOps.EntityLayout | source/ecs/Engine.hpp:105-107 | a valid handle's archetype was built for its list, and its row fits that layout and holds the handle |
| EngineOps.TryGetComponentSpec | source/ecs/Engine.hpp:110-115 | TryGetComponent<T> is absent iff the entity's archetype lacks T; the Entity type always gives the handle itself |
| EngineOps.TryGetComponent | source/ecs/Engine.hpp:110-115 | the value of the type in the entity's row; EngineOps.TryGetComponentSpec states when it is absent |
| EngineOps.GetComponent | source/ecs/Engine.hpp:103-108 | requires T in the entity's archetype; the value TryGetComponent would return, and the handle for the Entity type |
| EngineOps.MoveIsDestroyThenAttach | source/ecs/Engine.hpp:43-50 | moving an entity between archetypes is its old slot's destroy followed by attaching the new row, since the two touch different archetypes |
| EngineOps.ReattachStep | source/ecs/Engine.hpp:43-50 | after the move the entity's entry names its new row, and every other live entry keeps its row |
| EngineOps.MoveShape | source/ecs/Engine.hpp:43-50 | after the move every archetype stays sound, the entity's entry names its row in the target archetype, and every other entity is kept |
| EngineOps.MoveBooks | source/ecs/Engine.hpp:43-50 | a move keeps the free-list, the live set, both counters, the map and every archetype's list |
| EngineOps.MoveSpec | source/ecs/Engine.hpp:43-50 | moving a valid handle's entity with a fitting row holding the handle keeps the invariant and the handle valid |
| EngineOps.RelocatedConsistent | source/ecs/Engine.hpp:43-50 | a sound state that keeps the bookkeeping and points the handle's index at a row holding it is consistent, and the handle is valid |
| EngineOps.ResolveForMove | source/ecs/Engine.hpp:43-50 | resolving the archetype of the changed list keeps the handle valid and the entity in place, and gives another archetype built for the changed list |
| EngineOps.TransferKeepsHandle | include/ecs/ArchetypeChunk.hpp:82-83 | the row carried over to the new list's layout fits it and still holds the handle |
| EngineOps.RestructureSpec | source/ecs/Engine.hpp:43-50 | a structural change keeps the invariant, the handle, the live set and the counters; the entity now has the new list and every other entity is unchanged |
| EngineOps.RestructureValues | source/ecs/Engine.hpp:43-50 | after a structural change, a type the new list lacks reads back absent, the added type reads back the fill, and every other type its old value |
| EngineOps.AddComponentSpec | source/ecs/Engine.hpp:43-47 | AddComponent keeps the handle and the counts and moves the entity to the archetype of its list plus the type; every other entity is unchanged |
| EngineOps.AddComponentValues | source/ecs/Engine.hpp:43-47 | after AddComponent the new type reads back the data given, or its registered default without data, and every other value is unchanged |
| EngineOps.AddComponent | source/ecs/Engine.hpp:94-99 | moves the entity to the archetype of its list plus the type, with the data or the default; EngineOps.AddComponentSpec and AddComponentValues state its meaning |
| EngineOps.RemoveComponentSpec | source/ecs/Engine.hpp:49-50 | RemoveComponent keeps the handle and the counts and moves the entity to the archetype of its list minus the type; every other entity is unchanged |
| EngineOps.RemoveComponentValues | source/ecs/Engine.hpp:49-50 | after RemoveComponent the type reads back absent and every other value is unchanged |
| EngineOps.RemoveComponent | source/ecs/Engine.hpp:101 | moves the entity to the archetype of its list minus the type; EngineOps.RemoveComponentSpec and RemoveComponentValues state its meaning |
| EngineOps.ItemTypes | source/ecs/Engine.hpp:83-87 | the type of each argument, in argument order |
| EngineOps.ItemBytesAt | source/ecs/Engine.hpp:85 | with distinct argument types, the bytes found for an argument's type are that argument's |
| EngineOps.BytesById | source/ecs/Engine.hpp:85 | one byte string per type of the list Create<T...>() |
| EngineOps.ArgumentOfColumn | source/ecs/Engine.hpp:85 | column c of the combined bytes is the bytes of the argument whose type is the list's c-th type |
| EngineOps.PayloadSizesOfList | src/ecs/ArchetypeChunk.cpp:11-24 | the layout's component column sizes are the registered sizes of the list's types, in order |
| EngineOps.BytesByIdSizes | source/ecs/Engine.hpp:85-86 | the pieces of the combined bytes have the layout's column sizes |
| EngineOps.CombinedLength | source/ecs/Engine.hpp:85-86 | the combined bytes are exactly as long as the layout's component payload |
| EngineOps.ValueOfColumn | src/ecs/ArchetypeChunk.cpp:36-41 | with distinct column types, the value found for column k's type is the row's k-th value |
| EngineOps.DataRowValue | include/ecs/ArchetypeChunk.hpp:57 | in a row built from values serialised back to back, the list's c-th type reads back the c-th value |
| EngineOps.ColumnOfArgument | source/ecs/Engine.hpp:85 | every argument has a column of the combined bytes holding exactly its bytes |
| EngineOps.CreateFromComponentsSpec | source/ecs/Engine.hpp:83-87 | CreateEntityFromComponents keeps the invariant and returns a valid handle whose list is the arguments' types, leaving every other entity unchanged |
| EngineOps.CreateFromComponentsRoundTrip | source/ecs/Engine.hpp:83-87 | every argument reads back through the new handle, whatever the argument order |
| EngineOps.CombineBytesByIdOrderIndependent | source/ecs/Engine.hpp:85-86 | the same arguments in another order give the same list and the same combined bytes |
| EngineOps.CombineBytesById | source/ecs/Engine.hpp:85 | the argument values concatenated in ascending type-id order; EngineOps.CombinedLength and CombineBytesByIdOrderIndependent state its length and order independence |
| EngineOps.CreateEntityFromComponents | source/ecs/Engine.hpp:83-87 | CreateEntity with the arguments' list and CombineBytesById; EngineOps.CreateFromComponentsSpec and CreateFromComponentsRoundTrip state its meaning |
| Engines.Engine.constructor | src/ecs/Engine.cpp:5 | the engine's state is EmptyEngine and satisfies the invariant |
| Engines.Engine.EntityCount | src/ecs/Engine.hpp:30 | the entity counter equals the number of live location entries |
| Engines.Engine.GetArchetypeIndex | src/ecs/Engine.cpp:43-49 | the map lookup: an archetype whose list is the given one, or none iff there is none |
| Engines.Engine.CreateArchetype | src/ecs/Engine.cpp:70-75 | appends the archetype, records its index for the list, and returns that index |
| Engines.Engine.GetOrCreateArchetype | src/ecs/Engine.cpp:77-88 | proved equal to EngineModel.GetOrCreateArchetype (the corrected index order) |
| Engines.Engine.TakeIndex | src/ecs/Engine.cpp:13-18 | returns the free-list's top and pops it, or the table's size when the free-list is empty |
| Engines.Engine.GetNextEntity | src/ecs/Engine.cpp:64-68 | returns the old id counter and raises both counters by one |
| Engines.Engine.AppendToArchetype | src/ecs/Archetype.cpp:17-31 | the row goes into the archetype's reserved slot, which is returned |
| Engines.Engine.WriteLocation | src/ecs/Engine.cpp:24-27 | sets entry l, appending it when l is the table's size |
| Engines.Engine.ResolveAndPlace | src/ecs/Engine.cpp:11-29 | the engine steps shared by both CreateEntity forms, proved equal to the value model's ResolveAndPlace |
| Engines.Engine.CreateEntity | src/ecs/Engine.cpp:9-30 | proved equal to EngineModel.CreateEntity; the invariant is kept, the handle is valid, and exactly its index became live |
| Engines.Engine.CreateEmptyEntity | src/ecs/Engine.cpp:7 | CreateEntity() is CreateEntity with the empty list |
| Engines.Engine.CreateEntityWithData | source/ecs/Engine.hpp:24 | proved equal to EngineModel.CreateEntityWithData; the invariant is kept and the handle valid |
| Engines.Engine.DeleteEntity | src/ecs/Engine.cpp:32-41 | proved equal to EngineModel.DeleteEntity; the invariant is kept, the handle is no longer valid, and exactly its index stopped being live |
| Engines.Engine.Release | src/ecs/Engine.cpp:38-39 | pushes the index on the free-list and counts one entity fewer |
| Engines.Engine.DestroyInArchetype | src/ecs/Engine.cpp:36-40 | the archetype's destroy of the slot, with the moved entity's entry re-pointed to it |
| Engines.Engine.GetArchetypes | src/ecs/Engine.cpp:53-62 | the result holds each archetype whose list contains the given one (and is non-empty unless allowEmpty) exactly once, and nothing else |
| Engines.Engine.GetEntityIterator | source/ecs/Engine.hpp:78-81 | a fresh EntityIterator over the query (Entity, T...) and exactly the non-empty archetypes holding every T |
| Engines.Engine.TryGetComponent | source/ecs/Engine.hpp:110-115 | the entity's value of the type, absent iff its archetype lacks the type |
| Engines.Engine.AddComponent | source/ecs/Engine.hpp:43-47 | proved equal to EngineOps.AddComponent; the invariant is kept and the handle stays valid |
| Engines.Engine.RemoveComponent | source/ecs/Engine.hpp:49-50 | proved equal to EngineOps.RemoveComponent; the invariant is kept and the handle stays valid |
| Engines.Engine.CreateEntityFromComponents | source/ecs/Engine.hpp:83-87 | proved equal to EngineOps.CreateEntityFromComponents; the invariant is kept and the handle valid |
| Engines.CollectStep | src/ecs/Engine.cpp:56-60 | visiting one more map entry appends its archetype exactly when it is selected |
| Engines.CollectedAll | src/ecs/Engine.cpp:53-62 | once every map entry is visited, the result holds exactly the selected archetypes, each once |
| Engines.GatheredIterates | source/ecs/Engine.hpp:78-81 | the collected archetypes are the ones an iterator over the list must cover |
| EntityIterators.ShapedWhenOk | include/ecs/EntityIterator.hpp:59-73 | every archetype the engine keeps sound has the shape the iterator's constructor reads |
| EntityIterators.ColumnIndices | include/ecs/EntityIterator.hpp:61 | one comp_index per queried type: the column of that type, and none iff the archetype has no such column |
| EntityIterators.FirstEmpty | include/ecs/EntityIterator.hpp:63-66 | the chunk where the inner loop breaks: the first empty chunk at or after c, every chunk before it non-empty, or the chunk count |
| EntityIterators.BuildRanges | include/ecs/EntityIterator.hpp:54-74 | the constructor's loops build exactly the ChunkInfo list Ranges(archetypes, query) |
| EntityIterators.ScanChunks | include/ecs/EntityIterator.hpp:63-72 | the inner loop over one archetype's chunks makes one ChunkInfo per chunk before the first empty one, and advances count by the rows it scanned |
| EntityIterators.ScannedAll | include/ecs/EntityIterator.hpp:63-66 | in a packed archetype no row lies after the first empty chunk, so the break loses no entity |
| EntityIterators.ReachedAll | include/ecs/EntityIterator.hpp:56-73 | the constructor's final count is the number of entities of the archetypes |
| EntityIterators.RangesTile | include/ecs/EntityIterator.hpp:68-71 | the ChunkInfos tile [0, count) without gap or overlap, whatever the archetypes hold |
| EntityIterators.RangesDescribe | include/ecs/EntityIterator.hpp:68-71 | each ChunkInfo covers exactly the entities of the chunk it names, in global order |
| EntityIterators.RangesOrdered | include/ecs/EntityIterator.hpp:59-73 | the ChunkInfos come in archetype order, then chunk order within an archetype |
| EntityIterators.RangesCover | include/ecs/EntityIterator.hpp:54-74 | together: the ChunkInfos tile [0, Count()) in archetype then chunk order, each covering the entities of its chunk |
| EntityIterators.FirstEndingAfter | include/ecs/EntityIterator.hpp:100-107 | the search loop returns the first ChunkInfo with end > i, or the list's length when none has |
| EntityIterators.Located | include/ecs/EntityIterator.hpp:97-111 | below Count(), the ChunkInfo the search finds contains i |
| EntityIterators.Current | include/ecs/EntityIterator.hpp:185-196 | below Count(), an m_CI kept by the iterator names the ChunkInfo containing its index |
| EntityIterators.ReadAt | include/ecs/EntityIterator.hpp:97-111 | operator[]'s read at i - begin of the found ChunkInfo is in range and gives the value tuple of global index i |
| EntityIterators.ReadDesignates | include/ecs/EntityIterator.hpp:267-271 | reading slot i - begin of any ChunkInfo containing i gives the value tuple at global index i |
| EntityIterators.SameIndexSameRange | include/ecs/EntityIterator.hpp:206-207 | two iterators at the same index hold the same m_CI, or neither names a ChunkInfo, so comparing indices alone is sound |
| EntityIterators.StepBackAsWritten | include/ecs/EntityIterator.hpp:231-239 | operator-- as written, where m_CI names a ChunkInfo, yields index i - 1 with an m_CI that again names the ChunkInfo containing it |
| EntityIterators.StepBackTracks | include/ecs/EntityIterator.hpp:231-239 | stepping back from inside ChunkInfo k lands in k, or in k - 1 exactly when i was k's begin |
| EntityIterators.EndCannotStepBack | include/ecs/EntityIterator.hpp:231-239 | at end() m_CI names no ChunkInfo (null from the constructor, or one past the last after ++), so operator-- as written reads m_CI->begin out of range |
| EntityIterators.CeilDiv | include/ecs/EntityIterator.hpp:122 | num_chunks pieces of chunk_size = ceil(n / num_chunks) reach n, and chunk_size is at least 1 when n is |
| EntityIterators.SplitDone | include/ecs/EntityIterator.hpp:124-129 | when the loop ends piece j is [j * chunk_size, min((j + 1) * chunk_size, n)), and the pieces cut [0, n) in order into at most num_chunks pieces |
| EntityIterators.SplitStep | include/ecs/EntityIterator.hpp:124-129 | one round of Split's loop keeps its invariant |
| EntityIterators.SplitRange | include/ecs/EntityIterator.hpp:124-129 | Split's loop: piece j is exactly [j * chunk_size, min((j + 1) * chunk_size, n)); the pieces partition [0, n) in order, at most num_chunks of them |
| EntityIterators.NoEntities | include/ecs/EntityIterator.hpp:87-95 | nothing to iterate iff every archetype's EntityCount is 0 |
| EntityIterators.EntityIterator.constructor | include/ecs/EntityIterator.hpp:54-74 | keeps the archetypes and the query; its ChunkInfos are the ones the loops build, and they tile [0, Count()) |
| EntityIterators.EntityIterator.ArchetypeCount | include/ecs/EntityIterator.hpp:76 | the number of archetype pointers; with none there is no entity |
| EntityIterators.EntityIterator.Count | include/ecs/EntityIterator.hpp:77-85 | the sum of the EntityCounts, proved to be the number of entities iterated |
| EntityIterators.EntityIterator.Empty | include/ecs/EntityIterator.hpp:87-95 | true iff every archetype's EntityCount is 0, iff there is nothing to iterate |
| EntityIterators.EntityIterator.Get | include/ecs/EntityIterator.hpp:97-111 | operator[](i) for i < Count() is the value tuple of global index i |
| EntityIterators.EntityIterator.Begin | include/ecs/EntityIterator.hpp:115 | a fresh iterator at index 0 |
| EntityIterators.EntityIterator.End | include/ecs/EntityIterator.hpp:116 | a fresh iterator at index Count() |
| EntityIterators.EntityIterator.Split | include/ecs/EntityIterator.hpp:118-132 | with chunk_size = ceil(Count() / num_chunks), pair j is exactly [j * chunk_size, min((j + 1) * chunk_size, Count())); the pairs partition [0, Count()) in order, at most num_chunks of them |
| EntityIterators.Iterator.constructor | include/ecs/EntityIterator.hpp:204 | the index, with m_CI found by UpdateCI |
| EntityIterators.Iterator.UpdateCI | include/ecs/EntityIterator.hpp:185-196 | m_CI becomes the first ChunkInfo ending after the index, null when none does; the index is unchanged |
| EntityIterators.Iterator.Increment | include/ecs/EntityIterator.hpp:213-222 | below Count(), ++ moves to the next index and m_CI keeps naming the ChunkInfo of the index (or one past the last at end()) |
| EntityIterators.Iterator.Decrement | include/ecs/EntityIterator.hpp:231-239 | corrected --: the previous index with m_CI kept; wherever the written code can read m_CI it does exactly what the code does |
| EntityIterators.Iterator.AddAssign | include/ecs/EntityIterator.hpp:248-253 | the index moves forward by n and m_CI is looked up again |
| EntityIterators.Iterator.SubAssign | include/ecs/EntityIterator.hpp:255-260 | the index moves back by n (no unsigned wrap) and m_CI is looked up again |
| EntityIterators.Iterator.Get | include/ecs/EntityIterator.hpp:267-271 | operator* below Count() is the value tuple at the index, the same operator[] gives |
| EntityWalk.EntryAt | src/ecs/EntityIterator.hpp:100-116 | entity p of archetype k is entity Offset(k) + p of the whole walk |
| EntityWalk.CursorsSame | src/ecs/Archetype.hpp:73 | two archetype cursors are operator== iff they are at the same archetype index |
| EntityWalk.MeetsIsIndex | src/ecs/EntityIterator.hpp:94-97 | two iterators over the same archetypes are operator== iff they are at the same global index |
| EntityWalk.OffsetsApart | src/ecs/EntityIterator.hpp:100-116 | every entity of an archetype comes before the first of any later archetype |
| EntityWalk.EnterPlaced | src/ecs/EntityIterator.hpp:85-114 | entering an archetype puts the iterator at its first entity, global index Offset(arch) |
| EntityWalk.StepPlaced | src/ecs/EntityIterator.hpp:102-104 | one ++ of the cursors meets the archetype's end() iff it was at the last entity, and is otherwise at the next entity |
| EntityWalk.OffsetNext | src/ecs/EntityIterator.hpp:104-116 | the entities of archetype k are followed directly by those of archetype k + 1 |
| EntityWalk.ReadPlaced | src/ecs/EntityIterator.hpp:133 | operator* reads the queried values of global index Offset(arch) + pos |
| EntityWalk.EntityIterator.constructor | src/ecs/EntityIterator.hpp:19-22 | keeps the archetypes and the query |
| EntityWalk.EntityIterator.ArchetypeCount | src/ecs/EntityIterator.hpp:44 | the number of archetype pointers; with none there is no entity |
| EntityWalk.EntityIterator.Count | src/ecs/EntityIterator.hpp:24-32 | the sum of the EntityCounts, the number of entities walked |
| EntityWalk.EntityIterator.Empty | src/ecs/EntityIterator.hpp:34-42 | true iff no archetype holds an entity |
| EntityWalk.EntityIterator.Begin | src/ecs/EntityIterator.hpp:46-55 | end() when Empty(), otherwise the first entity of the first archetype: global index 0 |
| EntityWalk.EntityIterator.End | src/ecs/EntityIterator.hpp:57 | past the last archetype with the default cursor: global index Count() |
| EntityWalk.EntityIterator.Visit | src/ecs/EntityIterator.hpp:46-133 | a range-for from begin() to end() visits every entity exactly once in global order, reads each one's values, and stops after Count() steps |
| EntityWalk.Iterator.Start | src/ecs/EntityIterator.hpp:78-92 | the first archetype's begin() and end(), at global index 0 |
| EntityWalk.Iterator.Sentinel | src/ecs/EntityIterator.hpp:73-76 | at m_ArchetypeEnd with the default cursor, at global index Count() |
| EntityWalk.Iterator.EqualsIsIndex | src/ecs/EntityIterator.hpp:94-97 | operator== holds iff the two iterators are at the same global index |
| EntityWalk.Iterator.Increment | src/ecs/EntityIterator.hpp:100-124 | ++ moves to the next global index, never past Count(), and the debug step count stays within m_MaxCount |
| EntityWalk.Iterator.NextArchetype | src/ecs/EntityIterator.hpp:104-116 | leaving an archetype: the next archetype's first entity, or the sentinel after the last archetype |
| EntityWalk.Iterator.Get | src/ecs/EntityIterator.hpp:133 | operator* gives the queried values of the entity at the iterator's global index |
| CommandQueues.Records | src/ecs/CommandQueue.hpp:47-62 | one record per enqueue call, in call order |
| CommandQueues.Payloads | src/ecs/CommandQueue.hpp:97-105 | the payload of each record, in call order |
| CommandQueues.Commands | src/ecs/CommandQueue.hpp:17-26 | one Command per record, in call order |
| CommandQueues.RecordsAt | src/ecs/CommandQueue.hpp:47-62 | the i-th enqueue call yields the i-th record |
| CommandQueues.CommandsAppend | src/ecs/CommandQueue.hpp:52-62 | the commands of two runs of calls are the first run's, then the second's with its offsets moved past the first run's payloads |
| CommandQueues.RecordedSnoc | src/ecs/CommandQueue.hpp:52-62 | one more call adds one command, whose offset is the total size of the earlier payloads, and appends its payload to the buffer contents |
| CommandQueues.RecordedInPlace | src/ecs/CommandQueue.hpp:52-62 | the j-th command's offset is where the j-th payload lies in the written bytes, and the bytes there are that payload |
| CommandQueues.OffsetsIncrease | src/ecs/CommandQueue.hpp:52-62 | an earlier payload ends at or before a later one starts: offsets increase and the payload regions never overlap |
| CommandQueues.StepConsistent | src/ecs/CommandQueue.hpp:68-84 | a replayed command runs only on a consistent engine and leaves it consistent |
| CommandQueues.ApplyConsistent | src/ecs/Engine.cpp:9-41 | a direct engine call succeeds only on a consistent engine and leaves it consistent |
| CommandQueues.ApplyAllConsistent | src/ecs/CommandQueue.hpp:66-86 | a run of calls that all succeed leaves a consistent engine consistent |
| CommandQueues.StepIsDirect | src/ecs/CommandQueue.hpp:68-84 | a command whose payload sits at its offset does exactly what the call that recorded it would do directly |
| CommandQueues.NothingRunsOnInconsistent | src/ecs/CommandQueue.hpp:68-84 | on an engine that is not consistent neither a command nor a direct call succeeds |
| CommandQueues.CreateStepReads | src/ecs/CommandQueue.hpp:75-79 | a create-with-data command reads the DataSize bytes at its offset and creates with them when the list fits |
| CommandQueues.CreateApplies | source/ecs/Engine.hpp:83-87 | CreateEntityFromComponents called directly is CreateEntity(list, data), where data holds the values in type-id order |
| CommandQueues.FromComponentsIsWithData | source/ecs/Engine.hpp:83-87 | the engine's CreateEntityFromComponents equals CreateEntity with the sorted list and the values combined by type id |
| CommandQueues.RecordReads | src/ecs/CommandQueue.hpp:75-79 | a recorded create command creates with the record's list and the payload at its offset |
| CommandQueues.DestroyStepIsDirect | src/ecs/CommandQueue.hpp:80-84 | a destroy command whose 16 payload bytes encode e deletes e, as DeleteEntity(e) would |
| CommandQueues.StepAgrees | src/ecs/CommandQueue.hpp:66-84 | the i-th queued command, replayed over the buffer, does what the i-th call would have done |
| CommandQueues.QueuedStepsAgree | src/ecs/CommandQueue.hpp:66-84 | every queued command agrees with its call, over a buffer that starts with the payloads |
| CommandQueues.ReplayFollowsSteps | src/ecs/CommandQueue.hpp:66-86 | commands that agree one by one with the calls replay to the same result as the calls made in order |
| CommandQueues.ReplayIsDirect | src/ecs/CommandQueue.hpp:47-105 | replaying everything queued gives exactly what the calls would have given made directly, in the order they were queued |
| CommandQueues.ArchetypeLists | src/ecs/Engine.hpp:31 | the component list of each archetype, by archetype index |
| CommandQueues.KnownLists | src/ecs/Engine.cpp:43-49 | a list has an archetype exactly when the archetype map knows it |
| CommandQueues.ResolveAddsFirstUse | src/ecs/Engine.cpp:77-88 | resolving a list appends one archetype for a list never seen before and otherwise changes no archetype list or count |
| CommandQueues.CreateAddsFirstUse | src/ecs/Engine.cpp:9-30 | CreateEntity appends an archetype exactly for a new list and counts one more entity |
| CommandQueues.CreatesInFirstUseOrder | test/src/CommandQueueTest.hpp:7-35 | replaying a run of creates always succeeds, leaves the archetypes in first-use order of their lists, and adds one entity per create |
| CommandQueues.ReplayDone | src/ecs/CommandQueue.hpp:64-89 | replaying an empty queue (as after Execute) leaves the engine as it is |
| CommandQueues.ReplayStep | src/ecs/CommandQueue.hpp:66-86 | a replay that succeeds runs its first command and goes on from the state it leaves |
| CommandQueues.StepCreates | src/ecs/CommandQueue.hpp:70-74 | a CreateEntity command that runs is CreateEntity(components) on a consistent engine |
| CommandQueues.StepCreatesWithData | src/ecs/CommandQueue.hpp:75-79 | a CreateEntityFromComponents command that runs is CreateEntity(components, data) over the DataSize bytes at its offset |
| CommandQueues.StepDestroys | src/ecs/CommandQueue.hpp:80-84 | a DestroyEntity command that runs deletes the live entity its 16 payload bytes decode to |
| CommandQueues.RecordOfCreate | src/ecs/CommandQueue.hpp:52-56 | corrected (see Findings): the record of CreateEntityFromComponents holds the sorted list of the argument types and the values in type-id order, where the source writes them in argument order |
| CommandQueues.RecordOf | src/ecs/CommandQueue.hpp:47-62 | what one enqueue call leaves: its command type, its list and its payload (the values in type-id order for the corrected CreateEntityFromComponents); CommandQueues.RecordsAt and RecordOfCreate state it |
| CommandQueues.Step | src/ecs/CommandQueue.hpp:68-84 | one command of Execute as the engine call its type names, reading its payload at its offset; CommandQueues.StepIsDirect and StepConsistent state its meaning |
| CommandQueues.Replay | src/ecs/CommandQueue.hpp:66-86 | the commands run in order over the buffer; CommandQueues.ReplayIsDirect states it equals the direct calls |
| CommandQueues.Apply | src/ecs/Engine.cpp:9-41 | one engine call made directly (CreateEntity, CreateEntityFromComponents or DeleteEntity); CommandQueues.ApplyConsistent states it keeps the engine consistent |
| CommandQueues.ApplyAll | src/ecs/Engine.cpp:9-41 | engine calls made directly, in order; CommandQueues.ApplyAllConsistent and ReplayIsDirect state its meaning |
| CommandQueues.CommandQueue.constructor | src/ecs/CommandQueue.hpp:41-45 | no commands, data index 0 and a fresh buffer of DefaultCommandQueueSize (4096) bytes |
| CommandQueues.CommandQueue.CreateEntity | src/ecs/CommandQueue.hpp:47-50 | appends exactly one command holding the list with offset 0; buffer and data index unchanged |
| CommandQueues.CommandQueue.CreateEntityFromComponents | src/ecs/CommandQueue.hpp:52-56 | corrected (see Findings): appends one command with the argument types' list and the old data index, then the payload in type-id order (CombineBytesById) where the source writes argument order; the buffer doubles exactly when the payload overflows it |
| CommandQueues.CommandQueue.DestroyEntity | src/ecs/CommandQueue.hpp:58-62 | appends one command with the empty list and the old data index, then the Entity's bytes; the buffer doubles exactly when they overflow it |
| CommandQueues.CommandQueue.Push | src/ecs/CommandQueue.hpp:52-62 | appends the call's command and its payload, keeping the records invariant |
| CommandQueues.CommandQueue.AddData | src/ecs/CommandQueue.hpp:97-105 | doubles the buffer once exactly when the items overflow it, writes them back to back at the data index, advances it by their size, and keeps the earlier bytes |
| CommandQueues.CommandQueue.Grow | src/ecs/CommandQueue.hpp:101 | a buffer twice as long, the old bytes first and zeros after |
| CommandQueues.CommandQueue.Clear | src/ecs/CommandQueue.hpp:91-95 | no commands and data index 0; the buffer is kept |
| CommandQueues.CommandQueue.Execute | src/ecs/CommandQueue.hpp:64-89 | the engine ends as the queued calls, made directly in queue order, would leave it, and the queue is cleared |
| CommandQueues.CommandQueue.RunStep | src/ecs/CommandQueue.hpp:68-85 | one command changes the engine as the engine call its type names does |
| CommandQueues.WrittenPayload | src/ecs/CommandQueue.hpp:52-56 | for two equal-size values passed in descending type-id order, the list is sorted ascending while the payload is in argument order |
| CommandQueues.ArgumentOrderMisreads | src/ecs/CommandQueue.hpp:75-79 | replaying that payload gives the lower type id the bytes of the value passed first |
| CommandQueues.PayloadAsWritten | src/ecs/CommandQueue.hpp:97-105 | as written: the argument values back to back in argument order; CommandQueues.ArgumentOrderMisreads shows how it is misread |
| CommandQueues.QueuedCreateReadsBack | src/ecs/CommandQueue.hpp:52-56 | corrected (see Findings): with the payload in type-id order every value reads back under its own type, whatever the argument order |

## Left out

- `Process` and `ProcessWithCQ` (include/ecs/EntityIterator.hpp:134-174) fan `Split`'s ranges out to a parallel executor. Concurrency is not modelled; `Split` itself is.
- The System layer is not part of this model: `System`, `AddSystem` and `UpdateSystems` (source/ecs/Engine.hpp:56-58, 117-124) are virtual dispatch over a list of runners.
- Static-constructor type registration and the type-level helpers (`is_std_optional`, `Not`, `filter_tuple_t`) are not modelled. Registration is an explicit `ComponentMap.Add`, and a query's shape is a list of type ids with a required/optional flag.
- Byte punning (`reinterpret_cast`, `memmove` over raw memory) is modelled as arithmetic on offsets and as sequences of bytes. Component values are byte strings, and an Entity is its 16-byte encoding.
- `std::hash` of a single type id is library-defined, so it is a parameter `h` of `Hash` and `CombinedHash`.
- `ECS_ASSERT` checks become preconditions. The debug-only step counter of the archetype-walking iterator is modelled, because it states the bound `m_Count <= m_MaxCount`.
- The source/ecs/ArchetypeChunk.hpp and .cpp pair is an experimental chunk that cannot compile as written: it uses an undeclared `intoIndex` and `&this`. The chunk in src/ecs/ArchetypeChunk.cpp is modelled instead.
- source/ecs/CommandQueue.hpp and source/ecs/CommandQueue.cpp repeat src/ecs/CommandQueue.hpp split over two files. One model covers all three.
- Engines.Engine keeps its archetypes as values (list, layout, chunk rows, active index), not as `Archetype` objects. A sequence of heap objects with pairwise disjoint footprints is beyond what the verifier handles here. Archetypes.Archetype models the object on its own, with the same Store value as its specification. So the engine model does not capture aliasing between an archetype reference and the engine's vector.
- ComponentList `Add` and `Remove` are functions returning a new list, not in-place updates. The list is a value type that is copied everywhere and used as a map key.
- `CombineBytesById` is called at source/ecs/Engine.hpp:86 but is not defined in the source files. It is modelled as the values concatenated in ascending type-id order, which is how `CreateEntity(list, data)` reads them.
- The bodies of the non-template `AddComponent` and `RemoveComponent` are not part of this model (only the declarations at source/ecs/Engine.hpp:43-50 exist). They are modelled from the archetype calls they must make: `AddEntityAddComponent` or `AddEntityRemoveComponent`, then destroy in the old archetype, then re-point the entity.
- `GetArchetypes(filter)` (source/ecs/Engine.hpp:36) is declared without a body. Filtering by a `ComponentFilter` is modelled by `ComponentFilter.Matches`; the engine models `GetArchetypes(list, allowEmpty)`.
- The `Iterator` arithmetic operators `+(n)`, `-(n)` and `-(Iterator)` (include/ecs/EntityIterator.hpp:262-265) are not modelled. Each is a copy followed by `+=`, `-=` or an index difference. Comparisons are predicates on the global index.
- EntityIterators.EntityIterator.Split: returns `(begin, end)` index pairs rather than pairs of `Iterator` objects; an `Iterator` at an index is what `Begin` plus `AddAssign` yields.
- EntityIterators.Iterator.Decrement: requires index > 0, and it states the source's `m_CI` update only when the range pointer can step back; see Findings for `--` from `end()`.
- Required and optional query slots both yield `Option<Value>`. The engine gathers only archetypes that hold every queried type, so a required slot reads back present.
- Engines.Engine.GetEntityIterator: requires the queried types to be distinct, as `ComponentList::Create` asserts.
- EntityWalk.Iterator.Start: requires every archetype to hold an entity, which `GetArchetypes(list, false)` guarantees and the source's walk needs (see Findings for empty chunks).
- Chunks.Chunk.CopyEntity: requires into < Count, while the source asserts only into < entitiesPerChunk. A copy into a slot at or past Count writes bytes that no row reads, so the row model has nothing to state about it.
- CommandQueues.CommandQueue.AddData: requires the payload to fit after one doubling of the buffer, because the source doubles at most once. The enqueue methods and Push carry the same requirement.
- CommandQueues.CommandQueue.Execute: requires every queued call to be admissible (registered types, a live handle for a destroy) and the run to succeed from the engine's state; the source asserts these call by call.
- CommandQueues.CommandQueue.CreateEntityFromComponents: requires the argument types to be distinct, as `ComponentList::Create` asserts.
- CommandQueues.CommandQueue.CreateEntityFromComponents: writes the corrected payload, the values in type-id order, not the source's argument order (see Findings). CommandQueues.RecordOf, CommandQueues.Records, CommandQueues.ReplayIsDirect and CommandQueues.CommandQueue.Execute inherit that order, so the model does not promise what the as-written queue does for values passed out of type-id order; CommandQueues.ArgumentOrderMisreads states that case.
- Indices, ids and counters (`Index` and `EntityId`, both `size_t`) are unbounded naturals, so no wrap-around at 2^64 is modelled apart from the hash folds and the one in EngineModel.GetOrCreateLeftToRight. Three wraps are therefore lost:
  - `m_EntityIdCounter++` (src/ecs/Engine.cpp:67) would hand out a live entity's id again after 2^64 creations. EngineModel.NextIdUnused and the `IdsBelow` clause of `Consistent` keep ids fresh only because the model's counter never wraps.
  - `m_Index += n` and `m_Index -= n` (include/ecs/EntityIterator.hpp:248-260) work on an unsigned `difference_type`. EntityIterators.Iterator.AddAssign does not wrap, and EntityIterators.Iterator.SubAssign requires n <= index.
  - Components.EntityBytesRoundTrip and the admissible destroy requests require an Entity's fields below 2^64, but no engine invariant bounds the id counter.
- Chunks.Chunk: holds its layout by value, as include/ecs/ArchetypeChunk.hpp:90 does, where src/ecs/ArchetypeChunk.hpp:82 refers to the owning archetype's layout (bound at src/ecs/Archetype.cpp:13). That layout moves when the engine's `std::vector<Archetype>` (src/ecs/Engine.hpp:41) reallocates on `emplace_back` (src/ecs/Engine.cpp:72), for instance when a second archetype is created. Every existing chunk's reference then dangles, and `Full()`, `begin`/`end` and `GetComponent` would read a destroyed layout. The model does not capture this dangling reference.
- A replayed command or a direct call returns None on an engine that is not consistent. Consistency is the model's own invariant, and every engine operation keeps it.
- The component registry is a class (`ComponentMap`). The chunk and engine operations take its table as a value, where the source reads a global static.
- Three concrete test scenarios are not restated as lemmas. They follow from the general lemmas:
  - deleting entities 9, 4 and 1 out of ten (EngineModel.DeleteEntitySteps and Stores.DestroySpec);
  - moving five rows between two archetypes of 25 (Archetypes.Archetype.AddEntityAddComponent and Archetypes.Archetype.DestroyEntity);
  - `index == id` surviving `RemoveComponent` moves (EngineOps.TransferKeepsHandle).

## Findings

| source | as written | input that shows it | evidently intended | confidence | as-written member | corrected member |
|---|---|---|---|---|---|---|
| source/ecs/Component.hpp:315-325 | `ComponentFilter::Contains(list)` ends with `compulsory.Contains(list)`, which tests list ⊆ compulsory | filter requiring type 0, list {0, 1}: rejected; the empty list: accepted | a list matches when it holds every compulsory type and no excluded one: `list.Contains(compulsory)` | high, not executed | Components.FilterContainsIsReversed | Components.ComponentFilter.Matches |
| src/ecs/Archetype.hpp:62-95 | `begin()` and `++` stop at an empty allocated chunk instead of skipping it, and never reach `end()` | a fresh archetype: one empty chunk, and `begin() != end()` after any number of steps | the walk skips empty chunks and reaches `end()` after EntityCount steps | high, not executed | ArchetypeWalk.FreshArchetypeNeverEnds | ArchetypeWalk.SkippingWalk |
| src/ecs/Engine.cpp:32-41 | the only check is `entity.id == loc.entityId`, and a deleted entity's location entry is never cleared | delete a live entity e that is not in the last slot, then delete e again: the check passes, and the entity moved into e's old slot is destroyed | a deleted handle is rejected | high, not executed | EngineModel.StaleHandleNamesAnother | EngineModel.DeleteEntitySpec |
| src/ecs/Engine.cpp:86 | `std::make_pair(m_Archetypes.size() - 1, CreateArchetype(...))` leaves the order of the two arguments unspecified; evaluated left to right, the index is read before the append | the first list on an empty engine: the index is 0 - 1, which wraps to 2^64 - 1 | the index of the archetype just appended | medium, not executed | EngineModel.LeftToRightIndexIsStale | EngineModel.GetOrCreateNew |
| include/ecs/EntityIterator.hpp:231-239 | `--` reads `m_CI->begin`, but at `end()` `m_CI` names no ChunkInfo: null from the constructor, or one past the last after `++` | `--end()` on any non-empty iterator | stepping back from `end()` lands on the last entity | high, not executed | EntityIterators.EndCannotStepBack | EntityIterators.Iterator.Decrement |
| src/ecs/CommandQueue.hpp:52-56 | the payload is written in argument order, but `CreateEntity(list, data)` reads it in ascending type-id order | two equal-size components passed in descending type-id order: each reads back the other's value | the payload in type-id order, as `CombineBytesById` gives `Engine::CreateEntityFromComponents` | medium, not executed | CommandQueues.ArgumentOrderMisreads | CommandQueues.CommandQueue.CreateEntityFromComponents |

=== FILE: archetype.dfy ===
/**
 * Archetype: every entity with one exact component list, stored in a
 * growable vector of chunks of the same layout with an active-chunk
 * cursor. Its state is proved against the Store functions: each method
 * ensures State() is the Store function of old(State()).
 */
module Archetypes {
  import opened Wrappers
  import opened Core
  import opened Components
  import opened Layout
  import opened Chunks
  import opened Stores

  /** The rows of each chunk of a vector, in vector order. */
  ghost function RowsOf(cs: seq<Chunk>, repr: set<object>): (r: seq<seq<Row>>)
    requires forall k | 0 <= k < |cs| :: cs[k] in repr
    reads repr
    ensures |r| == |cs| && forall k | 0 <= k < |cs| :: r[k] == cs[k].rows
  {
    seq(|cs|, k requires 0 <= k < |cs| && cs[k] in repr reads repr => cs[k].rows)
  }

  /** Every chunk of the vector and its buffer belong to repr, share the layout, and no two share an object. */
  ghost predicate ChunksFramed(cs: seq<Chunk>, repr: set<object>, info: ArchetypeInfo)
    reads repr
  {
    (forall k | 0 <= k < |cs| :: cs[k] in repr && cs[k].data in repr) &&
    (forall k | 0 <= k < |cs| :: cs[k].info == info && cs[k].Valid()) &&
    (forall j, k | 0 <= j < k < |cs| :: cs[j] != cs[k] && cs[j].data != cs[k].data)
  }

  /** A fresh chunk of the same layout extends a framed vector, and its rows extend the vector's rows. */
  lemma ChunksSnoc(cs: seq<Chunk>, repr: set<object>, info: ArchetypeInfo, x: Chunk)
    requires ChunksFramed(cs, repr, info) && x !in repr && x.data !in repr && x.info == info && x.Valid()
    ensures ChunksFramed(cs + [x], repr + {x, x.data}, info)
    ensures RowsOf(cs + [x], repr + {x, x.data}) == RowsOf(cs, repr) + [x.rows]
  {
    assert forall k | 0 <= k < |cs| :: (cs + [x])[k] == cs[k];
  }

  class Archetype {
    /** GetComponents(): the list the archetype was constructed with. */
    const components: ComponentList
    /** GetInfo(): the layout all its chunks share. */
    const info: ArchetypeInfo
    var entityCount: nat
    var chunks: seq<Chunk>
    var active: nat
    ghost var Repr: set<object>

    /** Every chunk and its buffer belong to Repr, and no two chunks share an object. */
    ghost predicate Framed()
      reads this, Repr
    {
      this !in Repr && |info.componentInfo| >= 1 && ChunksFramed(chunks, Repr, info)
    }

    /** The value of the chunk vector. */
    ghost function State(): Store
      reads this, Repr
      requires Framed()
    {
      Store(RowsOf(chunks, Repr), active)
    }

    ghost predicate Valid()
      reads this, Repr
    {
      Framed() && |info.componentInfo| >= 1 &&
      Packed(State(), info.entitiesPerChunk) &&
      entityCount == |Flatten(State().chunks)|
    }

    /** Rows of the store fit the layout. */
    lemma RowsFit(c: nat, i: nat)
      requires Valid() && c < |chunks| && i < |State().chunks[c]|
      ensures RowFits(info, State().chunks[c][i]) && State().chunks[c][i] == chunks[c].rows[i]
    {
      assert chunks[c].Valid();
    }

    /** The constructor: the layout of the list, one empty chunk, active index 0, no entities. */
    constructor (list: ComponentList, table: seq<ComponentInfo>, entityType: ComponentType, chunkSize: nat)
      requires Registered(list, table)
      ensures Valid() && fresh(Repr)
      ensures components == list && info == LayoutOf(list, table, entityType, chunkSize)
      ensures State() == Store([[]], 0) && entityCount == 0
    {
      components := list;
      var layout := NewArchetypeInfo(list, table, entityType, chunkSize);
      info := layout;
      var first := new Chunk(layout);
      chunks := [first];
      active := 0;
      entityCount := 0;
      Repr := {first, first.data};
      new;
      assert State().chunks == [[]];
    }

    /** EntityCount(): the number of rows. */
    function EntityCount(): (r: nat)
      reads this, Repr
      requires Valid()
      ensures r == |Flatten(State().chunks)|
    {
      entityCount
    }

    /** ChunkCount(): the number of allocated chunks. */
    function ChunkCount(): (r: nat)
      reads this, Repr
      requires Valid()
      ensures r == |State().chunks| && r >= 1
    {
      |chunks|
    }

    /** ActiveChunkIndex(): the active chunk's position, which the count places. */
    function ActiveChunkIndex(): (r: nat)
      reads this, Repr
      requires Valid()
      ensures r == State().active && r < ChunkCount()
      ensures EntityCount() == r * info.entitiesPerChunk + |State().chunks[r]|
    {
      FlattenLength(State(), info.entitiesPerChunk);
      active
    }

    /** AddChunk(): one more empty chunk, which becomes the active one. */
    method AddChunk()
      requires Framed()
      modifies this
      ensures Framed() && fresh(Repr - old(Repr)) && entityCount == old(entityCount)
      ensures State() == Store(old(State().chunks) + [[]], |old(chunks)|) && chunks[active].count == 0
    {
      var fresh_ := new Chunk(info);
      ChunksSnoc(chunks, Repr, info, fresh_);
      chunks := chunks + [fresh_];
      active := |chunks| - 1;
      Repr := Repr + {fresh_, fresh_.data};
    }

    /** Counts one more entity; nothing else changes. */
    method CountAdded()
      requires Framed()
      modifies this
      ensures Framed() && State() == old(State()) && entityCount == old(entityCount) + 1
      ensures chunks == old(chunks) && active == old(active) && Repr == old(Repr)
    {
      entityCount := entityCount + 1;
    }

    /** Moves the active position to the next, already allocated chunk. */
    method StepActive()
      requires Framed() && active + 1 < |chunks|
      modifies this
      ensures Framed() && chunks == old(chunks) && Repr == old(Repr) && entityCount == old(entityCount)
      ensures State() == Store(old(State().chunks), old(active) + 1)
      ensures chunks[active].count == |State().chunks[active]|
    {
      active := active + 1;
    }

    /** Moves the active position on to a chunk with a free slot, allocating one when none is left. */
    method Advance()
      requires Framed() && Packed(State(), info.entitiesPerChunk) && info.entitiesPerChunk >= 1
      modifies this
      ensures Framed() && fresh(Repr - old(Repr)) && entityCount == old(entityCount)
      ensures State() == Stores.Reserve(old(State()), info.entitiesPerChunk)
      ensures active < |chunks| && chunks[active].count < info.entitiesPerChunk
    {
      ReserveRoom(State(), info.entitiesPerChunk);
      if chunks[active].Full() {
        if active + 1 < |chunks| {
          StepActive();
        } else {
          AddChunk();
        }
      }
    }

    /**
     * The first half of CreateEntity: make the active chunk one with a free
     * slot, and count the entity about to be added.
     */
    method Reserve()
      requires Valid() && info.entitiesPerChunk >= 1
      modifies this
      ensures Framed() && fresh(Repr - old(Repr)) && entityCount == old(entityCount) + 1
      ensures State() == Stores.Reserve(old(State()), info.entitiesPerChunk)
      ensures active < |chunks| && chunks[active].count < info.entitiesPerChunk
    {
      CountAdded();
      Advance();
    }

    /**
     * CreateEntity(e): appends e with the registered defaults, returns the
     * (chunk, slot) it landed in, and increments EntityCount.
     */
    method CreateEntity(e: Entity, table: seq<ComponentInfo>) returns (chunk: nat, slot: nat)
      requires Valid() && info.entitiesPerChunk >= 1 && MatchesTable(info, table)
      modifies this, Repr
      ensures Valid() && fresh(Repr - old(Repr))
      ensures State() == Append(old(State()), info.entitiesPerChunk, DefaultRow(info, table, e))
      ensures Flatten(State().chunks) == old(Flatten(State().chunks)) + [DefaultRow(info, table, e)]
      ensures chunk == State().active && slot < |State().chunks[chunk]|
      ensures State().chunks[chunk][slot] == DefaultRow(info, table, e)
      ensures FlatIndex(State().chunks, chunk, slot) == old(entityCount) && entityCount == old(entityCount) + 1
    {
      ghost var row := DefaultRow(info, table, e);
      ghost var before := State();
      Reserve();
      var target := chunks[active];
      assert forall k | 0 <= k < |chunks| && k != active :: chunks[k] != target && chunks[k].data != target.data;
      label reserved:
      slot := target.CreateEntity(e, table);
      Pushed@reserved(row);
      chunk := active;
      AppendSpec(before, info.entitiesPerChunk, row);
    }

    /**
     * Between the two states only the active chunk changed, and it gained
     * row at its end: the store gained row by Put.
     */
    twostate lemma Pushed(row: Row)
      requires old(Framed()) && old(active) < old(|chunks|)
      requires chunks == old(chunks) && active == old(active) && Repr == old(Repr)
      requires chunks[active].Valid() && chunks[active].rows == old(chunks[active].rows) + [row]
      requires forall k | 0 <= k < |chunks| && k != active :: unchanged(chunks[k], chunks[k].data)
      ensures Framed() && State() == Put(old(State()), row)
    {
    }

    /**
     * CreateEntity(e, data): like CreateEntity(e), with the components cut
     * from data in ascending-id column order.
     */
    method CreateEntityWithData(e: Entity, payload: seq<byte>) returns (chunk: nat, slot: nat)
      requires Valid() && info.entitiesPerChunk >= 1 && |payload| == Sum(PayloadSizes(info))
      modifies this, Repr
      ensures Valid() && fresh(Repr - old(Repr))
      ensures State() == Append(old(State()), info.entitiesPerChunk, DataRow(info, e, payload))
      ensures Flatten(State().chunks) == old(Flatten(State().chunks)) + [DataRow(info, e, payload)]
      ensures chunk == State().active && slot < |State().chunks[chunk]|
      ensures State().chunks[chunk][slot] == DataRow(info, e, payload)
      ensures FlatIndex(State().chunks, chunk, slot) == old(entityCount) && entityCount == old(entityCount) + 1
    {
      ghost var row := DataRow(info, e, payload);
      ghost var before := State();
      Reserve();
      var target := chunks[active];
      assert forall k | 0 <= k < |chunks| && k != active :: chunks[k] != target && chunks[k].data != target.data;
      label reserved:
      slot := target.CreateEntityWithData(e, payload);
      Pushed@reserved(row);
      chunk := active;
      AppendSpec(before, info.entitiesPerChunk, row);
    }

    /**
     * The first step of DestroyEntity: slot (c, i) takes the active chunk's
     * last row, and the Entity now in that slot is read back.
     */
    method MoveLastInto(c: nat, i: nat) returns (moved: Entity)
      requires Valid() && c < |chunks| && i < |State().chunks[c]|
      modifies Repr
      ensures Framed() && old(State().chunks[State().active]) != []
      ensures State() == Store(old(State().chunks)[c := old(State().chunks)[c][i := LastRow(old(State()))]], active)
      ensures moved == EntityOf(LastRow(old(State())))
    {
      ghost var s0 := State();
      ActiveOccupied(s0, info.entitiesPerChunk, c, i);
      ghost var lastRow := LastRow(s0);
      var ch := chunks[c];
      var last := chunks[active];
      assert last.rows == s0.chunks[active];
      RowsFit(active, |s0.chunks[active]| - 1);
      assert forall k | 0 <= k < |chunks| && k != c :: chunks[k] != ch && chunks[k].data != ch.data;
      ch.CopyEntity(i, last, last.count - 1);
      // The source returns the reference it took to this slot before the copy, read after it.
      moved := ch.GetEntity(i);
    }

    /** The second step: the active chunk's last row is removed. */
    method DropLast()
      requires Framed() && active < |chunks| && State().chunks[active] != []
      modifies chunks[active]
      ensures Framed()
      ensures State() == Store(old(State().chunks)[active := old(State().chunks)[active][..|old(State().chunks)[active]| - 1]], active)
    {
      var last := chunks[active];
      assert forall k | 0 <= k < |chunks| && k != active :: chunks[k] != last;
      last.RemoveLast();
      assert State().chunks == old(State().chunks)[active := old(State().chunks)[active][..|old(State().chunks)[active]| - 1]];
    }

    /** The last step: the active position retreats past an emptied chunk other than the first, and the count drops. */
    method Retreat()
      requires Framed() && active < |chunks| && entityCount >= 1
      modifies this
      ensures Framed() && chunks == old(chunks) && Repr == old(Repr) && entityCount == old(entityCount) - 1
      ensures State() == Store(old(State().chunks), if old(State().chunks[active]) == [] && old(active) > 0 then old(active) - 1 else old(active))
    {
      if chunks[active].Empty() && active > 0 {
        active := active - 1;
      }
      entityCount := entityCount - 1;
    }

    /**
     * DestroyEntity(chunk, indexInChunk): the active chunk's last row is
     * copied over the slot, the last row is removed, the active position
     * retreats past a chunk that became empty (never past chunk 0), and the
     * Entity now stored at the slot is returned: the one whose location
     * the caller must update.
     */
    method DestroyEntity(c: nat, i: nat) returns (moved: Entity)
      requires Valid() && c < |chunks| && i < |State().chunks[c]|
      modifies this, Repr
      ensures Valid() && Repr == old(Repr)
      ensures State() == Destroy(old(State()), info.entitiesPerChunk, c, i)
      ensures moved == EntityOf(LastRow(old(State())))
      ensures entityCount == old(entityCount) - 1
    {
      ghost var s0 := State();
      DestroyCount(s0, info.entitiesPerChunk, c, i);
      moved := MoveLastInto(c, i);
      DropLast();
      Retreat();
      assert State() == Destroy(s0, info.entitiesPerChunk, c, i);
    }

    /** GetEntity(chunk, indexInChunk): the Entity stored in an occupied slot. */
    method GetEntity(c: nat, i: nat) returns (e: Entity)
      requires Valid() && c < |chunks| && i < |State().chunks[c]|
      ensures e == EntityOf(State().chunks[c][i])
    {
      e := chunks[c].GetEntity(i);
    }

    /** GetComponent(column, chunk, indexInChunk): the slot's value in that column and its byte address. */
    method GetComponent(column: nat, c: nat, i: nat) returns (v: Value, address: nat)
      requires Valid() && column < |info.componentInfo| && c <= active && i < |State().chunks[c]|
      ensures v == State().chunks[c][i][column]
      ensures address == ComponentAddress(info, column, i)
    {
      v, address := chunks[c].GetComponent(column, i);
    }

    /** GetComponent(type, chunk, indexInChunk): the same, through the column of that type. */
    method GetComponentOfType(t: ComponentType, c: nat, i: nat) returns (v: Value, address: nat)
      requires Valid() && HasColumn(info, t) && c <= active && i < |State().chunks[c]|
      ensures Some(v) == ValueOfType(info, State().chunks[c][i], t)
      ensures address == ComponentAddress(info, GetComponentIndex(info, t), i)
    {
      v, address := chunks[c].GetComponentOfType(t, i);
    }

    /** TryGetComponent<T>(chunk, indexInChunk): absent exactly when T is not a column. */
    method TryGetComponent(t: ComponentType, c: nat, i: nat) returns (v: Option<Value>)
      requires Valid() && c <= active && i < |State().chunks[c]|
      ensures v.None? <==> !HasColumn(info, t)
      ensures v == ValueOfType(info, State().chunks[c][i], t)
    {
      var column := ComponentIndex(info, t);
      if column.None? {
        v := None;
      } else {
        var value, _ := GetComponentOfType(t, c, i);
        v := Some(value);
      }
    }

    /** Archetype index p is row p % entitiesPerChunk of chunk p / entitiesPerChunk, which is in use. */
    lemma RowAt(p: nat, c: nat, i: nat)
      requires Valid() && info.entitiesPerChunk >= 1 && p < entityCount
      requires c == p / info.entitiesPerChunk && i == p % info.entitiesPerChunk
      ensures c <= active && i < |State().chunks[c]| && Flatten(State().chunks)[p] == State().chunks[c][i]
      ensures |State().chunks[c][i]| == |info.componentInfo|
    {
      IndexToSlot(State(), info.entitiesPerChunk, p);
      RowsFit(c, i);
    }

    /**
     * GetComponent(column, index): archetype index p is chunk
     * p / entitiesPerChunk, slot p % entitiesPerChunk; the value is the
     * column's value of row p in archetype order.
     */
    method GetComponentAt(column: nat, p: nat) returns (v: Value, address: nat)
      requires Valid() && info.entitiesPerChunk >= 1 && column < |info.componentInfo| && p < entityCount
      ensures p < |Flatten(State().chunks)| && |Flatten(State().chunks)[p]| == |info.componentInfo|
      ensures v == Flatten(State().chunks)[p][column]
      ensures address == ComponentAddress(info, column, p % info.entitiesPerChunk)
    {
      var chunkIndex := p / info.entitiesPerChunk;
      var indexInChunk := p % info.entitiesPerChunk;
      RowAt(p, chunkIndex, indexInChunk);
      v, address := GetComponent(column, chunkIndex, indexInChunk);
    }

    /** GetComponent(type, index): the same, through the column of that type. */
    method GetComponentOfTypeAt(t: ComponentType, p: nat) returns (v: Value, address: nat)
      requires Valid() && info.entitiesPerChunk >= 1 && HasColumn(info, t) && p < entityCount
      ensures p < |Flatten(State().chunks)| && |Flatten(State().chunks)[p]| == |info.componentInfo|
      ensures Some(v) == ValueOfType(info, Flatten(State().chunks)[p], t)
      ensures address == ComponentAddress(info, GetComponentIndex(info, t), p % info.entitiesPerChunk)
    {
      var chunkIndex := p / info.entitiesPerChunk;
      var indexInChunk := p % info.entitiesPerChunk;
      RowAt(p, chunkIndex, indexInChunk);
      v, address := GetComponentOfType(t, chunkIndex, indexInChunk);
    }

    /** An archetype none of whose objects changed keeps its invariant, value and count. */
    twostate lemma Untouched()
      requires old(Valid()) && unchanged(this) && unchanged(old(Repr))
      ensures Valid() && State() == old(State()) && entityCount == old(entityCount)
    {
    }

    /** Two archetypes share no object. */
    ghost predicate Separate(other: Archetype)
      reads this, other
    {
      other != this && Repr !! other.Repr && other !in Repr && this !in other.Repr
    }

    /**
     * The destination half of AddEntityAddComponent: a slot is picked as
     * CreateEntity picks it and receives the row of slot fromIndex of the
     * chunk from, with newType's value taken from fill.
     */
    method AppendAdded(from: Chunk, fromIndex: nat, newType: ComponentType, fill: seq<byte>) returns (chunk: nat, slot: nat)
      requires Valid() && info.entitiesPerChunk >= 1 && from.Valid() && fromIndex < from.count
      requires from !in Repr && from.data !in Repr
      requires HasColumn(info, newType) && !HasColumn(from.info, newType)
      requires RowFits(info, TransferRow(info, from.info, from.rows[fromIndex], fill))
      modifies this, Repr
      ensures Valid() && fresh(Repr - old(Repr)) && entityCount == old(entityCount) + 1
      ensures var row := TransferRow(info, from.info, old(from.rows[fromIndex]), fill);
              State() == Append(old(State()), info.entitiesPerChunk, row) &&
              Flatten(State().chunks) == old(Flatten(State().chunks)) + [row] &&
              chunk == State().active && slot < |State().chunks[chunk]| && State().chunks[chunk][slot] == row &&
              FlatIndex(State().chunks, chunk, slot) == old(entityCount)
    {
      ghost var row := TransferRow(info, from.info, from.rows[fromIndex], fill);
      ghost var before := State();
      Reserve();
      var target := chunks[active];
      assert forall k | 0 <= k < |chunks| && k != active :: chunks[k] != target && chunks[k].data != target.data;
      label reserved:
      slot := target.AddEntityAddComponent(newType, from, fromIndex, fill);
      Pushed@reserved(row);
      chunk := active;
      AppendSpec(before, info.entitiesPerChunk, row);
    }

    /** The destination half of AddEntityRemoveComponent: the same, with removeType's value dropped. */
    method AppendRemoved(from: Chunk, fromIndex: nat, removeType: ComponentType) returns (chunk: nat, slot: nat)
      requires Valid() && info.entitiesPerChunk >= 1 && from.Valid() && fromIndex < from.count
      requires from !in Repr && from.data !in Repr
      requires !HasColumn(info, removeType) && HasColumn(from.info, removeType)
      requires RowFits(info, TransferRow(info, from.info, from.rows[fromIndex], []))
      modifies this, Repr
      ensures Valid() && fresh(Repr - old(Repr)) && entityCount == old(entityCount) + 1
      ensures var row := TransferRow(info, from.info, old(from.rows[fromIndex]), []);
              State() == Append(old(State()), info.entitiesPerChunk, row) &&
              Flatten(State().chunks) == old(Flatten(State().chunks)) + [row] &&
              chunk == State().active && slot < |State().chunks[chunk]| && State().chunks[chunk][slot] == row &&
              FlatIndex(State().chunks, chunk, slot) == old(entityCount)
    {
      ghost var row := TransferRow(info, from.info, from.rows[fromIndex], []);
      ghost var before := State();
      Reserve();
      var target := chunks[active];
      assert forall k | 0 <= k < |chunks| && k != active :: chunks[k] != target && chunks[k].data != target.data;
      label reserved:
      slot := target.AddEntityRemoveComponent(removeType, from, fromIndex);
      Pushed@reserved(row);
      chunk := active;
      AppendSpec(before, info.entitiesPerChunk, row);
    }

    /**
     * AddEntityAddComponent(other, otherChunk, otherIndex, newType, data):
     * picks the destination slot as CreateEntity does and appends the other
     * archetype's row with newType's value taken from data; the other
     * archetype is unchanged.
     */
    method AddEntityAddComponent(other: Archetype, otherChunk: nat, otherIndex: nat, newType: ComponentType, fill: seq<byte>)
      returns (chunk: nat, slot: nat)
      requires Valid() && other.Valid() && Separate(other) && info.entitiesPerChunk >= 1
      requires otherChunk < |other.chunks| && otherIndex < |other.State().chunks[otherChunk]|
      requires HasColumn(info, newType) && !HasColumn(other.info, newType)
      requires RowFits(info, TransferRow(info, other.info, other.State().chunks[otherChunk][otherIndex], fill))
      modifies this, Repr
      ensures Valid() && fresh(Repr - old(Repr)) && other.Valid() && Separate(other)
      ensures other.State() == old(other.State()) && other.entityCount == old(other.entityCount)
      ensures var row := TransferRow(info, other.info, old(other.State().chunks[otherChunk][otherIndex]), fill);
              State() == Append(old(State()), info.entitiesPerChunk, row) &&
              chunk == State().active && slot < |State().chunks[chunk]| && State().chunks[chunk][slot] == row &&
              FlatIndex(State().chunks, chunk, slot) == old(entityCount)
      ensures entityCount == old(entityCount) + 1
    {
      var from := other.chunks[otherChunk];
      assert from in other.Repr && from.data in other.Repr && from.rows == other.State().chunks[otherChunk];
      chunk, slot := AppendAdded(from, otherIndex, newType, fill);
      other.Untouched();
    }

    /**
     * AddEntityRemoveComponent(other, otherChunk, otherIndex, removeType):
     * the same, appending the other archetype's row without removeType.
     */
    method AddEntityRemoveComponent(other: Archetype, otherChunk: nat, otherIndex: nat, removeType: ComponentType)
      returns (chunk: nat, slot: nat)
      requires Valid() && other.Valid() && Separate(other) && info.entitiesPerChunk >= 1
      requires otherChunk < |other.chunks| && otherIndex < |other.State().chunks[otherChunk]|
      requires !HasColumn(info, removeType) && HasColumn(other.info, removeType)
      requires RowFits(info, TransferRow(info, other.info, other.State().chunks[otherChunk][otherIndex], []))
      modifies this, Repr
      ensures Valid() && fresh(Repr - old(Repr)) && other.Valid() && Separate(other)
      ensures other.State() == old(other.State()) && other.entityCount == old(other.entityCount)
      ensures var row := TransferRow(info, other.info, old(other.State().chunks[otherChunk][otherIndex]), []);
              State() == Append(old(State()), info.entitiesPerChunk, row) &&
              chunk == State().active && slot < |State().chunks[chunk]| && State().chunks[chunk][slot] == row &&
              FlatIndex(State().chunks, chunk, slot) == old(entityCount)
      ensures entityCount == old(entityCount) + 1
    {
      var from := other.chunks[otherChunk];
      assert from in other.Repr && from.data in other.Repr && from.rows == other.State().chunks[otherChunk];
      chunk, slot := AppendRemoved(from, otherIndex, removeType);
      other.Untouched();
    }
  }
}

=== FILE: chunk.dfy ===
/**
 * ArchetypeChunk: a fixed-capacity block of entity slots, column by column.
 *
 * The chunk's bytes are modelled as a two-dimensional array of Values, one
 * row of the array per column of the layout and one column of the array
 * per slot; slots 0 .. count-1 are occupied. The byte offset that the
 * source computes for a slot is ComponentAddress in the layout.
 */
module Chunks {
  import opened Wrappers
  import opened Core
  import opened Components
  import opened Layout

  /** What one slot of one column holds: the Entity handle in column 0, a component's bytes elsewhere. */
  datatype Value = EntityValue(entity: Entity) | ComponentValue(bytes: seq<byte>)

  /** One entity's slot across all the columns of a layout. */
  type Row = seq<Value>

  predicate ValueFits(info: ArchetypeInfo, c: nat, v: Value)
  {
    c < |info.componentInfo| &&
    if c == 0 then v.EntityValue? else v.ComponentValue? && |v.bytes| == info.componentInfo[c].size
  }

  /** A row of the layout: an Entity in column 0 and bytes of each column's size elsewhere. */
  predicate RowFits(info: ArchetypeInfo, row: Row)
  {
    |row| == |info.componentInfo| >= 1 && forall c | 0 <= c < |row| :: ValueFits(info, c, row[c])
  }

  function EntityOf(row: Row): Entity
    requires |row| >= 1 && row[0].EntityValue?
  {
    row[0].entity
  }

  /** The registry has an entry for every component column, of that column's size. */
  predicate MatchesTable(info: ArchetypeInfo, table: seq<ComponentInfo>)
  {
    WellFormedTable(table) &&
    forall c | 1 <= c < |info.componentInfo| ::
      info.componentInfo[c].componentType < |table| &&
      table[info.componentInfo[c].componentType].size == info.componentInfo[c].size
  }

  /** The row CreateEntity(e) writes: e, then each component's registered default. */
  function DefaultRow(info: ArchetypeInfo, table: seq<ComponentInfo>, e: Entity): (r: Row)
    requires |info.componentInfo| >= 1 && MatchesTable(info, table)
    ensures RowFits(info, r) && EntityOf(r) == e
    ensures forall c | 1 <= c < |r| :: r[c] == ComponentValue(table[info.componentInfo[c].componentType].defaultData)
  {
    var n := |info.componentInfo|;
    [EntityValue(e)] + seq(n - 1, c requires 0 <= c < n - 1 =>
      ComponentValue(table[info.componentInfo[c + 1].componentType].defaultData))
  }

  /** The sizes of the component columns (all but the Entity column), in column order. */
  function PayloadSizes(info: ArchetypeInfo): (r: seq<nat>)
    requires |info.componentInfo| >= 1
    ensures |r| == |info.componentInfo| - 1
    ensures forall c | 0 <= c < |r| :: r[c] == info.componentInfo[c + 1].size
  {
    seq(|info.componentInfo| - 1, c requires 0 <= c < |info.componentInfo| - 1 => info.componentInfo[c + 1].size)
  }

  /** The row CreateEntity(e, data) writes: e, then data cut into the component columns in column order. */
  function DataRow(info: ArchetypeInfo, e: Entity, data: seq<byte>): (r: Row)
    requires |info.componentInfo| >= 1 && |data| == Sum(PayloadSizes(info))
    ensures RowFits(info, r) && EntityOf(r) == e
  {
    var parts := Split(data, PayloadSizes(info));
    [EntityValue(e)] + seq(|parts|, c requires 0 <= c < |parts| => ComponentValue(parts[c]))
  }

  /** Component values serialised back to back in column order are read back unchanged. */
  lemma DataRowRoundTrip(info: ArchetypeInfo, e: Entity, values: seq<seq<byte>>)
    requires |info.componentInfo| >= 1 && Sizes(values) == PayloadSizes(info)
    ensures |Concat(values)| == Sum(PayloadSizes(info))
    ensures forall c | 0 <= c < |values| :: DataRow(info, e, Concat(values))[c + 1] == ComponentValue(values[c])
  {
    SplitConcat(values);
  }

  /** The value the row holds for type t, found through the layout; none when t is not a column. */
  function ValueOfType(info: ArchetypeInfo, row: Row, t: ComponentType): (r: Option<Value>)
    requires |row| == |info.componentInfo|
    ensures r.Some? <==> ComponentIndex(info, t).Some?
  {
    match ComponentIndex(info, t)
    case Some(j) => Some(row[j])
    case None => None
  }

  /**
   * The row a structural move writes into a chunk of layout dst from a row
   * of layout src: every destination column takes the source column of the
   * same type, and a type the source lacks takes fill.
   */
  function TransferRow(dst: ArchetypeInfo, src: ArchetypeInfo, srcRow: Row, fill: seq<byte>): (r: Row)
    requires |srcRow| == |src.componentInfo|
    ensures |r| == |dst.componentInfo|
  {
    seq(|dst.componentInfo|, c requires 0 <= c < |dst.componentInfo| =>
      match ComponentIndex(src, dst.componentInfo[c].componentType)
      case Some(j) => srcRow[j]
      case None => ComponentValue(fill))
  }

  /**
   * Moving a row between two layouts of the same registry: the moved row
   * fits the destination, and for every type it holds the source's value,
   * fill for the one type the source lacks, and nothing for a type the
   * destination lacks.
   */
  lemma TransferRowByType(dstList: ComponentList, srcList: ComponentList, table: seq<ComponentInfo>,
                          entityType: ComponentType, chunkSize: nat, srcRow: Row, fill: seq<byte>, t: ComponentType)
    requires Registered(dstList, table) && Registered(srcList, table)
    requires !dstList.Has(entityType) && !srcList.Has(entityType)
    requires var src := LayoutOf(srcList, table, entityType, chunkSize); RowFits(src, srcRow)
    requires forall x | x in dstList.Elements() - srcList.Elements() :: |fill| == table[x].size
    ensures var dst := LayoutOf(dstList, table, entityType, chunkSize);
            var src := LayoutOf(srcList, table, entityType, chunkSize);
            var row := TransferRow(dst, src, srcRow, fill);
            ValueOfType(dst, row, t) ==
              if t != entityType && !dstList.Has(t) then None
              else if t != entityType && !srcList.Has(t) then Some(ComponentValue(fill))
              else ValueOfType(src, srcRow, t)
  {
    var dst := LayoutOf(dstList, table, entityType, chunkSize);
    var src := LayoutOf(srcList, table, entityType, chunkSize);
    LayoutColumnTypes(dstList, table, entityType, chunkSize);
    LayoutColumnTypes(srcList, table, entityType, chunkSize);
    ComponentIndexOfDistinct(dst, t);
    ComponentIndexOfDistinct(src, t);
    assert t in TypesOf(dst) <==> t == entityType || dstList.Has(t);
    assert t in TypesOf(src) <==> t == entityType || srcList.Has(t);
  }

  /** Column c of the moved row fits column c of the destination layout. */
  lemma TransferColumnFits(dstList: ComponentList, srcList: ComponentList, table: seq<ComponentInfo>,
                           entityType: ComponentType, chunkSize: nat, srcRow: Row, fill: seq<byte>, c: nat)
    requires Registered(dstList, table) && Registered(srcList, table)
    requires !dstList.Has(entityType) && !srcList.Has(entityType)
    requires var src := LayoutOf(srcList, table, entityType, chunkSize); RowFits(src, srcRow)
    requires forall x | x in dstList.Elements() - srcList.Elements() :: |fill| == table[x].size
    requires c <= |dstList.types|
    ensures var dst := LayoutOf(dstList, table, entityType, chunkSize);
            ValueFits(dst, c, TransferRow(dst, LayoutOf(srcList, table, entityType, chunkSize), srcRow, fill)[c])
  {
    var dst := LayoutOf(dstList, table, entityType, chunkSize);
    var src := LayoutOf(srcList, table, entityType, chunkSize);
    var t := dst.componentInfo[c].componentType;
    LayoutColumnTypes(dstList, table, entityType, chunkSize);
    LayoutColumnTypes(srcList, table, entityType, chunkSize);
    LayoutColumn(dstList, table, entityType, chunkSize, c);
    ComponentIndexOfDistinct(src, t);
    match ComponentIndex(src, t)
    case Some(j) =>
      LayoutColumn(srcList, table, entityType, chunkSize, j);
      assert ValueFits(src, j, srcRow[j]);
      assert TypesOf(src)[j] == t && TypesOf(dst)[c] == t;
    case None =>
      assert TypesOf(dst)[c] == t;
  }

  /** The moved row fits the destination layout. */
  lemma TransferRowFits(dstList: ComponentList, srcList: ComponentList, table: seq<ComponentInfo>,
                        entityType: ComponentType, chunkSize: nat, srcRow: Row, fill: seq<byte>)
    requires Registered(dstList, table) && Registered(srcList, table)
    requires !dstList.Has(entityType) && !srcList.Has(entityType)
    requires var src := LayoutOf(srcList, table, entityType, chunkSize); RowFits(src, srcRow)
    requires forall x | x in dstList.Elements() - srcList.Elements() :: |fill| == table[x].size
    ensures var dst := LayoutOf(dstList, table, entityType, chunkSize);
            RowFits(dst, TransferRow(dst, LayoutOf(srcList, table, entityType, chunkSize), srcRow, fill))
  {
    var dst := LayoutOf(dstList, table, entityType, chunkSize);
    var row := TransferRow(dst, LayoutOf(srcList, table, entityType, chunkSize), srcRow, fill);
    forall c | 0 <= c < |row| ensures ValueFits(dst, c, row[c]) {
      TransferColumnFits(dstList, srcList, table, entityType, chunkSize, srcRow, fill, c);
    }
  }

  /**
   * The column iterator of a chunk: a typed pointer into one column. It is
   * kept as the column and the slot it points at; its address is
   * start + slot * size, so two iterators over one column are equal exactly
   * when their slots are.
   */
  datatype ColumnIterator = ColumnIterator(column: nat, slot: nat)
  {
    /** operator++: the next slot of the same column. */
    function Next(): (r: ColumnIterator)
      ensures r.column == column && r.slot == slot + 1
    {
      ColumnIterator(column, slot + 1)
    }
  }

  /** The address an iterator points at. */
  function IteratorAddress(info: ArchetypeInfo, it: ColumnIterator): nat
    requires it.column < |info.componentInfo|
  {
    ComponentAddress(info, it.column, it.slot)
  }

  /** operator++ moves the address on by one element of the column's type (m_Ptr++). */
  lemma NextAddress(info: ArchetypeInfo, it: ColumnIterator)
    requires it.column < |info.componentInfo|
    ensures IteratorAddress(info, it.Next()) == IteratorAddress(info, it) + info.componentInfo[it.column].size
  {
    var size := info.componentInfo[it.column].size;
    assert (it.slot + 1) * size == it.slot * size + size;
  }

  /** operator== compares addresses: within a column of non-zero size that is comparing slots. */
  lemma IteratorEqualityIsSlotEquality(info: ArchetypeInfo, a: ColumnIterator, b: ColumnIterator)
    requires a.column == b.column < |info.componentInfo| && info.componentInfo[a.column].size > 0
    ensures IteratorAddress(info, a) == IteratorAddress(info, b) <==> a.slot == b.slot
  {
    var size := info.componentInfo[a.column].size;
    if a.slot < b.slot {
      assert a.slot * size < b.slot * size;
    } else if b.slot < a.slot {
      assert b.slot * size < a.slot * size;
    }
  }

  class Chunk {
    /** The layout (the newest interface keeps its own copy). */
    const info: ArchetypeInfo
    /** data[c, i]: slot i of column c. */
    const data: array2<Value>
    var count: nat
    /** The occupied slots as rows, slot 0 first. */
    ghost var rows: seq<Row>

    ghost predicate Valid()
      reads this, data
    {
      |info.componentInfo| >= 1 &&
      data.Length0 == |info.componentInfo| && data.Length1 == info.entitiesPerChunk &&
      count == |rows| <= info.entitiesPerChunk &&
      (forall i | 0 <= i < |rows| :: RowFits(info, rows[i])) &&
      (forall c, i | 0 <= c < data.Length0 && 0 <= i < |rows| :: data[c, i] == rows[i][c])
    }

    /** The constructor: an empty chunk of entitiesPerChunk slots. */
    constructor (info: ArchetypeInfo)
      requires |info.componentInfo| >= 1
      ensures Valid() && this.info == info && rows == [] && fresh(data)
    {
      this.info := info;
      data := new Value[|info.componentInfo|, info.entitiesPerChunk];
      count := 0;
      rows := [];
    }

    /** Count(): the number of occupied slots. */
    function Count(): (r: nat)
      reads this, data
      requires Valid()
      ensures r == |rows|
    {
      count
    }

    /** Empty(): no slot is occupied. */
    function Empty(): (r: bool)
      reads this, data
      requires Valid()
      ensures r <==> rows == []
    {
      count == 0
    }

    /** Full(): every slot is occupied. */
    function Full(): (r: bool)
      reads this, data
      requires Valid()
      ensures r <==> |rows| == info.entitiesPerChunk
    {
      count == info.entitiesPerChunk
    }

    /** Writes row into slot i, column by column; no other slot changes. */
    method WriteRow(i: nat, row: Row)
      requires data.Length1 > i && |row| == data.Length0
      modifies data
      ensures forall c | 0 <= c < data.Length0 :: data[c, i] == row[c]
      ensures forall c, k | 0 <= c < data.Length0 && 0 <= k < data.Length1 && k != i :: data[c, k] == old(data[c, k])
    {
      var c := 0;
      while c < |row|
        invariant 0 <= c <= |row|
        invariant forall d, k | 0 <= d < data.Length0 && 0 <= k < data.Length1 ::
          data[d, k] == if k == i && d < c then row[d] else old(data[d, k])
      {
        data[c, i] := row[c];
        c := c + 1;
      }
    }

    /** Appends a row that fits the layout. */
    method Push(row: Row) returns (slot: nat)
      requires Valid() && count < info.entitiesPerChunk && RowFits(info, row)
      modifies this, data
      ensures Valid() && slot == old(|rows|) && rows == old(rows) + [row]
    {
      WriteRow(count, row);
      rows := rows + [row];
      count := count + 1;
      slot := count - 1;
    }

    /**
     * CreateEntity(e): asserts a free slot, writes e and every component's
     * default into slot count, and returns that slot; earlier slots are
     * unchanged.
     */
    method CreateEntity(e: Entity, table: seq<ComponentInfo>) returns (slot: nat)
      requires Valid() && count < info.entitiesPerChunk && MatchesTable(info, table)
      modifies this, data
      ensures Valid() && slot == old(|rows|) && rows == old(rows) + [DefaultRow(info, table, e)]
    {
      slot := Push(DefaultRow(info, table, e));
    }

    /** CreateEntity(e, data): like CreateEntity(e), with the components cut from data in column order. */
    method CreateEntityWithData(e: Entity, payload: seq<byte>) returns (slot: nat)
      requires Valid() && count < info.entitiesPerChunk && |payload| == Sum(PayloadSizes(info))
      modifies this, data
      ensures Valid() && slot == old(|rows|) && rows == old(rows) + [DataRow(info, e, payload)]
    {
      slot := Push(DataRow(info, e, payload));
    }

    /**
     * CopyEntity(into, from, fromIndex): every column of slot into takes
     * the value of from's slot fromIndex; from may be this chunk. No count
     * changes.
     */
    method CopyEntity(into: nat, from: Chunk, fromIndex: nat)
      requires Valid() && from.Valid() && from.info == info
      requires into < count && fromIndex < from.count
      requires from == this || from.data != data
      modifies this, data
      ensures Valid() && count == old(count) && rows == old(rows)[into := old(from.rows[fromIndex])]
      ensures from != this ==> from.rows == old(from.rows)
    {
      ghost var row := from.rows[fromIndex];
      var c := 0;
      while c < data.Length0
        invariant 0 <= c <= data.Length0
        invariant forall d, k | 0 <= d < data.Length0 && 0 <= k < data.Length1 ::
          data[d, k] == if k == into && d < c then row[d] else old(data[d, k])
        invariant count == old(count) && rows == old(rows) && from.rows == old(from.rows)
        invariant forall d | 0 <= d < from.data.Length0 :: from.data[d, fromIndex] == row[d]
      {
        data[c, into] := from.data[c, fromIndex];
        c := c + 1;
      }
      rows := rows[into := row];
    }

    /** GetEntity(index): the Entity handle stored in an occupied slot. */
    method GetEntity(index: nat) returns (e: Entity)
      requires Valid() && index < count
      ensures e == EntityOf(rows[index])
    {
      assert ValueFits(info, 0, rows[index][0]);
      e := data[0, index].entity;
    }

    /** RemoveLast(): asserts an occupied slot and forgets the last one. */
    method RemoveLast()
      requires Valid() && count > 0
      modifies this
      ensures Valid() && rows == old(rows)[..|old(rows)| - 1]
    {
      count := count - 1;
      rows := rows[..count];
    }

    /**
     * GetComponent(column, index): the slot's value in that column, at byte
     * address start + index * size.
     */
    method GetComponent(column: nat, index: nat) returns (v: Value, address: nat)
      requires Valid() && column < |info.componentInfo| && index < count
      ensures v == rows[index][column]
      ensures address == info.componentInfo[column].start + index * info.componentInfo[column].size
    {
      v := data[column, index];
      address := ComponentAddress(info, column, index);
    }

    /** GetComponent(type, index): the same slot, found through the column of that type. */
    method GetComponentOfType(t: ComponentType, index: nat) returns (v: Value, address: nat)
      requires Valid() && HasColumn(info, t) && index < count
      ensures Some(v) == ValueOfType(info, rows[index], t)
      ensures address == ComponentAddress(info, GetComponentIndex(info, t), index)
    {
      var column := GetComponentIndex(info, t);
      v, address := GetComponent(column, index);
    }

    /**
     * GetComponent<optional<U>>(column, index): absent when the column is
     * absent, otherwise that column's slot.
     */
    method GetOptionalComponent(column: Option<nat>, index: nat) returns (v: Option<Value>)
      requires Valid() && index < count
      requires column.Some? ==> column.value < |info.componentInfo|
      ensures v.None? <==> column.None?
      ensures column.Some? ==> v == Some(rows[index][column.value])
    {
      if column.None? {
        v := None;
      } else {
        var value, _ := GetComponent(column.value, index);
        v := Some(value);
      }
    }

    /** A write through the reference GetComponent returns. */
    method SetComponent(column: nat, index: nat, v: Value)
      requires Valid() && index < count && ValueFits(info, column, v)
      modifies this, data
      ensures Valid() && rows == old(rows)[index := old(rows)[index][column := v]]
    {
      data[column, index] := v;
      rows := rows[index := rows[index][column := v]];
    }

    /**
     * AddEntityAddComponent(newType, from, fromIndex, data): appends the
     * source row with newType's column taken from fill.
     */
    method AddEntityAddComponent(newType: ComponentType, from: Chunk, fromIndex: nat, fill: seq<byte>) returns (slot: nat)
      requires Valid() && from.Valid() && count < info.entitiesPerChunk && fromIndex < from.count
      requires from != this && from.data != data
      requires HasColumn(info, newType) && !HasColumn(from.info, newType)
      requires RowFits(info, TransferRow(info, from.info, from.rows[fromIndex], fill))
      modifies this, data
      ensures Valid() && slot == old(|rows|)
      ensures rows == old(rows) + [TransferRow(info, from.info, old(from.rows[fromIndex]), fill)]
      ensures from.rows == old(from.rows) && from.count == old(from.count)
    {
      slot := Transfer(from, fromIndex, fill);
    }

    /**
     * AddEntityRemoveComponent(removeType, from, fromIndex): appends the
     * source row without removeType's column.
     */
    method AddEntityRemoveComponent(removeType: ComponentType, from: Chunk, fromIndex: nat) returns (slot: nat)
      requires Valid() && from.Valid() && count < info.entitiesPerChunk && fromIndex < from.count
      requires from != this && from.data != data
      requires !HasColumn(info, removeType) && HasColumn(from.info, removeType)
      requires RowFits(info, TransferRow(info, from.info, from.rows[fromIndex], []))
      modifies this, data
      ensures Valid() && slot == old(|rows|)
      ensures rows == old(rows) + [TransferRow(info, from.info, old(from.rows[fromIndex]), [])]
      ensures from.rows == old(from.rows) && from.count == old(from.count)
    {
      slot := Transfer(from, fromIndex, []);
    }

    /** Appends the row moved from another chunk: each column copied from the source column of the same type. */
    method Transfer(from: Chunk, fromIndex: nat, fill: seq<byte>) returns (slot: nat)
      requires Valid() && from.Valid() && count < info.entitiesPerChunk && fromIndex < from.count
      requires from != this && from.data != data
      requires RowFits(info, TransferRow(info, from.info, from.rows[fromIndex], fill))
      modifies this, data
      ensures Valid() && slot == old(|rows|)
      ensures rows == old(rows) + [TransferRow(info, from.info, old(from.rows[fromIndex]), fill)]
      ensures from.rows == old(from.rows) && from.count == old(from.count)
    {
      ghost var row := TransferRow(info, from.info, from.rows[fromIndex], fill);
      var c := 0;
      while c < data.Length0
        invariant 0 <= c <= data.Length0 && count == old(count) && rows == old(rows)
        invariant forall d, k | 0 <= d < data.Length0 && 0 <= k < data.Length1 ::
          data[d, k] == if k == count && d < c then row[d] else old(data[d, k])
      {
        var j := ComponentIndex(from.info, info.componentInfo[c].componentType);
        if j.Some? {
          data[c, count] := from.data[j.value, fromIndex];
        } else {
          data[c, count] := ComponentValue(fill);
        }
        c := c + 1;
      }
      rows := rows + [row];
      count := count + 1;
      slot := count - 1;
    }

    /** begin<T>(): an iterator at slot 0 of T's column, the address where that column starts. */
    function Begin(t: ComponentType): (it: ColumnIterator)
      reads this
      requires HasColumn(info, t)
      ensures it.column == GetComponentIndex(info, t) && it.slot == 0
      ensures IteratorAddress(info, it) == info.componentInfo[GetComponentIndex(info, t)].start
    {
      ColumnIterator(GetComponentIndex(info, t), 0)
    }

    /**
     * end<T>(): an iterator just past the last occupied slot of T's column,
     * the column's start plus one element size per occupied slot.
     */
    function End(t: ComponentType): (it: ColumnIterator)
      reads this, data
      requires Valid() && HasColumn(info, t)
      ensures it.column == GetComponentIndex(info, t) && it.slot == |rows|
      ensures IteratorAddress(info, it) == info.componentInfo[it.column].start + info.componentInfo[it.column].size * |rows|
    {
      ColumnIterator(GetComponentIndex(info, t), count)
    }

    /**
     * Writes values[0], values[1], ... through T's column iterator from
     * begin<T>() until it equals end<T>(): slot k of that column takes
     * values[k] and every other slot of every column keeps its value.
     */
    method WriteColumn(t: ComponentType, values: seq<Value>)
      requires Valid() && HasColumn(info, t) && |values| == count
      requires forall k | 0 <= k < |values| :: ValueFits(info, GetComponentIndex(info, t), values[k])
      modifies this, data
      ensures Valid() && count == old(count)
      ensures forall k | 0 <= k < |rows| :: rows[k] == old(rows[k])[GetComponentIndex(info, t) := values[k]]
    {
      var it, end := Begin(t), End(t);
      var column := it.column;
      while it != end
        invariant it.column == column && it.slot <= count && count == old(count) && rows == old(rows)
        invariant forall d, k | 0 <= d < data.Length0 && 0 <= k < data.Length1 ::
          data[d, k] == if d == column && k < it.slot then values[k] else old(data[d, k])
        decreases count - it.slot
      {
        data[it.column, it.slot] := values[it.slot];
        it := it.Next();
      }
      ghost var before := rows;
      rows := seq(|before|, k requires 0 <= k < |before| => before[k][column := values[k]]);
      forall i | 0 <= i < |rows| ensures RowFits(info, rows[i]) {
        assert RowFits(info, before[i]);
        forall c | 0 <= c < |rows[i]| ensures ValueFits(info, c, rows[i][c]) {
          assert c != column ==> rows[i][c] == before[i][c];
        }
      }
    }
  }

  /** k increments of a column iterator: k slots along the same column. */
  function Advance(it: ColumnIterator, k: nat): (r: ColumnIterator)
    ensures r.column == it.column && r.slot == it.slot + k
  {
    if k == 0 then it else Advance(it, k - 1).Next()
  }

  /**
   * Advancing begin<T>() k times reaches end<T>() exactly when k is the
   * number of occupied slots; for a column of non-zero size the same holds
   * of the addresses operator== compares.
   */
  lemma BeginEndDistance(c: Chunk, t: ComponentType, k: nat)
    requires c.Valid() && HasColumn(c.info, t)
    ensures Advance(c.Begin(t), k) == c.End(t) <==> k == |c.rows|
    ensures c.info.componentInfo[GetComponentIndex(c.info, t)].size > 0 ==>
      (IteratorAddress(c.info, Advance(c.Begin(t), k)) == IteratorAddress(c.info, c.End(t)) <==> k == |c.rows|)
  {
    var a, b := Advance(c.Begin(t), k), c.End(t);
    if c.info.componentInfo[a.column].size > 0 {
      IteratorEqualityIsSlotEquality(c.info, a, b);
    }
  }
}

=== FILE: command_queue.dfy ===
/**
 * The command queue: engine calls recorded now and replayed later, in the
 * order they were made. Each call becomes one Command; the calls that
 * carry data (the component values of a create, the Entity of a destroy)
 * append it to a growable byte buffer and remember where it starts.
 */
module CommandQueues {
  import opened Wrappers
  import opened Core
  import opened Components
  import opened Layout
  import opened Chunks
  import opened EngineModel
  import opened EngineOps
  import Engines

  /** CommandQueue::CommandType. */
  datatype CommandType = CreateEntityCommand | CreateEntityFromComponentsCommand | DestroyEntityCommand

  /** CommandQueue::Command: what to do, the list to create with, and where its payload starts in the buffer. */
  datatype Command = Command(kind: CommandType, components: ComponentList, dataIndex: nat)

  /** A call made on the queue with its arguments. */
  datatype Request =
    | CreateRequest(list: ComponentList)
    | CreateFromComponentsRequest(items: seq<ComponentItem>)
    | DestroyRequest(entity: Entity)

  /** CreateEntityFromComponents<T...> names each component type once. */
  predicate Recordable(r: Request)
  {
    r.CreateFromComponentsRequest? ==> Distinct(ItemTypes(r.items))
  }

  predicate AllRecordable(rs: seq<Request>)
  {
    forall j | 0 <= j < |rs| :: Recordable(rs[j])
  }

  /**
   * What a call leaves in the queue: the command type, the list, and the
   * bytes it appends to the buffer.
   */
  datatype Record = Record(kind: CommandType, components: ComponentList, payload: seq<byte>)

  /**
   * The record of a call: CreateEntity appends nothing; CreateEntityFromComponents
   * the component values in ascending type-id order; DestroyEntity the Entity's bytes.
   */
  function RecordOf(r: Request): Record
    requires Recordable(r)
  {
    match r
    case CreateRequest(list) => Record(CreateEntityCommand, list, [])
    case CreateFromComponentsRequest(items) =>
      Record(CreateEntityFromComponentsCommand, Create(ItemTypes(items)), CombineBytesById(items))
    case DestroyRequest(e) => Record(DestroyEntityCommand, EmptyList(), EncodeEntity(e))
  }

  function Records(rs: seq<Request>): (r: seq<Record>)
    requires AllRecordable(rs)
    ensures |r| == |rs|
  {
    if rs == [] then [] else [RecordOf(rs[0])] + Records(rs[1..])
  }

  function Payloads(recs: seq<Record>): (r: seq<seq<byte>>)
    ensures |r| == |recs| && forall j | 0 <= j < |recs| :: r[j] == recs[j].payload
  {
    seq(|recs|, j requires 0 <= j < |recs| => recs[j].payload)
  }

  /** The command a record makes while the data index is at: CreateEntity records offset 0. */
  function CommandFor(rec: Record, at: nat): Command
  {
    Command(rec.kind, rec.components, if rec.kind == CreateEntityCommand then 0 else at)
  }

  /** The commands the records make, in call order, when the data index starts at base. */
  function Commands(recs: seq<Record>, base: nat): (r: seq<Command>)
    ensures |r| == |recs|
  {
    if recs == [] then [] else [CommandFor(recs[0], base)] + Commands(recs[1..], base + |recs[0].payload|)
  }

  /*
   * Where the payloads lie.
   */

  lemma {:induction false} ConcatAppend(a: seq<seq<byte>>, b: seq<seq<byte>>)
    ensures Concat(a + b) == Concat(a) + Concat(b)
  {
    if a == [] {
      assert a + b == b;
    } else {
      assert (a + b)[1..] == a[1..] + b && (a + b)[0] == a[0];
      ConcatAppend(a[1..], b);
    }
  }

  lemma AllRecordableSnoc(rs: seq<Request>, r: Request)
    requires AllRecordable(rs) && Recordable(r)
    ensures AllRecordable(rs + [r])
  {
    assert forall j | 0 <= j < |rs| :: (rs + [r])[j] == rs[j];
  }

  lemma AllRecordableTail(rs: seq<Request>)
    requires AllRecordable(rs) && rs != []
    ensures Recordable(rs[0]) && AllRecordable(rs[1..])
  {
    assert forall j | 0 <= j < |rs| - 1 :: rs[1..][j] == rs[j + 1];
  }

  /** The record of the i-th call is the i-th record. */
  lemma {:induction false} RecordsAt(rs: seq<Request>, i: nat)
    requires AllRecordable(rs) && i < |rs|
    ensures Recordable(rs[i]) && Records(rs)[i] == RecordOf(rs[i])
    decreases i
  {
    if i > 0 {
      assert AllRecordable(rs[1..]) by {
        assert forall j | 0 <= j < |rs| - 1 :: rs[1..][j] == rs[j + 1];
      }
      RecordsAt(rs[1..], i - 1);
    }
  }

  lemma RecordsSnoc(rs: seq<Request>, r: Request)
    requires AllRecordable(rs) && Recordable(r)
    ensures AllRecordable(rs + [r]) && Records(rs + [r]) == Records(rs) + [RecordOf(r)]
  {
    AllRecordableSnoc(rs, r);
    var got, want := Records(rs + [r]), Records(rs) + [RecordOf(r)];
    forall i | 0 <= i < |got|
      ensures got[i] == want[i]
    {
      RecordsAt(rs + [r], i);
      if i < |rs| {
        RecordsAt(rs, i);
      }
    }
    assert got == want;
  }

  /** Recording a + b makes a's commands, then b's with the data index advanced past a's payloads. */
  lemma {:induction false} CommandsAppend(a: seq<Record>, b: seq<Record>, base: nat)
    ensures Commands(a + b, base) == Commands(a, base) + Commands(b, base + |Concat(Payloads(a))|)
    decreases |a|
  {
    if a == [] {
      assert a + b == b && Payloads(a) == [];
    } else {
      var p := a[0].payload;
      assert (a + b)[1..] == a[1..] + b && (a + b)[0] == a[0];
      assert Payloads(a) == [p] + Payloads(a[1..]);
      CommandsAppend(a[1..], b, base + |p|);
    }
  }

  /** One more call adds its command, at the offset past the earlier payloads, and its payload. */
  lemma RecordedSnoc(rs: seq<Request>, r: Request)
    requires AllRecordable(rs) && Recordable(r)
    ensures AllRecordable(rs + [r])
    ensures var before := Concat(Payloads(Records(rs)));
            Commands(Records(rs + [r]), 0) == Commands(Records(rs), 0) + [CommandFor(RecordOf(r), |before|)] &&
            Concat(Payloads(Records(rs + [r]))) == before + RecordOf(r).payload
  {
    RecordsSnoc(rs, r);
    CommandsSnoc(Records(rs), RecordOf(r));
    PayloadsSnoc(Records(rs), RecordOf(r));
  }

  /** The queue's state once call r is recorded after the calls rs is the state rs + [r] describe. */
  lemma RecordedState(rs: seq<Request>, r: Request, cmds: seq<Command>, index: nat, written: seq<byte>)
    requires AllRecordable(rs) && Recordable(r)
    requires var before := Concat(Payloads(Records(rs)));
             cmds == Commands(Records(rs), 0) + [CommandFor(RecordOf(r), |before|)] &&
             index == |before| + |RecordOf(r).payload| && written == before + RecordOf(r).payload
    ensures AllRecordable(rs + [r]) && cmds == Commands(Records(rs + [r]), 0)
    ensures index == |Concat(Payloads(Records(rs + [r])))| && written == Concat(Payloads(Records(rs + [r])))
  {
    RecordedSnoc(rs, r);
  }

  lemma CommandsSnoc(recs: seq<Record>, rec: Record)
    ensures Commands(recs + [rec], 0) == Commands(recs, 0) + [CommandFor(rec, |Concat(Payloads(recs))|)]
  {
    CommandsAppend(recs, [rec], 0);
    assert Commands([rec], |Concat(Payloads(recs))|) == [CommandFor(rec, |Concat(Payloads(recs))|)] by {
      assert [rec][1..] == [];
    }
  }

  lemma PayloadsSnoc(recs: seq<Record>, rec: Record)
    ensures Concat(Payloads(recs + [rec])) == Concat(Payloads(recs)) + rec.payload
  {
    assert Payloads(recs + [rec]) == Payloads(recs) + [rec.payload];
    ConcatSnoc(Payloads(recs), rec.payload);
  }

  /**
   * Every call's payload lies in the buffer at the offset its command
   * records (the bytes before it are the earlier payloads), and reads back.
   */
  lemma RecordedInPlace(recs: seq<Record>, j: nat)
    requires j < |recs|
    ensures var o := |Concat(Payloads(recs[..j]))|;
            var p := recs[j].payload;
            Commands(recs, 0)[j] == CommandFor(recs[j], o) &&
            o + |p| <= |Concat(Payloads(recs))| && Concat(Payloads(recs))[o..o + |p|] == p
  {
    var before, after := recs[..j], recs[j..];
    var o := |Concat(Payloads(before))|;
    assert recs == before + after;
    CommandsAppend(before, after, 0);
    assert Commands(after, o)[0] == CommandFor(recs[j], o);
    PayloadAfter(recs, j);
  }

  /** The bytes of all payloads are the earlier ones, then the j-th, then the later ones. */
  lemma PayloadAfter(recs: seq<Record>, j: nat)
    requires j < |recs|
    ensures Concat(Payloads(recs)) == Concat(Payloads(recs[..j])) + recs[j].payload + Concat(Payloads(recs[j + 1..]))
  {
    var before, after := recs[..j], recs[j..];
    assert recs == before + after;
    assert Payloads(recs) == Payloads(before) + Payloads(after);
    ConcatAppend(Payloads(before), Payloads(after));
    assert after[1..] == recs[j + 1..];
    assert Payloads(after) == [recs[j].payload] + Payloads(recs[j + 1..]);
  }

  /** Payload offsets increase in call order and the payload regions do not overlap. */
  lemma OffsetsIncrease(recs: seq<Record>, i: nat, j: nat)
    requires i < j <= |recs|
    ensures |Concat(Payloads(recs[..i]))| + |recs[i].payload| <= |Concat(Payloads(recs[..j]))|
  {
    var upto := recs[..j];
    var head := recs[..i] + [recs[i]];
    assert upto == head + upto[i + 1..];
    assert Payloads(upto) == Payloads(head) + Payloads(upto[i + 1..]);
    assert Payloads(head) == Payloads(recs[..i]) + [recs[i].payload];
    ConcatAppend(Payloads(head), Payloads(upto[i + 1..]));
    ConcatSnoc(Payloads(recs[..i]), recs[i].payload);
  }

  /*
   * Replaying against the engine.
   */

  /** The size in bytes of the payload CreateEntity(components, data) reads. */
  function DataSize(cfg: Config, list: ComponentList): nat
    requires Registered(list, cfg.table)
  {
    Sum(PayloadSizes(cfg.LayoutFor(list)))
  }

  /**
   * One command of Execute against the engine, reading its payload from
   * the buffer; None where the engine call's own precondition fails (an
   * engine that is not consistent, a list that does not fit, a payload
   * past the buffer, a stale handle).
   */
  ghost function Step(cfg: Config, s: EngineState, c: Command, bytes: seq<byte>): Option<EngineState>
  {
    if !Consistent(cfg, s) then None
    else match c.kind
      case CreateEntityCommand =>
        if cfg.Fits(c.components) then Some(CreateEntity(cfg, s, c.components).0) else None
      case CreateEntityFromComponentsCommand =>
        if cfg.Fits(c.components) && c.dataIndex + DataSize(cfg, c.components) <= |bytes| then
          Some(CreateEntityWithData(cfg, s, c.components, bytes[c.dataIndex..c.dataIndex + DataSize(cfg, c.components)]).0)
        else None
      case DestroyEntityCommand =>
        if c.dataIndex + EntityByteSize <= |bytes| &&
           ValidHandle(s, DecodeEntity(bytes[c.dataIndex..c.dataIndex + EntityByteSize])) then
          Some(DeleteEntity(cfg, s, DecodeEntity(bytes[c.dataIndex..c.dataIndex + EntityByteSize])))
        else None
  }

  /** CreateEntity keeps the engine consistent. */
  lemma CreateKeeps(cfg: Config, s: EngineState, list: ComponentList)
    requires Consistent(cfg, s) && cfg.Fits(list)
    ensures Consistent(cfg, CreateEntity(cfg, s, list).0)
  {
    CreateEntitySpec(cfg, s, list);
  }

  /** CreateEntity(components, data) keeps the engine consistent. */
  lemma CreateWithDataKeeps(cfg: Config, s: EngineState, list: ComponentList, data: seq<byte>)
    requires Consistent(cfg, s) && cfg.Fits(list) && |data| == DataSize(cfg, list)
    ensures Consistent(cfg, CreateEntityWithData(cfg, s, list, data).0)
  {
    CreateEntityWithDataSpec(cfg, s, list, data);
  }

  /** DeleteEntity of a live handle keeps the engine consistent. */
  lemma DeleteKeeps(cfg: Config, s: EngineState, e: Entity)
    requires Consistent(cfg, s) && ValidHandle(s, e)
    ensures Consistent(cfg, DeleteEntity(cfg, s, e))
  {
    DeleteEntitySpec(cfg, s, e);
  }

  /** A command runs only on a consistent engine and leaves it consistent. */
  lemma StepConsistent(cfg: Config, s: EngineState, c: Command, bytes: seq<byte>)
    ensures Step(cfg, s, c, bytes).Some? ==> Consistent(cfg, s) && Consistent(cfg, Step(cfg, s, c, bytes).value)
  {
    if Consistent(cfg, s) {
      match c.kind
      case CreateEntityCommand =>
        if cfg.Fits(c.components) {
          assert Step(cfg, s, c, bytes) == Some(CreateEntity(cfg, s, c.components).0);
          CreateKeeps(cfg, s, c.components);
        }
      case CreateEntityFromComponentsCommand =>
        if cfg.Fits(c.components) && c.dataIndex + DataSize(cfg, c.components) <= |bytes| {
          var data := bytes[c.dataIndex..c.dataIndex + DataSize(cfg, c.components)];
          assert Step(cfg, s, c, bytes) == Some(CreateEntityWithData(cfg, s, c.components, data).0);
          CreateWithDataKeeps(cfg, s, c.components, data);
        }
      case DestroyEntityCommand =>
        if c.dataIndex + EntityByteSize <= |bytes| {
          var e := DecodeEntity(bytes[c.dataIndex..c.dataIndex + EntityByteSize]);
          if ValidHandle(s, e) {
            assert Step(cfg, s, c, bytes) == Some(DeleteEntity(cfg, s, e));
            DeleteKeeps(cfg, s, e);
          }
        }
    }
  }

  /** Execute's loop: the commands in order, stopping at the first that cannot run. */
  ghost function Replay(cfg: Config, s: EngineState, cmds: seq<Command>, bytes: seq<byte>): Option<EngineState>
    decreases |cmds|
  {
    if cmds == [] then Some(s)
    else match Step(cfg, s, cmds[0], bytes)
      case None => None
      case Some(t) => Replay(cfg, t, cmds[1..], bytes)
  }

  /** The engine call a queued call stands for, made directly. */
  ghost function Apply(cfg: Config, s: EngineState, r: Request): Option<EngineState>
  {
    if !Consistent(cfg, s) then None
    else match r
      case CreateRequest(list) =>
        if cfg.Fits(list) then Some(CreateEntity(cfg, s, list).0) else None
      case CreateFromComponentsRequest(items) =>
        if ItemsFit(cfg, items) then Some(EngineOps.CreateEntityFromComponents(cfg, s, items).0) else None
      case DestroyRequest(e) =>
        if ValidHandle(s, e) then Some(DeleteEntity(cfg, s, e)) else None
  }

  /** CreateEntityFromComponents keeps the engine consistent. */
  lemma CreateFromKeeps(cfg: Config, s: EngineState, items: seq<ComponentItem>)
    requires Consistent(cfg, s) && ItemsFit(cfg, items)
    ensures Consistent(cfg, EngineOps.CreateEntityFromComponents(cfg, s, items).0)
  {
    CreateFromComponentsSpec(cfg, s, items);
  }

  /** A call is made only on a consistent engine and leaves it consistent. */
  lemma ApplyConsistent(cfg: Config, s: EngineState, r: Request)
    ensures Apply(cfg, s, r).Some? ==> Consistent(cfg, s) && Consistent(cfg, Apply(cfg, s, r).value)
  {
    if Consistent(cfg, s) {
      match r
      case CreateRequest(list) =>
        if cfg.Fits(list) {
          assert Apply(cfg, s, r) == Some(CreateEntity(cfg, s, list).0);
          CreateKeeps(cfg, s, list);
        }
      case CreateFromComponentsRequest(items) =>
        if ItemsFit(cfg, items) {
          assert Apply(cfg, s, r) == Some(EngineOps.CreateEntityFromComponents(cfg, s, items).0);
          CreateFromKeeps(cfg, s, items);
        }
      case DestroyRequest(e) =>
        if ValidHandle(s, e) {
          assert Apply(cfg, s, r) == Some(DeleteEntity(cfg, s, e));
          DeleteKeeps(cfg, s, e);
        }
    }
  }

  /** The engine calls made directly, one after another; None from the first that cannot be made. */
  ghost function ApplyAll(cfg: Config, s: EngineState, rs: seq<Request>): Option<EngineState>
    decreases |rs|
  {
    if rs == [] then Some(s)
    else match Apply(cfg, s, rs[0])
      case None => None
      case Some(t) => ApplyAll(cfg, t, rs[1..])
  }

  /** A run of calls that can all be made leaves a consistent engine consistent. */
  lemma {:induction false} ApplyAllConsistent(cfg: Config, s: EngineState, rs: seq<Request>)
    requires Consistent(cfg, s)
    ensures ApplyAll(cfg, s, rs).Some? ==> Consistent(cfg, ApplyAll(cfg, s, rs).value)
    decreases |rs|
  {
    if rs != [] {
      ApplyConsistent(cfg, s, rs[0]);
      match Apply(cfg, s, rs[0])
      case None =>
      case Some(t) => ApplyAllConsistent(cfg, t, rs[1..]);
    }
  }

  /**
   * What the C++ types guarantee of the calls: component values have their
   * registered sizes, and an Entity's fields fit in size_t.
   */
  predicate Admissible(cfg: Config, rs: seq<Request>)
  {
    forall j | 0 <= j < |rs| :: AdmissibleRequest(cfg, rs[j])
  }

  /**
   * What replay needs of one call: the values of a create carry their
   * registered sizes, a handle to destroy fits in the two words it is
   * stored as.
   */
  predicate AdmissibleRequest(cfg: Config, r: Request)
  {
    (r.CreateFromComponentsRequest? ==> ItemsSized(cfg, r.items)) &&
    (r.DestroyRequest? ==> r.entity.id < WordModulus && r.entity.index < WordModulus)
  }

  lemma StepIsDirect(cfg: Config, s: EngineState, r: Request, rec: Record, at: nat, bytes: seq<byte>)
    requires Recordable(r) && AdmissibleRequest(cfg, r) && rec == RecordOf(r)
    requires at + |rec.payload| <= |bytes| && bytes[at..at + |rec.payload|] == rec.payload
    ensures Step(cfg, s, CommandFor(rec, at), bytes) == Apply(cfg, s, r)
  {
    if r.CreateRequest? {
      PlainRecordIsDirect(cfg, s, r, rec, at, bytes);
    } else if r.CreateFromComponentsRequest? {
      CreateRecordIsDirect(cfg, s, r, rec, at, bytes);
    } else {
      DestroyRecordIsDirect(cfg, s, r, rec, at, bytes);
    }
  }

  lemma PlainRecordIsDirect(cfg: Config, s: EngineState, r: Request, rec: Record, at: nat, bytes: seq<byte>)
    requires r.CreateRequest? && rec == RecordOf(r)
    ensures Step(cfg, s, CommandFor(rec, at), bytes) == Apply(cfg, s, r)
  {
    assert CommandFor(rec, at) == Command(CreateEntityCommand, r.list, 0);
    if !Consistent(cfg, s) {
      NothingRunsOnInconsistent(cfg, s, CommandFor(rec, at), r, bytes);
    } else {
      PlainStepIsDirect(cfg, s, r.list, bytes);
    }
  }

  lemma CreateRecordIsDirect(cfg: Config, s: EngineState, r: Request, rec: Record, at: nat, bytes: seq<byte>)
    requires r.CreateFromComponentsRequest? && Recordable(r) && AdmissibleRequest(cfg, r) && rec == RecordOf(r)
    requires at + |rec.payload| <= |bytes| && bytes[at..at + |rec.payload|] == rec.payload
    ensures Step(cfg, s, CommandFor(rec, at), bytes) == Apply(cfg, s, r)
  {
    if !Consistent(cfg, s) {
      NothingRunsOnInconsistent(cfg, s, CommandFor(rec, at), r, bytes);
    } else {
      CreateStepIsDirect(cfg, s, r, rec, at, bytes);
    }
  }

  lemma CreateRecordFields(r: Request, rec: Record, at: nat)
    requires r.CreateFromComponentsRequest? && Recordable(r) && rec == RecordOf(r)
    ensures r == CreateFromComponentsRequest(r.items) && Distinct(ItemTypes(r.items))
    ensures rec.components == Create(ItemTypes(r.items)) && rec.payload == CombineBytesById(r.items)
    ensures CommandFor(rec, at) == Command(CreateEntityFromComponentsCommand, rec.components, at)
  {
  }

  lemma DestroyRecordIsDirect(cfg: Config, s: EngineState, r: Request, rec: Record, at: nat, bytes: seq<byte>)
    requires r.DestroyRequest? && AdmissibleRequest(cfg, r) && rec == RecordOf(r)
    requires at + |rec.payload| <= |bytes| && bytes[at..at + |rec.payload|] == rec.payload
    ensures Step(cfg, s, CommandFor(rec, at), bytes) == Apply(cfg, s, r)
  {
    assert CommandFor(rec, at) == Command(DestroyEntityCommand, EmptyList(), at);
    if !Consistent(cfg, s) {
      NothingRunsOnInconsistent(cfg, s, CommandFor(rec, at), r, bytes);
    } else {
      DestroyStepIsDirect(cfg, s, r.entity, rec.payload, at, bytes);
    }
  }

  lemma NothingRunsOnInconsistent(cfg: Config, s: EngineState, c: Command, r: Request, bytes: seq<byte>)
    requires !Consistent(cfg, s)
    ensures Step(cfg, s, c, bytes) == None && Apply(cfg, s, r) == None
  {
  }

  lemma PlainStepIsDirect(cfg: Config, s: EngineState, list: ComponentList, bytes: seq<byte>)
    requires Consistent(cfg, s)
    ensures Step(cfg, s, Command(CreateEntityCommand, list, 0), bytes) == Apply(cfg, s, CreateRequest(list))
  {
  }

  /** A create-with-data command reads the DataSize bytes at its offset. */
  lemma CreateStepReads(cfg: Config, s: EngineState, c: Command, list: ComponentList, p: seq<byte>, at: nat, bytes: seq<byte>)
    requires c == Command(CreateEntityFromComponentsCommand, list, at)
    requires Consistent(cfg, s) && Registered(list, cfg.table) && |p| == DataSize(cfg, list)
    requires at + |p| <= |bytes| && bytes[at..at + |p|] == p
    ensures Step(cfg, s, c, bytes) ==
            if cfg.Fits(list) then Some(CreateEntityWithData(cfg, s, list, p).0) else None
  {
  }

  /** CreateEntityFromComponents made directly: CreateEntity(list, data) with the values in type-id order. */
  lemma CreateApplies(cfg: Config, s: EngineState, items: seq<ComponentItem>, list: ComponentList, p: seq<byte>)
    requires Consistent(cfg, s) && ItemsSized(cfg, items)
    requires list == Create(ItemTypes(items)) && p == CombineBytesById(items)
    ensures Registered(list, cfg.table) && |p| == DataSize(cfg, list)
    ensures Apply(cfg, s, CreateFromComponentsRequest(items)) ==
            if cfg.Fits(list) then Some(CreateEntityWithData(cfg, s, list, p).0) else None
  {
    CombinedLength(cfg, items);
    ApplyCreateFrom(cfg, s, items);
    if cfg.Fits(list) {
      FromComponentsIsWithData(cfg, s, items, list, p);
    }
  }

  lemma ApplyCreateFrom(cfg: Config, s: EngineState, items: seq<ComponentItem>)
    requires Consistent(cfg, s)
    ensures Apply(cfg, s, CreateFromComponentsRequest(items)) ==
            if ItemsFit(cfg, items) then Some(EngineOps.CreateEntityFromComponents(cfg, s, items).0) else None
  {
  }

  lemma FromComponentsIsWithData(cfg: Config, s: EngineState, items: seq<ComponentItem>, list: ComponentList, p: seq<byte>)
    requires Consistent(cfg, s) && ItemsSized(cfg, items) && cfg.Fits(list)
    requires list == Create(ItemTypes(items)) && p == CombineBytesById(items)
    ensures ItemsFit(cfg, items) && Registered(list, cfg.table) && |p| == DataSize(cfg, list)
    ensures EngineOps.CreateEntityFromComponents(cfg, s, items) == CreateEntityWithData(cfg, s, list, p)
  {
    CombinedLength(cfg, items);
  }

  lemma CreateStepIsDirect(cfg: Config, s: EngineState, r: Request, rec: Record, at: nat, bytes: seq<byte>)
    requires Consistent(cfg, s)
    requires r.CreateFromComponentsRequest? && Recordable(r) && AdmissibleRequest(cfg, r) && rec == RecordOf(r)
    requires at + |rec.payload| <= |bytes| && bytes[at..at + |rec.payload|] == rec.payload
    ensures Step(cfg, s, CommandFor(rec, at), bytes) == Apply(cfg, s, r)
  {
    RecordApplies(cfg, s, r, rec, at);
    RecordReads(cfg, s, rec, at, bytes);
  }

  /** The call, made directly, creates with the record's list and payload. */
  lemma RecordApplies(cfg: Config, s: EngineState, r: Request, rec: Record, at: nat)
    requires Consistent(cfg, s)
    requires r.CreateFromComponentsRequest? && Recordable(r) && AdmissibleRequest(cfg, r) && rec == RecordOf(r)
    ensures rec.kind == CreateEntityFromComponentsCommand
    ensures Registered(rec.components, cfg.table) && |rec.payload| == DataSize(cfg, rec.components)
    ensures Apply(cfg, s, r) ==
            if cfg.Fits(rec.components) then Some(CreateEntityWithData(cfg, s, rec.components, rec.payload).0) else None
  {
    CreateRecordFields(r, rec, at);
    CreateApplies(cfg, s, r.items, rec.components, rec.payload);
  }

  /** The recorded command creates with the record's list and the bytes at its offset. */
  lemma RecordReads(cfg: Config, s: EngineState, rec: Record, at: nat, bytes: seq<byte>)
    requires Consistent(cfg, s) && rec.kind == CreateEntityFromComponentsCommand
    requires Registered(rec.components, cfg.table) && |rec.payload| == DataSize(cfg, rec.components)
    requires at + |rec.payload| <= |bytes| && bytes[at..at + |rec.payload|] == rec.payload
    ensures Step(cfg, s, CommandFor(rec, at), bytes) ==
            if cfg.Fits(rec.components) then Some(CreateEntityWithData(cfg, s, rec.components, rec.payload).0) else None
  {
    CreateStepReads(cfg, s, CommandFor(rec, at), rec.components, rec.payload, at, bytes);
  }

  lemma DestroyStepIsDirect(cfg: Config, s: EngineState, e: Entity, p: seq<byte>, at: nat, bytes: seq<byte>)
    requires Consistent(cfg, s) && e.id < WordModulus && e.index < WordModulus && p == EncodeEntity(e)
    requires at + |p| <= |bytes| && bytes[at..at + |p|] == p
    ensures Step(cfg, s, Command(DestroyEntityCommand, EmptyList(), at), bytes) == Apply(cfg, s, DestroyRequest(e))
  {
    EntityBytesRoundTrip(e);
    assert DecodeEntity(bytes[at..at + EntityByteSize]) == e;
  }

  /** The buffer holds the records' payloads one after another from base on. */
  predicate PayloadsAt(recs: seq<Record>, base: nat, bytes: seq<byte>)
  {
    base + |Concat(Payloads(recs))| <= |bytes| && bytes[base..base + |Concat(Payloads(recs))|] == Concat(Payloads(recs))
  }

  /**
   * The i-th command points at the offset o where the i-th payload lies in
   * a buffer that starts with all the payloads.
   */
  lemma RecordedAt(rs: seq<Request>, recs: seq<Record>, cmds: seq<Command>, bytes: seq<byte>, i: nat) returns (o: nat)
    requires AllRecordable(rs) && recs == Records(rs) && cmds == Commands(recs, 0) && PayloadsAt(recs, 0, bytes)
    requires i < |rs|
    ensures Recordable(rs[i]) && recs[i] == RecordOf(rs[i]) && cmds[i] == CommandFor(recs[i], o)
    ensures o + |recs[i].payload| <= |bytes| && bytes[o..o + |recs[i].payload|] == recs[i].payload
  {
    o := CommandAt(rs, recs, cmds, i);
    PayloadAt(recs, bytes, i, o);
  }

  lemma CommandAt(rs: seq<Request>, recs: seq<Record>, cmds: seq<Command>, i: nat) returns (o: nat)
    requires AllRecordable(rs) && recs == Records(rs) && cmds == Commands(recs, 0) && i < |rs|
    ensures Recordable(rs[i]) && recs[i] == RecordOf(rs[i]) && cmds[i] == CommandFor(recs[i], o)
    ensures o == |Concat(Payloads(recs[..i]))|
  {
    RecordsAt(rs, i);
    RecordedInPlace(recs, i);
    o := |Concat(Payloads(recs[..i]))|;
  }

  lemma PayloadAt(recs: seq<Record>, bytes: seq<byte>, i: nat, o: nat)
    requires PayloadsAt(recs, 0, bytes) && i < |recs| && o == |Concat(Payloads(recs[..i]))|
    ensures o + |recs[i].payload| <= |bytes| && bytes[o..o + |recs[i].payload|] == recs[i].payload
  {
    RecordedInPlace(recs, i);
    var data, p := Concat(Payloads(recs)), recs[i].payload;
    SliceOfPrefix(bytes, data, o, |p|);
  }

  /** A slice of a buffer that starts with data is the same slice of data. */
  lemma SliceOfPrefix(bytes: seq<byte>, data: seq<byte>, o: nat, n: nat)
    requires |data| <= |bytes| && bytes[0..|data|] == data && o + n <= |data|
    ensures bytes[o..o + n] == data[o..o + n]
  {
    var got, want := bytes[o..o + n], data[o..o + n];
    forall k | 0 <= k < n
      ensures got[k] == want[k]
    {
      assert got[k] == bytes[o + k] == bytes[0..|data|][o + k];
    }
  }

  /** Admissible requests are admissible one by one. */
  lemma AdmissibleAt(cfg: Config, rs: seq<Request>, i: nat)
    requires Admissible(cfg, rs) && i < |rs|
    ensures AdmissibleRequest(cfg, rs[i])
  {
  }

  /** The commands do, state for state, what the calls would have done. */
  ghost predicate StepsAgree(cfg: Config, cmds: seq<Command>, rs: seq<Request>, bytes: seq<byte>)
  {
    |cmds| == |rs| &&
    forall i, t: EngineState | 0 <= i < |rs| :: Step(cfg, t, cmds[i], bytes) == Apply(cfg, t, rs[i])
  }

  /** The i-th recorded command, replayed over the buffer, does what the i-th call would have done. */
  lemma StepAgrees(cfg: Config, s: EngineState, rs: seq<Request>, recs: seq<Record>, cmds: seq<Command>, bytes: seq<byte>, i: nat)
    requires AllRecordable(rs) && Admissible(cfg, rs) && recs == Records(rs) && cmds == Commands(recs, 0)
    requires PayloadsAt(recs, 0, bytes) && i < |rs|
    ensures Step(cfg, s, cmds[i], bytes) == Apply(cfg, s, rs[i])
  {
    ghost var r, rec, c := rs[i], recs[i], cmds[i];
    var o := RecordedAt(rs, recs, cmds, bytes, i);
    assert AdmissibleRequest(cfg, r) by { AdmissibleAt(cfg, rs, i); }
    assert Step(cfg, s, c, bytes) == Apply(cfg, s, r) by { StepAt(cfg, s, r, rec, c, o, bytes); }
  }

  /** StepIsDirect for a command already known to be the record's. */
  lemma StepAt(cfg: Config, s: EngineState, r: Request, rec: Record, c: Command, at: nat, bytes: seq<byte>)
    requires Recordable(r) && AdmissibleRequest(cfg, r) && rec == RecordOf(r) && c == CommandFor(rec, at)
    requires at + |rec.payload| <= |bytes| && bytes[at..at + |rec.payload|] == rec.payload
    ensures Step(cfg, s, c, bytes) == Apply(cfg, s, r)
  {
    StepIsDirect(cfg, s, r, rec, at, bytes);
  }

  lemma QueuedStepsAgree(cfg: Config, rs: seq<Request>, recs: seq<Record>, cmds: seq<Command>, bytes: seq<byte>)
    requires AllRecordable(rs) && Admissible(cfg, rs) && recs == Records(rs) && cmds == Commands(recs, 0)
    requires PayloadsAt(recs, 0, bytes)
    ensures StepsAgree(cfg, cmds, rs, bytes)
  {
    forall i, t: EngineState | 0 <= i < |rs|
      ensures Step(cfg, t, cmds[i], bytes) == Apply(cfg, t, rs[i])
    {
      StepAgrees(cfg, t, rs, recs, cmds, bytes, i);
    }
  }

  lemma StepsAgreeCons(cfg: Config, cmds: seq<Command>, rs: seq<Request>, bytes: seq<byte>, s: EngineState)
    requires StepsAgree(cfg, cmds, rs, bytes) && rs != []
    ensures Step(cfg, s, cmds[0], bytes) == Apply(cfg, s, rs[0])
    ensures StepsAgree(cfg, cmds[1..], rs[1..], bytes)
  {
    forall i, t: EngineState | 0 <= i < |rs| - 1
      ensures Step(cfg, t, cmds[1..][i], bytes) == Apply(cfg, t, rs[1..][i])
    {
      assert cmds[1..][i] == cmds[i + 1] && rs[1..][i] == rs[i + 1];
    }
  }

  /** The state a request leaves behind, or the state it started from when it fails. */
  lemma NextState(cfg: Config, s: EngineState, r: Request) returns (t: EngineState)
    ensures Apply(cfg, s, r).Some? ==> Apply(cfg, s, r).value == t
  {
    t := match Apply(cfg, s, r) case Some(next) => next case None => s;
  }

  /** Replay and ApplyAll agree when their first steps agree and so do the rests from there. */
  lemma ReplayAgrees(cfg: Config, s: EngineState, t: EngineState, cmds: seq<Command>, rs: seq<Request>, bytes: seq<byte>)
    requires cmds != [] && rs != []
    requires Step(cfg, s, cmds[0], bytes) == Apply(cfg, s, rs[0])
    requires Apply(cfg, s, rs[0]).Some? ==> Apply(cfg, s, rs[0]).value == t
    requires Replay(cfg, t, cmds[1..], bytes) == ApplyAll(cfg, t, rs[1..])
    ensures Replay(cfg, s, cmds, bytes) == ApplyAll(cfg, s, rs)
  {
  }

  /** Commands that agree step by step with the calls replay to what the calls do together. */
  lemma {:induction false} ReplayFollowsSteps(cfg: Config, s: EngineState, cmds: seq<Command>, rs: seq<Request>, bytes: seq<byte>)
    requires StepsAgree(cfg, cmds, rs, bytes)
    ensures Replay(cfg, s, cmds, bytes) == ApplyAll(cfg, s, rs)
    decreases |rs|
  {
    if rs != [] {
      StepsAgreeCons(cfg, cmds, rs, bytes, s);
      var t := NextState(cfg, s, rs[0]);
      ReplayFollowsSteps(cfg, t, cmds[1..], rs[1..], bytes);
      ReplayAgrees(cfg, s, t, cmds, rs, bytes);
    }
  }

  /**
   * Execute does what the engine calls would have done had they been made
   * directly, in the order they were queued: replaying the recorded
   * commands over a buffer that starts with the payloads equals applying
   * the calls.
   */
  lemma ReplayIsDirect(cfg: Config, s: EngineState, rs: seq<Request>, recs: seq<Record>, cmds: seq<Command>, bytes: seq<byte>)
    requires AllRecordable(rs) && Admissible(cfg, rs) && recs == Records(rs) && cmds == Commands(recs, 0)
    requires PayloadsAt(recs, 0, bytes)
    ensures Replay(cfg, s, cmds, bytes) == ApplyAll(cfg, s, rs)
  {
    QueuedStepsAgree(cfg, rs, recs, cmds, bytes);
    ReplayFollowsSteps(cfg, s, cmds, rs, bytes);
  }

  /*
   * Archetypes are created in first-use order.
   */

  /** The list of each archetype, by index (GetArchetype(k).GetComponents()). */
  function ArchetypeLists(s: EngineState): (r: seq<ComponentList>)
    ensures |r| == |s.archetypes| && forall k | 0 <= k < |s.archetypes| :: r[k] == s.archetypes[k].components
  {
    seq(|s.archetypes|, k requires 0 <= k < |s.archetypes| => s.archetypes[k].components)
  }

  /** known followed by each list of lists not seen before, in order of first use. */
  function FirstUses(known: seq<ComponentList>, lists: seq<ComponentList>): seq<ComponentList>
    decreases |lists|
  {
    if lists == [] then known
    else FirstUses(if lists[0] in known then known else known + [lists[0]], lists[1..])
  }

  function Creates(lists: seq<ComponentList>): (r: seq<Request>)
    ensures |r| == |lists| && forall j | 0 <= j < |lists| :: r[j] == CreateRequest(lists[j])
  {
    seq(|lists|, j requires 0 <= j < |lists| => CreateRequest(lists[j]))
  }

  /** The map knows exactly the lists that have an archetype. */
  lemma KnownLists(s: EngineState, list: ComponentList)
    requires MapOk(s)
    ensures list in ArchetypeLists(s) <==> list in s.archetypeMap
  {
    var lists := ArchetypeLists(s);
    if list in s.archetypeMap {
      assert lists[s.archetypeMap[list]] == list;
    }
    if list in lists {
      var k :| 0 <= k < |lists| && lists[k] == list;
      assert s.archetypes[k].components == list;
    }
  }

  /** Placing a row changes no archetype's list and counts one more entity. */
  lemma PlaceKeepsLists(s: EngineState, k: nat, e: Entity, row: Row)
    requires k < |s.archetypes| && s.archetypes[k].store.active < |s.archetypes[k].store.chunks|
    requires e.index <= |s.locations|
    ensures ArchetypeLists(Place(s, k, e, row)) == ArchetypeLists(s)
    ensures Place(s, k, e, row).entityCount == s.entityCount + 1
  {
  }

  /** Resolving the list's archetype appends one for a list never used before and otherwise changes no list. */
  lemma ResolveAddsFirstUse(cfg: Config, s: EngineState, list: ComponentList)
    requires Consistent(cfg, s) && cfg.Admits(list)
    ensures var t := GetOrCreateArchetype(cfg, s, list).0;
            ArchetypeLists(t) == (if list in ArchetypeLists(s) then ArchetypeLists(s) else ArchetypeLists(s) + [list]) &&
            t.entityCount == s.entityCount
  {
    GetOrCreateSpec(cfg, s, list);
    KnownLists(s, list);
    var (t, k) := GetOrCreateArchetype(cfg, s, list);
    if list !in s.archetypeMap {
      AppendedList(s, t, NewArchetype(cfg, list), list);
    }
  }

  lemma AppendedList(s: EngineState, t: EngineState, a: ArchetypeData, list: ComponentList)
    requires t.archetypes == s.archetypes + [a] && a.components == list
    ensures ArchetypeLists(t) == ArchetypeLists(s) + [list]
  {
    assert ArchetypeLists(t)[|s.archetypes|] == list;
  }

  /** CreateEntity appends an archetype for a list never used before and otherwise keeps the archetype lists. */
  lemma CreateAddsFirstUse(cfg: Config, s: EngineState, list: ComponentList)
    requires Consistent(cfg, s) && cfg.Fits(list)
    ensures var t := CreateEntity(cfg, s, list).0;
            ArchetypeLists(t) == (if list in ArchetypeLists(s) then ArchetypeLists(s) else ArchetypeLists(s) + [list]) &&
            t.entityCount == s.entityCount + 1
  {
    LayoutMatchesTable(cfg, list);
    var row := DefaultRow(cfg.LayoutFor(list), cfg.table, NextEntity(s));
    ResolveSteps(cfg, s, list, row);
    ResolveAddsFirstUse(cfg, s, list);
    var (s1, k) := GetOrCreateArchetype(cfg, s, list);
    PlaceKeepsLists(s1, k, NextEntity(s), row);
  }

  /**
   * Replaying a run of creates leaves one archetype per distinct list, the
   * new ones appended in the order their lists were first used, and one
   * more entity per create.
   */
  lemma {:induction false} CreatesInFirstUseOrder(cfg: Config, s: EngineState, lists: seq<ComponentList>)
    requires Consistent(cfg, s) && forall j | 0 <= j < |lists| :: cfg.Fits(lists[j])
    ensures ApplyAll(cfg, s, Creates(lists)).Some?
    ensures var t := ApplyAll(cfg, s, Creates(lists)).value;
            ArchetypeLists(t) == FirstUses(ArchetypeLists(s), lists) && t.entityCount == s.entityCount + |lists|
    decreases |lists|
  {
    if lists != [] {
      var t := CreateEntity(cfg, s, lists[0]).0;
      FirstCreate(cfg, s, lists);
      CreatesInFirstUseOrder(cfg, t, lists[1..]);
    }
  }

  /** The first create of a run: its effect on the archetype lists, and the run going on from there. */
  lemma FirstCreate(cfg: Config, s: EngineState, lists: seq<ComponentList>)
    requires Consistent(cfg, s) && lists != [] && cfg.Fits(lists[0])
    ensures var t := CreateEntity(cfg, s, lists[0]).0;
            Consistent(cfg, t) && ApplyAll(cfg, s, Creates(lists)) == ApplyAll(cfg, t, Creates(lists[1..])) &&
            FirstUses(ArchetypeLists(s), lists) == FirstUses(ArchetypeLists(t), lists[1..]) &&
            t.entityCount == s.entityCount + 1
  {
    var l := lists[0];
    var t := CreateEntity(cfg, s, l).0;
    CreateAddsFirstUse(cfg, s, l);
    ApplyCreate(cfg, s, l);
    ApplyAllCons(cfg, s, Creates(lists), t);
    CreatesTail(lists);
  }

  lemma CreatesTail(lists: seq<ComponentList>)
    requires lists != []
    ensures Creates(lists)[1..] == Creates(lists[1..])
  {
  }

  lemma ApplyCreate(cfg: Config, s: EngineState, list: ComponentList)
    requires Consistent(cfg, s) && cfg.Fits(list)
    ensures Apply(cfg, s, CreateRequest(list)) == Some(CreateEntity(cfg, s, list).0)
    ensures Consistent(cfg, CreateEntity(cfg, s, list).0)
  {
    CreateKeeps(cfg, s, list);
  }

  /** A run of calls whose first call succeeds goes on from the state that call leaves. */
  lemma ApplyAllCons(cfg: Config, s: EngineState, rs: seq<Request>, t: EngineState)
    requires rs != [] && Apply(cfg, s, rs[0]) == Some(t)
    ensures ApplyAll(cfg, s, rs) == ApplyAll(cfg, t, rs[1..])
  {
  }

  /** Replaying no commands leaves the engine as it is. */
  lemma ReplayDone(cfg: Config, s: EngineState, cmds: seq<Command>, bytes: seq<byte>)
    requires cmds == []
    ensures Replay(cfg, s, cmds, bytes) == Some(s)
  {
  }

  /** A replay that succeeds takes its first step and goes on from there. */
  lemma ReplayStep(cfg: Config, s: EngineState, cmds: seq<Command>, bytes: seq<byte>)
    requires cmds != [] && Replay(cfg, s, cmds, bytes).Some?
    ensures Step(cfg, s, cmds[0], bytes).Some?
    ensures Replay(cfg, Step(cfg, s, cmds[0], bytes).value, cmds[1..], bytes) == Replay(cfg, s, cmds, bytes)
  {
  }

  /** A CreateEntity command that runs is CreateEntity(components). */
  lemma StepCreates(cfg: Config, s: EngineState, c: Command, bytes: seq<byte>)
    requires c.kind == CreateEntityCommand && Step(cfg, s, c, bytes).Some?
    ensures Consistent(cfg, s) && cfg.Fits(c.components)
    ensures Step(cfg, s, c, bytes).value == CreateEntity(cfg, s, c.components).0
  {
  }

  /** A CreateEntityFromComponents command that runs is CreateEntity(components, data) over its payload. */
  lemma StepCreatesWithData(cfg: Config, s: EngineState, c: Command, bytes: seq<byte>)
    requires c.kind == CreateEntityFromComponentsCommand && Step(cfg, s, c, bytes).Some?
    ensures Consistent(cfg, s) && cfg.Fits(c.components) && Registered(c.components, cfg.table)
    ensures c.dataIndex + DataSize(cfg, c.components) <= |bytes|
    ensures Step(cfg, s, c, bytes).value ==
            CreateEntityWithData(cfg, s, c.components, bytes[c.dataIndex..c.dataIndex + DataSize(cfg, c.components)]).0
  {
  }

  /** A DestroyEntity command that runs deletes the entity its payload decodes to. */
  lemma StepDestroys(cfg: Config, s: EngineState, c: Command, bytes: seq<byte>)
    requires c.kind == DestroyEntityCommand && Step(cfg, s, c, bytes).Some?
    ensures Consistent(cfg, s) && c.dataIndex + EntityByteSize <= |bytes|
    ensures ValidHandle(s, DecodeEntity(bytes[c.dataIndex..c.dataIndex + EntityByteSize]))
    ensures Step(cfg, s, c, bytes).value == DeleteEntity(cfg, s, DecodeEntity(bytes[c.dataIndex..c.dataIndex + EntityByteSize]))
  {
  }

  /** Two adjacent slices of an array make the slice they span. */
  lemma JoinSlices(a: array<byte>, m: nat, n: nat, front: seq<byte>, back: seq<byte>)
    requires m <= n <= a.Length && a[..m] == front && a[m..n] == back
    ensures a[..n] == front + back
  {
    assert a[..n] == a[..m] + a[m..n];
  }

  /** The record of CreateEntityFromComponents: the list of the arguments' types and their values by type id. */
  lemma RecordOfCreate(items: seq<ComponentItem>)
    requires Distinct(ItemTypes(items))
    ensures Recordable(CreateFromComponentsRequest(items))
    ensures RecordOf(CreateFromComponentsRequest(items)) ==
            Record(CreateEntityFromComponentsCommand, Create(ItemTypes(items)), Concat(BytesById(items)))
  {
  }

  /*
   * The queue.
   */

  class CommandQueue {
    var commands: seq<Command>
    var data: array<byte>
    var dataIndex: nat
    /** The calls made since the last Clear, in order. */
    ghost var requests: seq<Request>

    /**
     * The commands are those the calls record, and the buffer's first
     * dataIndex bytes are their payloads back to back.
     */
    ghost predicate Valid()
      reads this, data
    {
      AllRecordable(requests) && commands == Commands(Records(requests), 0) &&
      dataIndex == |Concat(Payloads(Records(requests)))| && dataIndex <= data.Length &&
      data[..dataIndex] == Concat(Payloads(Records(requests)))
    }

    /** CommandQueue(): no commands, data index 0, a buffer of DefaultCommandQueueSize bytes. */
    constructor ()
      ensures Valid() && requests == [] && commands == [] && dataIndex == 0
      ensures data.Length == DefaultCommandQueueSize && fresh(data)
    {
      commands := [];
      data := new byte[DefaultCommandQueueSize](_ => 0);
      dataIndex := 0;
      requests := [];
    }

    /** CreateEntity(components): one command holding the list, with offset 0; the buffer is untouched. */
    method CreateEntity(list: ComponentList)
      requires Valid()
      modifies this
      ensures Valid() && requests == old(requests) + [CreateRequest(list)]
      ensures commands == old(commands) + [Command(CreateEntityCommand, list, 0)]
      ensures data == old(data) && dataIndex == old(dataIndex)
    {
      commands := commands + [Command(CreateEntityCommand, list, 0)];
      Recorded(CreateRequest(list));
    }

    /**
     * CreateEntityFromComponents(components...): one command holding the
     * list of the arguments' types and the current data index, then the
     * values appended at that index, in ascending type-id order.
     */
    method CreateEntityFromComponents(items: seq<ComponentItem>)
      requires Valid() && Distinct(ItemTypes(items))
      requires dataIndex + |CombineBytesById(items)| <= 2 * data.Length
      modifies this, data
      ensures Valid() && requests == old(requests) + [CreateFromComponentsRequest(items)]
      ensures commands == old(commands) + [Command(CreateEntityFromComponentsCommand, Create(ItemTypes(items)), old(dataIndex))]
      ensures data.Length == if old(dataIndex) + |CombineBytesById(items)| > old(data.Length) then 2 * old(data.Length) else old(data.Length)
    {
      RecordOfCreate(items);
      ConcatLength(BytesById(items));
      Push(CreateFromComponentsRequest(items), Command(CreateEntityFromComponentsCommand, Create(ItemTypes(items)), dataIndex), BytesById(items));
    }

    /** DestroyEntity(entity): one command holding the current data index, then the Entity's bytes at that index. */
    method DestroyEntity(e: Entity)
      requires Valid() && dataIndex + EntityByteSize <= 2 * data.Length
      modifies this, data
      ensures Valid() && requests == old(requests) + [DestroyRequest(e)]
      ensures commands == old(commands) + [Command(DestroyEntityCommand, EmptyList(), old(dataIndex))]
      ensures data.Length == if old(dataIndex) + EntityByteSize > old(data.Length) then 2 * old(data.Length) else old(data.Length)
    {
      assert Concat([EncodeEntity(e)]) == EncodeEntity(e);
      ConcatLength([EncodeEntity(e)]);
      Push(DestroyRequest(e), Command(DestroyEntityCommand, EmptyList(), dataIndex), [EncodeEntity(e)]);
    }

    /** Appends the command c of call r, then r's payload given as items. */
    method Push(ghost r: Request, c: Command, items: seq<seq<byte>>)
      requires Valid() && Recordable(r) && RecordOf(r).payload == Concat(items)
      requires c == CommandFor(RecordOf(r), dataIndex) && dataIndex + SizeOf(items) <= 2 * data.Length
      modifies this, data
      ensures Valid() && requests == old(requests) + [r] && commands == old(commands) + [c]
      ensures data.Length == if old(dataIndex) + SizeOf(items) > old(data.Length) then 2 * old(data.Length) else old(data.Length)
    {
      ghost var before, at := data[..dataIndex], dataIndex;
      commands := commands + [c];
      ConcatLength(items);
      AddData(items);
      JoinSlices(data, at, dataIndex, before, Concat(items));
      Recorded(r);
    }

    /** Records call r as made, once its command and its payload are in place. */
    ghost method Recorded(r: Request)
      requires Recordable(r) && AllRecordable(requests)
      requires var before := Concat(Payloads(Records(requests)));
               commands == Commands(Records(requests), 0) + [CommandFor(RecordOf(r), |before|)] &&
               dataIndex == |before| + |RecordOf(r).payload| && dataIndex <= data.Length &&
               data[..dataIndex] == before + RecordOf(r).payload
      modifies this
      ensures Valid() && requests == old(requests) + [r]
      ensures commands == old(commands) && data == old(data) && dataIndex == old(dataIndex)
    {
      ghost var written := data[..dataIndex];
      RecordedState(requests, r, commands, dataIndex, written);
      requests := requests + [r];
      assert data[..dataIndex] == written;
    }

    /**
     * AddData(items...): doubles the buffer once when the items would not
     * fit, then writes them back to back at the data index and advances it
     * past them; the bytes before the index are kept.
     */
    method AddData(items: seq<seq<byte>>)
      requires dataIndex <= data.Length && dataIndex + SizeOf(items) <= 2 * data.Length
      modifies this, data
      ensures data.Length == if old(dataIndex) + SizeOf(items) > old(data.Length) then 2 * old(data.Length) else old(data.Length)
      ensures dataIndex == old(dataIndex) + SizeOf(items)
      ensures data[..old(dataIndex)] == old(data[..dataIndex])
      ensures data[old(dataIndex)..dataIndex] == Concat(items)
      ensures commands == old(commands) && requests == old(requests)
    {
      if dataIndex + SizeOf(items) > data.Length {
        Grow();
      }
      dataIndex := CopyInto(data, dataIndex, items);
    }

    /** resize(2 * size()): a buffer twice as long, the old bytes first and zeros after. */
    method Grow()
      modifies this
      ensures fresh(data) && data.Length == 2 * old(data.Length)
      ensures data[..old(data.Length)] == old(data[..])
      ensures forall i | old(data.Length) <= i < data.Length :: data[i] == 0
      ensures commands == old(commands) && dataIndex == old(dataIndex) && requests == old(requests)
    {
      var bigger := new byte[2 * data.Length](_ => 0);
      MemMove(bigger, 0, data[..]);
      data := bigger;
    }

    /** Clear(): no commands and data index 0; the buffer is kept. */
    method Clear()
      modifies this
      ensures Valid() && requests == [] && commands == [] && dataIndex == 0
      ensures data == old(data)
    {
      commands := [];
      dataIndex := 0;
      requests := [];
    }

    /**
     * Execute(engine): runs the commands in the order they were recorded,
     * each reading its payload from the buffer, then clears the queue.
     * The engine ends as the calls would have left it had they been made
     * directly; an empty queue leaves it unchanged.
     */
    method Execute(engine: Engines.Engine)
      requires Valid() && engine.Valid()
      requires Admissible(engine.cfg, requests) && ApplyAll(engine.cfg, engine.State(), requests).Some?
      modifies this, engine
      ensures engine.Valid() && engine.State() == ApplyAll(engine.cfg, old(engine.State()), old(requests)).value
      ensures Valid() && requests == [] && commands == [] && dataIndex == 0 && data == old(data)
    {
      var cmds := commands;
      var bytes := data[..];
      ghost var start := engine.State();
      ghost var final := ApplyAll(engine.cfg, start, requests);
      assert bytes[0..dataIndex] == data[..dataIndex];
      ReplayIsDirect(engine.cfg, start, requests, Records(requests), cmds, bytes);
      var k := 0;
      while k < |cmds|
        invariant k <= |cmds| && engine.Valid() && final.Some?
        invariant Replay(engine.cfg, engine.State(), cmds[k..], bytes) == final
        modifies engine
      {
        ReplayStep(engine.cfg, engine.State(), cmds[k..], bytes);
        assert cmds[k..][0] == cmds[k] && cmds[k..][1..] == cmds[k + 1..];
        RunStep(engine, cmds[k], bytes);
        k := k + 1;
      }
      assert cmds[k..] == [];
      ReplayDone(engine.cfg, engine.State(), cmds[k..], bytes);
      Clear();
    }

    /** One command of Execute: the engine call its type names. */
    method RunStep(engine: Engines.Engine, c: Command, bytes: seq<byte>)
      requires engine.Valid() && Step(engine.cfg, engine.State(), c, bytes).Some?
      modifies engine
      ensures engine.Valid() && engine.State() == Step(engine.cfg, old(engine.State()), c, bytes).value
    {
      var cfg := engine.cfg;
      ghost var s := engine.State();
      ghost var next := Step(cfg, s, c, bytes).value;
      match c.kind
      case CreateEntityCommand =>
        StepCreates(cfg, s, c, bytes);
        assert next == EngineModel.CreateEntity(cfg, s, c.components).0;
        var _ := engine.CreateEntity(c.components);
        assert engine.State() == next;
      case CreateEntityFromComponentsCommand =>
        StepCreatesWithData(cfg, s, c, bytes);
        var size := DataSize(cfg, c.components);
        var data := bytes[c.dataIndex..c.dataIndex + size];
        assert next == EngineModel.CreateEntityWithData(cfg, s, c.components, data).0;
        var _ := engine.CreateEntityWithData(c.components, data);
        assert engine.State() == next;
      case DestroyEntityCommand =>
        StepDestroys(cfg, s, c, bytes);
        var e := DecodeEntity(bytes[c.dataIndex..c.dataIndex + EntityByteSize]);
        assert next == EngineModel.DeleteEntity(cfg, s, e);
        engine.DeleteEntity(e);
        assert engine.State() == next;
    }
  }

  /*
   * The payload as written.
   */

  /** The argument values in the order they were passed. */
  function ArgumentBytes(items: seq<ComponentItem>): (r: seq<seq<byte>>)
    ensures |r| == |items| && forall j | 0 <= j < |items| :: r[j] == items[j].bytes
  {
    seq(|items|, j requires 0 <= j < |items| => items[j].bytes)
  }

  /**
   * The payload CreateEntityFromComponents appends as the source writes
   * it: AddData(components...) copies the values in argument order.
   */
  function PayloadAsWritten(items: seq<ComponentItem>): seq<byte>
  {
    Concat(ArgumentBytes(items))
  }

  /** Two types passed in descending id order: the list puts them in ascending order. */
  lemma CreateOfTwo(a: ComponentType, b: ComponentType)
    requires b < a
    ensures Distinct([a, b]) && Create([a, b]).types == [b, a]
  {
    assert [a, b][..1] == [a];
    assert Create([a]).types == [a] by {
      assert [a][..0] == [];
    }
  }

  /** The list and the payload as written of two values passed in descending type-id order. */
  lemma WrittenPayload(cfg: Config, x: ComponentItem, y: ComponentItem, list: ComponentList, data: seq<byte>)
    requires ItemsFit(cfg, [x, y]) && y.ty < x.ty && |x.bytes| == |y.bytes|
    requires list == Create(ItemTypes([x, y])) && data == PayloadAsWritten([x, y])
    ensures list.types == [y.ty, x.ty] && cfg.Fits(list) && Registered(list, cfg.table)
    ensures data == Concat([x.bytes, y.bytes]) && Sizes([x.bytes, y.bytes]) == PayloadSizes(cfg.LayoutFor(list))
    ensures |data| == DataSize(cfg, list)
  {
    var items := [x, y];
    assert items[0] == x && items[1] == y;
    assert ItemTypes(items) == [x.ty, y.ty];
    CreateOfTwo(x.ty, y.ty);
    assert ArgumentBytes(items) == [x.bytes, y.bytes];
    PayloadSizesOfList(cfg, list);
    ConcatLength([x.bytes, y.bytes]);
  }

  /**
   * Replaying a create queued with its values in the source's argument
   * order hands the column of the lower type id the bytes of the value
   * passed first: with two values of equal size passed in descending
   * type-id order, each type reads back the other's bytes.
   */
  lemma ArgumentOrderMisreads(cfg: Config, s: EngineState, x: ComponentItem, y: ComponentItem, list: ComponentList, data: seq<byte>)
    requires Consistent(cfg, s) && ItemsFit(cfg, [x, y])
    requires y.ty < x.ty && |x.bytes| == |y.bytes|
    requires list == Create(ItemTypes([x, y])) && data == PayloadAsWritten([x, y])
    ensures list.types == [y.ty, x.ty] && cfg.Fits(list) && Registered(list, cfg.table) && |data| == DataSize(cfg, list)
    ensures var (t, e) := CreateEntityWithData(cfg, s, list, data);
            Consistent(cfg, t) && ValidHandle(t, e) &&
            TryGetComponent(cfg, t, e, y.ty) == Some(ComponentValue(x.bytes)) &&
            TryGetComponent(cfg, t, e, x.ty) == Some(ComponentValue(y.bytes))
  {
    WrittenPayload(cfg, x, y, list, data);
    CreateEntityWithDataSpec(cfg, s, list, data);
    var (t, e) := CreateEntityWithData(cfg, s, list, data);
    EntityLayout(cfg, t, e);
    DataRowValue(cfg, list, e, [x.bytes, y.bytes], 0);
    DataRowValue(cfg, list, e, [x.bytes, y.bytes], 1);
  }

  /**
   * The payload the queue records instead (CombineBytesById) reads back
   * each value under its own type, whatever the argument order.
   */
  lemma QueuedCreateReadsBack(cfg: Config, s: EngineState, items: seq<ComponentItem>, j: nat)
    requires Consistent(cfg, s) && ItemsFit(cfg, items) && j < |items|
    ensures Apply(cfg, s, CreateFromComponentsRequest(items)) == Some(EngineOps.CreateEntityFromComponents(cfg, s, items).0)
    ensures var (t, e) := EngineOps.CreateEntityFromComponents(cfg, s, items);
            Consistent(cfg, t) && ValidHandle(t, e) &&
            TryGetComponent(cfg, t, e, items[j].ty) == Some(ComponentValue(items[j].bytes))
  {
    ApplyCreateFrom(cfg, s, items);
    CreateFromComponentsRoundTrip(cfg, s, items, j);
  }
}

=== FILE: component.dfy ===
/**
 * Component types, component lists and filters, the type registry, and the
 * Entity handle.
 *
 * A ComponentList is a set of component type ids kept in ascending order
 * (std::set in the store); here it is a strictly increasing sequence, so
 * two lists are equal exactly when they hold the same types.
 */
module Components {
  import opened Wrappers
  import opened Core

  /** A component type id, handed out by the registry. */
  type ComponentType = nat

  /** 2^64: size_t arithmetic wraps modulo this value. */
  const WordModulus: nat := 0x1_0000_0000_0000_0000

  predicate StrictlySorted(s: seq<ComponentType>)
  {
    forall i, j | 0 <= i < j < |s| :: s[i] < s[j]
  }

  type SortedTypes = s: seq<ComponentType> | StrictlySorted(s) witness []

  /** Every type after the head of an ascending sequence is above the head. */
  lemma TailAbove(s: SortedTypes)
    requires s != []
    ensures forall x :: x in s[1..] ==> s[0] < x
  {
    forall x | x in s[1..] ensures s[0] < x {
      var j :| 1 <= j < |s| && s[j] == x;
    }
  }

  lemma ConsSorted(h: ComponentType, r: SortedTypes)
    requires forall x :: x in r ==> h < x
    ensures StrictlySorted([h] + r)
  {
    forall i, j | 0 <= i < j < |[h] + r| ensures ([h] + r)[i] < ([h] + r)[j] {
      assert ([h] + r)[j] == r[j - 1];
      if i > 0 {
        assert ([h] + r)[i] == r[i - 1];
      } else {
        assert r[j - 1] in r;
      }
    }
  }

  /** Inserts a new type at its place in ascending order (std::set::insert). */
  function Insert(s: SortedTypes, t: ComponentType): (r: SortedTypes)
    requires t !in s
    ensures |r| == |s| + 1
    ensures forall x :: x in r <==> x in s || x == t
  {
    if s == [] then [t]
    else if t < s[0] then
      TailAbove(s);
      ConsSorted(t, s);
      [t] + s
    else
      var rest := Insert(s[1..], t);
      TailAbove(s);
      ConsSorted(s[0], rest);
      [s[0]] + rest
  }

  /** Erases a present type (std::set::erase). */
  function Delete(s: SortedTypes, t: ComponentType): (r: SortedTypes)
    requires t in s
    ensures |r| == |s| - 1
    ensures forall x :: x in r <==> x in s && x != t
  {
    TailAbove(s);
    if s[0] == t then s[1..]
    else
      var rest := Delete(s[1..], t);
      ConsSorted(s[0], rest);
      [s[0]] + rest
  }

  /** Two ascending sequences with the same members are the same sequence. */
  lemma {:induction false} SortedUnique(a: SortedTypes, b: SortedTypes)
    requires forall x :: x in a <==> x in b
    ensures a == b
  {
    assert TypeSet(a) == TypeSet(b);
    SortedCardinality(a);
    SortedCardinality(b);
    if a != [] {
      TailAbove(a);
      TailAbove(b);
      assert a[0] == b[0] by {
        assert b[0] in a && a[0] in b;
        assert a[0] in b[1..] || a[0] == b[0];
        assert b[0] in a[1..] || a[0] == b[0];
      }
      forall x ensures x in a[1..] <==> x in b[1..] {
        assert x in a <==> x == a[0] || x in a[1..];
        assert x in b <==> x == b[0] || x in b[1..];
      }
      SortedUnique(a[1..], b[1..]);
    }
  }

  /** The members of a sequence of types, as a set. */
  function TypeSet(s: seq<ComponentType>): (r: set<ComponentType>)
    ensures forall x :: x in r <==> x in s
  {
    set t | t in s
  }

  lemma TypeSetCons(s: seq<ComponentType>)
    requires s != []
    ensures TypeSet(s) == TypeSet(s[1..]) + {s[0]}
  {
    forall x ensures x in TypeSet(s) <==> x in TypeSet(s[1..]) + {s[0]} {
      assert x in s <==> x == s[0] || x in s[1..];
    }
  }

  lemma {:induction false} SortedCardinality(s: SortedTypes)
    ensures |TypeSet(s)| == |s|
  {
    if s != [] {
      SortedCardinality(s[1..]);
      TailAbove(s);
      TypeSetCons(s);
    }
  }

  datatype ComponentList = ComponentList(types: SortedTypes)
  {
    /** The set of component types in the list. */
    function Elements(): set<ComponentType>
    {
      TypeSet(types)
    }

    /** Contains(type): whether t is one of the list's types. */
    predicate Has(t: ComponentType)
    {
      t in types
    }

    /** Count / size(): the number of types. */
    function Count(): (r: nat)
      ensures r == |Elements()|
    {
      SortedCardinality(types);
      |types|
    }

    /** Add(type): the type must be absent; afterwards it is present and Count rose by one. */
    function Add(t: ComponentType): (r: ComponentList)
      requires !Has(t)
      ensures r.Has(t)
      ensures r.Elements() == Elements() + {t}
      ensures r.Count() == Count() + 1
    {
      ComponentList(Insert(types, t))
    }

    /** Remove(type): the type must be present; afterwards it is absent and Count fell by one. */
    function Remove(t: ComponentType): (r: ComponentList)
      requires Has(t)
      ensures !r.Has(t)
      ensures r.Elements() == Elements() - {t}
      ensures r.Count() == Count() - 1
    {
      ComponentList(Delete(types, t))
    }

    /** The loop of Contains(list): false at the first type of ts missing from this list. */
    predicate HasAll(ts: seq<ComponentType>)
      ensures HasAll(ts) <==> forall x :: x in ts ==> x in types
    {
      if ts == [] then true
      else if ts[0] !in types then false
      else HasAll(ts[1..])
    }

    /** Contains(list): every type of other is a type of this list. */
    predicate Contains(other: ComponentList)
      ensures Contains(other) <==> other.Elements() <= Elements()
    {
      HasAll(other.types)
    }

    /** The loop of ContainsAny(list): true at the first type of ts present in this list. */
    predicate HasAnyOf(ts: seq<ComponentType>)
      ensures HasAnyOf(ts) <==> exists x :: x in ts && x in types
    {
      if ts == [] then false
      else if ts[0] in types then true
      else HasAnyOf(ts[1..])
    }

    /** ContainsAny(list): the two lists share at least one type. */
    predicate ContainsAny(other: ComponentList)
      ensures ContainsAny(other) <==> Elements() * other.Elements() != {}
    {
      assert forall x :: x in other.types && x in types ==> x in Elements() * other.Elements();
      HasAnyOf(other.types)
    }

    /**
     * ComponentList::Hash of the older header: value = value * 3 + h(type)
     * over the types in ascending order, in size_t arithmetic. The hash of
     * a type id (std::hash<size_t>) is a parameter.
     */
    function Hash(h: ComponentType -> nat): nat
    {
      HashFold(types, 0, h)
    }

    /** std::hash<ComponentList> of the newer header: a boost-style combine over the ascending types. */
    function CombinedHash(h: ComponentType -> bv64): bv64
    {
      CombineFold(types, 0, h)
    }
  }

  function HashFold(ts: seq<ComponentType>, value: nat, h: ComponentType -> nat): nat
  {
    if ts == [] then value else HashFold(ts[1..], (value * 3 + h(ts[0])) % WordModulus, h)
  }

  /** value ^= h + 0x9e3779b9 + (value << 6) + (value >> 2), wrapping in 64 bits. */
  function HashCombine(value: bv64, h: bv64): bv64
  {
    value ^ (h + 0x9e3779b9 + (value << 6) + (value >> 2))
  }

  function CombineFold(ts: seq<ComponentType>, value: bv64, h: ComponentType -> bv64): bv64
  {
    if ts == [] then value else CombineFold(ts[1..], HashCombine(value, h(ts[0])), h)
  }

  function EmptyList(): (r: ComponentList)
    ensures r.Elements() == {} && r.Count() == 0
  {
    ComponentList([])
  }

  predicate Distinct(ts: seq<ComponentType>)
  {
    forall i, j | 0 <= i < j < |ts| :: ts[i] != ts[j]
  }

  /** Create<T...>(): the empty list with each type added in turn. */
  function Create(ts: seq<ComponentType>): (r: ComponentList)
    requires Distinct(ts)
    ensures r.Elements() == TypeSet(ts)
  {
    if ts == [] then EmptyList()
    else
      var init, last := ts[..|ts| - 1], ts[|ts| - 1];
      assert ts == init + [last];
      assert last !in init;
      assert TypeSet(ts) == TypeSet(init) + {last};
      Create(init).Add(last)
  }

  /** List equality (operator==) is equality of the type sets. */
  lemma EqualIffSameTypes(a: ComponentList, b: ComponentList)
    ensures a == b <==> a.Elements() == b.Elements()
  {
    if a.Elements() == b.Elements() {
      assert forall x :: x in a.types <==> x in a.Elements();
      SortedUnique(a.types, b.types);
    }
  }

  /** Lists built from the same types in any order, or by any chain of Add/Remove reaching the same types, are equal. */
  lemma CreateOrderIndependent(xs: seq<ComponentType>, ys: seq<ComponentType>)
    requires Distinct(xs) && Distinct(ys)
    requires forall t :: t in xs <==> t in ys
    ensures Create(xs) == Create(ys)
  {
    EqualIffSameTypes(Create(xs), Create(ys));
  }

  /** Equal lists hash equally however they were built: the hash depends only on the set of types. */
  lemma HashDependsOnTypesOnly(a: ComponentList, b: ComponentList, h: ComponentType -> nat)
    requires a.Elements() == b.Elements()
    ensures a.Hash(h) == b.Hash(h)
    ensures a.Hash(h) < WordModulus
  {
    EqualIffSameTypes(a, b);
    HashFoldBound(a.types, 0, h);
  }

  lemma {:induction false} HashFoldBound(ts: seq<ComponentType>, value: nat, h: ComponentType -> nat)
    requires value < WordModulus
    ensures HashFold(ts, value, h) < WordModulus
  {
    if ts != [] {
      HashFoldBound(ts[1..], (value * 3 + h(ts[0])) % WordModulus, h);
    }
  }

  lemma CombinedHashDependsOnTypesOnly(a: ComponentList, b: ComponentList, h: ComponentType -> bv64)
    requires a.Elements() == b.Elements()
    ensures a.CombinedHash(h) == b.CombinedHash(h)
  {
    EqualIffSameTypes(a, b);
  }

  /** What a query asks for one type: required, optional<T>, or Not<T>. */
  datatype QueryItem = Required(t: ComponentType) | Optional(t: ComponentType) | Not(t: ComponentType)

  /** A query shape: the types an archetype must have, may have, and must not have. */
  datatype ComponentFilter = ComponentFilter(compulsory: ComponentList, optional: ComponentList, excluded: ComponentList)
  {
    /** The list that Add<T>/Remove<T> route the item to. */
    function Target(q: QueryItem): ComponentList
    {
      match q
      case Required(_) => compulsory
      case Optional(_) => optional
      case Not(_) => excluded
    }

    /** Add<T>(): optional<U> goes to optional, Not<U> to excluded, anything else to compulsory. */
    function Add(q: QueryItem): (r: ComponentFilter)
      requires !Target(q).Has(q.t)
      ensures r.Target(q).Elements() == Target(q).Elements() + {q.t}
      ensures q.Required? || r.compulsory == compulsory
      ensures q.Optional? || r.optional == optional
      ensures q.Not? || r.excluded == excluded
    {
      match q
      case Required(t) => ComponentFilter(compulsory.Add(t), optional, excluded)
      case Optional(t) => ComponentFilter(compulsory, optional.Add(t), excluded)
      case Not(t) => ComponentFilter(compulsory, optional, excluded.Add(t))
    }

    /** Remove<T>(): the same routing, removing from the target list. */
    function Remove(q: QueryItem): (r: ComponentFilter)
      requires Target(q).Has(q.t)
      ensures r.Target(q).Elements() == Target(q).Elements() - {q.t}
      ensures q.Required? || r.compulsory == compulsory
      ensures q.Optional? || r.optional == optional
      ensures q.Not? || r.excluded == excluded
    {
      match q
      case Required(t) => ComponentFilter(compulsory.Remove(t), optional, excluded)
      case Optional(t) => ComponentFilter(compulsory, optional.Remove(t), excluded)
      case Not(t) => ComponentFilter(compulsory, optional, excluded.Remove(t))
    }

    /** The excluded-type loop of Contains(list): false at the first excluded type that list holds. */
    predicate NoneExcludedIn(ts: seq<ComponentType>, list: ComponentList)
      ensures NoneExcludedIn(ts, list) <==> forall x :: x in ts ==> !list.Has(x)
    {
      if ts == [] then true
      else if list.Has(ts[0]) then false
      else NoneExcludedIn(ts[1..], list)
    }

    /**
     * Contains(list), as written: false when list holds an excluded type,
     * otherwise compulsory.Contains(list), that is, list is a subset of the
     * compulsory types.
     */
    predicate Contains(list: ComponentList)
      ensures Contains(list) <==>
        excluded.Elements() * list.Elements() == {} && list.Elements() <= compulsory.Elements()
    {
      assert forall x :: x in excluded.types && x in list.types ==> x in excluded.Elements() * list.Elements();
      NoneExcludedIn(excluded.types, list) && compulsory.Contains(list)
    }

    /**
     * The evidently intended filter test: list holds every compulsory type
     * and no excluded type (list.Contains(compulsory)).
     */
    predicate Matches(list: ComponentList)
      ensures Matches(list) <==>
        excluded.Elements() * list.Elements() == {} && compulsory.Elements() <= list.Elements()
    {
      assert forall x :: x in excluded.types && x in list.types ==> x in excluded.Elements() * list.Elements();
      NoneExcludedIn(excluded.types, list) && list.Contains(compulsory)
    }

    /** Contains(type): only the compulsory types are consulted. */
    predicate HasType(t: ComponentType)
      ensures HasType(t) <==> t in compulsory.Elements()
    {
      compulsory.Has(t)
    }

    /** Count(): the number of compulsory types. */
    function Count(): (r: nat)
      ensures r == |compulsory.Elements()|
    {
      compulsory.Count()
    }
  }

  function EmptyFilter(): ComponentFilter
  {
    ComponentFilter(EmptyList(), EmptyList(), EmptyList())
  }

  /** Filter equality requires all three lists to be equal, that is, the same three type sets. */
  lemma FilterEqualIff(f: ComponentFilter, g: ComponentFilter)
    ensures f == g <==>
      f.compulsory.Elements() == g.compulsory.Elements() &&
      f.optional.Elements() == g.optional.Elements() &&
      f.excluded.Elements() == g.excluded.Elements()
  {
    EqualIffSameTypes(f.compulsory, g.compulsory);
    EqualIffSameTypes(f.optional, g.optional);
    EqualIffSameTypes(f.excluded, g.excluded);
  }

  /** hash<ComponentFilter>: the three list hashes folded with the same combine. */
  function FilterHash(f: ComponentFilter, h: ComponentType -> bv64): bv64
  {
    HashCombine(HashCombine(f.compulsory.CombinedHash(h), f.optional.CombinedHash(h)), f.excluded.CombinedHash(h))
  }

  lemma FilterHashRespectsEquality(f: ComponentFilter, g: ComponentFilter, h: ComponentType -> bv64)
    requires f.compulsory.Elements() == g.compulsory.Elements()
    requires f.optional.Elements() == g.optional.Elements()
    requires f.excluded.Elements() == g.excluded.Elements()
    ensures FilterHash(f, h) == FilterHash(g, h)
  {
    FilterEqualIff(f, g);
  }

  /**
   * The filter { Required(0) } against the list { 0, 1 }: an archetype
   * holding the compulsory type and one more is rejected by Contains, and
   * the empty list, which lacks the compulsory type, is accepted. Matches
   * decides both the other way.
   */
  lemma FilterContainsIsReversed()
    ensures var f := EmptyFilter().Add(Required(0));
            var both := EmptyList().Add(0).Add(1);
            !f.Contains(both) && f.Matches(both) &&
            f.Contains(EmptyList()) && !f.Matches(EmptyList())
  {
    var f := EmptyFilter().Add(Required(0));
    var both := EmptyList().Add(0).Add(1);
    assert 1 in both.Elements() && 1 !in f.compulsory.Elements();
  }

  /** The Entity handle: a stable id and the index of its location-table entry. */
  datatype Entity = Entity(id: nat, index: nat)
  {
    /** operator==: two handles denote the same entity when their ids agree. */
    predicate SameAs(other: Entity)
    {
      id == other.id
    }
  }

  /** Entity equality is an equivalence that ignores the index. */
  lemma EntityEqualityIsById(a: Entity, b: Entity, c: Entity)
    ensures a.SameAs(b) <==> a.id == b.id
    ensures a.SameAs(Entity(a.id, b.index))
    ensures a.SameAs(b) ==> b.SameAs(a)
    ensures a.SameAs(b) && b.SameAs(c) ==> a.SameAs(c)
  {
  }

  /** Where an entity lives: archetype index, chunk index, slot, and the id it was stored for. */
  datatype EntityLocation = EntityLocation(archetype: nat, chunk: nat, position: nat, entityId: nat)

  /** Little-endian object bytes of an unsigned k-byte word. */
  function EncodeWord(n: nat, k: nat): (r: seq<byte>)
    ensures |r| == k
  {
    if k == 0 then [] else [(n % 256) as byte] + EncodeWord(n / 256, k - 1)
  }

  function DecodeWord(s: seq<byte>): nat
  {
    if s == [] then 0 else s[0] as nat + 256 * DecodeWord(s[1..])
  }

  function Pow256(k: nat): nat
  {
    if k == 0 then 1 else 256 * Pow256(k - 1)
  }

  lemma {:induction false} DecodeEncodeWord(n: nat, k: nat)
    requires n < Pow256(k)
    ensures DecodeWord(EncodeWord(n, k)) == n
  {
    if k > 0 {
      DecodeEncodeWord(n / 256, k - 1);
      assert EncodeWord(n, k)[1..] == EncodeWord(n / 256, k - 1);
    }
  }

  /** sizeof(Entity): two size_t fields. */
  const EntityByteSize: nat := 16

  /** The object bytes of an Entity (ToBytes), id first. */
  function EncodeEntity(e: Entity): (r: seq<byte>)
    ensures |r| == EntityByteSize
  {
    EncodeWord(e.id, 8) + EncodeWord(e.index, 8)
  }

  /** FromBytes<Entity>. */
  function DecodeEntity(s: seq<byte>): Entity
    requires |s| == EntityByteSize
  {
    Entity(DecodeWord(s[..8]), DecodeWord(s[8..]))
  }

  /** Reading back the bytes of an Entity whose fields fit in size_t gives the same Entity. */
  lemma EntityBytesRoundTrip(e: Entity)
    requires e.id < WordModulus && e.index < WordModulus
    ensures DecodeEntity(EncodeEntity(e)) == e
  {
    assert Pow256(8) == WordModulus;
    var s := EncodeEntity(e);
    assert s[..8] == EncodeWord(e.id, 8);
    assert s[8..] == EncodeWord(e.index, 8);
    DecodeEncodeWord(e.id, 8);
    DecodeEncodeWord(e.index, 8);
  }

  /** One registry entry: name, id, sizeof(T) and the bytes of a default-constructed T. */
  datatype ComponentInfo = ComponentInfo(name: string, id: nat, size: nat, defaultData: seq<byte>)

  /** Each entry sits at its own id and its default snapshot is exactly size bytes. */
  predicate WellFormedTable(table: seq<ComponentInfo>)
  {
    forall i | 0 <= i < |table| :: table[i].id == i && |table[i].defaultData| == table[i].size
  }

  /** ComponentMap: the process-wide registry of component types. */
  class ComponentMap {
    var idCounter: nat
    var info: seq<ComponentInfo>

    ghost predicate Valid()
      reads this
    {
      |info| == idCounter && WellFormedTable(info)
    }

    constructor ()
      ensures Valid() && idCounter == 0 && info == []
    {
      idCounter := 0;
      info := [];
    }

    /**
     * Add<T>(name): the new type gets the current counter value, the
     * counter is incremented, and the entry at that id records the name,
     * sizeof(T) and the default-value snapshot.
     */
    method Add(name: string, size: nat, defaultData: seq<byte>) returns (t: ComponentType)
      requires Valid() && |defaultData| == size
      modifies this
      ensures Valid()
      ensures t == old(idCounter) && idCounter == t + 1
      ensures info == old(info) + [ComponentInfo(name, t, size, defaultData)]
      ensures forall u | 0 <= u < t :: info[u] == old(info[u])
    {
      t := idCounter;
      idCounter := idCounter + 1;
      if t >= |info| {
        info := info + seq(t + 1 - |info|, _ => ComponentInfo("", 0, 0, []));
      }
      info := info[t := ComponentInfo(name, t, size, defaultData)];
    }

    /** CreateComponent(type, dst): copies exactly size(type) bytes of the default snapshot to dst. */
    method CreateComponent(t: ComponentType, dst: array<byte>, at: nat)
      requires Valid() && t < |info| && at + info[t].size <= dst.Length
      modifies dst
      ensures dst[..] == old(dst[..at]) + info[t].defaultData + old(dst[at + info[t].size..])
    {
      MemMove(dst, at, info[t].defaultData);
    }
  }
}

=== FILE: core.dfy ===
/**
 * Byte-level helpers shared by the store: type sizes, post-increment of an
 * index, and copying fixed-size items back to back into a byte buffer.
 * An item is modelled by its object representation, a sequence of bytes
 * whose length is the item's `sizeof`.
 */
module Core {
  newtype byte = b: int | 0 <= b < 256

  /** Size in bytes of a freshly allocated chunk. */
  const DefaultChunkSize: nat := 16384
  /** Initial size in bytes of a command queue's payload buffer. */
  const DefaultCommandQueueSize: nat := 4096

  /** SizeOf<T...>: the sum of the sizes of the items. */
  function SizeOf(items: seq<seq<byte>>): nat
  {
    Sum(Sizes(items))
  }

  /** The items laid out back to back, first argument first. */
  function Concat(items: seq<seq<byte>>): seq<byte>
  {
    if items == [] then [] else items[0] + Concat(items[1..])
  }

  lemma {:induction false} ConcatLength(items: seq<seq<byte>>)
    ensures |Concat(items)| == SizeOf(items)
  {
    if items != [] {
      assert Sizes(items)[1..] == Sizes(items[1..]);
      ConcatLength(items[1..]);
    }
  }

  lemma {:induction false} ConcatSnoc(items: seq<seq<byte>>, item: seq<byte>)
    ensures Concat(items + [item]) == Concat(items) + item
    ensures SizeOf(items + [item]) == SizeOf(items) + |item|
  {
    assert Sizes(items + [item]) == Sizes(items) + [|item|];
    SumSnoc(Sizes(items), |item|);
    if items == [] {
      assert items + [item] == [item];
    } else {
      assert (items + [item])[1..] == items[1..] + [item];
      ConcatSnoc(items[1..], item);
    }
  }

  /** The sizes of the items, in order. */
  function Sizes(items: seq<seq<byte>>): (r: seq<nat>)
    ensures |r| == |items|
    ensures forall i :: 0 <= i < |items| ==> r[i] == |items[i]|
  {
    seq(|items|, i requires 0 <= i < |items| => |items[i]|)
  }

  function Sum(sizes: seq<nat>): nat
  {
    if sizes == [] then 0 else sizes[0] + Sum(sizes[1..])
  }

  lemma {:induction false} SumSnoc(sizes: seq<nat>, n: nat)
    ensures Sum(sizes + [n]) == Sum(sizes) + n
  {
    if sizes == [] {
      assert sizes + [n] == [n];
    } else {
      assert (sizes + [n])[1..] == sizes[1..] + [n];
      SumSnoc(sizes[1..], n);
    }
  }

  lemma {:induction false} SumPrefixMonotone(sizes: seq<nat>, i: nat, j: nat)
    requires i <= j <= |sizes|
    ensures Sum(sizes[..i]) <= Sum(sizes[..j])
    decreases j - i
  {
    if i < j {
      assert sizes[..j] == sizes[..j - 1] + [sizes[j - 1]];
      SumSnoc(sizes[..j - 1], sizes[j - 1]);
      SumPrefixMonotone(sizes, i, j - 1);
    }
  }

  /**
   * Cuts a payload into consecutive pieces of the given sizes: how the
   * store reads back a buffer written by CombineBytes.
   */
  function Split(data: seq<byte>, sizes: seq<nat>): (r: seq<seq<byte>>)
    requires |data| == Sum(sizes)
    ensures |r| == |sizes|
    ensures forall i :: 0 <= i < |sizes| ==> |r[i]| == sizes[i]
  {
    if sizes == [] then []
    else [data[..sizes[0]]] + Split(data[sizes[0]..], sizes[1..])
  }

  /** Splitting a concatenation at its items' sizes gives back the items. */
  lemma {:induction false} SplitConcat(items: seq<seq<byte>>)
    ensures |Concat(items)| == Sum(Sizes(items))
    ensures Split(Concat(items), Sizes(items)) == items
  {
    ConcatLength(items);
    if items != [] {
      assert Sizes(items)[1..] == Sizes(items[1..]);
      SplitConcat(items[1..]);
      assert Concat(items)[..|items[0]|] == items[0];
      assert Concat(items)[|items[0]|..] == Concat(items[1..]);
    }
  }

  /** Concatenating the pieces of a split gives back the payload. */
  lemma {:induction false} ConcatSplit(data: seq<byte>, sizes: seq<nat>)
    requires |data| == Sum(sizes)
    ensures Concat(Split(data, sizes)) == data
  {
    if sizes != [] {
      ConcatSplit(data[sizes[0]..], sizes[1..]);
      assert Split(data, sizes)[1..] == Split(data[sizes[0]..], sizes[1..]);
      assert data == data[..sizes[0]] + data[sizes[0]..];
    }
  }

  /** PostAdd: returns the old value and leaves the value advanced by diff. */
  method PostAdd(value: nat, diff: nat) returns (previous: nat, updated: nat)
    ensures previous == value
    ensures updated - previous == diff
  {
    previous := value;
    updated := value + diff;
  }

  /** memmove of one item to position at of the buffer. */
  method MemMove(buffer: array<byte>, at: nat, item: seq<byte>)
    requires at + |item| <= buffer.Length
    modifies buffer
    ensures buffer[..] == old(buffer[..at]) + item + old(buffer[at + |item|..])
  {
    var k := 0;
    while k < |item|
      invariant 0 <= k <= |item|
      invariant buffer[..at] == old(buffer[..at])
      invariant buffer[at..at + k] == item[..k]
      invariant buffer[at + k..] == old(buffer[at + k..])
    {
      buffer[at + k] := item[k];
      k := k + 1;
      assert buffer[at..at + k] == buffer[at..at + k - 1] + [item[k - 1]];
      assert item[..k] == item[..k - 1] + [item[k - 1]];
    }
    assert buffer[..] == buffer[..at] + buffer[at..at + |item|] + buffer[at + |item|..];
  }

  /**
   * CopyInto(buffer, index, items...): writes the items back to back from
   * index and advances index by their total size; every byte outside that
   * window keeps its value.
   */
  method CopyInto(buffer: array<byte>, index: nat, items: seq<seq<byte>>) returns (next: nat)
    requires index + SizeOf(items) <= buffer.Length
    modifies buffer
    ensures next == index + SizeOf(items)
    ensures buffer[index..next] == Concat(items)
    ensures buffer[..index] == old(buffer[..index])
    ensures buffer[next..] == old(buffer[next..])
  {
    next := index;
    var k := 0;
    while k < |items|
      invariant 0 <= k <= |items|
      invariant next == index + SizeOf(items[..k])
      invariant next + SizeOf(items[k..]) == index + SizeOf(items)
      invariant buffer[index..next] == Concat(items[..k])
      invariant buffer[..index] == old(buffer[..index])
      invariant buffer[next..] == old(buffer[next..])
    {
      assert Sizes(items[k..])[1..] == Sizes(items[k + 1..]);
      var at;
      at, next := PostAdd(next, |items[k]|);
      ghost var before := buffer[..];
      MemMove(buffer, at, items[k]);
      assert items[..k + 1] == items[..k] + [items[k]];
      ConcatSnoc(items[..k], items[k]);
      assert buffer[index..next] == before[index..at] + items[k];
      k := k + 1;
    }
    assert items[..k] == items;
  }

  /** CombineBytes(items...): a fresh buffer of exactly SizeOf bytes holding the items in argument order. */
  method CombineBytes(items: seq<seq<byte>>) returns (data: seq<byte>)
    ensures |data| == SizeOf(items)
    ensures data == Concat(items)
    ensures |data| == Sum(Sizes(items)) && Split(data, Sizes(items)) == items
  {
    var buffer := new byte[SizeOf(items)];
    var end := CopyInto(buffer, 0, items);
    data := buffer[..];
    assert data == buffer[0..end];
    SplitConcat(items);
  }
}

=== FILE: engine.dfy ===
/**
 * The Engine class: the location table, the free-list stack, the archetype
 * map and the counters as fields that its methods update in place, each
 * method proved to leave the state the value model prescribes.
 */
module Engines {
  import opened Wrappers
  import opened Core
  import opened Components
  import opened Layout
  import opened Chunks
  import opened Stores
  import opened EngineModel
  import EngineOps
  import EntityIterators

  /** Whether GetArchetypes(components, allowEmpty) returns archetype k. */
  predicate Selected(s: EngineState, list: ComponentList, allowEmpty: bool, k: nat)
  {
    k < |s.archetypes| && s.archetypes[k].components.Contains(list) &&
    (allowEmpty || ArchetypeEntityCount(s.archetypes[k]) > 0)
  }

  class Engine {
    const cfg: Config
    var idCounter: nat
    var entityCount: nat
    var locations: seq<EntityLocation>
    /** The free-list stack; its top is the last element. */
    var free: seq<nat>
    var archetypeMap: map<ComponentList, nat>
    var archetypes: seq<ArchetypeData>

    function State(): EngineState
      reads this
    {
      EngineState(idCounter, entityCount, locations, free, archetypeMap, archetypes)
    }

    ghost predicate Valid()
      reads this
    {
      Consistent(cfg, State())
    }

    /** Engine(): both counters at 0, nothing allocated. */
    constructor (cfg: Config)
      requires WellFormedTable(cfg.table)
      ensures this.cfg == cfg && State() == EmptyEngine() && Valid()
    {
      this.cfg := cfg;
      idCounter := 0;
      entityCount := 0;
      locations := [];
      free := [];
      archetypeMap := map[];
      archetypes := [];
      new;
      EmptyEngineConsistent(cfg);
    }

    function EntityCount(): (r: nat)
      reads this
      requires Valid()
      ensures r == |LiveSet(State())|
    {
      entityCount
    }

    function ArchetypeCount(): nat
      reads this
    {
      |archetypes|
    }

    /** GetArchetypeIndex(components): the archetype built for the list, or none when it was never seen. */
    method GetArchetypeIndex(list: ComponentList) returns (r: Option<nat>)
      requires Valid()
      ensures r == EngineModel.GetArchetypeIndex(State(), list)
      ensures match r
              case Some(k) => k < |archetypes| && archetypes[k].components == list
              case None => forall k | 0 <= k < |archetypes| :: archetypes[k].components != list
    {
      GetArchetypeIndexSpec(cfg, State(), list);
      if list in archetypeMap {
        r := Some(archetypeMap[list]);
      } else {
        r := None;
      }
    }

    /** CreateArchetype(components): appends the archetype, then records size() - 1 for its list. */
    method CreateArchetype(list: ComponentList) returns (k: nat)
      requires Registered(list, cfg.table)
      modifies this
      ensures State() == EngineModel.CreateArchetype(cfg, old(State()), list)
      ensures k == |archetypes| - 1
    {
      archetypes := archetypes + [NewArchetype(cfg, list)];
      if list !in archetypeMap {
        archetypeMap := archetypeMap[list := |archetypes| - 1];
      }
      k := |archetypes| - 1;
    }

    /** GetOrCreateArchetype(components): the existing index, else the index of a created archetype. */
    method GetOrCreateArchetype(list: ComponentList) returns (k: nat)
      requires Registered(list, cfg.table)
      modifies this
      ensures (State(), k) == EngineModel.GetOrCreateArchetype(cfg, old(State()), list)
    {
      if list in archetypeMap {
        k := archetypeMap[list];
      } else {
        k := CreateArchetype(list);
      }
    }

    /** The free-list's top, popped, or one past the table's end. */
    method TakeIndex() returns (index: nat)
      modifies this
      ensures index == NextIndex(old(State()))
      ensures State() == old(State()).(free := PopFree(old(free)))
    {
      index := |locations|;
      if free != [] {
        index := free[|free| - 1];
        free := free[..|free| - 1];
      }
    }

    /** GetNextEntity(): counts one more entity and hands out the id counter, post-incremented. */
    method GetNextEntity() returns (e: Entity)
      modifies this
      ensures e == Entity(old(idCounter), 0)
      ensures State() == old(State()).(idCounter := old(idCounter) + 1, entityCount := old(entityCount) + 1)
    {
      entityCount := entityCount + 1;
      e := Entity(idCounter, 0);
      idCounter := idCounter + 1;
    }

    /** Archetype k's CreateEntity: the row goes to the reserved slot, which is returned. */
    method AppendToArchetype(k: nat, row: Row) returns (slot: (nat, nat))
      requires k < |archetypes| && archetypes[k].store.active < |archetypes[k].store.chunks|
      modifies this
      ensures slot == ReservedSlot(old(State()), k)
      ensures State() == AppendRow(old(State()), k, row)
    {
      slot := ReservedSlot(State(), k);
      var a := archetypes[k];
      archetypes := archetypes[k := a.(store := Append(a.store, a.info.entitiesPerChunk, row))];
    }

    /** Writes entry l of the location table, appending it when l is the table's size. */
    method WriteLocation(l: nat, loc: EntityLocation)
      requires l <= |locations|
      modifies this
      ensures State() == SetLocation(old(State()), l, loc)
    {
      if l == |locations| {
        locations := locations + [loc];
      } else {
        locations := locations[l := loc];
      }
    }

    /**
     * The steps CreateEntity shares with CreateEntity(components, data):
     * resolve the archetype, take an index, count the entity, append its
     * row (built for the new handle) and record its location.
     */
    method ResolveAndPlace(list: ComponentList, row: Row) returns (e: Entity)
      requires Valid() && cfg.Fits(list)
      requires RowFits(cfg.LayoutFor(list), row) && row[0] == EntityValue(NextEntity(State()))
      modifies this
      ensures e == NextEntity(old(State()))
      ensures State() == EngineModel.ResolveAndPlace(cfg, old(State()), list, row)
    {
      ghost var s := State();
      ResolveSteps(cfg, s, list, row);
      var k := GetOrCreateArchetype(list);
      var index := TakeIndex();
      e := GetNextEntity();
      e := e.(index := index);
      var slot := AppendToArchetype(k, row);
      WriteLocation(index, EntityLocation(k, slot.0, slot.1, e.id));
    }

    /** CreateEntity(components): a new entity with every component at its registered default. */
    method CreateEntity(list: ComponentList) returns (e: Entity)
      requires Valid() && cfg.Fits(list)
      modifies this
      ensures (State(), e) == EngineModel.CreateEntity(cfg, old(State()), list)
      ensures Valid() && ValidHandle(State(), e) && LiveSet(State()) == LiveSet(old(State())) + {e.index}
    {
      ghost var s := State();
      LayoutMatchesTable(cfg, list);
      var row := DefaultRow(cfg.LayoutFor(list), cfg.table, NextEntity(State()));
      e := ResolveAndPlace(list, row);
      CreateEntitySpec(cfg, s, list);
      CreateEntityEffects(cfg, s, list);
    }

    /** CreateEntity(): the same as CreateEntity with the empty list. */
    method CreateEmptyEntity() returns (e: Entity)
      requires Valid() && cfg.Fits(EmptyList())
      modifies this
      ensures (State(), e) == EngineModel.CreateEntity(cfg, old(State()), EmptyList())
      ensures Valid() && ValidHandle(State(), e)
    {
      e := CreateEntity(EmptyList());
    }

    /** CreateEntity(components, data): the component columns are cut from data in ascending id order. */
    method CreateEntityWithData(list: ComponentList, data: seq<byte>) returns (e: Entity)
      requires Valid() && cfg.Fits(list)
      requires |data| == Sum(PayloadSizes(cfg.LayoutFor(list)))
      modifies this
      ensures (State(), e) == EngineModel.CreateEntityWithData(cfg, old(State()), list, data)
      ensures Valid() && ValidHandle(State(), e)
    {
      ghost var s := State();
      var row := DataRow(cfg.LayoutFor(list), NextEntity(State()), data);
      e := ResolveAndPlace(list, row);
      CreateEntityWithDataSpec(cfg, s, list, data);
    }

    /**
     * DeleteEntity(entity): the archetype destroys the slot and reports the
     * entity it moved in; the index goes on the free-list, one entity
     * fewer is counted, and the moved entity's entry names the vacated slot.
     */
    method DeleteEntity(e: Entity)
      requires Valid() && ValidHandle(State(), e)
      modifies this
      ensures State() == EngineModel.DeleteEntity(cfg, old(State()), e)
      ensures Valid() && !ValidHandle(State(), e) && LiveSet(State()) == LiveSet(old(State())) - {e.index}
    {
      ghost var s := State();
      DeleteEntitySteps(cfg, s, e);
      DeleteEntitySpec(cfg, s, e);
      var loc := locations[e.index];
      DestroyInArchetype(loc.archetype, loc.chunk, loc.position);
      Release(e.index);
    }

    /** The index goes on top of the free-list and one entity fewer is counted. */
    method Release(l: nat)
      requires entityCount >= 1
      modifies this
      ensures State() == old(State()).(free := old(free) + [l], entityCount := old(entityCount) - 1)
    {
      free := free + [l];
      entityCount := entityCount - 1;
    }

    /** Archetype k destroys slot (c, i) and reports the entity it moved there, whose entry is re-pointed. */
    method DestroyInArchetype(k: nat, c: nat, i: nat)
      requires Destroyable(cfg, State(), k, c, i)
      modifies this
      ensures State() == DestroyRow(cfg, old(State()), k, c, i)
    {
      var a := archetypes[k];
      var moved := EntityOf(LastRow(a.store));
      archetypes := archetypes[k := a.(store := Destroy(a.store, a.info.entitiesPerChunk, c, i))];
      locations := locations[moved.index := EntityLocation(k, c, i, moved.id)];
    }

    /**
     * GetArchetypes(components, allowEmpty): walks the map and collects
     * each archetype whose list contains components, skipping empty ones
     * unless allowEmpty. The map's order is unspecified, and so is the
     * order of the result; each archetype appears once.
     */
    method GetArchetypes(list: ComponentList, allowEmpty: bool) returns (r: seq<nat>)
      requires MapOk(State())
      ensures forall k: nat :: k in r <==> Selected(State(), list, allowEmpty, k)
      ensures forall i, j | 0 <= i < j < |r| :: r[i] != r[j]
    {
      ghost var s := State();
      var keys := archetypeMap.Keys;
      r := [];
      while keys != {}
        invariant keys <= s.archetypeMap.Keys
        invariant Collected(s, list, allowEmpty, s.archetypeMap.Keys - keys, r)
        decreases |keys|
      {
        var key :| key in keys;
        CollectStep(s, list, allowEmpty, keys, r, key);
        if Takes(State(), list, allowEmpty, key) {
          r := r + [archetypeMap[key]];
        }
        keys := keys - {key};
      }
      CollectedAll(s, list, allowEmpty, r);
    }

    /**
     * GetEntityIterator<T...>(): an EntityIterator<Entity, T...> over the
     * non-empty archetypes whose list holds every T, in GetArchetypes'
     * order; each entity reads its handle first, then its T values.
     */
    method GetEntityIterator(types: seq<ComponentType>) returns (it: EntityIterators.EntityIterator)
      requires Valid() && Distinct(types)
      ensures fresh(it) && it.Valid() && it.query == [cfg.entityType] + types
      ensures IteratesOver(State(), Create(types), it.archs)
    {
      var r := GetArchetypes(Create(types), false);
      SelectedInRange(State(), Create(types), r);
      GatheredShaped(cfg, archetypes, r);
      it := new EntityIterators.EntityIterator(Gather(archetypes, r), [cfg.entityType] + types);
      GatheredIterates(State(), Create(types), r);
    }

    /** TryGetComponent<T>(entity): the entity's value of the type, none when its archetype lacks it. */
    method TryGetComponent(e: Entity, ty: ComponentType) returns (r: Option<Value>)
      requires Valid() && ValidHandle(State(), e)
      ensures r == EngineOps.TryGetComponent(cfg, State(), e, ty)
      ensures r.Some? <==> ty == cfg.entityType || EntityList(State(), e.index).Has(ty)
    {
      EngineOps.TryGetComponentSpec(cfg, State(), e, ty);
      EngineOps.EntityLayout(cfg, State(), e);
      var loc := locations[e.index];
      var a := archetypes[loc.archetype];
      r := ValueOfType(a.info, a.store.chunks[loc.chunk][loc.position], ty);
    }

    /** AddComponent(entity, type, data): the entity moves to the archetype of its list plus the type. */
    method AddComponent(e: Entity, ty: ComponentType, data: Option<seq<byte>>)
      requires Valid() && ValidHandle(State(), e) && Points(State(), e.index)
      requires ty != cfg.entityType && !EntityList(State(), e.index).Has(ty) && ty < |cfg.table|
      requires data.Some? ==> |data.value| == cfg.table[ty].size
      requires cfg.Fits(EntityList(State(), e.index).Add(ty))
      modifies this
      ensures State() == EngineOps.AddComponent(cfg, old(State()), e, ty, data)
      ensures Valid() && ValidHandle(State(), e)
    {
      EngineOps.AddComponentSpec(cfg, State(), e, ty, data);
      var t := EngineOps.AddComponent(cfg, State(), e, ty, data);
      Assign(t);
    }

    /** RemoveComponent(entity, type): the entity moves to the archetype of its list minus the type. */
    method RemoveComponent(e: Entity, ty: ComponentType)
      requires Valid() && ValidHandle(State(), e) && Points(State(), e.index)
      requires EntityList(State(), e.index).Has(ty)
      requires cfg.Fits(EntityList(State(), e.index).Remove(ty))
      modifies this
      ensures State() == EngineOps.RemoveComponent(cfg, old(State()), e, ty)
      ensures Valid() && ValidHandle(State(), e)
    {
      EngineOps.RemoveComponentSpec(cfg, State(), e, ty);
      var t := EngineOps.RemoveComponent(cfg, State(), e, ty);
      Assign(t);
    }

    /** CreateEntityFromComponents(components...): CreateEntity with the arguments' list and combined bytes. */
    method CreateEntityFromComponents(items: seq<EngineOps.ComponentItem>) returns (e: Entity)
      requires Valid() && EngineOps.ItemsFit(cfg, items)
      modifies this
      ensures (State(), e) == EngineOps.CreateEntityFromComponents(cfg, old(State()), items)
      ensures Valid() && ValidHandle(State(), e)
    {
      EngineOps.CombinedLength(cfg, items);
      e := CreateEntityWithData(Create(EngineOps.ItemTypes(items)), EngineOps.CombineBytesById(items));
    }

    /** Sets every field from a state value. */
    method Assign(t: EngineState)
      modifies this
      ensures State() == t
    {
      idCounter, entityCount, locations := t.idCounter, t.entityCount, t.locations;
      free, archetypeMap, archetypes := t.free, t.archetypeMap, t.archetypes;
    }
  }

  /** The result of GetArchetypes(list, false): each selected archetype once. */
  ghost predicate Lists(s: EngineState, list: ComponentList, r: seq<nat>)
  {
    (forall k: nat :: k in r <==> Selected(s, list, false, k)) &&
    (forall i, j | 0 <= i < j < |r| :: r[i] != r[j])
  }

  /** The archetypes at the given positions, in that order: the vector of Archetype pointers. */
  function Gather(archetypes: seq<ArchetypeData>, r: seq<nat>): seq<ArchetypeData>
    requires forall i | 0 <= i < |r| :: r[i] < |archetypes|
  {
    seq(|r|, i requires 0 <= i < |r| => archetypes[r[i]])
  }

  /** archs are the non-empty archetypes whose list contains list, each once, in some order. */
  ghost predicate IteratesOver(s: EngineState, list: ComponentList, archs: seq<ArchetypeData>)
  {
    exists r: seq<nat> | Lists(s, list, r) :: (forall i | 0 <= i < |r| :: r[i] < |s.archetypes|) && archs == Gather(s.archetypes, r)
  }

  lemma SelectedInRange(s: EngineState, list: ComponentList, r: seq<nat>)
    requires forall k: nat :: k in r <==> Selected(s, list, false, k)
    ensures forall i | 0 <= i < |r| :: r[i] < |s.archetypes|
  {
    forall i | 0 <= i < |r|
      ensures r[i] < |s.archetypes|
    {
      assert r[i] in r;
    }
  }

  lemma GatheredShaped(cfg: Config, archetypes: seq<ArchetypeData>, r: seq<nat>)
    requires ArchetypesOk(cfg, archetypes) && forall i | 0 <= i < |r| :: r[i] < |archetypes|
    ensures EntityIterators.AllShaped(Gather(archetypes, r))
  {
    forall i | 0 <= i < |r|
      ensures EntityIterators.Shaped(archetypes[r[i]])
    {
      EntityIterators.ShapedWhenOk(cfg, archetypes[r[i]]);
    }
  }

  lemma GatheredIterates(s: EngineState, list: ComponentList, r: seq<nat>)
    requires Lists(s, list, r)
    ensures forall i | 0 <= i < |r| :: r[i] < |s.archetypes|
    ensures IteratesOver(s, list, Gather(s.archetypes, r))
  {
    SelectedInRange(s, list, r);
  }

  ghost predicate Collected(s: EngineState, list: ComponentList, allowEmpty: bool, done: set<ComponentList>, r: seq<nat>)
  {
    (forall k: nat :: k in r <==> Selected(s, list, allowEmpty, k) && s.archetypes[k].components in done) &&
    (forall i, j | 0 <= i < j < |r| :: r[i] != r[j])
  }

  /** The test GetArchetypes applies to the map entry of key: its list contains components, and it is not empty unless allowed. */
  predicate Takes(s: EngineState, list: ComponentList, allowEmpty: bool, key: ComponentList)
    requires MapOk(s) && key in s.archetypeMap
  {
    key.Contains(list) && (allowEmpty || ArchetypeEntityCount(s.archetypes[s.archetypeMap[key]]) > 0)
  }

  /** Visiting one more key keeps Collected, appending its archetype exactly when it is selected. */
  lemma CollectStep(s: EngineState, list: ComponentList, allowEmpty: bool, keys: set<ComponentList>,
                    r: seq<nat>, key: ComponentList)
    requires MapOk(s) && key in keys && keys <= s.archetypeMap.Keys
    requires Collected(s, list, allowEmpty, s.archetypeMap.Keys - keys, r)
    ensures key in s.archetypeMap
    ensures Collected(s, list, allowEmpty, s.archetypeMap.Keys - (keys - {key}),
                      if Takes(s, list, allowEmpty, key) then r + [s.archetypeMap[key]] else r)
  {
    var done := s.archetypeMap.Keys - keys;
    assert s.archetypeMap.Keys - (keys - {key}) == done + {key};
    var value := s.archetypeMap[key];
    var take := Takes(s, list, allowEmpty, key);
    var r' := if take then r + [value] else r;
    forall k: nat ensures k in r' <==> Selected(s, list, allowEmpty, k) && s.archetypes[k].components in done + {key} {
      if k < |s.archetypes| && s.archetypes[k].components == key {
        assert k == value;
      }
    }
    if take {
      assert value !in r;
    }
  }

  /** Once every key is visited, r holds exactly the selected archetypes. */
  lemma CollectedAll(s: EngineState, list: ComponentList, allowEmpty: bool, r: seq<nat>)
    requires MapOk(s) && Collected(s, list, allowEmpty, s.archetypeMap.Keys - {}, r)
    ensures forall k: nat :: k in r <==> Selected(s, list, allowEmpty, k)
    ensures forall i, j | 0 <= i < j < |r| :: r[i] != r[j]
  {
  }
}

=== FILE: engine_model.dfy ===
/**
 * The value model of the Engine: the flat table of entity locations, the
 * LIFO free-list of location indices, the id counter, and the archetypes
 * keyed by their component list. The Engine class is proved against the
 * functions here.
 *
 * An archetype appears here by value (its list, its layout and the rows of
 * its chunks, as a Store); the Archetype class is proved against the same
 * Store functions.
 */
module EngineModel {
  import opened Wrappers
  import opened Core
  import opened Components
  import opened Layout
  import opened Chunks
  import opened Stores

  /** What every archetype of one engine shares: the registry, the Entity type's id and the chunk size. */
  datatype Config = Config(table: seq<ComponentInfo>, entityType: ComponentType, chunkSize: nat)
  {
    /** A list the engine can build an archetype for: registered, and not naming Entity itself. */
    predicate Admits(list: ComponentList)
    {
      Registered(list, table) && !list.Has(entityType)
    }

    function LayoutFor(list: ComponentList): ArchetypeInfo
      requires Registered(list, table)
    {
      LayoutOf(list, table, entityType, chunkSize)
    }

    /** At least one entity of the list fits in a chunk, which ArchetypeChunk::CreateEntity asserts. */
    predicate Fits(list: ComponentList)
    {
      Admits(list) && LayoutFor(list).entitiesPerChunk >= 1
    }
  }

  /** One archetype, by value: its list, its layout and the rows of its chunks. */
  datatype ArchetypeData = ArchetypeData(components: ComponentList, info: ArchetypeInfo, store: Store)

  /** The number of entities an archetype holds, over all its chunks (Archetype::EntityCount). */
  function ArchetypeEntityCount(a: ArchetypeData): nat
  {
    |Flatten(a.store.chunks)|
  }

  datatype EngineState = EngineState(
    idCounter: nat,
    entityCount: nat,
    locations: seq<EntityLocation>,
    free: seq<nat>,
    archetypeMap: map<ComponentList, nat>,
    archetypes: seq<ArchetypeData>)

  /*
   * The invariant.
   */

  /** An archetype built for its list: the list's layout, packed chunks, and rows of that layout. */
  ghost predicate ArchetypeOk(cfg: Config, a: ArchetypeData)
  {
    cfg.Admits(a.components) && a.info == cfg.LayoutFor(a.components) &&
    Packed(a.store, a.info.entitiesPerChunk) &&
    forall c: nat, i: nat | Occupied(a.store, c, i) :: RowFits(a.info, a.store.chunks[c][i])
  }

  ghost predicate ArchetypesOk(cfg: Config, archetypes: seq<ArchetypeData>)
  {
    forall k | 0 <= k < |archetypes| :: ArchetypeOk(cfg, archetypes[k])
  }

  /** The map sends each list to the one archetype built for it, and knows every archetype. */
  predicate MapOk(s: EngineState)
  {
    (forall list | list in s.archetypeMap ::
       s.archetypeMap[list] < |s.archetypes| && s.archetypes[s.archetypeMap[list]].components == list) &&
    (forall k | 0 <= k < |s.archetypes| ::
       s.archetypes[k].components in s.archetypeMap && s.archetypeMap[s.archetypes[k].components] == k)
  }

  /** The free-list holds distinct indices of the location table. */
  predicate FreeOk(s: EngineState)
  {
    (forall j | 0 <= j < |s.free| :: s.free[j] < |s.locations|) &&
    (forall i, j | 0 <= i < j < |s.free| :: s.free[i] != s.free[j])
  }

  /** The location indices in use: in the table and not on the free-list. */
  function LiveSet(s: EngineState): set<nat>
  {
    set l: nat | l < |s.locations| && l !in s.free
  }

  /** Slot i of chunk c of archetype k holds a row. */
  predicate SlotOf(s: EngineState, k: nat, c: nat, i: nat)
  {
    k < |s.archetypes| && Occupied(s.archetypes[k].store, c, i)
  }

  function RowAt(s: EngineState, k: nat, c: nat, i: nat): Row
    requires SlotOf(s, k, c, i)
  {
    s.archetypes[k].store.chunks[c][i]
  }

  /** Location entry l names an occupied slot whose Entity column holds (entityId, l). */
  predicate Points(s: EngineState, l: nat)
  {
    l < |s.locations| &&
    var loc := s.locations[l];
    SlotOf(s, loc.archetype, loc.chunk, loc.position) &&
    |RowAt(s, loc.archetype, loc.chunk, loc.position)| >= 1 &&
    RowAt(s, loc.archetype, loc.chunk, loc.position)[0] == EntityValue(Entity(loc.entityId, l))
  }

  /** The Entity stored at an occupied slot has a location entry naming that slot and its id. */
  predicate PointedBack(s: EngineState, k: nat, c: nat, i: nat)
    requires SlotOf(s, k, c, i)
  {
    var row := RowAt(s, k, c, i);
    |row| >= 1 && row[0].EntityValue? &&
    row[0].entity.index < |s.locations| &&
    s.locations[row[0].entity.index] == EntityLocation(k, c, i, row[0].entity.id)
  }

  /**
   * The location directory for the live indices L: every live index names
   * a slot holding its entity, and every occupied slot holds an entity
   * whose live entry names that slot. Together: live entities and occupied
   * slots correspond one to one.
   */
  ghost predicate Directory(s: EngineState, L: set<nat>)
  {
    (forall l | l in L :: Points(s, l)) &&
    (forall k: nat, c: nat, i: nat | SlotOf(s, k, c, i) ::
       PointedBack(s, k, c, i) && RowAt(s, k, c, i)[0].entity.index in L)
  }

  /** Every live entity's id was handed out already. */
  ghost predicate IdsBelow(s: EngineState)
  {
    forall l | l in LiveSet(s) && l < |s.locations| :: s.locations[l].entityId < s.idCounter
  }

  ghost predicate Consistent(cfg: Config, s: EngineState)
  {
    WellFormedTable(cfg.table) &&
    ArchetypesOk(cfg, s.archetypes) &&
    MapOk(s) && FreeOk(s) &&
    Directory(s, LiveSet(s)) &&
    IdsBelow(s) &&
    s.entityCount == |LiveSet(s)|
  }

  /** The row of a live entity, found through its location. */
  function EntityRow(s: EngineState, l: nat): Row
    requires Points(s, l)
  {
    var loc := s.locations[l];
    RowAt(s, loc.archetype, loc.chunk, loc.position)
  }

  /** The component list of a live entity's archetype. */
  function EntityList(s: EngineState, l: nat): ComponentList
    requires Points(s, l)
  {
    s.archetypes[s.locations[l].archetype].components
  }

  /** Nothing else changes: every entity of L keeps its archetype, its id and its row. */
  ghost predicate KeepsEntities(s: EngineState, t: EngineState, L: set<nat>)
  {
    forall l | l in L ::
      Points(s, l) && Points(t, l) &&
      t.locations[l].archetype == s.locations[l].archetype &&
      t.locations[l].entityId == s.locations[l].entityId &&
      EntityList(t, l) == EntityList(s, l) && EntityRow(t, l) == EntityRow(s, l)
  }

  /*
   * Steps shared by the operations.
   */

  /** The slot the next append into archetype k takes: (active chunk after Reserve, its count). */
  function ReservedSlot(s: EngineState, k: nat): (nat, nat)
    requires k < |s.archetypes| && s.archetypes[k].store.active < |s.archetypes[k].store.chunks|
  {
    var a := s.archetypes[k];
    var r := Reserve(a.store, a.info.entitiesPerChunk);
    (r.active, |r.chunks[r.active]|)
  }

  /** Archetype::CreateEntity / AddEntity*Component on archetype k: the row is appended. */
  function AppendRow(s: EngineState, k: nat, row: Row): EngineState
    requires k < |s.archetypes| && s.archetypes[k].store.active < |s.archetypes[k].store.chunks|
  {
    var a := s.archetypes[k];
    s.(archetypes := s.archetypes[k := a.(store := Append(a.store, a.info.entitiesPerChunk, row))])
  }

  /** Writes entry l of the location table, appending when l is one past its end. */
  function SetLocation(s: EngineState, l: nat, loc: EntityLocation): EngineState
    requires l <= |s.locations|
  {
    if l == |s.locations| then s.(locations := s.locations + [loc])
    else s.(locations := s.locations[l := loc])
  }

  /** Slot (c, i) of archetype k can be destroyed: it is occupied and the entity to move has an entry. */
  ghost predicate Destroyable(cfg: Config, s: EngineState, k: nat, c: nat, i: nat)
  {
    k < |s.archetypes| && ArchetypeOk(cfg, s.archetypes[k]) &&
    Occupied(s.archetypes[k].store, c, i) &&
    var st := s.archetypes[k].store;
    |st.chunks[st.active]| >= 1 && PointedBack(s, k, st.active, |st.chunks[st.active]| - 1)
  }

  /** The Entity a destroy at archetype k moves: the one in the active chunk's last row. */
  function MovedEntity(cfg: Config, s: EngineState, k: nat, c: nat, i: nat): Entity
    requires Destroyable(cfg, s, k, c, i)
  {
    EntityOf(LastRow(s.archetypes[k].store))
  }

  /**
   * Archetype::DestroyEntity on slot (c, i) of archetype k, then the
   * moved entity's entry re-pointed at the vacated slot.
   */
  function DestroyRow(cfg: Config, s: EngineState, k: nat, c: nat, i: nat): EngineState
    requires Destroyable(cfg, s, k, c, i)
  {
    var a := s.archetypes[k];
    var moved := MovedEntity(cfg, s, k, c, i);
    s.(archetypes := s.archetypes[k := a.(store := Destroy(a.store, a.info.entitiesPerChunk, c, i))],
       locations := s.locations[moved.index := EntityLocation(k, c, i, moved.id)])
  }

  /** Destroying a row touches one archetype's store and one entry, and nothing else. */
  lemma DestroyRowBooks(cfg: Config, s: EngineState, k: nat, c: nat, i: nat)
    requires Destroyable(cfg, s, k, c, i)
    ensures var d := DestroyRow(cfg, s, k, c, i);
            d.free == s.free && d.idCounter == s.idCounter && d.entityCount == s.entityCount &&
            d.archetypeMap == s.archetypeMap && |d.locations| == |s.locations| && |d.archetypes| == |s.archetypes| &&
            forall j | 0 <= j < |s.archetypes| :: d.archetypes[j].components == s.archetypes[j].components
  {
  }

  /** Appending a row to archetype k and pointing entry l at it. */
  function Attach(s: EngineState, k: nat, l: nat, id: nat, row: Row): EngineState
    requires k < |s.archetypes| && s.archetypes[k].store.active < |s.archetypes[k].store.chunks|
    requires l <= |s.locations|
  {
    var slot := ReservedSlot(s, k);
    SetLocation(AppendRow(s, k, row), l, EntityLocation(k, slot.0, slot.1, id))
  }

  /*
   * The steps keep the directory.
   */

  /** A live entry's slot can be destroyed. */
  lemma DestroyPrepare(cfg: Config, s: EngineState, L: set<nat>, l: nat)
    requires ArchetypesOk(cfg, s.archetypes) && Directory(s, L) && l in L
    ensures var loc := s.locations[l];
            Destroyable(cfg, s, loc.archetype, loc.chunk, loc.position)
  {
    assert Points(s, l);
    var loc := s.locations[l];
    var k := loc.archetype;
    var st := s.archetypes[k].store;
    assert ArchetypeOk(cfg, s.archetypes[k]);
    ActiveOccupied(st, s.archetypes[k].info.entitiesPerChunk, loc.chunk, loc.position);
    assert SlotOf(s, k, st.active, |st.chunks[st.active]| - 1);
  }

  /** Destroying keeps the layout discipline of every archetype. */
  lemma DestroyKeepsArchetypes(cfg: Config, s: EngineState, k: nat, c: nat, i: nat)
    requires ArchetypesOk(cfg, s.archetypes) && Destroyable(cfg, s, k, c, i)
    ensures ArchetypesOk(cfg, DestroyRow(cfg, s, k, c, i).archetypes)
  {
    var a := s.archetypes[k];
    var t := DestroyRow(cfg, s, k, c, i);
    DestroyCount(a.store, a.info.entitiesPerChunk, c, i);
    DestroySlots(a.store, a.info.entitiesPerChunk, c, i);
    var b := t.archetypes[k];
    assert Occupied(a.store, a.store.active, |a.store.chunks[a.store.active]| - 1);
    forall d: nat, j: nat | Occupied(b.store, d, j) ensures RowFits(b.info, b.store.chunks[d][j]) {
      assert Occupied(a.store, d, j);
    }
    assert ArchetypeOk(cfg, b);
  }

  /** Every other live entity keeps its row, though the moved one now sits in the vacated slot. */
  lemma DestroyKeepsOthers(cfg: Config, s: EngineState, L: set<nat>, l: nat)
    requires ArchetypesOk(cfg, s.archetypes) && Directory(s, L) && l in L
    requires var loc := s.locations[l]; Destroyable(cfg, s, loc.archetype, loc.chunk, loc.position)
    ensures var loc := s.locations[l];
            KeepsEntities(s, DestroyRow(cfg, s, loc.archetype, loc.chunk, loc.position), L - {l})
  {
    var loc := s.locations[l];
    var k, c, i := loc.archetype, loc.chunk, loc.position;
    var t := DestroyRow(cfg, s, k, c, i);
    var st := s.archetypes[k].store;
    var a, last := st.active, |st.chunks[st.active]| - 1;
    var moved := MovedEntity(cfg, s, k, c, i);
    DestroySlots(st, s.archetypes[k].info.entitiesPerChunk, c, i);
    assert Points(s, l);
    assert s.locations[moved.index] == EntityLocation(k, a, last, moved.id);
    forall m | m in L - {l}
      ensures Points(s, m) && Points(t, m) &&
              t.locations[m].archetype == s.locations[m].archetype &&
              t.locations[m].entityId == s.locations[m].entityId &&
              EntityList(t, m) == EntityList(s, m) && EntityRow(t, m) == EntityRow(s, m)
    {
      assert Points(s, m);
      if m == moved.index {
        assert !(c == a && i == last);
        assert t.archetypes[k].store.chunks[c][i] == LastRow(st);
      } else {
        var ml := s.locations[m];
        assert t.locations[m] == ml;
        if ml.archetype == k {
          assert !(ml.chunk == a && ml.position == last);
          assert !(ml.chunk == c && ml.position == i);
        }
      }
    }
  }

  /** Every occupied slot still holds an entity whose entry, l's excepted, names it. */
  lemma DestroyKeepsSlots(cfg: Config, s: EngineState, L: set<nat>, l: nat)
    requires ArchetypesOk(cfg, s.archetypes) && Directory(s, L) && l in L
    requires var loc := s.locations[l]; Destroyable(cfg, s, loc.archetype, loc.chunk, loc.position)
    ensures var loc := s.locations[l];
            var t := DestroyRow(cfg, s, loc.archetype, loc.chunk, loc.position);
            forall k2: nat, c2: nat, i2: nat | SlotOf(t, k2, c2, i2) ::
              PointedBack(t, k2, c2, i2) && RowAt(t, k2, c2, i2)[0].entity.index in L - {l}
  {
    var loc := s.locations[l];
    var k, c, i := loc.archetype, loc.chunk, loc.position;
    var t := DestroyRow(cfg, s, k, c, i);
    var st := s.archetypes[k].store;
    var a, last := st.active, |st.chunks[st.active]| - 1;
    var moved := MovedEntity(cfg, s, k, c, i);
    DestroySlots(st, s.archetypes[k].info.entitiesPerChunk, c, i);
    assert Points(s, l);
    assert s.locations[moved.index] == EntityLocation(k, a, last, moved.id);
    forall k2: nat, c2: nat, i2: nat | SlotOf(t, k2, c2, i2)
      ensures PointedBack(t, k2, c2, i2) && RowAt(t, k2, c2, i2)[0].entity.index in L - {l}
    {
      if k2 == k {
        assert SlotOf(s, k, c2, i2) && !(c2 == a && i2 == last);
        if c2 == c && i2 == i {
          assert RowAt(t, k, c, i) == LastRow(st);
        } else {
          assert RowAt(t, k, c2, i2) == RowAt(s, k, c2, i2);
          assert PointedBack(s, k, c2, i2);
        }
      } else {
        assert RowAt(t, k2, c2, i2) == RowAt(s, k2, c2, i2);
        assert SlotOf(s, k2, c2, i2) && PointedBack(s, k2, c2, i2);
      }
    }
  }

  /**
   * Destroying live entry l's slot with the moved-entity fix-up leaves the
   * directory of the other live entries intact, each with its row.
   */
  lemma DestroyStep(cfg: Config, s: EngineState, L: set<nat>, l: nat)
    requires ArchetypesOk(cfg, s.archetypes) && Directory(s, L) && l in L
    ensures var loc := s.locations[l];
            Destroyable(cfg, s, loc.archetype, loc.chunk, loc.position)
    ensures var loc := s.locations[l];
            var t := DestroyRow(cfg, s, loc.archetype, loc.chunk, loc.position);
            ArchetypesOk(cfg, t.archetypes) && Directory(t, L - {l}) && KeepsEntities(s, t, L - {l})
  {
    DestroyPrepare(cfg, s, L, l);
    var loc := s.locations[l];
    DestroyKeepsArchetypes(cfg, s, loc.archetype, loc.chunk, loc.position);
    DestroyKeepsOthers(cfg, s, L, l);
    DestroyKeepsSlots(cfg, s, L, l);
  }

  /** Appending a row of the layout keeps the layout discipline of every archetype. */
  lemma AppendKeepsArchetypes(cfg: Config, s: EngineState, k: nat, row: Row)
    requires ArchetypesOk(cfg, s.archetypes) && k < |s.archetypes|
    requires s.archetypes[k].info.entitiesPerChunk >= 1 && RowFits(s.archetypes[k].info, row)
    ensures ArchetypesOk(cfg, AppendRow(s, k, row).archetypes)
  {
    var a := s.archetypes[k];
    assert ArchetypeOk(cfg, a);
    AppendSpec(a.store, a.info.entitiesPerChunk, row);
    AppendSlots(a.store, a.info.entitiesPerChunk, row);
    var b := AppendRow(s, k, row).archetypes[k];
    forall d: nat, j: nat | Occupied(b.store, d, j) ensures RowFits(b.info, b.store.chunks[d][j]) {
      if Occupied(a.store, d, j) {
        assert b.store.chunks[d][j] == a.store.chunks[d][j];
      }
    }
    assert ArchetypeOk(cfg, b);
  }

  /** Attaching entry l leaves every other live entity where it was, with its row. */
  lemma AttachKeepsOthers(cfg: Config, s: EngineState, L: set<nat>, k: nat, l: nat, id: nat, row: Row)
    requires ArchetypesOk(cfg, s.archetypes) && Directory(s, L)
    requires k < |s.archetypes| && s.archetypes[k].info.entitiesPerChunk >= 1
    requires l !in L && l <= |s.locations|
    ensures KeepsEntities(s, Attach(s, k, l, id, row), L)
  {
    var a := s.archetypes[k];
    assert ArchetypeOk(cfg, a);
    var t := Attach(s, k, l, id, row);
    AppendSlots(a.store, a.info.entitiesPerChunk, row);
    forall m | m in L
      ensures Points(s, m) && Points(t, m) &&
              t.locations[m].archetype == s.locations[m].archetype &&
              t.locations[m].entityId == s.locations[m].entityId &&
              EntityList(t, m) == EntityList(s, m) && EntityRow(t, m) == EntityRow(s, m)
    {
      assert Points(s, m);
      var ml := s.locations[m];
      assert t.locations[m] == ml;
      assert SlotOf(s, ml.archetype, ml.chunk, ml.position);
    }
  }

  /** After attaching entry l, every occupied slot holds an entity whose entry names it. */
  lemma AttachKeepsSlots(cfg: Config, s: EngineState, L: set<nat>, k: nat, l: nat, id: nat, row: Row)
    requires ArchetypesOk(cfg, s.archetypes) && Directory(s, L)
    requires k < |s.archetypes| && s.archetypes[k].info.entitiesPerChunk >= 1
    requires |row| >= 1 && row[0] == EntityValue(Entity(id, l))
    requires l !in L && l <= |s.locations|
    ensures var t := Attach(s, k, l, id, row);
            Points(t, l) && t.locations[l] == EntityLocation(k, ReservedSlot(s, k).0, ReservedSlot(s, k).1, id) &&
            EntityRow(t, l) == row
    ensures var t := Attach(s, k, l, id, row);
            forall k2: nat, c2: nat, i2: nat | SlotOf(t, k2, c2, i2) ::
              PointedBack(t, k2, c2, i2) && RowAt(t, k2, c2, i2)[0].entity.index in L + {l}
  {
    var a := s.archetypes[k];
    assert ArchetypeOk(cfg, a);
    var slot := ReservedSlot(s, k);
    var t := Attach(s, k, l, id, row);
    AppendSlots(a.store, a.info.entitiesPerChunk, row);
    assert t.locations[l] == EntityLocation(k, slot.0, slot.1, id);
    assert SlotOf(t, k, slot.0, slot.1) && RowAt(t, k, slot.0, slot.1) == row;
    forall k2: nat, c2: nat, i2: nat | SlotOf(t, k2, c2, i2)
      ensures PointedBack(t, k2, c2, i2) && RowAt(t, k2, c2, i2)[0].entity.index in L + {l}
    {
      if !(k2 == k && c2 == slot.0 && i2 == slot.1) {
        assert SlotOf(s, k2, c2, i2) && RowAt(t, k2, c2, i2) == RowAt(s, k2, c2, i2);
        assert PointedBack(s, k2, c2, i2);
      }
    }
  }

  /**
   * Appending a row of the layout for a fresh entry l, and pointing l at
   * it, adds l to the directory and leaves every other entity as it was.
   */
  lemma AttachStep(cfg: Config, s: EngineState, L: set<nat>, k: nat, l: nat, id: nat, row: Row)
    requires ArchetypesOk(cfg, s.archetypes) && Directory(s, L)
    requires k < |s.archetypes| && s.archetypes[k].info.entitiesPerChunk >= 1
    requires RowFits(s.archetypes[k].info, row) && row[0] == EntityValue(Entity(id, l))
    requires l !in L && l <= |s.locations|
    ensures var t := Attach(s, k, l, id, row);
            ArchetypesOk(cfg, t.archetypes) && Directory(t, L + {l}) && KeepsEntities(s, t, L) &&
            Points(t, l) && t.locations[l] == EntityLocation(k, ReservedSlot(s, k).0, ReservedSlot(s, k).1, id) &&
            EntityRow(t, l) == row
  {
    AppendKeepsArchetypes(cfg, s, k, row);
    AttachKeepsOthers(cfg, s, L, k, l, id, row);
    AttachKeepsSlots(cfg, s, L, k, l, id, row);
  }

  /** The directory is transitive in what it keeps. */
  lemma KeepsTrans(s: EngineState, t: EngineState, u: EngineState, L: set<nat>)
    requires KeepsEntities(s, t, L) && KeepsEntities(t, u, L)
    ensures KeepsEntities(s, u, L)
  {
    forall l | l in L
      ensures Points(s, l) && Points(u, l) &&
              u.locations[l].archetype == s.locations[l].archetype &&
              u.locations[l].entityId == s.locations[l].entityId &&
              EntityList(u, l) == EntityList(s, l) && EntityRow(u, l) == EntityRow(s, l)
    {
    }
  }

  /*
   * Archetypes.
   */

  /** Engine(): no entities, no archetypes, both counters at 0. */
  function EmptyEngine(): (s: EngineState)
    ensures s.idCounter == 0 && s.entityCount == 0 && LiveSet(s) == {}
    ensures forall list :: GetArchetypeIndex(s, list) == None
  {
    EngineState(0, 0, [], [], map[], [])
  }

  /** A new engine over a well-formed registry is consistent. */
  lemma EmptyEngineConsistent(cfg: Config)
    requires WellFormedTable(cfg.table)
    ensures Consistent(cfg, EmptyEngine())
  {
    var s := EmptyEngine();
    assert forall k: nat, c: nat, i: nat :: !SlotOf(s, k, c, i);
  }

  /** GetArchetypeIndex(components): the index the map holds for the list, or none. */
  function GetArchetypeIndex(s: EngineState, list: ComponentList): Option<nat>
  {
    if list in s.archetypeMap then Some(s.archetypeMap[list]) else None
  }

  /** The lookup finds exactly the archetype built for the list, and none for a list never seen. */
  lemma GetArchetypeIndexSpec(cfg: Config, s: EngineState, list: ComponentList)
    requires Consistent(cfg, s)
    ensures match GetArchetypeIndex(s, list)
            case Some(k) => k < |s.archetypes| && s.archetypes[k].components == list
            case None => forall k | 0 <= k < |s.archetypes| :: s.archetypes[k].components != list
  {
  }

  /** Archetype(components): the list's layout, one empty chunk, active index 0. */
  function NewArchetype(cfg: Config, list: ComponentList): (a: ArchetypeData)
    requires Registered(list, cfg.table)
    ensures a.store.chunks == [[]] && a.store.active == 0 && |Flatten(a.store.chunks)| == 0
  {
    ArchetypeData(list, cfg.LayoutFor(list), Store([[]], 0))
  }

  /**
   * CreateArchetype(components): appends the archetype and records its
   * index, size() - 1 after the append; emplace leaves an entry that is
   * already there.
   */
  function CreateArchetype(cfg: Config, s: EngineState, list: ComponentList): EngineState
    requires Registered(list, cfg.table)
  {
    var archetypes := s.archetypes + [NewArchetype(cfg, list)];
    s.(archetypes := archetypes,
       archetypeMap := if list in s.archetypeMap then s.archetypeMap else s.archetypeMap[list := |archetypes| - 1])
  }

  /**
   * GetOrCreateArchetype(components): the existing index, or the index of
   * a newly created archetype. The index of a new archetype is taken after
   * the append; see GetOrCreateLeftToRight for the other reading of the
   * source's make_pair.
   */
  function GetOrCreateArchetype(cfg: Config, s: EngineState, list: ComponentList): (EngineState, nat)
    requires Registered(list, cfg.table)
  {
    match GetArchetypeIndex(s, list)
    case Some(k) => (s, k)
    case None =>
      var t := CreateArchetype(cfg, s, list);
      (t, |t.archetypes| - 1)
  }

  /** A new archetype has no occupied slot, so every entity stays where it was. */
  lemma CreateArchetypeKeeps(cfg: Config, s: EngineState, list: ComponentList, L: set<nat>)
    requires Registered(list, cfg.table) && Directory(s, L)
    ensures Directory(CreateArchetype(cfg, s, list), L) && KeepsEntities(s, CreateArchetype(cfg, s, list), L)
  {
    var t := CreateArchetype(cfg, s, list);
    var n := |s.archetypes|;
    assert forall j | 0 <= j < n :: t.archetypes[j] == s.archetypes[j];
    assert forall j: nat, c: nat, i: nat | SlotOf(t, j, c, i) :: j < n && SlotOf(s, j, c, i);
    assert forall l | l in L :: Points(s, l);
  }

  /** Creating the archetype for a list not in the map keeps the map one to one. */
  lemma CreateArchetypeMap(cfg: Config, s: EngineState, list: ComponentList)
    requires Registered(list, cfg.table) && MapOk(s) && list !in s.archetypeMap
    ensures MapOk(CreateArchetype(cfg, s, list))
  {
    var t := CreateArchetype(cfg, s, list);
    var n := |s.archetypes|;
    assert forall j | 0 <= j < n :: t.archetypes[j] == s.archetypes[j];
    assert t.archetypes[n].components == list;
  }

  lemma CreateArchetypeOk(cfg: Config, s: EngineState, list: ComponentList)
    requires ArchetypesOk(cfg, s.archetypes) && cfg.Admits(list)
    ensures ArchetypesOk(cfg, CreateArchetype(cfg, s, list).archetypes)
  {
    var t := CreateArchetype(cfg, s, list);
    var n := |s.archetypes|;
    assert forall j | 0 <= j < n :: t.archetypes[j] == s.archetypes[j];
    assert ArchetypeOk(cfg, t.archetypes[n]);
  }

  /**
   * There is one archetype per distinct list: GetOrCreateArchetype returns
   * the archetype built for the list, creating it (last, empty) only when
   * the list was never seen, and changes nothing else.
   */
  lemma GetOrCreateSpec(cfg: Config, s: EngineState, list: ComponentList)
    requires Consistent(cfg, s) && cfg.Admits(list)
    ensures var (t, k) := GetOrCreateArchetype(cfg, s, list);
            Consistent(cfg, t) && k < |t.archetypes| &&
            t.archetypes[k].components == list && t.archetypes[k].info == cfg.LayoutFor(list) &&
            (list in s.archetypeMap <==> t == s) &&
            (list !in s.archetypeMap ==> k == |s.archetypes| && t.archetypes == s.archetypes + [NewArchetype(cfg, list)])
    ensures var t := GetOrCreateArchetype(cfg, s, list).0;
            t.archetypes[..|s.archetypes|] == s.archetypes &&
            t.locations == s.locations && t.free == s.free &&
            t.idCounter == s.idCounter && t.entityCount == s.entityCount &&
            LiveSet(t) == LiveSet(s) && KeepsEntities(s, t, LiveSet(s))
  {
    if list in s.archetypeMap {
      GetOrCreateFound(cfg, s, list);
    } else {
      GetOrCreateNew(cfg, s, list);
      assert s.archetypes + [NewArchetype(cfg, list)] != s.archetypes;
      assert (s.archetypes + [NewArchetype(cfg, list)])[..|s.archetypes|] == s.archetypes;
    }
  }

  /** GetOrCreateSpec when the list already has an archetype: that archetype, nothing changed. */
  lemma GetOrCreateFound(cfg: Config, s: EngineState, list: ComponentList)
    requires Consistent(cfg, s) && cfg.Admits(list) && list in s.archetypeMap
    ensures var k := s.archetypeMap[list];
            GetOrCreateArchetype(cfg, s, list) == (s, k) && k < |s.archetypes| &&
            s.archetypes[k].components == list && s.archetypes[k].info == cfg.LayoutFor(list) &&
            KeepsEntities(s, s, LiveSet(s))
  {
    var k := s.archetypeMap[list];
    assert ArchetypeOk(cfg, s.archetypes[k]);
    assert forall l | l in LiveSet(s) :: Points(s, l);
  }

  /** GetOrCreateSpec when the list is new: a fresh archetype at the end, the entities untouched. */
  lemma GetOrCreateNew(cfg: Config, s: EngineState, list: ComponentList)
    requires Consistent(cfg, s) && cfg.Admits(list) && list !in s.archetypeMap
    ensures var t := CreateArchetype(cfg, s, list);
            GetOrCreateArchetype(cfg, s, list) == (t, |s.archetypes|) &&
            Consistent(cfg, t) && t.archetypes == s.archetypes + [NewArchetype(cfg, list)] &&
            t.locations == s.locations && t.free == s.free &&
            t.idCounter == s.idCounter && t.entityCount == s.entityCount &&
            LiveSet(t) == LiveSet(s) && KeepsEntities(s, t, LiveSet(s))
  {
    var t := CreateArchetype(cfg, s, list);
    assert LiveSet(t) == LiveSet(s);
    CreateArchetypeKeeps(cfg, s, list, LiveSet(s));
    CreateArchetypeMap(cfg, s, list);
    CreateArchetypeOk(cfg, s, list);
  }

  /**
   * make_pair(m_Archetypes.size() - 1, CreateArchetype(components)) with
   * its arguments evaluated left to right: the index is read before the
   * append, so it is one short of the new archetype; for the first one
   * the size_t subtraction 0 - 1 wraps to 2^64 - 1.
   */
  function GetOrCreateLeftToRight(cfg: Config, s: EngineState, list: ComponentList): (EngineState, nat)
    requires Registered(list, cfg.table)
  {
    match GetArchetypeIndex(s, list)
    case Some(k) => (s, k)
    case None => (CreateArchetype(cfg, s, list), if s.archetypes == [] then WordModulus - 1 else |s.archetypes| - 1)
  }

  /**
   * Read left to right, the pair names the wrong archetype whenever one is
   * created: on an empty engine the size_t subtraction wraps to
   * 2^64 - 1, past every archetype, and otherwise the index is the
   * previously created archetype's, whose list differs.
   */
  lemma LeftToRightIndexIsStale(cfg: Config, s: EngineState, list: ComponentList)
    requires Consistent(cfg, s) && cfg.Admits(list) && list !in s.archetypeMap
    ensures var (t, k) := GetOrCreateLeftToRight(cfg, s, list);
            (s.archetypes == [] ==> k == WordModulus - 1 && k >= |t.archetypes|) &&
            (s.archetypes != [] ==> k == |t.archetypes| - 2 && t.archetypes[k].components != list)
    ensures var k := GetOrCreateLeftToRight(cfg, s, list).1;
            GetOrCreateArchetype(cfg, s, list).1 == if s.archetypes == [] then 0 else k + 1
  {
    var (t, k) := GetOrCreateLeftToRight(cfg, s, list);
    if s.archetypes != [] {
      assert t.archetypes[k] == s.archetypes[k];
    }
  }

  /*
   * Entities.
   */

  /** The location index CreateEntity uses: the free-list's top, or one past the table's end. */
  function NextIndex(s: EngineState): nat
  {
    if s.free == [] then |s.locations| else s.free[|s.free| - 1]
  }

  function PopFree(free: seq<nat>): seq<nat>
  {
    if free == [] then [] else free[..|free| - 1]
  }

  /** The check DeleteEntity and GetComponent assert: the handle's entry exists and carries its id. */
  predicate HandleCheck(s: EngineState, e: Entity)
  {
    e.index < |s.locations| && s.locations[e.index].entityId == e.id
  }

  /** The handle of a live entity: its entry is in use and carries its id. */
  predicate ValidHandle(s: EngineState, e: Entity)
  {
    HandleCheck(s, e) && e.index !in s.free
  }

  /** A valid handle finds a row holding exactly that handle. */
  lemma ValidHandleRow(cfg: Config, s: EngineState, e: Entity)
    requires Consistent(cfg, s) && ValidHandle(s, e)
    ensures e.index in LiveSet(s) && Points(s, e.index)
    ensures var row := EntityRow(s, e.index);
            RowFits(s.archetypes[s.locations[e.index].archetype].info, row) && row[0] == EntityValue(e)
  {
    assert e.index in LiveSet(s);
    var loc := s.locations[e.index];
    assert ArchetypeOk(cfg, s.archetypes[loc.archetype]);
  }

  /** The directory does not look at the free-list or the counters. */
  lemma DirectoryOfFields(s: EngineState, t: EngineState, L: set<nat>)
    requires Directory(s, L) && t.locations == s.locations && t.archetypes == s.archetypes
    ensures Directory(t, L) && KeepsEntities(s, t, L)
  {
    assert forall k: nat, c: nat, i: nat :: SlotOf(t, k, c, i) == SlotOf(s, k, c, i);
    assert forall l | l in L :: Points(s, l);
  }

  /** The second half of CreateEntity: entry index, counters, then the row and its entry. */
  function Place(s: EngineState, k: nat, e: Entity, row: Row): EngineState
    requires k < |s.archetypes| && s.archetypes[k].store.active < |s.archetypes[k].store.chunks|
    requires e.index <= |s.locations|
  {
    var s2 := s.(free := PopFree(s.free), idCounter := s.idCounter + 1, entityCount := s.entityCount + 1);
    Attach(s2, k, e.index, e.id, row)
  }

  /** The free-list's top is not live. */
  lemma NextIndexFree(s: EngineState)
    requires FreeOk(s)
    ensures NextIndex(s) <= |s.locations| && NextIndex(s) !in LiveSet(s)
  {
    if s.free != [] {
      assert s.free[|s.free| - 1] in s.free;
    }
  }

  /** Popping the free-list's top (or appending an entry) makes exactly that index live. */
  lemma PopFreeLive(s: EngineState, t: EngineState)
    requires FreeOk(s) && t.free == PopFree(s.free)
    requires |t.locations| == |s.locations| + (if s.free == [] then 1 else 0)
    ensures FreeOk(t) && LiveSet(t) == LiveSet(s) + {NextIndex(s)}
  {
    var l := NextIndex(s);
    if s.free != [] {
      var top := |s.free| - 1;
      forall m: nat ensures m in t.free <==> m in s.free && m != l {
        if m in t.free {
          var j :| 0 <= j < top && s.free[..top][j] == m;
          assert s.free[j] == m;
        }
        if m in s.free && m != l {
          var j :| 0 <= j < |s.free| && s.free[j] == m;
          assert s.free[..top][j] == m;
        }
      }
    }
  }

  /** Pushing a live index on the free-list makes exactly that index dead. */
  lemma PushFreeLive(s: EngineState, t: EngineState, l: nat)
    requires FreeOk(s) && l in LiveSet(s)
    requires t.free == s.free + [l] && |t.locations| == |s.locations|
    ensures FreeOk(t) && LiveSet(t) == LiveSet(s) - {l} && NextIndex(t) == l
  {
  }

  /** The map stays one to one while the archetypes keep their lists. */
  lemma MapOfComponents(s: EngineState, t: EngineState)
    requires MapOk(s) && t.archetypeMap == s.archetypeMap && |t.archetypes| == |s.archetypes|
    requires forall j | 0 <= j < |s.archetypes| :: t.archetypes[j].components == s.archetypes[j].components
    ensures MapOk(t)
  {
  }

  /** The rows and entries after placing: the new entity points at its row, the others keep theirs. */
  lemma PlaceShape(cfg: Config, s: EngineState, k: nat, row: Row)
    requires Consistent(cfg, s) && k < |s.archetypes| && s.archetypes[k].info.entitiesPerChunk >= 1
    requires RowFits(s.archetypes[k].info, row) && row[0] == EntityValue(Entity(s.idCounter, NextIndex(s)))
    ensures NextIndex(s) <= |s.locations| && NextIndex(s) !in LiveSet(s)
    ensures var e := Entity(s.idCounter, NextIndex(s));
            var t := Place(s, k, e, row);
            ArchetypesOk(cfg, t.archetypes) && Directory(t, LiveSet(s) + {e.index}) &&
            KeepsEntities(s, t, LiveSet(s)) && Points(t, e.index) &&
            t.locations[e.index].archetype == k && t.locations[e.index].entityId == e.id &&
            EntityRow(t, e.index) == row
  {
    NextIndexFree(s);
    var L := LiveSet(s);
    var e := Entity(s.idCounter, NextIndex(s));
    var s2 := s.(free := PopFree(s.free), idCounter := s.idCounter + 1, entityCount := s.entityCount + 1);
    DirectoryOfFields(s, s2, L);
    assert ArchetypeOk(cfg, s.archetypes[k]);
    AttachStep(cfg, s2, L, k, e.index, e.id, row);
    KeepsTrans(s, s2, Place(s, k, e, row), L);
  }

  /** The bookkeeping after placing: the free-list, the counters and the map. */
  lemma PlaceBooks(s: EngineState, k: nat, row: Row)
    requires FreeOk(s) && MapOk(s) && k < |s.archetypes| && s.archetypes[k].store.active < |s.archetypes[k].store.chunks|
    ensures NextIndex(s) <= |s.locations|
    ensures var e := Entity(s.idCounter, NextIndex(s));
            var t := Place(s, k, e, row);
            FreeOk(t) && LiveSet(t) == LiveSet(s) + {e.index} &&
            t.idCounter == s.idCounter + 1 && t.entityCount == s.entityCount + 1 &&
            t.archetypeMap == s.archetypeMap && |t.archetypes| == |s.archetypes| &&
            (forall j | 0 <= j < |s.archetypes| :: t.archetypes[j].components == s.archetypes[j].components) &&
            MapOk(t)
  {
    NextIndexFree(s);
    var t := Place(s, k, Entity(s.idCounter, NextIndex(s)), row);
    assert t.free == PopFree(s.free) && |t.locations| == |s.locations| + (if s.free == [] then 1 else 0);
    assert forall j | 0 <= j < |s.archetypes| :: t.archetypes[j].components == s.archetypes[j].components;
    PopFreeLive(s, t);
    MapOfComponents(s, t);
  }

  /** Ids stay below the counter when the kept entities keep theirs and the others are fresh. */
  lemma IdsKept(s: EngineState, t: EngineState, L: set<nat>)
    requires IdsBelow(s) && L <= LiveSet(s) && KeepsEntities(s, t, L) && s.idCounter <= t.idCounter
    requires forall l | l in LiveSet(t) - L :: t.locations[l].entityId < t.idCounter
    ensures IdsBelow(t)
  {
    forall l | l in LiveSet(t) && l < |t.locations| ensures t.locations[l].entityId < t.idCounter {
      if l in L {
        assert t.locations[l].entityId == s.locations[l].entityId;
      }
    }
  }

  /**
   * Placing a row for the next entity keeps the engine consistent and
   * makes the new handle valid (the rest is in PlaceShape and PlaceBooks).
   */
  lemma PlaceSpec(cfg: Config, s: EngineState, k: nat, row: Row)
    requires Consistent(cfg, s) && k < |s.archetypes| && s.archetypes[k].info.entitiesPerChunk >= 1
    requires RowFits(s.archetypes[k].info, row) && row[0] == EntityValue(Entity(s.idCounter, NextIndex(s)))
    ensures NextIndex(s) <= |s.locations|
    ensures var e := Entity(s.idCounter, NextIndex(s));
            Consistent(cfg, Place(s, k, e, row)) && ValidHandle(Place(s, k, e, row), e)
  {
    PlaceShape(cfg, s, k, row);
    PlaceBooks(s, k, row);
    var t := Place(s, k, Entity(s.idCounter, NextIndex(s)), row);
    IdsKept(s, t, LiveSet(s));
  }

  /** The registry agrees with every layout built from it. */
  lemma LayoutMatchesTable(cfg: Config, list: ComponentList)
    requires WellFormedTable(cfg.table) && Registered(list, cfg.table)
    ensures MatchesTable(cfg.LayoutFor(list), cfg.table) && |cfg.LayoutFor(list).componentInfo| >= 1
  {
    var info := cfg.LayoutFor(list);
    forall c | 1 <= c < |info.componentInfo|
      ensures info.componentInfo[c].componentType < |cfg.table| &&
              cfg.table[info.componentInfo[c].componentType].size == info.componentInfo[c].size
    {
      LayoutColumn(list, cfg.table, cfg.entityType, cfg.chunkSize, c);
      assert list.types[c - 1] in list.types;
    }
  }

  /** The handle CreateEntity hands out: the counter as id, the next entry as index. */
  function NextEntity(s: EngineState): Entity
  {
    Entity(s.idCounter, NextIndex(s))
  }

  /** Resolving the list's archetype and placing a row there for the next entity. */
  function ResolveAndPlace(cfg: Config, s: EngineState, list: ComponentList, row: Row): EngineState
    requires Consistent(cfg, s) && cfg.Fits(list)
  {
    GetOrCreateSpec(cfg, s, list);
    var (s1, k) := GetOrCreateArchetype(cfg, s, list);
    NextIndexFree(s1);
    assert ArchetypeOk(cfg, s1.archetypes[k]);
    Place(s1, k, NextEntity(s), row)
  }

  /** The facts each step of resolving and placing needs, with the outcome stated step by step. */
  lemma ResolveSteps(cfg: Config, s: EngineState, list: ComponentList, row: Row)
    requires Consistent(cfg, s) && cfg.Fits(list)
    ensures var (s1, k) := GetOrCreateArchetype(cfg, s, list);
      k < |s1.archetypes| && s1.archetypes[k].store.active < |s1.archetypes[k].store.chunks| &&
      NextIndex(s1) == NextIndex(s) <= |s1.locations| && s1.idCounter == s.idCounter &&
      ResolveAndPlace(cfg, s, list, row) == Place(s1, k, NextEntity(s), row)
  {
    GetOrCreateSpec(cfg, s, list);
    var (s1, k) := GetOrCreateArchetype(cfg, s, list);
    NextIndexFree(s1);
    assert ArchetypeOk(cfg, s1.archetypes[k]);
  }

  /** Resolving and placing a fitting row keeps the engine consistent and the new handle valid. */
  lemma ResolveAndPlaceOk(cfg: Config, s: EngineState, list: ComponentList, row: Row)
    requires Consistent(cfg, s) && cfg.Fits(list)
    requires RowFits(cfg.LayoutFor(list), row) && row[0] == EntityValue(NextEntity(s))
    ensures Consistent(cfg, ResolveAndPlace(cfg, s, list, row))
    ensures ValidHandle(ResolveAndPlace(cfg, s, list, row), NextEntity(s))
  {
    GetOrCreateSpec(cfg, s, list);
    var (s1, k) := GetOrCreateArchetype(cfg, s, list);
    PlaceSpec(cfg, s1, k, row);
  }

  /**
   * Resolving and placing: the next entity becomes live in the list's
   * archetype with the row, the counters advance, every live entity keeps
   * its archetype, id and row.
   */
  lemma ResolveAndPlaceEffects(cfg: Config, s: EngineState, list: ComponentList, row: Row)
    requires Consistent(cfg, s) && cfg.Fits(list)
    requires RowFits(cfg.LayoutFor(list), row) && row[0] == EntityValue(NextEntity(s))
    ensures var t := ResolveAndPlace(cfg, s, list, row);
            var l := NextIndex(s);
            l !in LiveSet(s) && LiveSet(t) == LiveSet(s) + {l} &&
            t.idCounter == s.idCounter + 1 && t.entityCount == s.entityCount + 1 &&
            Points(t, l) && EntityList(t, l) == list && EntityRow(t, l) == row &&
            KeepsEntities(s, t, LiveSet(s))
  {
    GetOrCreateSpec(cfg, s, list);
    var (s1, k) := GetOrCreateArchetype(cfg, s, list);
    PlaceShape(cfg, s1, k, row);
    PlaceBooks(s1, k, row);
    KeepsTrans(s, s1, ResolveAndPlace(cfg, s, list, row), LiveSet(s));
  }

  /**
   * CreateEntity(components): resolves the archetype, takes the next
   * entry index and id, and appends a row of component defaults.
   */
  function CreateEntity(cfg: Config, s: EngineState, list: ComponentList): (EngineState, Entity)
    requires Consistent(cfg, s) && cfg.Fits(list)
  {
    LayoutMatchesTable(cfg, list);
    var e := NextEntity(s);
    (ResolveAndPlace(cfg, s, list, DefaultRow(cfg.LayoutFor(list), cfg.table, e)), e)
  }

  /** A fresh id: the counter is no live entity's id. */
  lemma NextIdUnused(cfg: Config, s: EngineState)
    requires Consistent(cfg, s)
    ensures forall l | l in LiveSet(s) :: s.locations[l].entityId != NextEntity(s).id
  {
  }

  /**
   * CreateEntity hands out the counter as the id and the free-list's top
   * (else a new entry) as the index, an index no live entity holds; the
   * engine stays consistent and the handle is valid.
   */
  lemma CreateEntitySpec(cfg: Config, s: EngineState, list: ComponentList)
    requires Consistent(cfg, s) && cfg.Fits(list)
    ensures var e := CreateEntity(cfg, s, list).1;
            e.id == s.idCounter && e.index == NextIndex(s) && e.index !in LiveSet(s)
    ensures var (t, e) := CreateEntity(cfg, s, list);
            Consistent(cfg, t) && ValidHandle(t, e)
  {
    LayoutMatchesTable(cfg, list);
    var row := DefaultRow(cfg.LayoutFor(list), cfg.table, NextEntity(s));
    ResolveAndPlaceOk(cfg, s, list, row);
    NextIndexFree(s);
  }

  /**
   * After CreateEntity the new entity is live in the list's archetype with
   * every component at its registered default, the counters advance, and
   * every other entity is unchanged.
   */
  lemma CreateEntityEffects(cfg: Config, s: EngineState, list: ComponentList)
    requires Consistent(cfg, s) && cfg.Fits(list)
    ensures var (t, e) := CreateEntity(cfg, s, list);
            t.idCounter == s.idCounter + 1 && t.entityCount == s.entityCount + 1 &&
            LiveSet(t) == LiveSet(s) + {e.index} && Points(t, e.index) &&
            EntityList(t, e.index) == list &&
            EntityRow(t, e.index) == DefaultRow(cfg.LayoutFor(list), cfg.table, e) &&
            KeepsEntities(s, t, LiveSet(s))
  {
    LayoutMatchesTable(cfg, list);
    var row := DefaultRow(cfg.LayoutFor(list), cfg.table, NextEntity(s));
    ResolveAndPlaceEffects(cfg, s, list, row);
  }

  /**
   * CreateEntity(components, data): as CreateEntity, with the component
   * columns cut from data in ascending id order.
   */
  function CreateEntityWithData(cfg: Config, s: EngineState, list: ComponentList, data: seq<byte>): (EngineState, Entity)
    requires Consistent(cfg, s) && cfg.Fits(list)
    requires |data| == Sum(PayloadSizes(cfg.LayoutFor(list)))
  {
    var e := NextEntity(s);
    (ResolveAndPlace(cfg, s, list, DataRow(cfg.LayoutFor(list), e, data)), e)
  }

  /** CreateEntity with data places the same entity as CreateEntity, holding the data's row. */
  lemma CreateEntityWithDataSpec(cfg: Config, s: EngineState, list: ComponentList, data: seq<byte>)
    requires Consistent(cfg, s) && cfg.Fits(list)
    requires |data| == Sum(PayloadSizes(cfg.LayoutFor(list)))
    ensures var (t, e) := CreateEntityWithData(cfg, s, list, data);
            Consistent(cfg, t) && ValidHandle(t, e) &&
            e == CreateEntity(cfg, s, list).1 && LiveSet(t) == LiveSet(s) + {e.index} &&
            t.idCounter == s.idCounter + 1 && t.entityCount == s.entityCount + 1 &&
            EntityList(t, e.index) == list &&
            EntityRow(t, e.index) == DataRow(cfg.LayoutFor(list), e, data) &&
            KeepsEntities(s, t, LiveSet(s))
  {
    var row := DataRow(cfg.LayoutFor(list), NextEntity(s), data);
    ResolveAndPlaceOk(cfg, s, list, row);
    ResolveAndPlaceEffects(cfg, s, list, row);
  }

  /**
   * DeleteEntity(entity): destroys the entity's slot, re-points the moved
   * entity, pushes the entry index on the free-list and counts one fewer.
   */
  function DeleteEntity(cfg: Config, s: EngineState, e: Entity): EngineState
    requires Consistent(cfg, s) && ValidHandle(s, e)
  {
    DestroyStep(cfg, s, LiveSet(s), e.index);
    assert e.index in LiveSet(s);
    var loc := s.locations[e.index];
    var t := DestroyRow(cfg, s, loc.archetype, loc.chunk, loc.position);
    t.(free := t.free + [e.index], entityCount := s.entityCount - 1)
  }

  /** DeleteEntity as its two steps: the destroy, then the free-list push and the count. */
  lemma DeleteEntitySteps(cfg: Config, s: EngineState, e: Entity)
    requires Consistent(cfg, s) && ValidHandle(s, e)
    ensures var loc := s.locations[e.index];
            Destroyable(cfg, s, loc.archetype, loc.chunk, loc.position) &&
            var d := DestroyRow(cfg, s, loc.archetype, loc.chunk, loc.position);
            DeleteEntity(cfg, s, e) == d.(free := d.free + [e.index], entityCount := s.entityCount - 1)
  {
    DestroyStep(cfg, s, LiveSet(s), e.index);
    assert e.index in LiveSet(s);
  }

  /**
   * DeleteEntity makes the entity dead, leaves its index on top of the
   * free-list for the next CreateEntity, and keeps every other entity
   * (the moved one included) with its row.
   */
  lemma DeleteEntitySpec(cfg: Config, s: EngineState, e: Entity)
    requires Consistent(cfg, s) && ValidHandle(s, e)
    ensures var t := DeleteEntity(cfg, s, e);
            Consistent(cfg, t) && !ValidHandle(t, e) &&
            LiveSet(t) == LiveSet(s) - {e.index} && NextIndex(t) == e.index &&
            t.entityCount == s.entityCount - 1 && t.idCounter == s.idCounter &&
            t.archetypeMap == s.archetypeMap &&
            KeepsEntities(s, t, LiveSet(t))
  {
    var L := LiveSet(s);
    DestroyStep(cfg, s, L, e.index);
    var loc := s.locations[e.index];
    DestroyRowBooks(cfg, s, loc.archetype, loc.chunk, loc.position);
    FreedConsistent(cfg, s, DestroyRow(cfg, s, loc.archetype, loc.chunk, loc.position), e.index);
  }

  /**
   * A state that keeps the free-list, the counters and the map, whose
   * archetypes are sound and which points every live index but l at its
   * entity, is consistent once l is pushed on the free-list and the count
   * drops by one.
   */
  lemma FreedConsistent(cfg: Config, s: EngineState, d: EngineState, l: nat)
    requires Consistent(cfg, s) && l in LiveSet(s)
    requires d.free == s.free && d.idCounter == s.idCounter && d.archetypeMap == s.archetypeMap
    requires |d.locations| == |s.locations| && |d.archetypes| == |s.archetypes|
    requires forall j | 0 <= j < |s.archetypes| :: d.archetypes[j].components == s.archetypes[j].components
    requires ArchetypesOk(cfg, d.archetypes) && Directory(d, LiveSet(s) - {l}) && KeepsEntities(s, d, LiveSet(s) - {l})
    ensures var t := d.(free := d.free + [l], entityCount := s.entityCount - 1);
            Consistent(cfg, t) && LiveSet(t) == LiveSet(s) - {l} && NextIndex(t) == l &&
            KeepsEntities(s, t, LiveSet(t))
  {
    var L := LiveSet(s);
    var t := d.(free := d.free + [l], entityCount := s.entityCount - 1);
    DirectoryOfFields(d, t, L - {l});
    KeepsTrans(s, d, t, L - {l});
    PushFreeLive(s, t, l);
    MapOfComponents(s, t);
    assert forall m | m in LiveSet(t) :: t.locations[m].entityId == s.locations[m].entityId;
  }

  /**
   * The handle check DeleteEntity and the component accessors make
   * (entity.id == location.entityId) still passes for a handle just
   * deleted: the entry is left as it was.
   */
  lemma StaleHandlePassesCheck(cfg: Config, s: EngineState, e: Entity)
    requires Consistent(cfg, s) && ValidHandle(s, e)
    ensures |DeleteEntity(cfg, s, e).locations| == |s.locations|
    ensures var t := DeleteEntity(cfg, s, e);
            t.locations[e.index] == s.locations[e.index] && HandleCheck(t, e) && !ValidHandle(t, e)
  {
    DestroyPrepare(cfg, s, LiveSet(s), e.index);
    var loc := s.locations[e.index];
    var st := s.archetypes[loc.archetype].store;
    var moved := MovedEntity(cfg, s, loc.archetype, loc.chunk, loc.position);
    assert s.locations[moved.index] == EntityLocation(loc.archetype, st.active, |st.chunks[st.active]| - 1, moved.id);
  }

  /**
   * Unless the deleted entity sat in its archetype's last row, the slot
   * its stale handle still names holds another live entity, which a
   * second DeleteEntity through that handle would destroy.
   */
  lemma StaleHandleNamesAnother(cfg: Config, s: EngineState, e: Entity)
    requires Consistent(cfg, s) && ValidHandle(s, e)
    ensures var loc := s.locations[e.index];
            Destroyable(cfg, s, loc.archetype, loc.chunk, loc.position)
    ensures var t := DeleteEntity(cfg, s, e);
            var loc := s.locations[e.index];
            var st := s.archetypes[loc.archetype].store;
            var m := MovedEntity(cfg, s, loc.archetype, loc.chunk, loc.position);
            !(loc.chunk == st.active && loc.position == |st.chunks[st.active]| - 1) ==>
              SlotOf(t, loc.archetype, loc.chunk, loc.position) &&
              RowAt(t, loc.archetype, loc.chunk, loc.position)[0] == EntityValue(m) &&
              m.index in LiveSet(t) && m.index != e.index
  {
    DestroyPrepare(cfg, s, LiveSet(s), e.index);
    var loc := s.locations[e.index];
    var k := loc.archetype;
    var a := s.archetypes[k];
    var st := a.store;
    assert ArchetypeOk(cfg, a);
    DestroySlots(st, a.info.entitiesPerChunk, loc.chunk, loc.position);
    var t := DeleteEntity(cfg, s, e);
    if !(loc.chunk == st.active && loc.position == |st.chunks[st.active]| - 1) {
      var last := |st.chunks[st.active]| - 1;
      assert SlotOf(s, k, st.active, last);
      var m := RowAt(s, k, st.active, last)[0].entity;
      assert m.index in LiveSet(s);
      assert s.locations[m.index] == EntityLocation(k, st.active, last, m.id);
      assert RowAt(t, k, loc.chunk, loc.position) == LastRow(st);
    }
  }
}

=== FILE: engine_ops.dfy ===
/**
 * The Engine's per-entity operations over the value model: reading a
 * component through a handle, and the structural moves AddComponent and
 * RemoveComponent make between archetypes.
 */
module EngineOps {
  import opened Wrappers
  import opened Core
  import opened Components
  import opened Layout
  import opened Chunks
  import opened Stores
  import opened EngineModel

  /*
   * Reading through a handle.
   */

  /** The layout of a live entity's archetype. */
  function EntityInfo(s: EngineState, l: nat): ArchetypeInfo
    requires Points(s, l)
  {
    s.archetypes[s.locations[l].archetype].info
  }

  /** A valid handle's archetype is built for its list, and its row fits that layout. */
  lemma EntityLayout(cfg: Config, s: EngineState, e: Entity)
    requires Consistent(cfg, s) && ValidHandle(s, e)
    ensures e.index in LiveSet(s) && Points(s, e.index)
    ensures cfg.Admits(EntityList(s, e.index)) && EntityInfo(s, e.index) == cfg.LayoutFor(EntityList(s, e.index))
    ensures RowFits(EntityInfo(s, e.index), EntityRow(s, e.index)) && EntityRow(s, e.index)[0] == EntityValue(e)
  {
    ValidHandleRow(cfg, s, e);
    assert ArchetypeOk(cfg, s.archetypes[s.locations[e.index].archetype]);
  }

  /**
   * TryGetComponent<T>(entity): the value of the entity's T column, found
   * through its location entry; none when its archetype has no T column.
   */
  function TryGetComponent(cfg: Config, s: EngineState, e: Entity, ty: ComponentType): Option<Value>
    requires Consistent(cfg, s) && ValidHandle(s, e)
  {
    EntityLayout(cfg, s, e);
    ValueOfType(EntityInfo(s, e.index), EntityRow(s, e.index), ty)
  }

  /**
   * TryGetComponent<T> is absent exactly when the entity's archetype lacks
   * T; the Entity column always answers with the handle itself.
   */
  lemma TryGetComponentSpec(cfg: Config, s: EngineState, e: Entity, ty: ComponentType)
    requires Consistent(cfg, s) && ValidHandle(s, e)
    ensures Points(s, e.index)
    ensures TryGetComponent(cfg, s, e, ty).Some? <==> ty == cfg.entityType || EntityList(s, e.index).Has(ty)
    ensures TryGetComponent(cfg, s, e, cfg.entityType) == Some(EntityValue(e))
  {
    EntityLayout(cfg, s, e);
    var list := EntityList(s, e.index);
    var info := EntityInfo(s, e.index);
    LayoutColumnTypes(list, cfg.table, cfg.entityType, cfg.chunkSize);
    ComponentIndexOfDistinct(info, ty);
    ComponentIndexOfDistinct(info, cfg.entityType);
    assert TypesOf(info)[0] == cfg.entityType;
    assert ty in TypesOf(info) <==> ty == cfg.entityType || list.Has(ty);
  }

  /**
   * GetComponent<T>(entity): the value of the entity's T column; the
   * archetype must have one.
   */
  function GetComponent(cfg: Config, s: EngineState, e: Entity, ty: ComponentType): (v: Value)
    requires Consistent(cfg, s) && ValidHandle(s, e)
    requires Points(s, e.index) && (ty == cfg.entityType || EntityList(s, e.index).Has(ty))
    ensures Some(v) == TryGetComponent(cfg, s, e, ty)
    ensures ty == cfg.entityType ==> v == EntityValue(e)
  {
    TryGetComponentSpec(cfg, s, e, ty);
    TryGetComponent(cfg, s, e, ty).value
  }

  /*
   * The structural move.
   */

  /** Appending to another archetype leaves the entity's slot destroyable. */
  lemma AppendKeepsDestroyable(cfg: Config, s: EngineState, e: Entity, k2: nat, row: Row)
    requires Consistent(cfg, s) && ValidHandle(s, e)
    requires k2 < |s.archetypes| && k2 != s.locations[e.index].archetype
    requires s.archetypes[k2].store.active < |s.archetypes[k2].store.chunks|
    ensures var loc := s.locations[e.index];
            Destroyable(cfg, s, loc.archetype, loc.chunk, loc.position) &&
            Destroyable(cfg, AppendRow(s, k2, row), loc.archetype, loc.chunk, loc.position) &&
            MovedEntity(cfg, AppendRow(s, k2, row), loc.archetype, loc.chunk, loc.position) ==
              MovedEntity(cfg, s, loc.archetype, loc.chunk, loc.position)
  {
    assert e.index in LiveSet(s);
    DestroyPrepare(cfg, s, LiveSet(s), e.index);
    var loc := s.locations[e.index];
    var s1 := AppendRow(s, k2, row);
    assert s1.archetypes[loc.archetype] == s.archetypes[loc.archetype];
    DestroyableFrame(cfg, s, s1, loc.archetype, loc.chunk, loc.position);
  }

  /** Whether a slot can be destroyed, and whom that moves, depends only on its archetype and the entries. */
  lemma DestroyableFrame(cfg: Config, s: EngineState, s1: EngineState, k: nat, c: nat, i: nat)
    requires Destroyable(cfg, s, k, c, i)
    requires |s1.archetypes| == |s.archetypes| && s1.archetypes[k] == s.archetypes[k] && s1.locations == s.locations
    ensures Destroyable(cfg, s1, k, c, i) && MovedEntity(cfg, s1, k, c, i) == MovedEntity(cfg, s, k, c, i)
  {
    var st := s.archetypes[k].store;
    assert RowAt(s1, k, st.active, |st.chunks[st.active]| - 1) == RowAt(s, k, st.active, |st.chunks[st.active]| - 1);
  }

  /**
   * The move AddComponent and RemoveComponent make: the row is appended
   * to archetype k2, then the entity's old slot is destroyed with the
   * moved entity re-pointed, then the entity's entry is pointed at its
   * new slot.
   */
  function MoveEntity(cfg: Config, s: EngineState, e: Entity, k2: nat, row: Row): EngineState
    requires Consistent(cfg, s) && ValidHandle(s, e)
    requires k2 < |s.archetypes| && k2 != s.locations[e.index].archetype
  {
    assert ArchetypeOk(cfg, s.archetypes[k2]);
    AppendKeepsDestroyable(cfg, s, e, k2, row);
    var loc := s.locations[e.index];
    var slot := ReservedSlot(s, k2);
    var d := DestroyRow(cfg, AppendRow(s, k2, row), loc.archetype, loc.chunk, loc.position);
    SetLocation(d, e.index, EntityLocation(k2, slot.0, slot.1, e.id))
  }

  /**
   * The append and the destroy touch different archetypes, so the move is
   * the destroy followed by attaching the row to k2.
   */
  lemma MoveIsDestroyThenAttach(cfg: Config, s: EngineState, e: Entity, k2: nat, row: Row)
    requires Consistent(cfg, s) && ValidHandle(s, e)
    requires k2 < |s.archetypes| && k2 != s.locations[e.index].archetype
    ensures var loc := s.locations[e.index];
            Destroyable(cfg, s, loc.archetype, loc.chunk, loc.position)
    ensures var loc := s.locations[e.index];
            var d := DestroyRow(cfg, s, loc.archetype, loc.chunk, loc.position);
            d.archetypes[k2] == s.archetypes[k2] && e.index < |d.locations| &&
            MoveEntity(cfg, s, e, k2, row) == Attach(d, k2, e.index, e.id, row)
  {
    assert ArchetypeOk(cfg, s.archetypes[k2]);
    AppendKeepsDestroyable(cfg, s, e, k2, row);
    var loc := s.locations[e.index];
    var k := loc.archetype;
    var d := DestroyRow(cfg, s, k, loc.chunk, loc.position);
    var s1 := AppendRow(s, k2, row);
    var d1 := DestroyRow(cfg, s1, k, loc.chunk, loc.position);
    assert d.archetypes[k2] == s.archetypes[k2];
    assert ReservedSlot(d, k2) == ReservedSlot(s, k2);
    assert d1.archetypes == AppendRow(d, k2, row).archetypes;
    assert d1.locations == AppendRow(d, k2, row).locations;
  }

  /**
   * Destroying live entry l's slot and attaching a row for l to another
   * archetype k2: l names the new row, and the other live entries keep
   * theirs.
   */
  lemma ReattachStep(cfg: Config, s: EngineState, L: set<nat>, l: nat, k2: nat, row: Row)
    requires ArchetypesOk(cfg, s.archetypes) && Directory(s, L) && l in L
    requires k2 < |s.archetypes| && k2 != s.locations[l].archetype
    requires s.archetypes[k2].info.entitiesPerChunk >= 1
    requires RowFits(s.archetypes[k2].info, row) && row[0] == EntityValue(Entity(s.locations[l].entityId, l))
    ensures var loc := s.locations[l];
            Destroyable(cfg, s, loc.archetype, loc.chunk, loc.position)
    ensures var loc := s.locations[l];
            var d := DestroyRow(cfg, s, loc.archetype, loc.chunk, loc.position);
            var t := Attach(d, k2, l, loc.entityId, row);
            ArchetypesOk(cfg, t.archetypes) && Directory(t, L) &&
            KeepsEntities(s, t, L - {l}) && Points(t, l) &&
            t.locations[l].archetype == k2 && t.locations[l].entityId == loc.entityId &&
            EntityRow(t, l) == row
  {
    DestroyStep(cfg, s, L, l);
    var loc := s.locations[l];
    var d := DestroyRow(cfg, s, loc.archetype, loc.chunk, loc.position);
    assert d.archetypes[k2] == s.archetypes[k2];
    AttachStep(cfg, d, L - {l}, k2, l, loc.entityId, row);
    assert L - {l} + {l} == L;
    KeepsTrans(s, d, Attach(d, k2, l, loc.entityId, row), L - {l});
  }

  /** After the move, the entity's entry names its new row in k2 and the others keep theirs. */
  lemma MoveShape(cfg: Config, s: EngineState, e: Entity, k2: nat, row: Row)
    requires Consistent(cfg, s) && ValidHandle(s, e)
    requires k2 < |s.archetypes| && k2 != s.locations[e.index].archetype
    requires s.archetypes[k2].info.entitiesPerChunk >= 1
    requires RowFits(s.archetypes[k2].info, row) && row[0] == EntityValue(e)
    ensures var t := MoveEntity(cfg, s, e, k2, row);
            ArchetypesOk(cfg, t.archetypes) && Directory(t, LiveSet(s)) &&
            KeepsEntities(s, t, LiveSet(s) - {e.index}) && Points(t, e.index) &&
            t.locations[e.index].archetype == k2 && t.locations[e.index].entityId == e.id &&
            EntityRow(t, e.index) == row
  {
    assert e.index in LiveSet(s);
    MoveIsDestroyThenAttach(cfg, s, e, k2, row);
    ReattachStep(cfg, s, LiveSet(s), e.index, k2, row);
  }

  /** The move keeps the free-list, the counters, the map and every archetype's list. */
  lemma MoveBooks(cfg: Config, s: EngineState, e: Entity, k2: nat, row: Row)
    requires Consistent(cfg, s) && ValidHandle(s, e)
    requires k2 < |s.archetypes| && k2 != s.locations[e.index].archetype
    ensures var t := MoveEntity(cfg, s, e, k2, row);
            t.free == s.free && |t.locations| == |s.locations| && LiveSet(t) == LiveSet(s) &&
            t.idCounter == s.idCounter && t.entityCount == s.entityCount &&
            t.archetypeMap == s.archetypeMap && |t.archetypes| == |s.archetypes| &&
            (forall j | 0 <= j < |s.archetypes| :: t.archetypes[j].components == s.archetypes[j].components) &&
            MapOk(t) && FreeOk(t)
  {
    MoveIsDestroyThenAttach(cfg, s, e, k2, row);
    MapOfComponents(s, MoveEntity(cfg, s, e, k2, row));
  }

  /**
   * Moving a valid handle's entity to another archetype, with a row of
   * that archetype's layout holding the handle, keeps the engine
   * consistent and the handle valid.
   */
  lemma MoveSpec(cfg: Config, s: EngineState, e: Entity, k2: nat, row: Row)
    requires Consistent(cfg, s) && ValidHandle(s, e)
    requires k2 < |s.archetypes| && k2 != s.locations[e.index].archetype
    requires s.archetypes[k2].info.entitiesPerChunk >= 1
    requires RowFits(s.archetypes[k2].info, row) && row[0] == EntityValue(e)
    ensures Consistent(cfg, MoveEntity(cfg, s, e, k2, row)) && ValidHandle(MoveEntity(cfg, s, e, k2, row), e)
  {
    MoveShape(cfg, s, e, k2, row);
    MoveBooks(cfg, s, e, k2, row);
    RelocatedConsistent(cfg, s, MoveEntity(cfg, s, e, k2, row), e);
  }

  /**
   * A state that keeps the free-list, the counters and the map, whose
   * archetypes are sound and which still points every live index at its
   * entity (the handle's own under its old id), is consistent and keeps
   * the handle valid.
   */
  lemma RelocatedConsistent(cfg: Config, s: EngineState, t: EngineState, e: Entity)
    requires Consistent(cfg, s) && ValidHandle(s, e)
    requires t.free == s.free && |t.locations| == |s.locations| && LiveSet(t) == LiveSet(s)
    requires t.idCounter == s.idCounter && t.entityCount == s.entityCount && MapOk(t) && FreeOk(t)
    requires ArchetypesOk(cfg, t.archetypes) && Directory(t, LiveSet(s))
    requires KeepsEntities(s, t, LiveSet(s) - {e.index}) && t.locations[e.index].entityId == e.id
    ensures Consistent(cfg, t) && ValidHandle(t, e)
  {
    assert s.locations[e.index].entityId == e.id < s.idCounter;
    IdsKept(s, t, LiveSet(s) - {e.index});
  }

  /*
   * AddComponent and RemoveComponent.
   */

  /**
   * Resolving the archetype for a changed list, before the move: the
   * handle stays valid, the entity still sits in its old archetype, and
   * the new archetype is another one, built for the changed list.
   */
  lemma ResolveForMove(cfg: Config, s: EngineState, e: Entity, list2: ComponentList)
    requires Consistent(cfg, s) && ValidHandle(s, e) && cfg.Admits(list2)
    requires Points(s, e.index) && list2 != EntityList(s, e.index)
    ensures var (s1, k2) := GetOrCreateArchetype(cfg, s, list2);
            Consistent(cfg, s1) && ValidHandle(s1, e) && Points(s1, e.index) &&
            k2 < |s1.archetypes| && k2 != s1.locations[e.index].archetype &&
            s1.archetypes[k2].components == list2 && s1.archetypes[k2].info == cfg.LayoutFor(list2) &&
            EntityList(s1, e.index) == EntityList(s, e.index) && EntityRow(s1, e.index) == EntityRow(s, e.index) &&
            LiveSet(s1) == LiveSet(s) && KeepsEntities(s, s1, LiveSet(s)) &&
            s1.idCounter == s.idCounter && s1.entityCount == s.entityCount
  {
    GetOrCreateSpec(cfg, s, list2);
    assert e.index in LiveSet(s);
  }

  /** The types a structural change adds, each of which fill must match in size. */
  predicate FillFits(cfg: Config, list: ComponentList, list2: ComponentList, fill: seq<byte>)
  {
    forall x | x in list2.Elements() - list.Elements() :: x < |cfg.table| && |fill| == cfg.table[x].size
  }

  /**
   * A structural change of a live entity to the archetype of list2: the
   * row is carried over column by column by type, a column the old list
   * lacks takes fill, and the entity is moved there.
   */
  function Restructure(cfg: Config, s: EngineState, e: Entity, list2: ComponentList, fill: seq<byte>): EngineState
    requires Consistent(cfg, s) && ValidHandle(s, e)
    requires Points(s, e.index) && list2 != EntityList(s, e.index) && cfg.Fits(list2)
  {
    var list := EntityList(s, e.index);
    EntityLayout(cfg, s, e);
    ResolveForMove(cfg, s, e, list2);
    var (s1, k2) := GetOrCreateArchetype(cfg, s, list2);
    var row := TransferRow(cfg.LayoutFor(list2), cfg.LayoutFor(list), EntityRow(s1, e.index), fill);
    MoveEntity(cfg, s1, e, k2, row)
  }

  /** The carried-over row fits the new layout and still holds the handle. */
  lemma TransferKeepsHandle(cfg: Config, s: EngineState, e: Entity, list2: ComponentList, fill: seq<byte>)
    requires Consistent(cfg, s) && ValidHandle(s, e) && cfg.Admits(list2)
    requires Points(s, e.index) && FillFits(cfg, EntityList(s, e.index), list2, fill)
    ensures var list := EntityList(s, e.index);
            Registered(list, cfg.table) &&
            |EntityRow(s, e.index)| == |cfg.LayoutFor(list).componentInfo|
    ensures var list := EntityList(s, e.index);
            var row := TransferRow(cfg.LayoutFor(list2), cfg.LayoutFor(list), EntityRow(s, e.index), fill);
            RowFits(cfg.LayoutFor(list2), row) && row[0] == EntityValue(e)
  {
    EntityLayout(cfg, s, e);
    var list := EntityList(s, e.index);
    var src := cfg.LayoutFor(list);
    var dst := cfg.LayoutFor(list2);
    TransferRowFits(list2, list, cfg.table, cfg.entityType, cfg.chunkSize, EntityRow(s, e.index), fill);
    LayoutColumn(list2, cfg.table, cfg.entityType, cfg.chunkSize, 0);
    LayoutColumn(list, cfg.table, cfg.entityType, cfg.chunkSize, 0);
    LayoutColumnTypes(list, cfg.table, cfg.entityType, cfg.chunkSize);
    ComponentIndexOfDistinct(src, cfg.entityType);
  }

  /**
   * A structural change keeps the engine consistent and the handle valid;
   * the entity now has list2, and every other entity is unchanged.
   */
  lemma RestructureSpec(cfg: Config, s: EngineState, e: Entity, list2: ComponentList, fill: seq<byte>)
    requires Consistent(cfg, s) && ValidHandle(s, e)
    requires Points(s, e.index) && list2 != EntityList(s, e.index) && cfg.Fits(list2)
    requires FillFits(cfg, EntityList(s, e.index), list2, fill)
    ensures var t := Restructure(cfg, s, e, list2, fill);
            Consistent(cfg, t) && ValidHandle(t, e) && Points(t, e.index) &&
            EntityList(t, e.index) == list2 && LiveSet(t) == LiveSet(s) &&
            t.idCounter == s.idCounter && t.entityCount == s.entityCount &&
            KeepsEntities(s, t, LiveSet(s) - {e.index})
  {
    var list := EntityList(s, e.index);
    ResolveForMove(cfg, s, e, list2);
    var (s1, k2) := GetOrCreateArchetype(cfg, s, list2);
    TransferKeepsHandle(cfg, s1, e, list2, fill);
    var row := TransferRow(cfg.LayoutFor(list2), cfg.LayoutFor(list), EntityRow(s1, e.index), fill);
    MoveSpec(cfg, s1, e, k2, row);
    MoveShape(cfg, s1, e, k2, row);
    MoveBooks(cfg, s1, e, k2, row);
    KeepsTrans(s, s1, MoveEntity(cfg, s1, e, k2, row), LiveSet(s) - {e.index});
  }

  /**
   * After a structural change, reading any type through the handle gives
   * nothing for a type list2 lacks, fill for the type the old list lacked,
   * and the old value otherwise.
   */
  lemma RestructureValues(cfg: Config, s: EngineState, e: Entity, list2: ComponentList, fill: seq<byte>, ty: ComponentType)
    requires Consistent(cfg, s) && ValidHandle(s, e)
    requires Points(s, e.index) && list2 != EntityList(s, e.index) && cfg.Fits(list2)
    requires FillFits(cfg, EntityList(s, e.index), list2, fill)
    ensures Consistent(cfg, Restructure(cfg, s, e, list2, fill)) && ValidHandle(Restructure(cfg, s, e, list2, fill), e)
    ensures TryGetComponent(cfg, Restructure(cfg, s, e, list2, fill), e, ty) ==
              if ty != cfg.entityType && !list2.Has(ty) then None
              else if ty != cfg.entityType && !EntityList(s, e.index).Has(ty) then Some(ComponentValue(fill))
              else TryGetComponent(cfg, s, e, ty)
  {
    RestructureSpec(cfg, s, e, list2, fill);
    var list := EntityList(s, e.index);
    ResolveForMove(cfg, s, e, list2);
    var (s1, k2) := GetOrCreateArchetype(cfg, s, list2);
    TransferKeepsHandle(cfg, s1, e, list2, fill);
    var row := TransferRow(cfg.LayoutFor(list2), cfg.LayoutFor(list), EntityRow(s1, e.index), fill);
    MoveShape(cfg, s1, e, k2, row);
    var t := Restructure(cfg, s, e, list2, fill);
    EntityLayout(cfg, s, e);
    EntityLayout(cfg, t, e);
    TransferRowByType(list2, list, cfg.table, cfg.entityType, cfg.chunkSize, EntityRow(s, e.index), fill, ty);
  }

  /** The fill AddComponent writes: the given bytes, else the registered default. */
  function FillFor(cfg: Config, ty: ComponentType, data: Option<seq<byte>>): seq<byte>
    requires ty < |cfg.table|
  {
    if data.Some? then data.value else cfg.table[ty].defaultData
  }

  /**
   * AddComponent(entity, type[, data]): moves the entity to the archetype
   * of its list plus the type, carrying every value over and writing the
   * new column from data, or from the registered default without data.
   */
  function AddComponent(cfg: Config, s: EngineState, e: Entity, ty: ComponentType, data: Option<seq<byte>>): EngineState
    requires Consistent(cfg, s) && ValidHandle(s, e)
    requires Points(s, e.index) && ty != cfg.entityType && !EntityList(s, e.index).Has(ty)
    requires ty < |cfg.table| && (data.Some? ==> |data.value| == cfg.table[ty].size)
    requires cfg.Fits(EntityList(s, e.index).Add(ty))
  {
    Restructure(cfg, s, e, EntityList(s, e.index).Add(ty), FillFor(cfg, ty, data))
  }

  /**
   * RemoveComponent(entity, type): moves the entity to the archetype of
   * its list minus the type, carrying every other value over.
   */
  function RemoveComponent(cfg: Config, s: EngineState, e: Entity, ty: ComponentType): EngineState
    requires Consistent(cfg, s) && ValidHandle(s, e)
    requires Points(s, e.index) && EntityList(s, e.index).Has(ty)
    requires cfg.Fits(EntityList(s, e.index).Remove(ty))
  {
    Restructure(cfg, s, e, EntityList(s, e.index).Remove(ty), [])
  }

  /**
   * AddComponent keeps the entity (same handle, same count) and moves it
   * to the archetype of its list plus the type, leaving every other
   * entity unchanged.
   */
  lemma AddComponentSpec(cfg: Config, s: EngineState, e: Entity, ty: ComponentType, data: Option<seq<byte>>)
    requires Consistent(cfg, s) && ValidHandle(s, e)
    requires Points(s, e.index) && ty != cfg.entityType && !EntityList(s, e.index).Has(ty)
    requires ty < |cfg.table| && (data.Some? ==> |data.value| == cfg.table[ty].size)
    requires cfg.Fits(EntityList(s, e.index).Add(ty))
    ensures var t := AddComponent(cfg, s, e, ty, data);
            Consistent(cfg, t) && ValidHandle(t, e) && Points(t, e.index) &&
            EntityList(t, e.index) == EntityList(s, e.index).Add(ty) &&
            LiveSet(t) == LiveSet(s) && t.entityCount == s.entityCount && t.idCounter == s.idCounter &&
            KeepsEntities(s, t, LiveSet(s) - {e.index})
  {
    var list := EntityList(s, e.index);
    assert list.Add(ty).Elements() - list.Elements() == {ty};
    RestructureSpec(cfg, s, e, list.Add(ty), FillFor(cfg, ty, data));
  }

  /**
   * After AddComponent every value the entity had reads back unchanged,
   * and the new type reads back the data, or the default without data.
   */
  lemma AddComponentValues(cfg: Config, s: EngineState, e: Entity, ty: ComponentType, data: Option<seq<byte>>, x: ComponentType)
    requires Consistent(cfg, s) && ValidHandle(s, e)
    requires Points(s, e.index) && ty != cfg.entityType && !EntityList(s, e.index).Has(ty)
    requires ty < |cfg.table| && (data.Some? ==> |data.value| == cfg.table[ty].size)
    requires cfg.Fits(EntityList(s, e.index).Add(ty))
    ensures Consistent(cfg, AddComponent(cfg, s, e, ty, data)) && ValidHandle(AddComponent(cfg, s, e, ty, data), e)
    ensures TryGetComponent(cfg, AddComponent(cfg, s, e, ty, data), e, x) ==
              if x == ty then Some(ComponentValue(FillFor(cfg, ty, data))) else TryGetComponent(cfg, s, e, x)
  {
    var list := EntityList(s, e.index);
    assert list.Add(ty).Elements() - list.Elements() == {ty};
    RestructureValues(cfg, s, e, list.Add(ty), FillFor(cfg, ty, data), x);
    TryGetComponentSpec(cfg, s, e, x);
  }

  /**
   * RemoveComponent keeps the entity (same handle, same count) and moves
   * it to the archetype of its list minus the type, leaving every other
   * entity unchanged.
   */
  lemma RemoveComponentSpec(cfg: Config, s: EngineState, e: Entity, ty: ComponentType)
    requires Consistent(cfg, s) && ValidHandle(s, e)
    requires Points(s, e.index) && EntityList(s, e.index).Has(ty)
    requires cfg.Fits(EntityList(s, e.index).Remove(ty))
    ensures var t := RemoveComponent(cfg, s, e, ty);
            Consistent(cfg, t) && ValidHandle(t, e) && Points(t, e.index) &&
            EntityList(t, e.index) == EntityList(s, e.index).Remove(ty) &&
            LiveSet(t) == LiveSet(s) && t.entityCount == s.entityCount && t.idCounter == s.idCounter &&
            KeepsEntities(s, t, LiveSet(s) - {e.index})
  {
    var list := EntityList(s, e.index);
    assert !list.Remove(ty).Has(ty);
    RestructureSpec(cfg, s, e, list.Remove(ty), []);
  }

  /**
   * After RemoveComponent the type no longer reads back, and every other
   * value reads back unchanged.
   */
  lemma RemoveComponentValues(cfg: Config, s: EngineState, e: Entity, ty: ComponentType, x: ComponentType)
    requires Consistent(cfg, s) && ValidHandle(s, e)
    requires Points(s, e.index) && EntityList(s, e.index).Has(ty)
    requires cfg.Fits(EntityList(s, e.index).Remove(ty))
    ensures Consistent(cfg, RemoveComponent(cfg, s, e, ty)) && ValidHandle(RemoveComponent(cfg, s, e, ty), e)
    ensures TryGetComponent(cfg, RemoveComponent(cfg, s, e, ty), e, x) ==
              if x == ty then None else TryGetComponent(cfg, s, e, x)
  {
    var list := EntityList(s, e.index);
    assert !list.Remove(ty).Has(ty);
    EntityLayout(cfg, s, e);
    RestructureValues(cfg, s, e, list.Remove(ty), [], x);
    TryGetComponentSpec(cfg, s, e, x);
  }

  /*
   * CreateEntityFromComponents.
   */

  /** One argument of CreateEntityFromComponents: a component's type and its bytes. */
  datatype ComponentItem = ComponentItem(ty: ComponentType, bytes: seq<byte>)

  function ItemTypes(items: seq<ComponentItem>): (r: seq<ComponentType>)
    ensures |r| == |items| && forall j | 0 <= j < |items| :: r[j] == items[j].ty
  {
    seq(|items|, j requires 0 <= j < |items| => items[j].ty)
  }

  /** The bytes of the first item of type ty. */
  function ItemBytes(items: seq<ComponentItem>, ty: ComponentType): seq<byte>
    requires ty in ItemTypes(items)
  {
    if items[0].ty == ty then items[0].bytes else ItemBytes(items[1..], ty)
  }

  /** With distinct types, the bytes of type items[j].ty are items[j]'s. */
  lemma {:induction false} ItemBytesAt(items: seq<ComponentItem>, j: nat)
    requires Distinct(ItemTypes(items)) && j < |items|
    ensures items[j].ty in ItemTypes(items) && ItemBytes(items, items[j].ty) == items[j].bytes
  {
    assert ItemTypes(items)[j] == items[j].ty;
    if j > 0 {
      assert ItemTypes(items)[0] != ItemTypes(items)[j];
      assert ItemTypes(items[1..]) == ItemTypes(items)[1..];
      ItemBytesAt(items[1..], j - 1);
    }
  }

  /** The items' bytes, one per type of the list, in ascending type-id order. */
  function BytesById(items: seq<ComponentItem>): (r: seq<seq<byte>>)
    requires Distinct(ItemTypes(items))
    ensures |r| == |Create(ItemTypes(items)).types|
  {
    var list := Create(ItemTypes(items));
    seq(|list.types|, c requires 0 <= c < |list.types| =>
      assert list.types[c] in list.Elements();
      ItemBytes(items, list.types[c]))
  }

  /** CombineBytesById: the items' bytes concatenated in ascending type-id order. */
  function CombineBytesById(items: seq<ComponentItem>): seq<byte>
    requires Distinct(ItemTypes(items))
  {
    Concat(BytesById(items))
  }

  /** Column c of the combined bytes is the bytes of the argument of the list's c-th type. */
  lemma ArgumentOfColumn(items: seq<ComponentItem>, c: nat) returns (j: nat)
    requires Distinct(ItemTypes(items)) && c < |Create(ItemTypes(items)).types|
    ensures j < |items| && items[j].ty == Create(ItemTypes(items)).types[c]
    ensures BytesById(items)[c] == items[j].bytes
  {
    var ty := Create(ItemTypes(items)).types[c];
    assert ty in ItemTypes(items) by {
      assert ty in Create(ItemTypes(items)).Elements();
    }
    j :| 0 <= j < |items| && ItemTypes(items)[j] == ty;
    ItemBytesAt(items, j);
    assert BytesById(items)[c] == ItemBytes(items, ty);
  }

  /**
   * Arguments CreateEntityFromComponents accepts: distinct registered
   * types other than Entity, each with the bytes of its registered size,
   * whose archetype fits a chunk.
   */
  predicate ItemsFit(cfg: Config, items: seq<ComponentItem>)
  {
    ItemsSized(cfg, items) && cfg.Fits(Create(ItemTypes(items)))
  }

  /** Distinct registered types, each argument with the bytes of its type's registered size. */
  predicate ItemsSized(cfg: Config, items: seq<ComponentItem>)
  {
    Distinct(ItemTypes(items)) &&
    (forall j | 0 <= j < |items| :: items[j].ty < |cfg.table| && |items[j].bytes| == cfg.table[items[j].ty].size) &&
    Registered(Create(ItemTypes(items)), cfg.table)
  }

  /** The layout's payload sizes are the registered sizes of the list's types. */
  lemma PayloadSizesOfList(cfg: Config, list: ComponentList)
    requires Registered(list, cfg.table)
    ensures |PayloadSizes(cfg.LayoutFor(list))| == |list.types|
    ensures forall c | 0 <= c < |list.types| :: PayloadSizes(cfg.LayoutFor(list))[c] == cfg.table[list.types[c]].size
  {
    forall c | 0 <= c < |list.types| ensures PayloadSizes(cfg.LayoutFor(list))[c] == cfg.table[list.types[c]].size {
      LayoutColumn(list, cfg.table, cfg.entityType, cfg.chunkSize, c + 1);
      assert ColumnSizes(list, cfg.table)[c + 1] == cfg.table[list.types[c]].size;
    }
  }

  /** Each column of the combined bytes has the registered size of its type. */
  lemma ItemBytesSizes(cfg: Config, items: seq<ComponentItem>, list: ComponentList)
    requires Distinct(ItemTypes(items)) && list == Create(ItemTypes(items)) && Registered(list, cfg.table)
    requires forall j | 0 <= j < |items| :: items[j].ty < |cfg.table| && |items[j].bytes| == cfg.table[items[j].ty].size
    ensures forall c | 0 <= c < |list.types| :: |BytesById(items)[c]| == cfg.table[list.types[c]].size
  {
    forall c | 0 <= c < |list.types| ensures |BytesById(items)[c]| == cfg.table[list.types[c]].size {
      var j := ArgumentOfColumn(items, c);
    }
  }

  /** Pieces and sizes that both follow the registered sizes of a list's types agree. */
  lemma SizesAre(values: seq<seq<byte>>, sizes: seq<nat>, list: ComponentList, table: seq<ComponentInfo>)
    requires Registered(list, table) && |values| == |list.types| && |sizes| == |list.types|
    requires forall c | 0 <= c < |list.types| :: |values[c]| == table[list.types[c]].size
    requires forall c | 0 <= c < |list.types| :: sizes[c] == table[list.types[c]].size
    ensures Sizes(values) == sizes
  {
  }

  /** The combined bytes' pieces have the layout's payload sizes. */
  lemma BytesByIdSizes(cfg: Config, items: seq<ComponentItem>)
    requires ItemsSized(cfg, items)
    ensures Sizes(BytesById(items)) == PayloadSizes(cfg.LayoutFor(Create(ItemTypes(items))))
  {
    var list := Create(ItemTypes(items));
    ItemBytesSizes(cfg, items, list);
    PayloadSizesOfList(cfg, list);
    SizesAre(BytesById(items), PayloadSizes(cfg.LayoutFor(list)), list, cfg.table);
  }

  /** The combined bytes are as long as the layout's payload. */
  lemma CombinedLength(cfg: Config, items: seq<ComponentItem>)
    requires ItemsSized(cfg, items)
    ensures |CombineBytesById(items)| == Sum(PayloadSizes(cfg.LayoutFor(Create(ItemTypes(items)))))
  {
    BytesByIdSizes(cfg, items);
    SplitConcat(BytesById(items));
  }

  /**
   * CreateEntityFromComponents(components...): CreateEntity with the list
   * of the arguments' types and their bytes combined by id.
   */
  function CreateEntityFromComponents(cfg: Config, s: EngineState, items: seq<ComponentItem>): (EngineState, Entity)
    requires Consistent(cfg, s) && ItemsFit(cfg, items)
  {
    CombinedLength(cfg, items);
    CreateEntityWithData(cfg, s, Create(ItemTypes(items)), CombineBytesById(items))
  }

  /** With distinct column types, a row's k-th value is found by column k's type. */
  lemma ValueOfColumn(info: ArchetypeInfo, row: Row, k: nat)
    requires DistinctColumns(info) && |row| == |info.componentInfo| && k < |row|
    ensures ValueOfType(info, row, TypesOf(info)[k]) == Some(row[k])
  {
    ComponentIndexOfDistinct(info, TypesOf(info)[k]);
  }

  /** In a row built from values serialised back to back, column c + 1 is found by its type. */
  lemma DataRowColumn(info: ArchetypeInfo, e: Entity, values: seq<seq<byte>>, c: nat)
    requires |info.componentInfo| >= 1 && DistinctColumns(info) && c + 1 < |info.componentInfo|
    requires Sizes(values) == PayloadSizes(info)
    ensures |Concat(values)| == Sum(PayloadSizes(info))
    ensures ValueOfType(info, DataRow(info, e, Concat(values)), TypesOf(info)[c + 1]) == Some(ComponentValue(values[c]))
  {
    var data := Concat(values);
    assert |data| == Sum(PayloadSizes(info)) && DataRow(info, e, data)[c + 1] == ComponentValue(values[c]) by {
      DataRowRoundTrip(info, e, values);
    }
    ValueOfColumn(info, DataRow(info, e, data), c + 1);
  }

  /** Column c of a row built from values serialised back to back is found by the list's c-th type. */
  lemma DataRowValue(cfg: Config, list: ComponentList, e: Entity, values: seq<seq<byte>>, c: nat)
    requires cfg.Admits(list) && c < |list.types|
    requires Sizes(values) == PayloadSizes(cfg.LayoutFor(list))
    ensures |Concat(values)| == Sum(PayloadSizes(cfg.LayoutFor(list)))
    ensures var info := cfg.LayoutFor(list);
            ValueOfType(info, DataRow(info, e, Concat(values)), list.types[c]) == Some(ComponentValue(values[c]))
  {
    var info := cfg.LayoutFor(list);
    LayoutColumnTypes(list, cfg.table, cfg.entityType, cfg.chunkSize);
    assert TypesOf(info)[c + 1] == list.types[c];
    DataRowColumn(info, e, values, c);
  }

  /** A type of the list is at some position of it. */
  lemma PositionOf(list: ComponentList, ty: ComponentType) returns (c: nat)
    requires ty in list.Elements()
    ensures c < |list.types| && list.types[c] == ty
  {
    c :| 0 <= c < |list.types| && list.types[c] == ty;
  }

  /** Every argument has a column of the combined bytes, holding its bytes. */
  lemma ColumnOfArgument(items: seq<ComponentItem>, j: nat) returns (c: nat)
    requires Distinct(ItemTypes(items)) && j < |items|
    ensures c < |Create(ItemTypes(items)).types| && Create(ItemTypes(items)).types[c] == items[j].ty
    ensures BytesById(items)[c] == items[j].bytes
  {
    assert ItemTypes(items)[j] == items[j].ty;
    c := PositionOf(Create(ItemTypes(items)), items[j].ty);
    var j' := ArgumentOfColumn(items, c);
    assert ItemTypes(items)[j'] == ItemTypes(items)[j];
    assert j' == j;
  }

  /** CreateEntityFromComponents keeps the engine consistent and returns a live handle of the arguments' list. */
  lemma CreateFromComponentsSpec(cfg: Config, s: EngineState, items: seq<ComponentItem>)
    requires Consistent(cfg, s) && ItemsFit(cfg, items)
    ensures var (t, e) := CreateEntityFromComponents(cfg, s, items);
            Consistent(cfg, t) && ValidHandle(t, e) && EntityList(t, e.index) == Create(ItemTypes(items)) &&
            KeepsEntities(s, t, LiveSet(s))
  {
    CombinedLength(cfg, items);
    CreateEntityWithDataSpec(cfg, s, Create(ItemTypes(items)), CombineBytesById(items));
  }

  /**
   * Every argument of CreateEntityFromComponents reads back through the
   * new handle, whatever the order the arguments came in.
   */
  lemma CreateFromComponentsRoundTrip(cfg: Config, s: EngineState, items: seq<ComponentItem>, j: nat)
    requires Consistent(cfg, s) && ItemsFit(cfg, items) && j < |items|
    ensures var (t, e) := CreateEntityFromComponents(cfg, s, items);
            Consistent(cfg, t) && ValidHandle(t, e) &&
            TryGetComponent(cfg, t, e, items[j].ty) == Some(ComponentValue(items[j].bytes))
  {
    var list := Create(ItemTypes(items));
    var values := BytesById(items);
    BytesByIdSizes(cfg, items);
    CombinedLength(cfg, items);
    CreateEntityWithDataSpec(cfg, s, list, CombineBytesById(items));
    var (t, e) := CreateEntityFromComponents(cfg, s, items);
    EntityLayout(cfg, t, e);
    var c := ColumnOfArgument(items, j);
    DataRowValue(cfg, list, e, values, c);
  }

  /** Argument sequences holding the same items name the same types. */
  lemma SameItemsSameTypes(items: seq<ComponentItem>, others: seq<ComponentItem>)
    requires forall x :: x in items <==> x in others
    ensures forall ty :: ty in ItemTypes(items) <==> ty in ItemTypes(others)
  {
    forall ty ensures ty in ItemTypes(items) ==> ty in ItemTypes(others) {
      if ty in ItemTypes(items) {
        var j :| 0 <= j < |items| && ItemTypes(items)[j] == ty;
        assert items[j] in others;
        var m :| 0 <= m < |others| && others[m] == items[j];
        assert ItemTypes(others)[m] == ty;
      }
    }
    forall ty ensures ty in ItemTypes(others) ==> ty in ItemTypes(items) {
      if ty in ItemTypes(others) {
        var m :| 0 <= m < |others| && ItemTypes(others)[m] == ty;
        assert others[m] in items;
        var j :| 0 <= j < |items| && items[j] == others[m];
        assert ItemTypes(items)[j] == ty;
      }
    }
  }

  /** Column c's bytes agree for two argument sequences holding the same items. */
  lemma ColumnBytesAgree(items: seq<ComponentItem>, others: seq<ComponentItem>, c: nat)
    requires Distinct(ItemTypes(items)) && Distinct(ItemTypes(others))
    requires forall x :: x in items <==> x in others
    requires Create(ItemTypes(items)) == Create(ItemTypes(others)) && c < |Create(ItemTypes(items)).types|
    ensures BytesById(items)[c] == BytesById(others)[c]
  {
    var j := ArgumentOfColumn(items, c);
    var m := ArgumentOfColumn(others, c);
    assert items[j] in others;
    var m' :| 0 <= m' < |others| && others[m'] == items[j];
    assert ItemTypes(others)[m'] == ItemTypes(others)[m];
    assert m' == m;
  }

  /** Two argument sequences holding the same items give the same column bytes. */
  lemma BytesAgree(items: seq<ComponentItem>, others: seq<ComponentItem>)
    requires Distinct(ItemTypes(items)) && Distinct(ItemTypes(others))
    requires forall x :: x in items <==> x in others
    requires Create(ItemTypes(items)) == Create(ItemTypes(others))
    ensures BytesById(items) == BytesById(others)
  {
    var a, b := BytesById(items), BytesById(others);
    assert |a| == |b|;
    forall c | 0 <= c < |a| ensures a[c] == b[c] {
      ColumnBytesAgree(items, others, c);
    }
    PiecesAgree(a, b);
  }

  lemma PiecesAgree(a: seq<seq<byte>>, b: seq<seq<byte>>)
    requires |a| == |b| && forall c | 0 <= c < |a| :: a[c] == b[c]
    ensures a == b
  {
  }

  /** The combined bytes do not depend on the order of the arguments. */
  lemma CombineBytesByIdOrderIndependent(items: seq<ComponentItem>, others: seq<ComponentItem>)
    requires Distinct(ItemTypes(items)) && Distinct(ItemTypes(others))
    requires forall x :: x in items <==> x in others
    ensures Create(ItemTypes(items)) == Create(ItemTypes(others))
    ensures CombineBytesById(items) == CombineBytesById(others)
  {
    SameItemsSameTypes(items, others);
    CreateOrderIndependent(ItemTypes(items), ItemTypes(others));
    BytesAgree(items, others);
  }
}

=== FILE: entity_iterator.dfy ===
/**
 * EntityIterator<T...>: one virtual global index over the entities of a
 * list of archetypes, archetype by archetype and chunk by chunk. The
 * constructor records one ChunkInfo per occupied chunk (the global range
 * [begin, end) it covers, its archetype and chunk, and the query's column
 * in that archetype); operator[] and the bidirectional Iterator find the
 * entity at a global index through those ranges; Split cuts [0, Count())
 * into at most n pieces.
 *
 * The archetypes are given by value (their layout and the rows of their
 * chunks, as a Store); a ChunkInfo keeps the rows of its chunk. The query
 * is the list of component types T...; the value at an entity is, per
 * type, the entity's value in that column, or None where the archetype has
 * no such column.
 */
module EntityIterators {
  import opened Wrappers
  import opened Components
  import opened Layout
  import opened Chunks
  import opened Stores
  import opened EngineModel

  /** A ChunkInfo. */
  datatype ChunkRange = ChunkRange(begin: nat, end: nat, arch: nat, chunk: nat, rows: seq<Row>, indices: seq<Option<nat>>)

  /** An entity in global order: the position of its archetype in the list, and its row. */
  datatype Entry = Entry(arch: nat, row: Row)

  /** Iterator::m_CI: null, or the position of a ChunkInfo (|ranges| is one past the last). */
  datatype RangePointer = Null | At(k: nat)

  /** A piece of Split: the indices of its begin and end iterators. */
  datatype Piece = Piece(begin: nat, end: nat)

  /** An archetype as the Archetype class keeps it: packed chunks, and rows with one value per column. */
  predicate Shaped(a: ArchetypeData)
  {
    Packed(a.store, a.info.entitiesPerChunk) &&
    forall c, i | 0 <= c < |a.store.chunks| && 0 <= i < |a.store.chunks[c]| ::
      |a.store.chunks[c][i]| == |a.info.componentInfo|
  }

  /** An archetype the engine keeps consistent has the shape the iterator reads. */
  lemma ShapedWhenOk(cfg: Config, a: ArchetypeData)
    requires ArchetypeOk(cfg, a)
    ensures Shaped(a)
  {
    forall c, i | 0 <= c < |a.store.chunks| && 0 <= i < |a.store.chunks[c]|
      ensures |a.store.chunks[c][i]| == |a.info.componentInfo|
    {
      assert Occupied(a.store, c, i);
    }
  }

  predicate AllShaped(archs: seq<ArchetypeData>)
  {
    forall k | 0 <= k < |archs| :: Shaped(archs[k])
  }

  function ArchEntries(k: nat, rows: seq<Row>): seq<Entry>
  {
    seq(|rows|, j requires 0 <= j < |rows| => Entry(k, rows[j]))
  }

  /** Every entity of the list in iteration order: archetype by archetype, each in chunk order. */
  function Entries(archs: seq<ArchetypeData>): seq<Entry>
  {
    if archs == [] then []
    else Entries(archs[..|archs| - 1]) + ArchEntries(|archs| - 1, Flatten(archs[|archs| - 1].store.chunks))
  }

  /**
   * The comp_indices of one archetype: GetComponentIndex for each queried
   * type, None where the archetype has no column of that type.
   */
  function ColumnIndices(info: ArchetypeInfo, query: seq<ComponentType>): (r: seq<Option<nat>>)
    ensures |r| == |query|
    ensures forall q | 0 <= q < |query| ::
              (r[q].Some? ==> r[q].value < |info.componentInfo| && info.componentInfo[r[q].value].componentType == query[q]) &&
              (r[q].None? <==> !HasColumn(info, query[q]))
  {
    seq(|query|, q requires 0 <= q < |query| => ComponentIndex(info, query[q]))
  }

  /** The value tuple read from one row through the resolved columns. */
  function Pick(indices: seq<Option<nat>>, row: Row): seq<Option<Value>>
    requires forall q | 0 <= q < |indices| :: indices[q].Some? ==> indices[q].value < |row|
  {
    seq(|indices|, q requires 0 <= q < |indices| =>
      match indices[q]
      case Some(col) => Some(row[col])
      case None => None)
  }

  /** v is the query's value tuple at the entity with global index i. */
  predicate Designates(archs: seq<ArchetypeData>, query: seq<ComponentType>, i: nat, v: seq<Option<Value>>)
  {
    var es := Entries(archs);
    i < |es| && es[i].arch < |archs| && |es[i].row| == |archs[es[i].arch].info.componentInfo| &&
    v == seq(|query|, q requires 0 <= q < |query| => ValueOfType(archs[es[i].arch].info, es[i].row, query[q]))
  }

  /** The ranges tile [from, to): each is non-empty and starts where the previous one ends. */
  predicate Tiles(ranges: seq<ChunkRange>, from: nat, to: nat)
  {
    (ranges == [] ==> from == to) &&
    (ranges != [] ==> ranges[0].begin == from && ranges[|ranges| - 1].end == to) &&
    (forall j | 0 <= j < |ranges| :: ranges[j].begin < ranges[j].end) &&
    (forall j | 0 < j < |ranges| :: ranges[j - 1].end == ranges[j].begin)
  }

  /** The ranges are in archetype order, and in chunk order within an archetype. */
  predicate Ordered(ranges: seq<ChunkRange>)
  {
    forall i, j | 0 <= i < j < |ranges| :: Precedes(ranges[i], ranges[j])
  }

  /** Range x names an earlier archetype than y, or an earlier chunk of the same one. */
  predicate Precedes(x: ChunkRange, y: ChunkRange)
  {
    x.arch < y.arch || (x.arch == y.arch && x.chunk < y.chunk)
  }

  /** Range r names chunk r.chunk of archetype r.arch, and covers the entries of that chunk. */
  predicate RangeOk(archs: seq<ArchetypeData>, query: seq<ComponentType>, r: ChunkRange, seen: seq<Entry>)
  {
    r.begin < r.end <= |seen| && r.arch < |archs| &&
    r.chunk < |archs[r.arch].store.chunks| && r.rows == archs[r.arch].store.chunks[r.chunk] &&
    r.end - r.begin == |r.rows| && r.indices == ColumnIndices(archs[r.arch].info, query) &&
    forall i | r.begin <= i < r.end :: seen[i] == Entry(r.arch, r.rows[i - r.begin])
  }

  predicate Describes(archs: seq<ArchetypeData>, query: seq<ComponentType>, ranges: seq<ChunkRange>, seen: seq<Entry>)
  {
    forall j | 0 <= j < |ranges| :: RangeOk(archs, query, ranges[j], seen)
  }

  /** j is the first range ending after global index i, or |ranges| when none does. */
  predicate IsFirst(ranges: seq<ChunkRange>, i: nat, j: nat)
  {
    j <= |ranges| && (forall j' | 0 <= j' < j :: ranges[j'].end <= i) && (j < |ranges| ==> i < ranges[j].end)
  }

  /** m_CI as UpdateCI leaves it for index i: the first range ending after i, or null. */
  predicate Tracks(ranges: seq<ChunkRange>, i: nat, ci: RangePointer)
  {
    match ci
    case Null => IsFirst(ranges, i, |ranges|)
    case At(k) => IsFirst(ranges, i, k)
  }

  /*
   * The constructor's ranges.
   */

  /** The first empty chunk at or after c, where the constructor's inner loop breaks; the chunk count when there is none. */
  function FirstEmpty(chunks: seq<seq<Row>>, c: nat): (r: nat)
    requires c <= |chunks|
    ensures c <= r <= |chunks| && (r < |chunks| ==> chunks[r] == [])
    ensures forall c' | c <= c' < r :: chunks[c'] != []
    decreases |chunks| - c
  {
    if c == |chunks| || chunks[c] == [] then c else FirstEmpty(chunks, c + 1)
  }

  /** The ChunkInfo of chunk c of archetype a (position k in the list), when the archetype's entities start at start. */
  function RangeOf(a: ArchetypeData, k: nat, query: seq<ComponentType>, start: nat, c: nat): ChunkRange
    requires c < |a.store.chunks|
  {
    var chunks := a.store.chunks;
    ChunkRange(start + |Flatten(chunks[..c])|, start + |Flatten(chunks[..c + 1])|, k, c, chunks[c], ColumnIndices(a.info, query))
  }

  /** The ChunkInfos of chunks 0 .. c - 1 of one archetype: the j-th names chunk j. */
  function ChunkRanges(a: ArchetypeData, k: nat, query: seq<ComponentType>, start: nat, c: nat): (r: seq<ChunkRange>)
    requires c <= |a.store.chunks|
    ensures |r| == c
  {
    if c == 0 then [] else ChunkRanges(a, k, query, start, c - 1) + [RangeOf(a, k, query, start, c - 1)]
  }

  /** The number of entities the constructor counts in one archetype: those before its first empty chunk. */
  function Scanned(a: ArchetypeData): nat
  {
    |Flatten(a.store.chunks[..FirstEmpty(a.store.chunks, 0)])|
  }

  /** count after the constructor's loop has gone through the first k archetypes. */
  function Reached(archs: seq<ArchetypeData>, k: nat): nat
    requires k <= |archs|
  {
    if k == 0 then 0 else Reached(archs, k - 1) + Scanned(archs[k - 1])
  }

  /** m_Chunks after the constructor's loop has gone through the first k archetypes. */
  function RangesUpTo(archs: seq<ArchetypeData>, query: seq<ComponentType>, k: nat): seq<ChunkRange>
    requires k <= |archs|
  {
    if k == 0 then []
    else
      var a := archs[k - 1];
      RangesUpTo(archs, query, k - 1) + ChunkRanges(a, k - 1, query, Reached(archs, k - 1), FirstEmpty(a.store.chunks, 0))
  }

  /** m_Chunks as the constructor builds it. */
  function Ranges(archs: seq<ArchetypeData>, query: seq<ComponentType>): seq<ChunkRange>
  {
    RangesUpTo(archs, query, |archs|)
  }

  /**
   * The constructor's loop: for each archetype, the column of every
   * queried type, then one ChunkInfo per chunk up to its first empty chunk.
   */
  method BuildRanges(archs: seq<ArchetypeData>, query: seq<ComponentType>) returns (ranges: seq<ChunkRange>)
    ensures ranges == Ranges(archs, query)
  {
    ranges := [];
    var count: nat := 0;
    var k: nat := 0;
    while k < |archs|
      invariant k <= |archs| && ranges == RangesUpTo(archs, query, k) && count == Reached(archs, k)
    {
      var more, next := ScanChunks(archs[k], k, query, count);
      ranges := ranges + more;
      count := next;
      k := k + 1;
    }
  }

  /** The constructor's inner loop over one archetype's chunks, breaking at the first empty one. */
  method ScanChunks(a: ArchetypeData, k: nat, query: seq<ComponentType>, start: nat) returns (more: seq<ChunkRange>, count: nat)
    ensures more == ChunkRanges(a, k, query, start, FirstEmpty(a.store.chunks, 0)) && count == start + Scanned(a)
  {
    var chunks := a.store.chunks;
    var indices := ColumnIndices(a.info, query);
    more := [];
    count := start;
    var c: nat := 0;
    while c < |chunks| && chunks[c] != []
      invariant c <= |chunks| && FirstEmpty(chunks, c) == FirstEmpty(chunks, 0)
      invariant more == ChunkRanges(a, k, query, start, c) && count == start + |Flatten(chunks[..c])|
    {
      ScanStep(a, k, query, start, c);
      var begin := count;
      count := count + |chunks[c]|;
      more := more + [ChunkRange(begin, count, k, c, chunks[c], indices)];
      c := c + 1;
    }
  }

  /** One more chunk: its ChunkInfo starts where the previous ones end and spans the chunk's rows. */
  lemma ScanStep(a: ArchetypeData, k: nat, query: seq<ComponentType>, start: nat, c: nat)
    requires c < |a.store.chunks|
    ensures |Flatten(a.store.chunks[..c + 1])| == |Flatten(a.store.chunks[..c])| + |a.store.chunks[c]|
    ensures ChunkRanges(a, k, query, start, c + 1) == ChunkRanges(a, k, query, start, c) +
      [ChunkRange(start + |Flatten(a.store.chunks[..c])|, start + |Flatten(a.store.chunks[..c])| + |a.store.chunks[c]|,
                  k, c, a.store.chunks[c], ColumnIndices(a.info, query))]
  {
    FlattenSnoc(a.store.chunks, c);
  }

  lemma ArchEntriesAppend(k: nat, a: seq<Row>, b: seq<Row>)
    ensures ArchEntries(k, a + b) == ArchEntries(k, a) + ArchEntries(k, b)
  {
  }

  lemma EntriesSnoc(archs: seq<ArchetypeData>, k: nat)
    requires k < |archs|
    ensures Entries(archs[..k + 1]) == Entries(archs[..k]) + ArchEntries(k, Flatten(archs[k].store.chunks))
  {
    assert archs[..k + 1][..k] == archs[..k];
  }

  lemma FlattenSnoc(chunks: seq<seq<Row>>, c: nat)
    requires c < |chunks|
    ensures Flatten(chunks[..c + 1]) == Flatten(chunks[..c]) + chunks[c]
  {
    assert chunks[..c + 1][..c] == chunks[..c];
  }

  /** In a packed archetype the first empty chunk ends the rows: the constructor counts every entity. */
  lemma ScannedAll(a: ArchetypeData)
    requires Shaped(a)
    ensures Flatten(a.store.chunks[..FirstEmpty(a.store.chunks, 0)]) == Flatten(a.store.chunks)
  {
    var s := a.store;
    var c := FirstEmpty(s.chunks, 0);
    if c < |s.chunks| {
      if a.info.entitiesPerChunk > 0 {
        assert c >= s.active;
      }
      FlattenSplit(s.chunks, c);
      FlattenEmpty(s.chunks[c + 1..]);
    } else {
      assert s.chunks[..c] == s.chunks;
    }
  }

  /** Under the Archetype chunk invariant the constructor's count is the number of entities. */
  lemma {:induction false} ReachedAll(archs: seq<ArchetypeData>, k: nat)
    requires AllShaped(archs) && k <= |archs|
    ensures Reached(archs, k) == |Entries(archs[..k])|
  {
    if k > 0 {
      ReachedAll(archs, k - 1);
      ScannedAll(archs[k - 1]);
      EntriesSnoc(archs, k - 1);
    }
  }

  lemma TilesConcat(r1: seq<ChunkRange>, r2: seq<ChunkRange>, x: nat, y: nat, z: nat)
    requires Tiles(r1, x, y) && Tiles(r2, y, z)
    ensures Tiles(r1 + r2, x, z)
  {
    var r := r1 + r2;
    if r1 != [] && r2 != [] {
      forall j | 0 < j < |r|
        ensures r[j - 1].end == r[j].begin
      {
        if j == |r1| {
          assert r[j - 1] == r1[|r1| - 1] && r[j] == r2[0];
        } else if j < |r1| {
          assert r[j - 1] == r1[j - 1] && r[j] == r1[j];
        } else {
          assert r[j - 1] == r2[j - 1 - |r1|] && r[j] == r2[j - |r1|];
        }
      }
    }
  }

  /** An archetype's ChunkInfos tile its scanned entities, chunk after chunk. */
  lemma {:induction false} ChunkRangesTile(a: ArchetypeData, k: nat, query: seq<ComponentType>, start: nat, c: nat)
    requires c <= FirstEmpty(a.store.chunks, 0)
    ensures Tiles(ChunkRanges(a, k, query, start, c), start, start + |Flatten(a.store.chunks[..c])|)
  {
    if c > 0 {
      ChunkRangesTile(a, k, query, start, c - 1);
      FlattenSnoc(a.store.chunks, c - 1);
      var r := RangeOf(a, k, query, start, c - 1);
      assert Tiles([r], r.begin, r.end);
      TilesConcat(ChunkRanges(a, k, query, start, c - 1), [r], start, r.begin, r.end);
    }
  }

  /** The constructor's ranges tile [0, count) whatever the archetypes hold. */
  lemma {:induction false} RangesTile(archs: seq<ArchetypeData>, query: seq<ComponentType>, k: nat)
    requires k <= |archs|
    ensures Tiles(RangesUpTo(archs, query, k), 0, Reached(archs, k))
  {
    if k > 0 {
      var a := archs[k - 1];
      RangesTile(archs, query, k - 1);
      ChunkRangesTile(a, k - 1, query, Reached(archs, k - 1), FirstEmpty(a.store.chunks, 0));
      TilesConcat(RangesUpTo(archs, query, k - 1), ChunkRanges(a, k - 1, query, Reached(archs, k - 1), FirstEmpty(a.store.chunks, 0)),
                  0, Reached(archs, k - 1), Reached(archs, k));
    }
  }

  /** Ranges describing the entries seen so far still describe them after more entries follow. */
  lemma DescribesGrow(archs: seq<ArchetypeData>, query: seq<ComponentType>, ranges: seq<ChunkRange>, seen: seq<Entry>, more: seq<Entry>)
    requires Describes(archs, query, ranges, seen)
    ensures Describes(archs, query, ranges, seen + more)
  {
    forall j | 0 <= j < |ranges|
      ensures RangeOk(archs, query, ranges[j], seen + more)
    {
      assert RangeOk(archs, query, ranges[j], seen);
    }
  }

  lemma DescribesConcat(archs: seq<ArchetypeData>, query: seq<ComponentType>, r1: seq<ChunkRange>, r2: seq<ChunkRange>, seen: seq<Entry>)
    requires Describes(archs, query, r1, seen) && Describes(archs, query, r2, seen)
    ensures Describes(archs, query, r1 + r2, seen)
  {
    forall j | 0 <= j < |r1 + r2|
      ensures RangeOk(archs, query, (r1 + r2)[j], seen)
    {
      if j < |r1| {
        assert (r1 + r2)[j] == r1[j];
      } else {
        assert (r1 + r2)[j] == r2[j - |r1|];
      }
    }
  }

  /** The ChunkInfo of chunk c - 1 covers that chunk's entries, which follow the chunks before it. */
  lemma LastRangeOk(archs: seq<ArchetypeData>, query: seq<ComponentType>, k: nat, before: seq<Entry>, c: nat)
    requires k < |archs| && 0 < c <= FirstEmpty(archs[k].store.chunks, 0)
    ensures var chunks := archs[k].store.chunks;
            RangeOk(archs, query, RangeOf(archs[k], k, query, |before|, c - 1), before + ArchEntries(k, Flatten(chunks[..c])))
  {
    var chunks := archs[k].store.chunks;
    FlattenSnoc(chunks, c - 1);
    ArchEntriesAppend(k, Flatten(chunks[..c - 1]), chunks[c - 1]);
    assert before + ArchEntries(k, Flatten(chunks[..c])) ==
           (before + ArchEntries(k, Flatten(chunks[..c - 1]))) + ArchEntries(k, chunks[c - 1]);
  }

  /** An archetype's ChunkInfos cover its entries, which follow those of the archetypes before it. */
  lemma {:induction false} ChunkRangesDescribe(archs: seq<ArchetypeData>, query: seq<ComponentType>, k: nat, before: seq<Entry>, c: nat)
    requires k < |archs| && c <= FirstEmpty(archs[k].store.chunks, 0)
    ensures var chunks := archs[k].store.chunks;
            Describes(archs, query, ChunkRanges(archs[k], k, query, |before|, c), before + ArchEntries(k, Flatten(chunks[..c])))
  {
    if c > 0 {
      var chunks := archs[k].store.chunks;
      ChunkRangesDescribe(archs, query, k, before, c - 1);
      FlattenSnoc(chunks, c - 1);
      ArchEntriesAppend(k, Flatten(chunks[..c - 1]), chunks[c - 1]);
      var prior := before + ArchEntries(k, Flatten(chunks[..c - 1]));
      var seen := before + ArchEntries(k, Flatten(chunks[..c]));
      assert seen == prior + ArchEntries(k, chunks[c - 1]);
      var r1 := ChunkRanges(archs[k], k, query, |before|, c - 1);
      DescribesGrow(archs, query, r1, prior, ArchEntries(k, chunks[c - 1]));
      LastRangeOk(archs, query, k, before, c);
      var last := RangeOf(archs[k], k, query, |before|, c - 1);
      assert Describes(archs, query, [last], seen);
      DescribesConcat(archs, query, r1, [last], seen);
    }
  }

  /** Under the Archetype chunk invariant, each ChunkInfo covers the entities of the chunk it names. */
  lemma {:induction false} RangesDescribe(archs: seq<ArchetypeData>, query: seq<ComponentType>, k: nat)
    requires AllShaped(archs) && k <= |archs|
    ensures Describes(archs, query, RangesUpTo(archs, query, k), Entries(archs[..k]))
  {
    if k > 0 {
      var a := archs[k - 1];
      var before := Entries(archs[..k - 1]);
      var c := FirstEmpty(a.store.chunks, 0);
      var more := ArchEntries(k - 1, Flatten(a.store.chunks));
      var seen := Entries(archs[..k]);
      EntriesSnoc(archs, k - 1);
      assert seen == before + more;
      var r1 := RangesUpTo(archs, query, k - 1);
      var r2 := ChunkRanges(a, k - 1, query, |before|, c);
      assert RangesUpTo(archs, query, k) == r1 + r2 by {
        ReachedAll(archs, k - 1);
      }
      assert Describes(archs, query, r1, seen) by {
        RangesDescribe(archs, query, k - 1);
        DescribesGrow(archs, query, r1, before, more);
      }
      assert Describes(archs, query, r2, seen) by {
        ScannedAll(a);
        ChunkRangesDescribe(archs, query, k - 1, before, c);
      }
      DescribesConcat(archs, query, r1, r2, seen);
    }
  }

  /** Ordered ranges that name only archetypes before k, followed by ordered ranges that all name k, are ordered. */
  lemma OrderedSnoc(r1: seq<ChunkRange>, r2: seq<ChunkRange>, k: nat)
    requires Ordered(r1) && forall j | 0 <= j < |r1| :: r1[j].arch < k
    requires Ordered(r2) && forall j | 0 <= j < |r2| :: r2[j].arch == k
    ensures Ordered(r1 + r2) && forall j | 0 <= j < |r1 + r2| :: (r1 + r2)[j].arch < k + 1
  {
    var r := r1 + r2;
    forall i, j | 0 <= i < j < |r|
      ensures Precedes(r[i], r[j])
    {
      if j < |r1| {
        assert r[i] == r1[i] && r[j] == r1[j];
      } else if i < |r1| {
        assert r[i] == r1[i] && r[j] == r2[j - |r1|];
      } else {
        assert r[i] == r2[i - |r1|] && r[j] == r2[j - |r1|];
      }
    }
    forall j | 0 <= j < |r|
      ensures r[j].arch < k + 1
    {
      if j < |r1| {
        assert r[j] == r1[j];
      } else {
        assert r[j] == r2[j - |r1|];
      }
    }
  }

  /** One archetype's ChunkInfos all name that archetype, chunk j at position j. */
  lemma {:induction false} ChunkRangesNamed(a: ArchetypeData, k: nat, query: seq<ComponentType>, start: nat, c: nat)
    requires c <= |a.store.chunks|
    ensures forall j | 0 <= j < c :: ChunkRanges(a, k, query, start, c)[j].arch == k && ChunkRanges(a, k, query, start, c)[j].chunk == j
  {
    if c > 0 {
      ChunkRangesNamed(a, k, query, start, c - 1);
      var prev := ChunkRanges(a, k, query, start, c - 1);
      var r := ChunkRanges(a, k, query, start, c);
      assert r == prev + [RangeOf(a, k, query, start, c - 1)];
      forall j | 0 <= j < c
        ensures r[j].arch == k && r[j].chunk == j
      {
        if j < c - 1 {
          assert r[j] == prev[j];
        }
      }
    }
  }

  /** The constructor's ranges are in archetype order, and in chunk order within an archetype. */
  lemma {:induction false} RangesOrdered(archs: seq<ArchetypeData>, query: seq<ComponentType>, k: nat)
    requires k <= |archs|
    ensures Ordered(RangesUpTo(archs, query, k))
    ensures forall j | 0 <= j < |RangesUpTo(archs, query, k)| :: RangesUpTo(archs, query, k)[j].arch < k
  {
    if k > 0 {
      RangesOrdered(archs, query, k - 1);
      var a := archs[k - 1];
      var r2 := ChunkRanges(a, k - 1, query, Reached(archs, k - 1), FirstEmpty(a.store.chunks, 0));
      ChunkRangesNamed(a, k - 1, query, Reached(archs, k - 1), FirstEmpty(a.store.chunks, 0));
      forall i, j | 0 <= i < j < |r2|
        ensures Precedes(r2[i], r2[j])
      {
      }
      OrderedSnoc(RangesUpTo(archs, query, k - 1), r2, k - 1);
    }
  }

  /**
   * Under the Archetype chunk invariant the constructor's ranges tile
   * [0, Count()), in archetype then chunk order, and each covers exactly
   * the entities of the chunk it names.
   */
  lemma RangesCover(archs: seq<ArchetypeData>, query: seq<ComponentType>)
    requires AllShaped(archs)
    ensures var ranges := Ranges(archs, query);
            Tiles(ranges, 0, |Entries(archs)|) && Describes(archs, query, ranges, Entries(archs)) && Ordered(ranges)
  {
    assert archs[..|archs|] == archs;
    RangesTile(archs, query, |archs|);
    ReachedAll(archs, |archs|);
    RangesDescribe(archs, query, |archs|);
    RangesOrdered(archs, query, |archs|);
  }

  /** FirstEndingAfter is the loop of operator[] and of UpdateCI: the first range with end > i. */
  method FirstEndingAfter(ranges: seq<ChunkRange>, i: nat) returns (j: nat)
    ensures IsFirst(ranges, i, j)
  {
    j := 0;
    while j < |ranges| && ranges[j].end <= i
      invariant j <= |ranges|
      invariant forall j' | 0 <= j' < j :: ranges[j'].end <= i
    {
      j := j + 1;
    }
  }

  /** Below the count, the first range ending after i contains i. */
  lemma Located(ranges: seq<ChunkRange>, count: nat, i: nat, j: nat)
    requires Tiles(ranges, 0, count) && IsFirst(ranges, i, j) && i < count
    ensures j < |ranges| && ranges[j].begin <= i < ranges[j].end
  {
    if j > 0 {
      assert ranges[j - 1].end <= i;
    }
  }

  /** Each range ends no later than every later range begins. */
  lemma {:induction false} EndsBefore(ranges: seq<ChunkRange>, from: nat, to: nat, j1: nat, j2: nat)
    requires Tiles(ranges, from, to) && j1 < j2 < |ranges|
    ensures ranges[j1].end <= ranges[j2].begin
    decreases j2 - j1
  {
    if j1 + 1 < j2 {
      EndsBefore(ranges, from, to, j1 + 1, j2);
    }
  }

  /** At or past the count no range ends after i. */
  lemma PastEnd(ranges: seq<ChunkRange>, count: nat, i: nat)
    requires Tiles(ranges, 0, count) && count <= i
    ensures IsFirst(ranges, i, |ranges|)
  {
    forall j | 0 <= j < |ranges| - 1
      ensures ranges[j].end <= i
    {
      EndsBefore(ranges, 0, count, j, |ranges| - 1);
    }
  }

  /** Below the count, a tracking m_CI points at the range that contains the index. */
  lemma Current(ranges: seq<ChunkRange>, count: nat, i: nat, ci: RangePointer)
    requires Tiles(ranges, 0, count) && Tracks(ranges, i, ci) && i < count
    ensures ci.At? && ci.k < |ranges| && ranges[ci.k].begin <= i < ranges[ci.k].end
  {
    var j := if ci.At? then ci.k else |ranges|;
    Located(ranges, count, i, j);
  }

  /** The first range ending after index i holds it, and reading there gives the value tuple at i. */
  lemma ReadAt(archs: seq<ArchetypeData>, query: seq<ComponentType>, ranges: seq<ChunkRange>, i: nat, j: nat)
    requires AllShaped(archs) && i < |Entries(archs)| && ranges == Ranges(archs, query)
    requires Tiles(ranges, 0, |Entries(archs)|) && IsFirst(ranges, i, j)
    ensures j < |ranges| && ranges[j].begin <= i < ranges[j].end
    ensures i - ranges[j].begin < |ranges[j].rows|
    ensures forall q | 0 <= q < |ranges[j].indices| ::
              ranges[j].indices[q].Some? ==> ranges[j].indices[q].value < |ranges[j].rows[i - ranges[j].begin]|
    ensures Designates(archs, query, i, Pick(ranges[j].indices, ranges[j].rows[i - ranges[j].begin]))
  {
    Located(ranges, |Entries(archs)|, i, j);
    RangesCover(archs, query);
    ReadDesignates(archs, query, ranges, j, i);
  }

  /** Reading slot i - begin of the range that contains i gives the value tuple at global index i. */
  lemma ReadDesignates(archs: seq<ArchetypeData>, query: seq<ComponentType>, ranges: seq<ChunkRange>, j: nat, i: nat)
    requires AllShaped(archs) && Describes(archs, query, ranges, Entries(archs))
    requires j < |ranges| && ranges[j].begin <= i < ranges[j].end
    ensures var r := ranges[j];
            i - r.begin < |r.rows| &&
            (forall q | 0 <= q < |r.indices| :: r.indices[q].Some? ==> r.indices[q].value < |r.rows[i - r.begin]|) &&
            Designates(archs, query, i, Pick(r.indices, r.rows[i - r.begin]))
  {
    var r := ranges[j];
    assert RangeOk(archs, query, r, Entries(archs));
    var a := archs[r.arch];
    assert Shaped(a);
    assert |r.rows[i - r.begin]| == |a.info.componentInfo|;
  }

  /** Two m_CI values that both track index i agree, or neither names a range. */
  lemma SameIndexSameRange(ranges: seq<ChunkRange>, i: nat, ci1: RangePointer, ci2: RangePointer)
    requires Tracks(ranges, i, ci1) && Tracks(ranges, i, ci2)
    ensures ci1 == ci2 || (!(ci1.At? && ci1.k < |ranges|) && !(ci2.At? && ci2.k < |ranges|))
  {
  }

  /*
   * Iterator::operator-- as written, and what it does from end().
   */

  /** operator-- reads m_CI->begin: it needs m_CI to name one of the ranges. */
  predicate StepBackReadable(ranges: seq<ChunkRange>, ci: RangePointer)
  {
    ci.At? && ci.k < |ranges|
  }

  /** operator-- as written: decrement the index, and step m_CI back when the index drops below its begin. */
  function StepBackAsWritten(ranges: seq<ChunkRange>, count: nat, i: nat, ci: RangePointer): (r: (nat, RangePointer))
    requires Tiles(ranges, 0, count) && Tracks(ranges, i, ci) && i > 0 && StepBackReadable(ranges, ci)
    ensures r.0 == i - 1 && Tracks(ranges, r.0, r.1)
  {
    var k := ci.k;
    StepBackTracks(ranges, count, i, k);
    if i - 1 < ranges[k].begin then (i - 1, At(k - 1)) else (i - 1, ci)
  }

  /** Stepping back from index i inside range k: i - 1 is in range k, or, when i was its begin, in range k - 1. */
  lemma StepBackTracks(ranges: seq<ChunkRange>, count: nat, i: nat, k: nat)
    requires Tiles(ranges, 0, count) && IsFirst(ranges, i, k) && k < |ranges| && 0 < i
    ensures if i - 1 < ranges[k].begin then 0 < k && IsFirst(ranges, i - 1, k - 1) else IsFirst(ranges, i - 1, k)
  {
    forall j | 0 <= j < k
      ensures ranges[j].end <= ranges[k].begin
    {
      EndsBefore(ranges, 0, count, j, k);
    }
    if 0 < k {
      forall j | 0 <= j < k - 1
        ensures ranges[j].end <= ranges[k - 1].begin
      {
        EndsBefore(ranges, 0, count, j, k - 1);
      }
    }
  }

  /**
   * end() is built by the constructor, whose UpdateCI finds no range and
   * leaves m_CI null, or reached by ++ from the last entity, which moves
   * m_CI one past the last ChunkInfo. Either way the m_CI->begin that
   * operator-- reads does not exist.
   */
  lemma EndCannotStepBack(ranges: seq<ChunkRange>, count: nat, ci: RangePointer)
    requires Tiles(ranges, 0, count) && Tracks(ranges, count, ci)
    ensures !StepBackReadable(ranges, ci)
  {
    if ci.At? && ci.k + 1 < |ranges| {
      EndsBefore(ranges, 0, count, ci.k, |ranges| - 1);
    }
  }

  /*
   * Split.
   */

  /** The pieces cut [0, count) into consecutive non-empty ranges; none when count is 0. */
  predicate Partitions(pieces: seq<Piece>, count: nat)
  {
    (pieces == [] <==> count == 0) &&
    (pieces != [] ==> pieces[0].begin == 0 && pieces[|pieces| - 1].end == count) &&
    (forall j | 0 <= j < |pieces| :: pieces[j].begin < pieces[j].end) &&
    (forall j | 0 < j < |pieces| :: pieces[j - 1].end == pieces[j].begin)
  }

  /** chunk_size = ceil(N / n): n pieces of that size reach N, and it is at least 1 when N is. */
  lemma CeilDiv(count: nat, n: nat)
    requires n >= 1
    ensures (count + n - 1) / n * n >= count
    ensures count >= 1 ==> (count + n - 1) / n >= 1
  {
    var q, r := (count + n - 1) / n, (count + n - 1) % n;
    assert count + n - 1 == q * n + r && r <= n - 1;
  }

  /** The pieces Split's loop builds: piece j is [j * size, min((j + 1) * size, count)). */
  predicate CutEvery(pieces: seq<Piece>, size: nat, count: nat)
  {
    forall j | 0 <= j < |pieces| ::
      pieces[j].begin == j * size && pieces[j].end == (if (j + 1) * size < count then (j + 1) * size else count)
  }

  /**
   * What Split(n) yields over [0, count): with chunk_size = ceil(count / n),
   * piece j is [j * chunk_size, min((j + 1) * chunk_size, count)); the pieces
   * cut [0, count) without gap or overlap, and there are at most n of them.
   */
  predicate SplitOf(pieces: seq<Piece>, count: nat, n: nat)
    requires n >= 1
  {
    var size := (count + n - 1) / n;
    Partitions(pieces, count) && |pieces| <= n && CutEvery(pieces, size, count) &&
    forall j | 0 <= j < |pieces| :: pieces[j].end - pieces[j].begin <= size
  }

  /** What Split's loop keeps: i is the start of the next piece, and the pieces so far cut [0, min(i, count)). */
  predicate SplitSoFar(pieces: seq<Piece>, i: nat, size: nat, count: nat, n: nat)
  {
    i == Times(|pieces|, size) && |pieces| <= n && count <= Times(n, size) && (count >= 1 ==> size >= 1) &&
    forall j | 0 <= j < |pieces| ::
      Times(j, size) < count && pieces[j].begin == Times(j, size) &&
      pieces[j].end == (if Times(j + 1, size) < count then Times(j + 1, size) else count)
  }

  /** a * b as repeated addition, which keeps the loop's reasoning linear. */
  function Times(a: nat, b: nat): nat
  {
    if a == 0 then 0 else Times(a - 1, b) + b
  }

  lemma {:induction false} TimesIsMul(a: nat, b: nat)
    ensures Times(a, b) == a * b
  {
    if a > 0 {
      TimesIsMul(a - 1, b);
      assert (a - 1) * b + b == a * b;
    }
  }

  /** Before the first piece: chunk_size pieces, n of them, reach Count(). */
  lemma SplitStart(count: nat, n: nat)
    requires n >= 1
    ensures SplitSoFar([], 0, (count + n - 1) / n, count, n)
  {
    CeilDiv(count, n);
    TimesIsMul(n, (count + n - 1) / n);
  }

  /** Once i reaches Count() the pieces cut [0, Count()) into at most n pieces of at most chunk_size. */
  lemma SplitDone(pieces: seq<Piece>, i: nat, size: nat, count: nat, n: nat)
    requires SplitSoFar(pieces, i, size, count, n) && i >= count
    ensures Partitions(pieces, count) && |pieces| <= n && CutEvery(pieces, size, count)
    ensures forall j | 0 <= j < |pieces| :: pieces[j].end - pieces[j].begin <= size
  {
    forall j | 0 <= j < |pieces|
      ensures pieces[j].begin == j * size && pieces[j].end == (if (j + 1) * size < count then (j + 1) * size else count)
    {
      TimesIsMul(j, size);
      TimesIsMul(j + 1, size);
    }
    if pieces == [] {
      assert i == 0;
    } else {
      assert pieces[0].begin == 0 < count;
      assert pieces[|pieces| - 1].end == count;
    }
    forall j | 0 <= j < |pieces|
      ensures pieces[j].begin < pieces[j].end && pieces[j].end - pieces[j].begin <= size
    {
      assert Times(j + 1, size) == Times(j, size) + size;
    }
    forall j | 0 < j < |pieces|
      ensures pieces[j - 1].end == pieces[j].begin
    {
      assert pieces[j - 1].begin == Times(j - 1, size) && Times(j, size) < count;
    }
  }

  lemma LessOfMulLess(a: nat, b: nat, s: nat)
    requires a * s < b * s
    ensures a < b
  {
    if b <= a {
      MulLess(b, a, s);
    }
  }

  /** One round of Split's loop keeps SplitSoFar; in particular it never makes more than n pieces. */
  lemma SplitStep(pieces: seq<Piece>, i: nat, size: nat, count: nat, n: nat)
    requires SplitSoFar(pieces, i, size, count, n) && i < count
    ensures var end := if size < count - i then i + size else count;
            SplitSoFar(pieces + [Piece(i, end)], i + size, size, count, n)
  {
    TimesIsMul(|pieces|, size);
    TimesIsMul(n, size);
    LessOfMulLess(|pieces|, n, size);
  }

  /** Split's loop over [0, count): pieces of the given size, the last one shorter, at most n of them. */
  method SplitRange(count: nat, n: nat, size: nat) returns (pieces: seq<Piece>)
    requires count <= Times(n, size) && (count >= 1 ==> size >= 1)
    ensures Partitions(pieces, count) && |pieces| <= n && CutEvery(pieces, size, count)
    ensures forall j | 0 <= j < |pieces| :: pieces[j].end - pieces[j].begin <= size
  {
    pieces := [];
    var i := 0;
    while i < count
      invariant SplitSoFar(pieces, i, size, count, n)
      decreases count - i
    {
      SplitStep(pieces, i, size, count, n);
      var end := if size < count - i then i + size else count;
      pieces := pieces + [Piece(i, end)];
      i := i + size;
    }
    SplitDone(pieces, i, size, count, n);
  }

  class EntityIterator {
    const archs: seq<ArchetypeData>
    const query: seq<ComponentType>
    const ranges: seq<ChunkRange>

    /** The ranges are the constructor's, over archetypes that keep the chunk invariant (so they tile [0, Count())). */
    predicate Valid()
    {
      AllShaped(archs) && ranges == Ranges(archs, query) && Tiles(ranges, 0, |Entries(archs)|)
    }

    constructor (archs: seq<ArchetypeData>, query: seq<ComponentType>)
      requires AllShaped(archs)
      ensures this.archs == archs && this.query == query && Valid()
    {
      this.archs := archs;
      this.query := query;
      var r := BuildRanges(archs, query);
      this.ranges := r;
      RangesCover(archs, query);
    }

    /** The number of archetype pointers; with none there is no entity. */
    function ArchetypeCount(): (r: nat)
      ensures r == 0 ==> |Entries(archs)| == 0
    {
      |archs|
    }

    /** Count(): the sum of the archetypes' entity counts, which is the number of entities iterated. */
    method Count() returns (n: nat)
      ensures n == |Entries(archs)|
    {
      n := 0;
      var k := 0;
      while k < |archs|
        invariant k <= |archs| && n == |Entries(archs[..k])|
      {
        EntriesSnoc(archs, k);
        n := n + ArchetypeEntityCount(archs[k]);
        k := k + 1;
      }
      assert archs[..k] == archs;
    }

    /** Empty(): no archetype holds an entity, that is, there is nothing to iterate. */
    method Empty() returns (r: bool)
      ensures r <==> forall k | 0 <= k < |archs| :: ArchetypeEntityCount(archs[k]) == 0
      ensures r <==> |Entries(archs)| == 0
    {
      var k := 0;
      while k < |archs|
        invariant k <= |archs|
        invariant forall k' | 0 <= k' < k :: ArchetypeEntityCount(archs[k']) == 0
      {
        if ArchetypeEntityCount(archs[k]) > 0 {
          NoEntities(archs);
          return false;
        }
        k := k + 1;
      }
      NoEntities(archs);
      return true;
    }

    /** operator[](i): the value tuple of the entity at global index i. */
    method Get(i: nat) returns (v: seq<Option<Value>>)
      requires Valid() && i < |Entries(archs)|
      ensures Designates(archs, query, i, v)
    {
      var j := FirstEndingAfter(ranges, i);
      ReadAt(archs, query, ranges, i, j);
      v := Pick(ranges[j].indices, ranges[j].rows[i - ranges[j].begin]);
    }

    /** begin(): the iterator at index 0. */
    method Begin() returns (it: Iterator)
      requires Valid()
      ensures fresh(it) && it.owner == this && it.index == 0 && it.Valid()
    {
      it := new Iterator(this, 0);
    }

    /** end(): the iterator at index Count(). */
    method End() returns (it: Iterator)
      requires Valid()
      ensures fresh(it) && it.owner == this && it.index == |Entries(archs)| && it.Valid()
    {
      var n := Count();
      it := new Iterator(this, n);
    }

    /**
     * Split(n): pieces of ceil(Count() / n) entities, the last one shorter,
     * at most n of them, cutting [0, Count()) without gap or overlap.
     */
    method Split(n: nat) returns (pieces: seq<Piece>)
      requires n >= 1
      ensures SplitOf(pieces, |Entries(archs)|, n)
    {
      var count := Count();
      var size := (count + n - 1) / n;
      SplitStart(count, n);
      pieces := SplitRange(count, n, size);
    }
  }

  /** No entity to iterate exactly when every archetype's count is 0. */
  lemma {:induction false} NoEntities(archs: seq<ArchetypeData>)
    ensures |Entries(archs)| == 0 <==> forall k | 0 <= k < |archs| :: ArchetypeEntityCount(archs[k]) == 0
    decreases |archs|
  {
    if archs != [] {
      var init := archs[..|archs| - 1];
      NoEntities(init);
      assert forall k | 0 <= k < |init| :: init[k] == archs[k];
    }
  }

  class Iterator {
    const owner: EntityIterator
    var index: nat
    var ci: RangePointer

    ghost predicate Valid()
      reads this
    {
      owner.Valid() && Tracks(owner.ranges, index, ci)
    }

    /** Iterator(index, chunks): the index, and m_CI found by UpdateCI. */
    constructor (owner: EntityIterator, index: nat)
      requires owner.Valid()
      ensures this.owner == owner && this.index == index && Valid()
    {
      this.owner := owner;
      this.index := index;
      this.ci := Null;
      new;
      UpdateCI();
    }

    /** UpdateCI: m_CI becomes the first range ending after the index, or null. */
    method UpdateCI()
      requires owner.Valid()
      modifies this
      ensures index == old(index) && Valid()
    {
      var j := FirstEndingAfter(owner.ranges, index);
      ci := if j < |owner.ranges| then At(j) else Null;
    }

    /** operator== and operator!= compare the global index only (see SameIndexSameRange). */
    predicate Equals(other: Iterator)
      reads this, other
    {
      index == other.index
    }

    predicate Less(other: Iterator)
      reads this, other
    {
      index < other.index
    }

    /** operator++: the next index; m_CI moves to the next range when the index reaches its end. */
    method Increment()
      requires Valid() && index < |Entries(owner.archs)|
      modifies this
      ensures index == old(index) + 1 && Valid()
    {
      Current(owner.ranges, |Entries(owner.archs)|, index, ci);
      var k := ci.k;
      index := index + 1;
      if index >= owner.ranges[k].end {
        ci := At(k + 1);
      }
    }

    /**
     * operator--, corrected: the previous index. Where m_CI names a range it
     * steps back as written; where it does not (end()), m_CI is looked up
     * again instead of being read.
     */
    method Decrement()
      requires Valid() && index > 0
      modifies this
      ensures index == old(index) - 1 && Valid()
      ensures old(StepBackReadable(owner.ranges, ci)) ==>
                (index, ci) == StepBackAsWritten(owner.ranges, |Entries(owner.archs)|, old(index), old(ci))
    {
      if StepBackReadable(owner.ranges, ci) {
        var k := ci.k;
        StepBackTracks(owner.ranges, |Entries(owner.archs)|, index, k);
        index := index - 1;
        if index < owner.ranges[k].begin {
          ci := At(k - 1);
        }
      } else {
        index := index - 1;
        UpdateCI();
      }
    }

    /** operator+=: the index moves by n and m_CI is looked up again. */
    method AddAssign(n: nat)
      requires Valid()
      modifies this
      ensures index == old(index) + n && Valid()
    {
      index := index + n;
      UpdateCI();
    }

    /** operator-=: the index moves back by n (the unsigned index must not wrap). */
    method SubAssign(n: nat)
      requires Valid() && n <= index
      modifies this
      ensures index == old(index) - n && Valid()
    {
      index := index - n;
      UpdateCI();
    }

    /** operator*: the value tuple at the index, the one operator[] returns there. */
    method Get() returns (v: seq<Option<Value>>)
      requires Valid() && index < |Entries(owner.archs)|
      ensures Designates(owner.archs, owner.query, index, v)
    {
      Current(owner.ranges, |Entries(owner.archs)|, index, ci);
      ReadAt(owner.archs, owner.query, owner.ranges, index, ci.k);
      v := Pick(owner.ranges[ci.k].indices, owner.ranges[ci.k].rows[index - owner.ranges[ci.k].begin]);
    }
  }
}

=== FILE: entity_walk.dfy ===
/**
 * The older EntityIterator<T...>: a forward walk over a list of
 * archetypes, archetype after archetype, each walked with its own
 * Archetype::Iterator cursors. All the per-type cursors of one Iterator
 * step through the same chunks and slots together, so one Cursor (the
 * first, std::get<0>, the one operator== and operator++ look at) stands
 * for all of them; the cursor is None where the source holds a
 * default-constructed Archetype::Iterator (the end sentinel).
 *
 * Each archetype is walked with the corrected Archetype::Iterator
 * (SkippingBegin / SkippingNext), which skips allocated chunks that hold no
 * entity; the cursor as written and its defect are modelled in
 * ArchetypeWalk.
 */
module EntityWalk {
  import opened Wrappers
  import opened Components
  import opened Chunks
  import opened Stores
  import opened ArchetypeWalk
  import opened EngineModel
  import opened EntityIterators

  /**
   * The archetypes the walk can go through: packed chunks, rows with one
   * value per column, and at least one entity in each (++ enters the next
   * archetype's begin() without checking that it holds anything).
   */
  predicate Walkable(archs: seq<ArchetypeData>)
  {
    AllShaped(archs) && forall k | 0 <= k < |archs| :: ArchetypeEntityCount(archs[k]) > 0
  }

  /** The global index of the first entity of archetype k. */
  function Offset(archs: seq<ArchetypeData>, k: nat): nat
    requires k <= |archs|
  {
    |Entries(archs[..k])|
  }

  /** An archetype holding an entity has room for one per chunk. */
  lemma PerChunkPositive(a: ArchetypeData)
    requires Shaped(a) && ArchetypeEntityCount(a) > 0
    ensures a.info.entitiesPerChunk >= 1
  {
    FlattenLength(a.store, a.info.entitiesPerChunk);
  }

  /** The entries of the first m archetypes are a prefix of those of the first n. */
  lemma {:induction false} EntriesPrefix(archs: seq<ArchetypeData>, m: nat, n: nat)
    requires m <= n <= |archs|
    ensures Entries(archs[..m]) <= Entries(archs[..n])
    decreases n - m
  {
    if m < n {
      EntriesPrefix(archs, m, n - 1);
      EntriesSnoc(archs, n - 1);
    }
  }

  /** Entity p of archetype k is entity Offset(k) + p of the whole walk. */
  lemma EntryAt(archs: seq<ArchetypeData>, k: nat, p: nat)
    requires k < |archs| && p < |Flatten(archs[k].store.chunks)|
    ensures Offset(archs, k) + p < Offset(archs, k + 1) <= |Entries(archs)|
    ensures Entries(archs)[Offset(archs, k) + p] == Entry(k, Flatten(archs[k].store.chunks)[p])
  {
    var pre := Entries(archs[..k]);
    var mine := ArchEntries(k, Flatten(archs[k].store.chunks));
    var upTo := Entries(archs[..k + 1]);
    EntriesSnoc(archs, k);
    assert upTo == pre + mine;
    assert upTo[|pre| + p] == mine[p];
    EntriesPrefix(archs, k + 1, |archs|);
    assert archs[..|archs|] == archs;
  }

  /** Two archetype cursors of a packed archetype are operator== exactly when they are at the same index. */
  lemma CursorsSame(s: Store, perChunk: nat, p: nat, q: nat)
    requires Packed(s, perChunk) && perChunk >= 1 && p <= |Flatten(s.chunks)| && q <= |Flatten(s.chunks)|
    ensures CursorOf(s, perChunk, p).Same(CursorOf(s, perChunk, q)) <==> p == q
  {
    var n := |Flatten(s.chunks)|;
    if p < n {
      IndexToSlot(s, perChunk, p);
    }
    if q < n {
      IndexToSlot(s, perChunk, q);
    }
  }

  /**
   * Where an iterator stands: inside archetype arch, with the cursor for
   * its entity pos and the archetype's end() as end cursor; or past the
   * last archetype (m_ArchetypeEnd), with the default cursor.
   */
  predicate Placed(archs: seq<ArchetypeData>, arch: nat, pos: nat, cursor: Option<Cursor>, cursorEnd: Option<Cursor>)
  {
    arch <= |archs| &&
    if arch == |archs| then cursor == None && pos == 0
    else
      var a := archs[arch];
      Shaped(a) && a.info.entitiesPerChunk >= 1 && pos < ArchetypeEntityCount(a) &&
      cursor == Some(CursorOf(a.store, a.info.entitiesPerChunk, pos)) && cursorEnd == Some(End(a.store))
  }

  /** The iterator at the first entity of archetype arch, or past the last archetype. */
  function Enter(archs: seq<ArchetypeData>, arch: nat): (Option<Cursor>, Option<Cursor>)
    requires arch < |archs|
  {
    (Some(SkippingBegin(archs[arch].store)), Some(End(archs[arch].store)))
  }

  /** operator== on (archetype position, first cursor). */
  predicate Meets(arch: nat, cursor: Option<Cursor>, otherArch: nat, otherCursor: Option<Cursor>)
  {
    arch == otherArch &&
    match (cursor, otherCursor)
    case (None, None) => true
    case (Some(x), Some(y)) => x.Same(y)
    case _ => false
  }

  /** Two placed iterators over the same archetypes are operator== exactly when they are at the same global index. */
  lemma MeetsIsIndex(archs: seq<ArchetypeData>, arch: nat, pos: nat, cursor: Option<Cursor>, cursorEnd: Option<Cursor>,
                     arch': nat, pos': nat, cursor': Option<Cursor>, cursorEnd': Option<Cursor>)
    requires Placed(archs, arch, pos, cursor, cursorEnd) && Placed(archs, arch', pos', cursor', cursorEnd')
    ensures Meets(arch, cursor, arch', cursor') <==> Offset(archs, arch) + pos == Offset(archs, arch') + pos'
  {
    if arch == arch' && arch < |archs| {
      var a := archs[arch];
      CursorsSame(a.store, a.info.entitiesPerChunk, pos, pos');
    } else if arch < arch' {
      OffsetsApart(archs, arch, pos, arch');
    } else if arch' < arch {
      OffsetsApart(archs, arch', pos', arch);
    }
  }

  /** Every index inside archetype j lies below the first index of a later archetype k. */
  lemma OffsetsApart(archs: seq<ArchetypeData>, j: nat, p: nat, k: nat)
    requires j < k <= |archs| && p < ArchetypeEntityCount(archs[j])
    ensures Offset(archs, j) + p < Offset(archs, k)
  {
    EntryAt(archs, j, p);
    EntriesPrefix(archs, j + 1, k);
  }

  /** The first entity of a walkable archetype is at global index Offset(arch). */
  lemma EnterPlaced(archs: seq<ArchetypeData>, arch: nat)
    requires Walkable(archs) && arch < |archs|
    ensures Placed(archs, arch, 0, Enter(archs, arch).0, Enter(archs, arch).1)
  {
    var a := archs[arch];
    PerChunkPositive(a);
    SkippingBeginIsFirst(a.store, a.info.entitiesPerChunk);
  }

  /**
   * One ++ of the cursor of entity pos: it meets the archetype's end()
   * exactly after the last entity, and otherwise is the cursor of entity
   * pos + 1.
   */
  lemma StepPlaced(archs: seq<ArchetypeData>, arch: nat, pos: nat, cursor: Option<Cursor>, cursorEnd: Option<Cursor>)
    requires Walkable(archs) && arch < |archs| && Placed(archs, arch, pos, cursor, cursorEnd)
    ensures var next := SkippingNext(archs[arch].store, cursor.value);
            (next.Same(cursorEnd.value) <==> pos + 1 == ArchetypeEntityCount(archs[arch])) &&
            (!next.Same(cursorEnd.value) ==> Placed(archs, arch, pos + 1, Some(next), cursorEnd))
  {
    var a := archs[arch];
    SkippingStep(a.store, a.info.entitiesPerChunk, pos);
    CursorsSame(a.store, a.info.entitiesPerChunk, pos + 1, ArchetypeEntityCount(a));
  }

  /** Appending the tuple of the next index keeps every tuple the tuple of its index. */
  lemma DesignatesSnoc(archs: seq<ArchetypeData>, query: seq<ComponentType>, visited: seq<seq<Option<Value>>>, v: seq<Option<Value>>)
    requires forall i | 0 <= i < |visited| :: Designates(archs, query, i, visited[i])
    requires Designates(archs, query, |visited|, v)
    ensures forall i | 0 <= i < |visited| + 1 :: Designates(archs, query, i, (visited + [v])[i])
  {
  }

  /** The entities of archetype arch are followed by those of archetype arch + 1. */
  lemma OffsetNext(archs: seq<ArchetypeData>, arch: nat)
    requires arch < |archs|
    ensures Offset(archs, arch + 1) == Offset(archs, arch) + ArchetypeEntityCount(archs[arch])
  {
    EntriesSnoc(archs, arch);
  }

  /** The queried values of the row the cursor of entity pos points at are those of global index Offset(arch) + pos. */
  lemma ReadPlaced(archs: seq<ArchetypeData>, query: seq<ComponentType>, arch: nat, pos: nat, cursor: Option<Cursor>, cursorEnd: Option<Cursor>)
    requires Walkable(archs) && arch < |archs| && Placed(archs, arch, pos, cursor, cursorEnd)
    ensures var a := archs[arch];
            var c := cursor.value;
            c.chunk < |a.store.chunks| && c.slot < |a.store.chunks[c.chunk]| &&
            |a.store.chunks[c.chunk][c.slot]| == |a.info.componentInfo| &&
            Designates(archs, query, Offset(archs, arch) + pos,
                       seq(|query|, q requires 0 <= q < |query| => ValueOfType(a.info, a.store.chunks[c.chunk][c.slot], query[q])))
  {
    var a := archs[arch];
    IndexToSlot(a.store, a.info.entitiesPerChunk, pos);
    EntryAt(archs, arch, pos);
    assert Shaped(a);
  }

  /** The old EntityIterator: the list of archetypes and the queried types. */
  class EntityIterator {
    const archs: seq<ArchetypeData>
    const query: seq<ComponentType>

    constructor (archs: seq<ArchetypeData>, query: seq<ComponentType>)
      ensures this.archs == archs && this.query == query
    {
      this.archs := archs;
      this.query := query;
    }

    /** ArchetypeCount(): the number of archetype pointers. */
    function ArchetypeCount(): (r: nat)
      ensures r == 0 ==> |Entries(archs)| == 0
    {
      |archs|
    }

    /** Count(): the sum of the archetypes' entity counts, the number of entities walked. */
    method Count() returns (n: nat)
      ensures n == |Entries(archs)|
    {
      n := 0;
      var k := 0;
      while k < |archs|
        invariant k <= |archs| && n == |Entries(archs[..k])|
      {
        EntriesSnoc(archs, k);
        n := n + ArchetypeEntityCount(archs[k]);
        k := k + 1;
      }
      assert archs[..k] == archs;
    }

    /** Empty(): no archetype holds an entity. */
    method Empty() returns (r: bool)
      ensures r <==> forall k | 0 <= k < |archs| :: ArchetypeEntityCount(archs[k]) == 0
      ensures r <==> |Entries(archs)| == 0
    {
      var k := 0;
      while k < |archs|
        invariant k <= |archs|
        invariant forall k' | 0 <= k' < k :: ArchetypeEntityCount(archs[k']) == 0
      {
        if ArchetypeEntityCount(archs[k]) > 0 {
          NoEntities(archs);
          return false;
        }
        k := k + 1;
      }
      NoEntities(archs);
      return true;
    }

    /** begin(): end() when Empty(), otherwise the first entity of the first archetype, with the debug limit Count(). */
    method Begin() returns (it: Iterator)
      requires Walkable(archs)
      ensures fresh(it) && it.owner == this && it.Valid()
      ensures it.Index() == 0
    {
      var empty := Empty();
      if empty {
        it := End();
      } else {
        var n := Count();
        it := new Iterator.Start(this, n);
      }
    }

    /** end(): past the last archetype, with the default cursor. */
    method End() returns (it: Iterator)
      requires Walkable(archs)
      ensures fresh(it) && it.owner == this && it.Valid()
      ensures it.Index() == |Entries(archs)| && it.arch == |archs| && it.cursor == None
    {
      it := new Iterator.Sentinel(this);
    }

    /**
     * A range-for over the iterator: from begin() to end(), reading each
     * entity. It visits every entity once, in global order, and stops after
     * Count() steps.
     */
    method Visit() returns (visited: seq<seq<Option<Value>>>)
      requires Walkable(archs)
      ensures |visited| == |Entries(archs)|
      ensures forall i | 0 <= i < |visited| :: Designates(archs, query, i, visited[i])
    {
      var it := Begin();
      var stop := End();
      visited := [];
      while !it.Equals(stop)
        invariant it != stop && it.Valid() && it.owner == this && stop.arch == |archs| && stop.cursor == None
        invariant it.Index() <= |Entries(archs)| && |visited| == it.Index()
        invariant forall i | 0 <= i < |visited| :: Designates(archs, query, i, visited[i])
        decreases |Entries(archs)| - it.Index()
      {
        var v := it.Get();
        DesignatesSnoc(archs, query, visited, v);
        visited := visited + [v];
        it.Increment();
      }
      assert archs[..|archs|] == archs;
    }
  }

  /** EntityIterator::Iterator. */
  class Iterator {
    const owner: EntityIterator
    /** m_ArchetypeIterator: the position of the current archetype; |owner.archs| is m_ArchetypeEnd. */
    var arch: nat
    /** std::get<0>(m_Iterators): the cursor in the current archetype, None when default-constructed. */
    var cursor: Option<Cursor>
    /** std::get<0>(m_IteratorsEnd): the current archetype's end(). */
    var cursorEnd: Option<Cursor>
    /** ECS_DEBUG's m_Count and m_MaxCount. */
    var count: nat
    var maxCount: nat
    /** The index of the cursor within the current archetype. */
    ghost var pos: nat

    /**
     * The iterator is placed over walkable archetypes; inside an archetype
     * the debug count is the number of steps taken from begin() and the
     * debug limit is Count().
     */
    ghost predicate Valid()
      reads this
    {
      Walkable(owner.archs) && Placed(owner.archs, arch, pos, cursor, cursorEnd) &&
      (arch < |owner.archs| ==> count == Index() && maxCount == |Entries(owner.archs)|)
    }

    /** The global index of the entity the iterator is at; Count() past the end. */
    ghost function Index(): nat
      reads this
      requires arch <= |owner.archs|
    {
      Offset(owner.archs, arch) + pos
    }

    /** Iterator(begin, end, maxCount): the first archetype's begin() and end(). */
    constructor Start(owner: EntityIterator, maxCount: nat)
      requires Walkable(owner.archs) && |owner.archs| > 0 && maxCount == |Entries(owner.archs)|
      ensures this.owner == owner && Valid() && Index() == 0
    {
      EnterPlaced(owner.archs, 0);
      this.owner := owner;
      arch := 0;
      cursor := Some(SkippingBegin(owner.archs[0].store));
      cursorEnd := Some(End(owner.archs[0].store));
      count := 0;
      this.maxCount := maxCount;
      pos := 0;
    }

    /** Iterator(end): at m_ArchetypeEnd with default cursors. */
    constructor Sentinel(owner: EntityIterator)
      requires Walkable(owner.archs)
      ensures this.owner == owner && Valid() && Index() == |Entries(owner.archs)|
      ensures arch == |owner.archs| && cursor == None
    {
      this.owner := owner;
      arch := |owner.archs|;
      cursor := None;
      cursorEnd := None;
      count := 0;
      maxCount := 0;
      pos := 0;
      new;
      assert owner.archs[..|owner.archs|] == owner.archs;
    }

    /** operator==: the same archetype position and the same first cursor. */
    predicate Equals(other: Iterator)
      reads this, other
    {
      Meets(arch, cursor, other.arch, other.cursor)
    }

    /** Two valid iterators over the same archetypes are operator== exactly when they are at the same global index. */
    lemma EqualsIsIndex(other: Iterator)
      requires Valid() && other.Valid() && other.owner.archs == owner.archs
      ensures Equals(other) <==> Index() == other.Index()
    {
      MeetsIsIndex(owner.archs, arch, pos, cursor, cursorEnd, other.arch, other.pos, other.cursor, other.cursorEnd);
    }

    /**
     * operator++: step the cursor; at the archetype's end() move to the
     * next archetype's begin(), or to the default cursor after the last
     * one; count the step for the debug limit.
     */
    method Increment()
      requires Valid() && arch < |owner.archs|
      modifies this
      ensures Valid() && Index() == old(Index()) + 1 <= |Entries(owner.archs)|
      ensures count == old(count) + 1 && count <= maxCount
    {
      StepPlaced(owner.archs, arch, pos, cursor, cursorEnd);
      EntryAt(owner.archs, arch, pos);
      cursor := Some(SkippingNext(owner.archs[arch].store, cursor.value));
      pos := pos + 1;
      if cursor.value.Same(cursorEnd.value) {
        NextArchetype();
      }
      count := count + 1;
    }

    /** The inner block of operator++: ++m_ArchetypeIterator, then the new archetype's cursors, or the default one past the last. */
    method NextArchetype()
      requires Walkable(owner.archs) && arch < |owner.archs| && pos == ArchetypeEntityCount(owner.archs[arch])
      requires count + 1 == Index() <= |Entries(owner.archs)| == maxCount
      modifies this
      ensures Walkable(owner.archs) && Placed(owner.archs, arch, pos, cursor, cursorEnd)
      ensures Index() == old(Index()) && count == old(count) && maxCount == old(maxCount)
    {
      OffsetNext(owner.archs, arch);
      arch := arch + 1;
      pos := 0;
      if arch == |owner.archs| {
        cursor := None;
      } else {
        EnterPlaced(owner.archs, arch);
        cursor := Some(SkippingBegin(owner.archs[arch].store));
        cursorEnd := Some(End(owner.archs[arch].store));
      }
    }

    /** operator*: the queried values of the entity the iterator is at. */
    method Get() returns (v: seq<Option<Value>>)
      requires Valid() && arch < |owner.archs|
      ensures Designates(owner.archs, owner.query, Index(), v)
    {
      ReadPlaced(owner.archs, owner.query, arch, pos, cursor, cursorEnd);
      var a := owner.archs[arch];
      var row := a.store.chunks[cursor.value.chunk][cursor.value.slot];
      v := seq(|owner.query|, q requires 0 <= q < |owner.query| => ValueOfType(a.info, row, owner.query[q]));
    }
  }
}

=== FILE: layout.dfy ===
/**
 * The byte layout of an archetype's chunks (ArchetypeInfo).
 *
 * A chunk of chunkSize bytes holds entitiesPerChunk entities column by
 * column: column 0 holds the Entity handles, then one column per component
 * type of the archetype in ascending id order. Column c starts at byte
 * componentInfo[c].start and stores slot i at start + i * size; unused
 * slots sit at the tail of each column.
 */
module Layout {
  import opened Wrappers
  import opened Core
  import opened Components

  datatype ColumnInfo = ColumnInfo(componentType: ComponentType, size: nat, start: nat)

  datatype ArchetypeInfo = ArchetypeInfo(
    chunkSize: nat,
    entitySize: nat,
    entitiesPerChunk: nat,
    componentInfo: seq<ColumnInfo>)

  /** Every type of the list has a registry entry. */
  predicate Registered(list: ComponentList, table: seq<ComponentInfo>)
  {
    forall i | 0 <= i < |list.types| :: list.types[i] < |table|
  }

  /** The column types: Entity first, then the list in ascending id order. */
  function ColumnTypes(list: ComponentList, entityType: ComponentType): seq<ComponentType>
  {
    [entityType] + list.types
  }

  /** The column sizes: sizeof(Entity), then each listed type's registered size. */
  function ColumnSizes(list: ComponentList, table: seq<ComponentInfo>): (r: seq<nat>)
    requires Registered(list, table)
    ensures |r| == |list.types| + 1 && r[0] == EntityByteSize
  {
    var rest: seq<nat> := seq(|list.types|, i requires 0 <= i < |list.types| => table[list.types[i]].size);
    [EntityByteSize] + rest
  }

  /** Where column k starts: after the full columns 0..k-1, each entitiesPerChunk slots long. */
  function ColumnStart(sizes: seq<nat>, k: nat, perChunk: nat): nat
    requires k <= |sizes|
  {
    Sum(sizes[..k]) * perChunk
  }

  lemma ColumnStartNext(sizes: seq<nat>, k: nat, perChunk: nat)
    requires k < |sizes|
    ensures ColumnStart(sizes, k + 1, perChunk) == ColumnStart(sizes, k, perChunk) + sizes[k] * perChunk
  {
    assert sizes[..k + 1] == sizes[..k] + [sizes[k]];
    SumSnoc(sizes[..k], sizes[k]);
    assert (Sum(sizes[..k]) + sizes[k]) * perChunk == Sum(sizes[..k]) * perChunk + sizes[k] * perChunk;
  }

  /**
   * The layout of an archetype over list: entitySize is the sum of the
   * column sizes, entitiesPerChunk the floor of chunkSize / entitySize, and
   * column c starts after the full columns before it.
   */
  function LayoutOf(list: ComponentList, table: seq<ComponentInfo>, entityType: ComponentType, chunkSize: nat): (r: ArchetypeInfo)
    requires Registered(list, table)
    ensures |r.componentInfo| == |list.types| + 1
    ensures r.chunkSize == chunkSize && r.entitySize >= EntityByteSize
  {
    var types := ColumnTypes(list, entityType);
    var sizes := ColumnSizes(list, table);
    var entitySize := Sum(sizes);
    var perChunk := chunkSize / entitySize;
    ArchetypeInfo(chunkSize, entitySize, perChunk,
      seq(|types|, c requires 0 <= c < |types| => ColumnInfo(types[c], sizes[c], ColumnStart(sizes, c, perChunk))))
  }

  /**
   * The ArchetypeInfo constructor: one loop lays out the columns and sums
   * their sizes, a second assigns the column starts as a running offset.
   */
  method NewArchetypeInfo(list: ComponentList, table: seq<ComponentInfo>, entityType: ComponentType, chunkSize: nat)
    returns (info: ArchetypeInfo)
    requires Registered(list, table)
    ensures info == LayoutOf(list, table, entityType, chunkSize)
  {
    ghost var sizes := ColumnSizes(list, table);
    ghost var types := ColumnTypes(list, entityType);
    var columns := [ColumnInfo(entityType, EntityByteSize, 0)];
    var entitySize := EntityByteSize;
    var i := 0;
    assert sizes[..1] == [EntityByteSize];
    while i < |list.types|
      invariant 0 <= i <= |list.types|
      invariant |columns| == i + 1
      invariant forall c | 0 <= c <= i :: columns[c] == ColumnInfo(types[c], sizes[c], 0)
      invariant entitySize == Sum(sizes[..i + 1])
    {
      var t := list.types[i];
      columns := columns + [ColumnInfo(t, table[t].size, 0)];
      assert sizes[..i + 2] == sizes[..i + 1] + [sizes[i + 1]];
      SumSnoc(sizes[..i + 1], sizes[i + 1]);
      entitySize := entitySize + table[t].size;
      i := i + 1;
    }
    assert sizes[..|sizes|] == sizes;
    var perChunk := chunkSize / entitySize;
    var offset := 0;
    var c := 0;
    while c < |columns|
      invariant 0 <= c <= |columns| == |types|
      invariant offset == ColumnStart(sizes, c, perChunk)
      invariant forall k | 0 <= k < c :: columns[k] == ColumnInfo(types[k], sizes[k], ColumnStart(sizes, k, perChunk))
      invariant forall k | c <= k < |columns| :: columns[k] == ColumnInfo(types[k], sizes[k], 0)
    {
      columns := columns[c := columns[c].(start := offset)];
      ColumnStartNext(sizes, c, perChunk);
      offset := offset + columns[c].size * perChunk;
      c := c + 1;
    }
    ghost var spec := LayoutOf(list, table, entityType, chunkSize);
    forall k | 0 <= k < |columns| ensures columns[k] == spec.componentInfo[k] {
      LayoutColumn(list, table, entityType, chunkSize, k);
    }
    info := ArchetypeInfo(chunkSize, entitySize, perChunk, columns);
  }

  /** The byte address of slot i of column c: start + i * size. */
  function ComponentAddress(info: ArchetypeInfo, column: nat, index: nat): nat
    requires column < |info.componentInfo|
  {
    info.componentInfo[column].start + index * info.componentInfo[column].size
  }

  lemma MulMonotone(a: nat, b: nat, k: nat)
    requires a <= b
    ensures a * k <= b * k
  {
  }

  /** entitiesPerChunk is the largest number of whole entities that fit in chunkSize bytes. */
  lemma LayoutCapacity(list: ComponentList, table: seq<ComponentInfo>, entityType: ComponentType, chunkSize: nat)
    requires Registered(list, table)
    ensures var info := LayoutOf(list, table, entityType, chunkSize);
            info.entitiesPerChunk * info.entitySize <= chunkSize < (info.entitiesPerChunk + 1) * info.entitySize
  {
    var info := LayoutOf(list, table, entityType, chunkSize);
    var n, e := info.entitiesPerChunk, info.entitySize;
    assert n == chunkSize / e;
    assert chunkSize == n * e + chunkSize % e;
  }

  /** Column c of a layout, unfolded. */
  lemma LayoutColumn(list: ComponentList, table: seq<ComponentInfo>, entityType: ComponentType, chunkSize: nat, c: nat)
    requires Registered(list, table) && c <= |list.types|
    ensures var info := LayoutOf(list, table, entityType, chunkSize);
            var sizes := ColumnSizes(list, table);
            info.entitySize == Sum(sizes) &&
            info.componentInfo[c] == ColumnInfo(ColumnTypes(list, entityType)[c], sizes[c], ColumnStart(sizes, c, info.entitiesPerChunk))
  {
  }

  /** Column c ends where the sizes of columns 0..c, times entitiesPerChunk, end. */
  lemma LayoutColumnEnd(list: ComponentList, table: seq<ComponentInfo>, entityType: ComponentType, chunkSize: nat, c: nat)
    requires Registered(list, table) && c <= |list.types|
    ensures var info := LayoutOf(list, table, entityType, chunkSize);
            var col := info.componentInfo[c];
            col.start + col.size * info.entitiesPerChunk == Sum(ColumnSizes(list, table)[..c + 1]) * info.entitiesPerChunk
  {
    var sizes := ColumnSizes(list, table);
    LayoutColumn(list, table, entityType, chunkSize, c);
    assert sizes[..c + 1] == sizes[..c] + [sizes[c]];
    SumSnoc(sizes[..c], sizes[c]);
  }

  /** A slot below entitiesPerChunk lies inside its column. */
  lemma LayoutSlotInColumn(list: ComponentList, table: seq<ComponentInfo>, entityType: ComponentType, chunkSize: nat, c: nat, i: nat)
    requires Registered(list, table) && c <= |list.types|
    requires i < LayoutOf(list, table, entityType, chunkSize).entitiesPerChunk
    ensures var info := LayoutOf(list, table, entityType, chunkSize);
            var col := info.componentInfo[c];
            col.start <= ComponentAddress(info, c, i) &&
            ComponentAddress(info, c, i) + col.size <= col.start + col.size * info.entitiesPerChunk
  {
    var info := LayoutOf(list, table, entityType, chunkSize);
    var col := info.componentInfo[c];
    MulMonotone(i + 1, info.entitiesPerChunk, col.size);
    assert (i + 1) * col.size == i * col.size + col.size;
  }

  /**
   * The columns of a layout follow one another without overlap, and the
   * last one ends within chunkSize.
   */
  lemma LayoutColumnsDisjoint(list: ComponentList, table: seq<ComponentInfo>, entityType: ComponentType, chunkSize: nat, c: nat, d: nat)
    requires Registered(list, table)
    requires c < d <= |list.types|
    ensures var info := LayoutOf(list, table, entityType, chunkSize);
            var cols := info.componentInfo;
            cols[c].start + cols[c].size * info.entitiesPerChunk <= cols[d].start &&
            cols[d].start + cols[d].size * info.entitiesPerChunk <= chunkSize
  {
    var info := LayoutOf(list, table, entityType, chunkSize);
    var sizes := ColumnSizes(list, table);
    var n := info.entitiesPerChunk;
    LayoutColumnEnd(list, table, entityType, chunkSize, c);
    LayoutColumnEnd(list, table, entityType, chunkSize, d);
    LayoutColumn(list, table, entityType, chunkSize, d);
    SumPrefixMonotone(sizes, c + 1, d);
    MulMonotone(Sum(sizes[..c + 1]), Sum(sizes[..d]), n);
    SumPrefixMonotone(sizes, d + 1, |sizes|);
    assert sizes[..|sizes|] == sizes;
    MulMonotone(Sum(sizes[..d + 1]), Sum(sizes), n);
    LayoutCapacity(list, table, entityType, chunkSize);
    assert Sum(sizes) * n == n * info.entitySize;
  }

  /** find_if over the columns from position k. */
  function FindColumn(columns: seq<ColumnInfo>, t: ComponentType, k: nat): (r: Option<nat>)
    requires k <= |columns|
    ensures r.Some? ==> k <= r.value < |columns| && columns[r.value].componentType == t &&
                        forall j | k <= j < r.value :: columns[j].componentType != t
    ensures r.None? ==> forall j | k <= j < |columns| :: columns[j].componentType != t
    decreases |columns| - k
  {
    if k == |columns| then None
    else if columns[k].componentType == t then Some(k)
    else FindColumn(columns, t, k + 1)
  }

  /** GetComponentIndex of the newest chunk interface: the first column of type t, or none. */
  function ComponentIndex(info: ArchetypeInfo, t: ComponentType): (r: Option<nat>)
    ensures r.Some? ==> r.value < |info.componentInfo| && info.componentInfo[r.value].componentType == t &&
                        forall j | 0 <= j < r.value :: info.componentInfo[j].componentType != t
    ensures r.None? <==> forall j | 0 <= j < |info.componentInfo| :: info.componentInfo[j].componentType != t
  {
    FindColumn(info.componentInfo, t, 0)
  }

  predicate HasColumn(info: ArchetypeInfo, t: ComponentType)
  {
    exists j | 0 <= j < |info.componentInfo| :: info.componentInfo[j].componentType == t
  }

  /** GetComponentIndex of the older interface: asserts that a column of type t exists. */
  function GetComponentIndex(info: ArchetypeInfo, t: ComponentType): (r: nat)
    requires HasColumn(info, t)
    ensures r < |info.componentInfo| && info.componentInfo[r].componentType == t
    ensures forall j | 0 <= j < r :: info.componentInfo[j].componentType != t
  {
    ComponentIndex(info, t).value
  }

  /** The column types of a layout, in column order. */
  function TypesOf(info: ArchetypeInfo): (r: seq<ComponentType>)
    ensures |r| == |info.componentInfo|
  {
    seq(|info.componentInfo|, j requires 0 <= j < |info.componentInfo| => info.componentInfo[j].componentType)
  }

  /** No two columns hold the same type. */
  predicate DistinctColumns(info: ArchetypeInfo)
  {
    forall i, j | 0 <= i < j < |info.componentInfo| :: info.componentInfo[i].componentType != info.componentInfo[j].componentType
  }

  /** With distinct column types, the lookup finds each column by its own type, and nothing else. */
  lemma ComponentIndexOfDistinct(info: ArchetypeInfo, t: ComponentType)
    requires DistinctColumns(info)
    ensures ComponentIndex(info, t).Some? <==> t in TypesOf(info)
    ensures forall j | 0 <= j < |info.componentInfo| && info.componentInfo[j].componentType == t :: ComponentIndex(info, t) == Some(j)
  {
    var r := ComponentIndex(info, t);
    if r.Some? {
      assert TypesOf(info)[r.value] == t;
    }
    if t in TypesOf(info) {
      var j :| 0 <= j < |info.componentInfo| && TypesOf(info)[j] == t;
      assert info.componentInfo[j].componentType == t;
    }
  }

  /**
   * A layout over a list without the Entity type has the column types
   * Entity, then the list in ascending order, all distinct.
   */
  lemma LayoutColumnTypes(list: ComponentList, table: seq<ComponentInfo>, entityType: ComponentType, chunkSize: nat)
    requires Registered(list, table) && !list.Has(entityType)
    ensures var info := LayoutOf(list, table, entityType, chunkSize);
            TypesOf(info) == ColumnTypes(list, entityType) && DistinctColumns(info)
  {
    var info := LayoutOf(list, table, entityType, chunkSize);
    var types := ColumnTypes(list, entityType);
    assert TypesOf(info) == types;
    forall i, j | 0 <= i < j < |types| ensures types[i] != types[j] {
      if i == 0 {
        assert types[j] == list.types[j - 1];
      } else {
        assert list.types[i - 1] < list.types[j - 1];
      }
    }
  }
}

=== FILE: store.dfy ===
/**
 * The value model of an archetype's chunk vector: the occupied rows of
 * every allocated chunk, chunk 0 first, and the position of the active
 * chunk. Archetype's methods are proved against the functions here.
 */
module Stores {
  import opened Chunks

  datatype Store = Store(chunks: seq<seq<Row>>, active: nat)

  /**
   * The active-chunk discipline: chunks before the active one are full,
   * chunks after it are empty, and the active chunk is empty only when it
   * is chunk 0.
   */
  predicate Packed(s: Store, perChunk: nat)
  {
    |s.chunks| >= 1 && s.active < |s.chunks| &&
    (forall k | 0 <= k < |s.chunks| :: |s.chunks[k]| <= perChunk) &&
    (forall k | 0 <= k < s.active :: |s.chunks[k]| == perChunk) &&
    (forall k | s.active < k < |s.chunks| :: s.chunks[k] == []) &&
    (s.active > 0 ==> s.chunks[s.active] != [])
  }

  /** All rows in archetype order: chunk by chunk, slot by slot. */
  function Flatten(chunks: seq<seq<Row>>): seq<Row>
  {
    if chunks == [] then [] else Flatten(chunks[..|chunks| - 1]) + chunks[|chunks| - 1]
  }

  /** The archetype index of slot i of chunk c. */
  function FlatIndex(chunks: seq<seq<Row>>, c: nat, i: nat): nat
    requires c <= |chunks|
  {
    |Flatten(chunks[..c])| + i
  }

  lemma {:induction false} FlattenSplit(chunks: seq<seq<Row>>, c: nat)
    requires c < |chunks|
    ensures Flatten(chunks) == Flatten(chunks[..c]) + chunks[c] + Flatten(chunks[c + 1..])
    decreases |chunks|
  {
    var n := |chunks|;
    if c == n - 1 {
      assert chunks[..n - 1] == chunks[..c];
      assert chunks[c + 1..] == [];
    } else {
      var init := chunks[..n - 1];
      FlattenSplit(init, c);
      assert init[..c] == chunks[..c];
      var tail := chunks[c + 1..];
      assert |tail| == n - c - 1;
      assert tail[..|tail| - 1] == chunks[c + 1..n - 1] == init[c + 1..];
      assert tail[|tail| - 1] == chunks[n - 1];
    }
  }

  lemma {:induction false} FlattenEmpty(chunks: seq<seq<Row>>)
    requires forall k | 0 <= k < |chunks| :: chunks[k] == []
    ensures Flatten(chunks) == []
    decreases |chunks|
  {
    if chunks != [] {
      FlattenEmpty(chunks[..|chunks| - 1]);
    }
  }

  lemma {:induction false} FlattenFull(chunks: seq<seq<Row>>, perChunk: nat)
    requires forall k | 0 <= k < |chunks| :: |chunks[k]| == perChunk
    ensures |Flatten(chunks)| == |chunks| * perChunk
    decreases |chunks|
  {
    if chunks != [] {
      FlattenFull(chunks[..|chunks| - 1], perChunk);
    }
  }

  /** Every chunk up to and including c (c not past the active one) starts at c * perChunk. */
  lemma PrefixLength(s: Store, perChunk: nat, c: nat)
    requires Packed(s, perChunk) && c <= s.active
    ensures |Flatten(s.chunks[..c])| == c * perChunk
  {
    FlattenFull(s.chunks[..c], perChunk);
  }

  /** The number of rows is active * perChunk plus the active chunk's count. */
  lemma FlattenLength(s: Store, perChunk: nat)
    requires Packed(s, perChunk)
    ensures |Flatten(s.chunks)| == s.active * perChunk + |s.chunks[s.active]|
  {
    FlattenSplit(s.chunks, s.active);
    PrefixLength(s, perChunk, s.active);
    FlattenEmpty(s.chunks[s.active + 1..]);
  }

  /** Slot i of chunk c sits at archetype index c * perChunk + i. */
  lemma Locate(s: Store, perChunk: nat, c: nat, i: nat)
    requires Packed(s, perChunk) && c < |s.chunks| && i < |s.chunks[c]|
    ensures c <= s.active && FlatIndex(s.chunks, c, i) == c * perChunk + i
    ensures c * perChunk + i < |Flatten(s.chunks)|
    ensures Flatten(s.chunks)[c * perChunk + i] == s.chunks[c][i]
  {
    FlattenSplit(s.chunks, c);
    PrefixLength(s, perChunk, c);
  }

  /**
   * Archetype index p lives in chunk p / perChunk at slot p % perChunk, and
   * that slot is occupied.
   */
  lemma IndexToSlot(s: Store, perChunk: nat, p: nat)
    requires Packed(s, perChunk) && perChunk >= 1 && p < |Flatten(s.chunks)|
    ensures p / perChunk <= s.active && p % perChunk < |s.chunks[p / perChunk]|
    ensures Flatten(s.chunks)[p] == s.chunks[p / perChunk][p % perChunk]
  {
    var c, i := p / perChunk, p % perChunk;
    assert p == c * perChunk + i && c <= s.active && i < |s.chunks[c]| by {
      FlattenLength(s, perChunk);
      DivSlot(p, perChunk, s.active, |s.chunks[s.active]|);
    }
    Locate(s, perChunk, c, i);
  }

  /** p = c * k + i with c = p / k and i = p % k, and p below a * k + n places c and i. */
  lemma DivSlot(p: nat, k: nat, a: nat, n: nat)
    requires k >= 1 && n <= k && p < a * k + n
    ensures p == (p / k) * k + p % k && p % k < k
    ensures p / k <= a && (p / k == a ==> p % k < n)
  {
    var c, i := p / k, p % k;
    assert p == c * k + i;
    if c > a {
      MulLess(a + 1, c, k);
    }
  }

  lemma MulLess(a: nat, b: nat, k: nat)
    requires a <= b
    ensures a * k <= b * k
  {
  }

  /**
   * The first half of CreateEntity: when the active chunk is full, move to
   * the next chunk, allocating one when none is left.
   */
  function Reserve(s: Store, perChunk: nat): (r: Store)
    requires s.active < |s.chunks|
    ensures r.active < |r.chunks|
  {
    if |s.chunks[s.active]| < perChunk then s
    else if s.active + 1 < |s.chunks| then Store(s.chunks, s.active + 1)
    else Store(s.chunks + [[]], s.active + 1)
  }

  /** The second half: the row goes to the end of the active chunk. */
  function Put(s: Store, row: Row): (r: Store)
    requires s.active < |s.chunks|
  {
    Store(s.chunks[s.active := s.chunks[s.active] + [row]], s.active)
  }

  function Append(s: Store, perChunk: nat, row: Row): Store
    requires s.active < |s.chunks|
  {
    Put(Reserve(s, perChunk), row)
  }

  /** A store whose active chunk has a free slot, ready for Put. */
  predicate Reserved(r: Store, perChunk: nat)
  {
    r.active < |r.chunks| && |r.chunks[r.active]| < perChunk &&
    (forall k | 0 <= k < |r.chunks| :: |r.chunks[k]| <= perChunk) &&
    (forall k | 0 <= k < r.active :: |r.chunks[k]| == perChunk) &&
    (forall k | r.active < k < |r.chunks| :: r.chunks[k] == [])
  }

  /** After Reserve the active chunk has room for one more row. */
  lemma ReserveRoom(s: Store, perChunk: nat)
    requires Packed(s, perChunk) && perChunk >= 1
    ensures |Reserve(s, perChunk).chunks[Reserve(s, perChunk).active]| < perChunk
  {
  }

  /** An occupied slot anywhere means the active chunk is occupied too. */
  lemma ActiveOccupied(s: Store, perChunk: nat, c: nat, i: nat)
    requires Packed(s, perChunk) && c < |s.chunks| && i < |s.chunks[c]|
    ensures s.chunks[s.active] != []
  {
  }

  /** Reserve leaves a free slot in the active chunk and does not change the rows. */
  lemma ReserveSpec(s: Store, perChunk: nat)
    requires Packed(s, perChunk) && perChunk >= 1
    ensures Reserved(Reserve(s, perChunk), perChunk)
    ensures Flatten(Reserve(s, perChunk).chunks) == Flatten(s.chunks)
  {
    var r := Reserve(s, perChunk);
    if r.chunks != s.chunks {
      assert r.chunks[..|r.chunks| - 1] == s.chunks;
    }
  }

  /** Put on a reserved store keeps the discipline and appends the row in archetype order. */
  lemma PutSpec(r: Store, perChunk: nat, row: Row)
    requires Reserved(r, perChunk)
    ensures Packed(Put(r, row), perChunk)
    ensures Flatten(Put(r, row).chunks) == Flatten(r.chunks) + [row]
    ensures FlatIndex(Put(r, row).chunks, r.active, |r.chunks[r.active]|) == |Flatten(r.chunks)|
  {
    var t := Put(r, row);
    var a := r.active;
    FlattenSplit(r.chunks, a);
    FlattenSplit(t.chunks, a);
    assert t.chunks[..a] == r.chunks[..a];
    assert t.chunks[a + 1..] == r.chunks[a + 1..];
    FlattenEmpty(r.chunks[a + 1..]);
  }

  /**
   * Appending keeps the active-chunk discipline, adds the row at the end
   * of archetype order, and places it at the slot (active, count) that
   * CreateEntity returns.
   */
  lemma AppendSpec(s: Store, perChunk: nat, row: Row)
    requires Packed(s, perChunk) && perChunk >= 1
    ensures var r := Reserve(s, perChunk);
            |r.chunks[r.active]| < perChunk &&
            Packed(Append(s, perChunk, row), perChunk) &&
            Flatten(Append(s, perChunk, row).chunks) == Flatten(s.chunks) + [row] &&
            Append(s, perChunk, row).chunks[r.active][|r.chunks[r.active]|] == row &&
            FlatIndex(Append(s, perChunk, row).chunks, r.active, |r.chunks[r.active]|) == |Flatten(s.chunks)|
  {
    ReserveSpec(s, perChunk);
    PutSpec(Reserve(s, perChunk), perChunk, row);
  }

  /** The Entity in the active chunk's last row, which a swap-remove moves. */
  function LastRow(s: Store): Row
    requires s.active < |s.chunks| && s.chunks[s.active] != []
  {
    s.chunks[s.active][|s.chunks[s.active]| - 1]
  }

  /**
   * DestroyEntity(c, i): slot (c, i) takes the active chunk's last row,
   * that last row is removed, and the active position retreats when its
   * chunk became empty and is not chunk 0.
   */
  function Destroy(s: Store, perChunk: nat, c: nat, i: nat): Store
    requires Packed(s, perChunk) && c < |s.chunks| && i < |s.chunks[c]|
  {
    var last := LastRow(s);
    var moved := s.chunks[c := s.chunks[c][i := last]];
    var shrunk := moved[s.active := moved[s.active][..|moved[s.active]| - 1]];
    Store(shrunk, if shrunk[s.active] == [] && s.active > 0 then s.active - 1 else s.active)
  }

  /** The rows of a Packed store, with slot i of chunk c overwritten by v. */
  lemma FlattenUpdate(chunks: seq<seq<Row>>, c: nat, i: nat, v: Row)
    requires c < |chunks| && i < |chunks[c]|
    ensures FlatIndex(chunks, c, i) < |Flatten(chunks)|
    ensures Flatten(chunks[c := chunks[c][i := v]]) == Flatten(chunks)[FlatIndex(chunks, c, i) := v]
  {
    var u := chunks[c := chunks[c][i := v]];
    var pre, post := Flatten(chunks[..c]), Flatten(chunks[c + 1..]);
    FlattenSplit(chunks, c);
    FlattenSplit(u, c);
    assert u[..c] == chunks[..c] && u[c + 1..] == chunks[c + 1..];
    assert u[c] == chunks[c][i := v];
    UpdateMiddle(pre, chunks[c], post, i, v);
  }

  /** The rows with the active chunk's last one dropped. */
  lemma FlattenDropLast(s: Store, perChunk: nat)
    requires Packed(s, perChunk) && s.chunks[s.active] != []
    ensures var a := s.active;
            var u := s.chunks[a := s.chunks[a][..|s.chunks[a]| - 1]];
            |Flatten(s.chunks)| >= 1 && Flatten(u) == Flatten(s.chunks)[..|Flatten(s.chunks)| - 1]
  {
    var a := s.active;
    var u := s.chunks[a := s.chunks[a][..|s.chunks[a]| - 1]];
    FlattenSplit(s.chunks, a);
    FlattenSplit(u, a);
    assert u[..a] == s.chunks[..a] && u[a + 1..] == s.chunks[a + 1..];
    FlattenEmpty(s.chunks[a + 1..]);
  }

  /**
   * A swap-remove: DestroyEntity keeps the active-chunk discipline, and in
   * archetype order it is "overwrite index p with the last row, then drop
   * the last row", where p is the archetype index of (c, i).
   */
  lemma DestroySpec(s: Store, perChunk: nat, c: nat, i: nat)
    requires Packed(s, perChunk) && c < |s.chunks| && i < |s.chunks[c]|
    ensures var n := |Flatten(s.chunks)|;
            var p := c * perChunk + i;
            p < n && s.chunks[s.active] != [] && LastRow(s) == Flatten(s.chunks)[n - 1] &&
            Packed(Destroy(s, perChunk, c, i), perChunk) &&
            Flatten(Destroy(s, perChunk, c, i).chunks) == Flatten(s.chunks)[p := Flatten(s.chunks)[n - 1]][..n - 1]
  {
    var n := |Flatten(s.chunks)|;
    var a := s.active;
    DestroyPacked(s, perChunk, c, i);
    assert LastRow(s) == Flatten(s.chunks)[n - 1] by {
      FlattenLength(s, perChunk);
      Locate(s, perChunk, a, |s.chunks[a]| - 1);
    }
    DestroyRows(s, perChunk, c, i);
    Locate(s, perChunk, c, i);
  }

  /** Destroy's rows in archetype order: the slot's index takes the last row, which is then dropped. */
  lemma DestroyRows(s: Store, perChunk: nat, c: nat, i: nat)
    requires Packed(s, perChunk) && c < |s.chunks| && i < |s.chunks[c]| && s.chunks[s.active] != []
    ensures var n := |Flatten(s.chunks)|;
            FlatIndex(s.chunks, c, i) < n &&
            Flatten(Destroy(s, perChunk, c, i).chunks) == Flatten(s.chunks)[FlatIndex(s.chunks, c, i) := LastRow(s)][..n - 1]
  {
    var a := s.active;
    var last := LastRow(s);
    var moved := s.chunks[c := s.chunks[c][i := last]];
    FlattenUpdate(s.chunks, c, i, last);
    var m := Store(moved, a);
    assert Packed(m, perChunk) && m.chunks[a] != [] by {
      assert |moved[c]| == |s.chunks[c]|;
    }
    FlattenDropLast(m, perChunk);
    assert Destroy(s, perChunk, c, i).chunks == moved[a := moved[a][..|moved[a]| - 1]];
  }

  /** Destroy keeps the active-chunk discipline. */
  lemma DestroyPacked(s: Store, perChunk: nat, c: nat, i: nat)
    requires Packed(s, perChunk) && c < |s.chunks| && i < |s.chunks[c]|
    ensures s.chunks[s.active] != [] && Packed(Destroy(s, perChunk, c, i), perChunk)
  {
    assert s.chunks[s.active] != [] by {
      if s.active == 0 && s.chunks[0] == [] {
        Locate(s, perChunk, c, i);
        FlattenLength(s, perChunk);
      }
    }
  }

  /** Destroy keeps the store packed and removes exactly one row. */
  lemma DestroyCount(s: Store, perChunk: nat, c: nat, i: nat)
    requires Packed(s, perChunk) && c < |s.chunks| && i < |s.chunks[c]|
    ensures s.chunks[s.active] != [] && |Flatten(s.chunks)| >= 1
    ensures Packed(Destroy(s, perChunk, c, i), perChunk)
    ensures |Flatten(Destroy(s, perChunk, c, i).chunks)| == |Flatten(s.chunks)| - 1
  {
    DestroyPacked(s, perChunk, c, i);
    DestroyRows(s, perChunk, c, i);
  }

  /** Slot i of chunk c holds a row. */
  predicate Occupied(s: Store, c: nat, i: nat)
  {
    c < |s.chunks| && i < |s.chunks[c]|
  }

  /**
   * Slot by slot, Append keeps every occupied slot and its row, and
   * occupies exactly one more: slot (active, count) of the reserved store,
   * which holds the new row.
   */
  lemma AppendSlots(s: Store, perChunk: nat, row: Row)
    requires Packed(s, perChunk) && perChunk >= 1
    ensures var r := Reserve(s, perChunk);
            var t := Append(s, perChunk, row);
            Occupied(t, r.active, |r.chunks[r.active]|) && !Occupied(s, r.active, |r.chunks[r.active]|) &&
            t.chunks[r.active][|r.chunks[r.active]|] == row
    ensures forall c: nat, i: nat | Occupied(s, c, i) ::
              Occupied(Append(s, perChunk, row), c, i) && Append(s, perChunk, row).chunks[c][i] == s.chunks[c][i]
    ensures forall c: nat, i: nat | Occupied(Append(s, perChunk, row), c, i) ::
              Occupied(s, c, i) || (c == Reserve(s, perChunk).active && i == |Reserve(s, perChunk).chunks[c]|)
  {
    var r := Reserve(s, perChunk);
    assert forall c | 0 <= c < |s.chunks| :: r.chunks[c] == s.chunks[c];
    assert |r.chunks| == |s.chunks| || (|r.chunks| == |s.chunks| + 1 && r.chunks[|s.chunks|] == []);
  }

  /**
   * Slot by slot, Destroy(c, i) frees exactly the active chunk's last slot;
   * slot (c, i) then holds the row that was last and every other slot
   * keeps its row.
   */
  lemma DestroySlots(s: Store, perChunk: nat, c: nat, i: nat)
    requires Packed(s, perChunk) && c < |s.chunks| && i < |s.chunks[c]|
    ensures s.chunks[s.active] != []
    ensures var a, m := s.active, |s.chunks[s.active]| - 1;
            var t := Destroy(s, perChunk, c, i);
            |t.chunks| == |s.chunks| && !Occupied(t, a, m) &&
            (Occupied(t, c, i) || (c == a && i == m))
    ensures forall d: nat, j: nat | Occupied(s, d, j) && !(d == s.active && j == |s.chunks[s.active]| - 1) ::
              Occupied(Destroy(s, perChunk, c, i), d, j)
    ensures forall d: nat, j: nat | Occupied(Destroy(s, perChunk, c, i), d, j) ::
              Occupied(s, d, j) && !(d == s.active && j == |s.chunks[s.active]| - 1) &&
              Destroy(s, perChunk, c, i).chunks[d][j] == if d == c && j == i then LastRow(s) else s.chunks[d][j]
  {
    ActiveOccupied(s, perChunk, c, i);
  }

  lemma UpdateMiddle<T>(pre: seq<T>, mid: seq<T>, post: seq<T>, i: nat, v: T)
    requires i < |mid|
    ensures (pre + mid + post)[|pre| + i := v] == pre + mid[i := v] + post
  {
    var xs, ys := (pre + mid + post)[|pre| + i := v], pre + mid[i := v] + post;
    assert forall k | 0 <= k < |ys| :: xs[k] == ys[k];
  }

  /** DestroyEntity keeps every row but the destroyed one: the store loses exactly one copy of it. */
  lemma DestroyMultiset(s: Store, perChunk: nat, c: nat, i: nat)
    requires Packed(s, perChunk) && c < |s.chunks| && i < |s.chunks[c]|
    ensures multiset(Flatten(Destroy(s, perChunk, c, i).chunks)) == multiset(Flatten(s.chunks)) - multiset{s.chunks[c][i]}
  {
    var xs, p := Flatten(s.chunks), c * perChunk + i;
    assert p < |xs| && xs[p] == s.chunks[c][i] by { Locate(s, perChunk, c, i); }
    assert Flatten(Destroy(s, perChunk, c, i).chunks) == xs[p := xs[|xs| - 1]][..|xs| - 1] by {
      DestroySpec(s, perChunk, c, i);
    }
    SwapRemoveMultiset(xs, p);
  }

  /** A swap-remove on a sequence loses exactly the removed element. */
  lemma SwapRemoveMultiset<T>(xs: seq<T>, p: nat)
    requires p < |xs|
    ensures multiset(xs[p := xs[|xs| - 1]][..|xs| - 1]) == multiset(xs) - multiset{xs[p]}
  {
    var n := |xs|;
    if p == n - 1 {
      assert xs[p := xs[n - 1]][..n - 1] == xs[..n - 1];
      assert xs == xs[..n - 1] + [xs[n - 1]];
    } else {
      var ys := xs[p := xs[n - 1]][..n - 1];
      assert xs == xs[..p] + [xs[p]] + xs[p + 1..n - 1] + [xs[n - 1]];
      assert ys == xs[..p] + [xs[n - 1]] + xs[p + 1..n - 1];
    }
  }
}

/**
 * Archetype::Iterator<T> over one column, as the chunk it is in, the slot
 * its column cursor points at and the slot where that chunk's column ends.
 * Past the last chunk both cursors are the null column iterator, written
 * here as slot 0.
 */
module ArchetypeWalk {
  import opened Chunks
  import opened Stores

  datatype Cursor = Cursor(chunk: nat, slot: nat, slotEnd: nat)
  {
    /** operator==: the same chunk and the same column position (the column end is not compared). */
    predicate Same(other: Cursor)
    {
      chunk == other.chunk && slot == other.slot
    }
  }

  /** The cursor at slot i of chunk c. */
  function At(s: Store, c: nat, i: nat): Cursor
    requires c < |s.chunks|
  {
    Cursor(c, i, |s.chunks[c]|)
  }

  /** end(): past the last allocated chunk. */
  function End(s: Store): Cursor
  {
    Cursor(|s.chunks|, 0, 0)
  }

  /** begin(), as written: chunk 0's column, whether or not chunk 0 holds an entity. */
  function Begin(s: Store): Cursor
  {
    if |s.chunks| > 0 then At(s, 0, 0) else End(s)
  }

  /**
   * operator++, as written: step the column cursor; when it reaches the
   * chunk's column end, move to the next chunk's column (or to end()),
   * without looking at whether that chunk holds any entity.
   */
  function Next(s: Store, it: Cursor): Cursor
  {
    if it.slot + 1 != it.slotEnd then Cursor(it.chunk, it.slot + 1, it.slotEnd)
    else if it.chunk + 1 < |s.chunks| then At(s, it.chunk + 1, 0)
    else End(s)
  }

  function Iterate(s: Store, it: Cursor, k: nat): Cursor
  {
    if k == 0 then it else Next(s, Iterate(s, it, k - 1))
  }

  /**
   * A fresh archetype (one empty chunk) is a counterexample: begin() is
   * not end(), it points at an unoccupied slot, and no number of ++ ever
   * reaches end().
   */
  lemma {:induction false} FreshArchetypeNeverEnds(k: nat)
    ensures var s := Store([[]], 0);
            Packed(s, 1) && !Begin(s).Same(End(s)) && Begin(s).slot >= |s.chunks[0]| &&
            Iterate(s, Begin(s), k) == Cursor(0, k, 0) && !Iterate(s, Begin(s), k).Same(End(s))
  {
    if k > 0 {
      FreshArchetypeNeverEnds(k - 1);
    }
  }

  /** The first chunk at or after c that holds an entity, or the chunk count when none does. */
  function NextOccupied(s: Store, c: nat): (r: nat)
    requires c <= |s.chunks|
    ensures c <= r <= |s.chunks| && (r < |s.chunks| ==> s.chunks[r] != [])
    ensures forall k | c <= k < r :: s.chunks[k] == []
    decreases |s.chunks| - c
  {
    if c == |s.chunks| || s.chunks[c] != [] then c else NextOccupied(s, c + 1)
  }

  /** The cursor at the first occupied slot at or after chunk c. */
  function EnterChunk(s: Store, c: nat): Cursor
    requires c <= |s.chunks|
  {
    var k := NextOccupied(s, c);
    if k < |s.chunks| then At(s, k, 0) else End(s)
  }

  /** begin(), corrected: the first occupied slot, or end() when there is none. */
  function SkippingBegin(s: Store): Cursor
  {
    EnterChunk(s, 0)
  }

  /** operator++, corrected: leaving a chunk, skip the chunks that hold no entity. */
  function SkippingNext(s: Store, it: Cursor): Cursor
  {
    if it.slot + 1 != it.slotEnd then Cursor(it.chunk, it.slot + 1, it.slotEnd)
    else if it.chunk + 1 <= |s.chunks| then EnterChunk(s, it.chunk + 1)
    else End(s)
  }

  function SkippingIterate(s: Store, it: Cursor, k: nat): Cursor
  {
    if k == 0 then it else SkippingNext(s, SkippingIterate(s, it, k - 1))
  }

  /** The cursor for archetype index p: chunk p / perChunk, slot p % perChunk; end() past the last row. */
  function CursorOf(s: Store, perChunk: nat, p: nat): Cursor
    requires Packed(s, perChunk) && perChunk >= 1
  {
    if p < |Flatten(s.chunks)| then
      IndexToSlot(s, perChunk, p);
      At(s, p / perChunk, p % perChunk)
    else End(s)
  }

  /** Division by a positive k has exactly one quotient and remainder. */
  lemma DivModUnique(p: nat, k: nat, c: nat, i: nat)
    requires k >= 1 && i < k && p == c * k + i
    ensures p / k == c && p % k == i
  {
    var q, r := p / k, p % k;
    assert p == q * k + r;
    if q < c {
      MulLess(q + 1, c, k);
    } else if c < q {
      MulLess(c + 1, q, k);
    }
  }

  /** One corrected ++ moves the cursor from archetype index p to p + 1. */
  lemma SkippingStep(s: Store, perChunk: nat, p: nat)
    requires Packed(s, perChunk) && perChunk >= 1 && p < |Flatten(s.chunks)|
    ensures SkippingNext(s, CursorOf(s, perChunk, p)) == CursorOf(s, perChunk, p + 1)
  {
    IndexToSlot(s, perChunk, p);
    FlattenLength(s, perChunk);
    var c, i := p / perChunk, p % perChunk;
    DivSlot(p, perChunk, s.active, |s.chunks[s.active]|);
    assert CursorOf(s, perChunk, p) == At(s, c, i);
    if i + 1 < |s.chunks[c]| {
      StepWithinChunk(s, perChunk, p, c, i);
    } else if c < s.active {
      assert i == perChunk - 1;
      MulSucc(c, perChunk);
      StepToNextChunk(s, perChunk, p, c);
    } else {
      assert i == |s.chunks[c]| - 1;
      StepToEnd(s, perChunk, p, c);
    }
  }

  lemma MulSucc(c: nat, k: nat)
    ensures (c + 1) * k == c * k + k
  {
  }

  lemma StepWithinChunk(s: Store, perChunk: nat, p: nat, c: nat, i: nat)
    requires Packed(s, perChunk) && perChunk >= 1 && c < |s.chunks|
    requires p == c * perChunk + i && i + 1 < |s.chunks[c]|
    ensures SkippingNext(s, At(s, c, i)) == CursorOf(s, perChunk, p + 1)
  {
    DivModUnique(p + 1, perChunk, c, i + 1);
    Locate(s, perChunk, c, i + 1);
  }

  lemma StepToNextChunk(s: Store, perChunk: nat, p: nat, c: nat)
    requires Packed(s, perChunk) && perChunk >= 1 && c < s.active
    requires p + 1 == (c + 1) * perChunk
    ensures SkippingNext(s, At(s, c, perChunk - 1)) == CursorOf(s, perChunk, p + 1)
  {
    DivModUnique(p + 1, perChunk, c + 1, 0);
    assert s.chunks[c + 1] != [];
    Locate(s, perChunk, c + 1, 0);
    assert NextOccupied(s, c + 1) == c + 1;
  }

  lemma StepToEnd(s: Store, perChunk: nat, p: nat, c: nat)
    requires Packed(s, perChunk) && perChunk >= 1 && c == s.active
    requires p + 1 == |Flatten(s.chunks)| && |s.chunks[c]| >= 1
    ensures SkippingNext(s, At(s, c, |s.chunks[c]| - 1)) == CursorOf(s, perChunk, p + 1)
  {
    NoneOccupied(s, c + 1);
  }

  lemma {:induction false} NoneOccupied(s: Store, c: nat)
    requires c <= |s.chunks| && forall k | c <= k < |s.chunks| :: s.chunks[k] == []
    ensures NextOccupied(s, c) == |s.chunks|
    decreases |s.chunks| - c
  {
    if c < |s.chunks| {
      NoneOccupied(s, c + 1);
    }
  }

  /** The corrected begin() is the cursor for archetype index 0. */
  lemma SkippingBeginIsFirst(s: Store, perChunk: nat)
    requires Packed(s, perChunk) && perChunk >= 1
    ensures SkippingBegin(s) == CursorOf(s, perChunk, 0)
  {
    FlattenLength(s, perChunk);
    if |Flatten(s.chunks)| > 0 {
      IndexToSlot(s, perChunk, 0);
      assert s.chunks[0] != [];
    } else {
      assert s.active == 0 && s.chunks[0] == [];
      NoneOccupied(s, 0);
    }
  }

  /**
   * The corrected walk visits archetype indices 0, 1, 2, ... in order: after
   * k steps from begin() it is at index k, so writes made in iteration
   * order land at indices 0, 1, 2, ..., and after EntityCount steps it is
   * at end().
   */
  lemma {:induction false} SkippingWalk(s: Store, perChunk: nat, k: nat)
    requires Packed(s, perChunk) && perChunk >= 1 && k <= |Flatten(s.chunks)|
    ensures SkippingIterate(s, SkippingBegin(s), k) == CursorOf(s, perChunk, k)
    ensures k == |Flatten(s.chunks)| ==> SkippingIterate(s, SkippingBegin(s), k) == End(s)
  {
    if k == 0 {
      SkippingBeginIsFirst(s, perChunk);
    } else {
      SkippingWalk(s, perChunk, k - 1);
      SkippingStep(s, perChunk, k - 1);
    }
  }

  /** When every allocated chunk holds an entity, the walk as written is the corrected walk. */
  lemma {:induction false} WalkAsWrittenWhenNoEmptyChunk(s: Store, perChunk: nat, k: nat)
    requires Packed(s, perChunk) && perChunk >= 1 && k <= |Flatten(s.chunks)|
    requires forall c | 0 <= c < |s.chunks| :: s.chunks[c] != []
    ensures Iterate(s, Begin(s), k) == CursorOf(s, perChunk, k)
    ensures k == |Flatten(s.chunks)| ==> Iterate(s, Begin(s), k).Same(End(s))
  {
    if k == 0 {
      SkippingBeginIsFirst(s, perChunk);
    } else {
      WalkAsWrittenWhenNoEmptyChunk(s, perChunk, k - 1);
      SkippingStep(s, perChunk, k - 1);
      NextSkipsNothing(s, CursorOf(s, perChunk, k - 1));
    }
  }

  /** With no empty chunk there is nothing to skip: both versions of operator++ agree. */
  lemma NextSkipsNothing(s: Store, it: Cursor)
    requires forall c | 0 <= c < |s.chunks| :: s.chunks[c] != []
    ensures Next(s, it) == SkippingNext(s, it)
  {
    if it.slot + 1 == it.slotEnd && it.chunk + 1 < |s.chunks| {
      assert NextOccupied(s, it.chunk + 1) == it.chunk + 1;
    }
  }
}

=== FILE: wrappers.dfy ===
/** Optional values: the store's "maybe absent" results (std::optional, OptionalRef). */
module Wrappers {
  datatype Option<T> = None | Some(value: T)
}
